=== FILE: README.md ===
# twothumbs digest pipeline, modelled in Dafny

twothumbs is a feedback product for Slack. Client applications post thumbs-up/down feedback, with an optional comment, through an HTTP API. A nightly job summarises it with an AI service, and Slack receives digests of it daily, weekly, monthly and quarterly. Users explore the feedback interactively in the App Home tab and in modals.

This project models the sequential core of that system as pure Dafny functions and proves properties of them:

- **Delivery and the AI call** (`slack.dfy`, `aiapi.dfy`).
  - Block lists are chunked by recursive bisection to at most 50 blocks and 13,200 bytes.
  - Chunks are sent in order, stopping at the first failure.
  - The first `output_text` of the first completed assistant message is selected.
- **Grouping and sampling** (`grouping.dfy`, `sampling.dfy`).
  - Rows are partitioned by cohort key.
  - A Fisher-Yates shuffle driven by a draw oracle is cut to the input limit.
- **The daily cache job** (`cache_job.dfy`). It re-summarises yesterday's cohorts and derives the per-origin issue reports.
- **The four digests** (`digests.dfy`, `digest_templates.dfy`). This covers which cohorts get an AI call, the `"-"` delta sentinel, the sort orders, and which failures abort a workspace or the run. It also covers the exact block layouts of the four digest messages and their shared footer.
- **Stats and filter queries** (`queries.dfy`). The SQL is modelled as specification functions over an in-memory feedback table:
  - only the latest record per user counts;
  - percentages are guarded against zero;
  - deltas are computed as in the source;
  - date windows are half-open.
- **Interactions** (`interactions.dfy`, `explore_interactions.dfy`, `modal_interactions.dfy`, `payload.dfy`):
  - extracting the interaction context;
  - action dispatch;
  - the filter cache of the Explore tab and its reset rules;
  - the stats, comments and raw-data views;
  - modal submissions and the delete confirmation.
- **Home and modal templates** (`home_templates.dfy`, `modal_templates.dfy`, `blocks.dfy`).
- **Small helpers**:
  - delta formatting, rounding, issue numbering, calendar labels and weekday rules (`misc.dfy`, `calendar.dfy`, `text.dfy`);
  - CSV record layout (`csv.dfy`);
  - activation codes and API keys (`keygen.dfy`);
  - the token-bucket rate limiter (`rate_limiter.dfy`);
  - validation of the feedback API (`feedback_api.dfy`);
  - the job-scheduling rule of the digest command (`digest_main.dfy`).

Randomness, the AI service, Slack, the chart renderer, the clock and JSON sizes enter as parameters:

- they are oracles, function-valued fields of the environment datatypes;
- in the digest jobs, database failures are an oracle too (`Digests.DigestEnv.dbError`).

Every listed member has an `ensures` clause that states the property. Where that property relates several calls, a lemma states it.

## Model

| member | source | states |
|---|---|---|
| Seqs.Take | internal/cronjobs/cache.go:132-135 | the result has at most n elements, and they are the input's first ones in order; the whole input when it is shorter |
| Seqs.CountIf | internal/queries/feedback.go:496-504 | the count never exceeds the length of the sequence |
| Seqs.CountIfExtremes | internal/queries/feedback.go:496-504 | a count is zero exactly when no element qualifies, and equals the length exactly when every element does |
| Seqs.SameElementsPermutation | internal/digests/weekly.go:125-186 | two duplicate-free sequences with the same elements are permutations of each other |
| Grouping.GroupBy | internal/cronjobs/cache.go:67-74 | the loop that appends each row to the slice of its key leaves each key's slice equal to the rows with that key, in input order |
| Grouping.Bucket | internal/cronjobs/cache.go:67-74 | the reference bucket of a key holds only rows with that key and is no longer than the input |
| Grouping.BucketMembers | internal/cronjobs/cache.go:67-74 | a row is in the bucket of k exactly when it is in the input and its key is k |
| Grouping.BucketOfOneKey | internal/cronjobs/cache.go:67-74 | when every row has key k, the bucket of k is the whole input |
| Grouping.AppendToBucket | internal/cronjobs/cache.go:70-72 | one loop step: appending x changes only the bucket of x's key, which gains x at its end |
| Grouping.RowInOwnBucketOnly | internal/cronjobs/cache.go:67-74 | every row appears in the bucket of its own key and in no other bucket |
| Grouping.GroupKeys | internal/cronjobs/cache.go:67-74 | the map's keys, without duplicates, each the key of some row |
| Grouping.BucketSizesCover | internal/cronjobs/cache.go:67-74 | buckets over a duplicate-free key list that covers every row add up to the number of rows |
| Grouping.GroupSizesAddUp | internal/cronjobs/cache.go:67-74 | grouping neither loses nor duplicates a row: the bucket sizes over all keys sum to the input length |
| Sampling.Shuffle | internal/cronjobs/cache.go:81-83 | rand.Shuffle's swaps leave a permutation of the group: same length, same multiset |
| Sampling.Sample | internal/cronjobs/cache.go:77-85 | the sample has min(len, limit) rows, and a group that fits the limit is used unchanged |
| Sampling.SampleFromGroup | internal/cronjobs/cache.go:77-85 | a sample holds only rows of its group, each no more often than the group does |
| Sampling.SampleNoDuplicates | internal/cronjobs/cache.go:77-85 | from a duplicate-free group, the sample takes no row twice |
| Sorting.Insert | internal/digests/weekly.go:177-186 | inserting into a sorted list keeps it sorted and adds exactly the one element |
| Sorting.SortBy | internal/digests/weekly.go:177-186 | sort.Slice by key: the result is sorted by the key and is a permutation of the input |
| Sorting.SortedPermutationUnique | internal/digests/weekly.go:177-186 | when keys identify elements, any two sorted permutations are equal, so the unstable sort's output is determined |
| Text.TrimSpace | internal/utils/misc.go:50-52 | strings.TrimSpace: the result is an infix of the input with only whitespace removed on either side, starts and ends with a non-space, and is empty exactly when the input is all whitespace |
| Text.TrimSpaceIdempotent | internal/utils/misc.go:50-52 | trimming an already trimmed string changes nothing |
| Text.Utf8Len | internal/api/feedback.go:143-152 | the byte length Go's len reports lies between the number of characters and four times it |
| Text.Utf8LenAscii | internal/api/feedback.go:143-152 | for ASCII text the byte length equals the character count |
| Text.NatToString | internal/utils/csv.go:28 | %d of a natural number: non-empty, all digits, no leading zero, and its digits read back as the number |
| Text.IntToString | internal/utils/csv.go:28 | %d of an integer: a minus sign exactly for negative values, followed by the digits of the magnitude |
| Text.FindFrom | internal/utils/misc.go:110 | the first occurrence of the separator at or after a position, or -1 when none follows |
| Text.Split | internal/utils/misc.go:110 | strings.Split yields at least one piece, and no piece holds the separator |
| Text.JoinSplit | internal/utils/misc.go:110-114 | joining the pieces of a split with the same separator gives the input back |
| Text.SplitJoin | internal/utils/misc.go:110-114 | splitting a join of pieces that cannot form a separator across a boundary gives the pieces back |
| Csv.SummariesToCSV | internal/utils/csv.go:17-45 | one header (five columns with dates, four without) and then exactly one record per summary, in order |
| Csv.ParseIntToString | internal/utils/csv.go:28 | the %d text of n_comments reads back as the same integer |
| Csv.SummariesCsvRoundTrip | internal/utils/csv.go:17-45 | each data record decodes back to its summary row, minus the origin the CSV drops and, without dates, minus the date |
| Csv.FeedbackToCSV | internal/utils/csv.go:48-70 | nothing for no feedback; otherwise the prompt header, the first row's prompt, an empty record, the comment header, then one record of comment and user id per row |
| Csv.FormatBool | internal/utils/csv.go:92 | %t gives "true" exactly for true and "false" otherwise |
| Csv.RawDataToCSV | internal/utils/csv.go:72-99 | a seven-column header and then one seven-column record per raw row, in order |
| Csv.RawRecordFields | internal/utils/csv.go:82-95 | each raw record gives its row back: the date from the timestamp's first ten characters, then origin, category, prompt, thumb, comment (nil read as empty) and user id |
| Misc.PtrOrNil | internal/utils/misc.go:36-41 | nil exactly for the empty string, otherwise a pointer to the input |
| Misc.PtrToString | internal/utils/misc.go:43-48 | nil gives the empty string, a pointer gives its target |
| Misc.PtrRoundTrip | internal/utils/misc.go:36-48 | the two conversions are inverse, except that a pointer to "" comes back as nil |
| Misc.RoundFloat | internal/utils/misc.go:105-107 | the result lies within one half of the value, and halves round away from zero |
| Misc.RoundFloatOdd | internal/utils/misc.go:105-107 | rounding is symmetric about zero |
| Misc.FormatDelta | internal/utils/misc.go:98-103 | "-" exactly for zero; otherwise a sign that matches the value's sign followed by the digits of the rounded magnitude |
| Misc.NumberParagraphs | internal/utils/misc.go:111-113 | one numbered item per paragraph, the i-th carrying number i+1 |
| Misc.FormatIssuesParagraphs | internal/utils/misc.go:109-115 | splitting FormatIssues' output on its three-newline separator gives back one numbered, trimmed item per input paragraph, in order |
| Misc.NumberedItemSafe | internal/utils/misc.go:112-114 | a numbered item never contains the three-newline separator, even followed by a blank line |
| Misc.TruncDiv | internal/utils/misc.go:77 | division truncating toward zero, as int() of a fractional duration: the floor for non-negative values |
| Misc.AgoParts | internal/utils/misc.go:75-96 | minutes below one hour, hours below one day, days otherwise, with the count the number of whole units elapsed |
| Misc.Plural | internal/utils/misc.go:79-95 | the count and unit, with the plural "s" exactly when the count is not 1 |
| Misc.TimeToAgo | internal/utils/misc.go:75-96 | the text is the count and unit of the elapsed time, singular exactly for a count of one |
| Misc.PreviousQuarter | internal/utils/misc.go:183-194 | a quarter between 1 and 4 that is exactly one quarter before the one containing the month |
| Misc.QuarterLabel | internal/utils/misc.go:181-196 | "Q" and the previous quarter, a space and its year |
| Misc.QuarterLabelJanuary | internal/utils/misc.go:188-190 | from January the label names Q4 of the year before |
| Misc.PrevMonth | internal/utils/misc.go:177 | a valid month exactly one month before the given one |
| Misc.MonthBack | internal/utils/misc.go:177 | AddDate(0, -1, 0) gives a valid date the same number of days past the previous month's first; on days 1-28 it is the same day of the previous month |
| Misc.MonthStart | internal/utils/misc.go:177 | the first of a month follows the previous month's first by that month's length |
| Misc.MonthLabel | internal/utils/misc.go:175-179 | on days 1 to 28 the label names the previous month and its year |
| Misc.IsFirstWeekdayOfMonth | internal/utils/misc.go:202-209 | true exactly when today is not a weekend day and every earlier day of the month is |
| Misc.IsSecondWeekdayOfQuarter | internal/utils/misc.go:211-230 | only in January, April, July or October, and then exactly on the first weekday after the month's first weekday |
| Calendar.DaysInMonth | internal/utils/misc.go:177 | a month has 28 to 31 days, and February has 29 exactly in a leap year |
| Calendar.NextDay | internal/utils/misc.go:206 | AddDate(0, 0, 1) gives a valid date whose day number is one more |
| Calendar.PrevDay | internal/interactions/explore.go:307-309 | the valid date whose day number is one less |
| Calendar.AddDays | internal/utils/misc.go:70 | AddDate(0, 0, k) gives a valid date whose day number is k more |
| Calendar.DayNumberInjective | internal/utils/misc.go:208 | two valid dates with the same day number are the same date, so comparing year and day of year compares dates |
| Calendar.Weekday | internal/utils/misc.go:198-200 | a weekday between 0 and 6 |
| Calendar.WeekdayNext | internal/utils/misc.go:205-207 | the next day of a month falls on the next weekday |
| Calendar.FirstWeekdayDay | internal/utils/misc.go:204-207 | the first day of the month that is not a weekend day: one of days 1 to 3, with every earlier day a weekend day |
| Calendar.SecondWeekdayDay | internal/utils/misc.go:225-228 | the next non-weekend day after the first weekday, no later than day 4, with only weekend days in between |
| Calendar.FirstWeekdayOfMonth | internal/utils/misc.go:204-207 | the loop that skips weekend days from the first stops at the month's first weekday |
| Calendar.SecondWeekdayOfMonth | internal/utils/misc.go:220-228 | the two loops stop at the month's second weekday |
| Calendar.FormatDate | internal/utils/csv.go:25 | the layout "2006-01-02" gives ten characters with dashes at positions 4 and 7 for years 0 to 9999 |
| Calendar.ParseDate | internal/utils/misc.go:64-67 | a successful parse gives a valid date with a four-digit year |
| Calendar.ParseDateOrZero | internal/utils/misc.go:64-67 | a failed parse gives Go's zero date, so the result is always a valid date |
| Calendar.FormatParseRoundTrip | internal/utils/misc.go:64-67 | parsing a formatted date with a year from 0 to 9999 gives the date back |
| Calendar.FormatRfc3339 | internal/utils/csv.go:88 | time.RFC3339 in UTC: twenty characters with the T at position 10 and the Z at the end |
| Calendar.FormatMinute | internal/templates/modals/test_data.go:76 | the minute timestamp layout: sixteen characters with a space at 10 and a colon at 13 |
| Slack.ChunkBlocks | internal/integrations/slack.go:90-118 | the chunks concatenate back to the input blocks; every chunk either fits both limits (50 blocks, 13200 payload bytes) or is a single oversized block; there are no chunks exactly when there are no blocks, and blocks that fit stay one chunk |
| Slack.AcceptableJoin | internal/integrations/slack.go:111-113 | the chunks of the two halves, one after the other, are still acceptable |
| Slack.SendParts | internal/integrations/slack.go:29-33 | parts are posted in order and the loop stops at the first failed post: what was posted is a prefix of the parts, the run passes exactly when every part was posted successfully, and a failure is the last posted part's error |
| Slack.SendBlockKitMessage | internal/integrations/slack.go:26-36 | the posted messages are a prefix of the chunks; success exactly when every chunk was posted successfully; a failure is wrapped as "failed to send message part i/n" with the failing part's number and the chunk count |
| Slack.SendPassedBeforeFailure | internal/integrations/slack.go:29-33 | every part posted before the last one was posted successfully |
| AiApi.FirstOutputText | internal/integrations/aiapi.go:69-73 | the text of the first output_text part of a message, and none exactly when the message has no such part |
| AiApi.SelectOutputText | internal/integrations/aiapi.go:65-76 | succeeds exactly when some output item is a completed assistant message with an output_text part; otherwise "no output_text segment found" |
| AiApi.GetAISummary | internal/integrations/aiapi.go:35-77 | a transport error becomes "call error: ..." and an unreadable body "read error: ..."; a status other than 200 becomes "AI API error <status>: <body>" without decoding; a body that does not decode becomes "unmarshal error: ..."; success exactly for a 200 reply that decodes and holds an answer |
| AiApi.ErrorStatusSkipsDecoding | internal/integrations/aiapi.go:45-47 | for a non-200 reply the result does not depend on the decoder |
| AiApi.FirstAnswerWins | internal/integrations/aiapi.go:65-74 | the first answering message decides the result, whatever follows it |
| RateLimiter.NewRateLimiter | internal/utils/rate_limiter.go:28-37 | no visitors, the window and cleanup interval converted from seconds to nanoseconds, and tokens within range for a non-negative rate |
| RateLimiter.GetVisitor | internal/utils/rate_limiter.go:39-48 | a known visitor is returned unchanged with the map untouched; an unknown key gets a new visitor with a full bucket, seen now, and only that entry is added |
| RateLimiter.Limit | internal/utils/rate_limiter.go:63-83 | the visitor is marked seen now and no other visitor changes; the bucket is refilled when more than a window has passed; the request passes exactly when tokens remain, and then one token is spent; tokens stay between 0 and the rate |
| RateLimiter.Cleanup | internal/utils/rate_limiter.go:50-61 | keeps exactly the visitors seen within the cleanup interval, unchanged, and nothing else changes |
| RateLimiter.Requests | internal/utils/rate_limiter.go:63-83 | over a series of requests no more pass than were made |
| RateLimiter.NoRefillWithinWindow | internal/utils/rate_limiter.go:72-77 | requests spaced no more than a window apart never pass more often than the tokens the visitor had |
| Keygen.HexUpper | internal/utils/keygen.go:23-24 | upper-case hex gives two characters per byte |
| Keygen.HexRoundTrip | internal/utils/keygen.go:23-24 | the upper-case hex of bytes decodes back to the bytes |
| Keygen.ActivationCode | internal/utils/keygen.go:22-24 | fourteen characters: "TWTH-", four hex digits, a dash, four hex digits |
| Keygen.ActivationCodeRoundTrip | internal/utils/keygen.go:17-26 | the code parses back to the four random bytes |
| Keygen.GenerateActivationCode | internal/utils/keygen.go:17-26 | a failed random read is returned as the error; otherwise the code parses back to the bytes read |
| Keygen.Base64Url | internal/utils/keygen.go:34 | unpadded URL-safe base64 has the length ceil(4n/3) |
| Keygen.Base64UrlAlphabet | internal/utils/keygen.go:34 | every character belongs to the URL-safe alphabet |
| Keygen.Base64UrlRoundTrip | internal/utils/keygen.go:34 | decoding the encoding gives the bytes back |
| Keygen.GenerateApiKey | internal/utils/keygen.go:29-36 | a failed random read is returned as the error; otherwise a 27-character key "twth_" plus an encoding that decodes to the 16 bytes read |
| Keygen.GenerateUniqueApiKey | internal/utils/keygen.go:39-55 | returns a generated key that the lookup reports as unused, found within five attempts; a generation or lookup error stops the loop with that error; when all five keys collide the error is "could not generate unique API key" |
| FeedbackApi.BindRequest | internal/api/feedback.go:88-93 | ShouldBindJSON: a body binds exactly when it is present and carries the fields the binding marks as required, and then it is used unchanged |
| FeedbackApi.Checks | internal/api/feedback.go:32-55 | the seven checks, in the order of the source, each with its own message |
| FeedbackApi.ValidateFeedbackRequest | internal/api/feedback.go:32-55 | passes exactly for a valid request; a failure carries the message of the first failing check, with every earlier check passing |
| FeedbackApi.ChecksMeanValid | internal/api/feedback.go:32-55 | a request is valid exactly when every check passes |
| FeedbackApi.FirstFailure | internal/api/feedback.go:32-55 | passes exactly when all checks pass, and otherwise reports the first failing check's message |
| FeedbackApi.BoundRequestHasBooleans | internal/api/feedback.go:36-44 | a bound body never fails on the ThumbUp or InProduction checks |
| FeedbackApi.MessagesDistinct | internal/api/feedback.go:32-55 | the seven messages are pairwise different, so a message names its check |
| FeedbackApi.EnforcePromptLimit | internal/api/feedback.go:143-152 | a query error denies; an existing prompt is allowed; a new one is allowed exactly when the count is below the limit |
| FeedbackApi.PromptLimitMonotone | internal/api/feedback.go:151 | raising the limit never turns an allowed prompt away |
| FeedbackApi.NewFeedback | internal/api/feedback.go:122-131 | the stored feedback carries the request's fields and the account's workspace, with the comment stored as nil exactly when it is empty |
| FeedbackApi.Authorize | internal/api/feedback.go:60-85 | a missing key and an unknown or workspace-less account give 401, a lookup error 500, an expired account 402; success returns the account |
| FeedbackApi.Admit | internal/api/feedback.go:100-137 | 429 exactly when the monthly count has reached the limit; then the prompt limit, the prompt insert and the feedback insert, each failure with its own response; 201 exactly when all pass |
| FeedbackApi.Submit | internal/api/feedback.go:87-140 | an unbindable body gives "Invalid request body", an invalid one 400 with the first validation message; only 201, 400, 429 and 500 can follow; 201 exactly when the submission is accepted |
| FeedbackApi.PostFeedback | internal/api/feedback.go:58-141 | 201 exactly for an authorised key and an accepted submission; the status is one of 201, 400, 401, 402, 429, 500; a missing key gives 401; the statuses 201, 400 and 429 happen only after authorisation |
| DigestMain.DigestJobs | cmd/digest/main.go:41-82 | the daily digest first; the weekly one exactly on Mondays, the monthly one exactly on the first weekday of the month, the quarterly one exactly on the second weekday of a quarter |
| DigestMain.Run | cmd/digest/main.go:29-95 | the cache job, then the daily digest, then the digests of the day; the cleanup job runs, last, exactly on the first weekday of the month when no digest failed |
| DigestMain.DigestsOnTheirDays | cmd/digest/main.go:41-82 | each digest runs exactly on its own days, whatever failed |
| DigestMain.RunOnce | cmd/digest/main.go:29-95 | no job runs twice in one invocation |
| DigestMain.CacheFailureIgnored | cmd/digest/main.go:31-35 | a failing cache job changes nothing that follows |
| DigestMain.DailyFailureSkipsCleanup | cmd/digest/main.go:43-46 | when the daily digest fails, the cleanup job does not run |
| DigestMain.MonthlyAndQuarterlyApart | internal/utils/misc.go:202-230 | the first weekday of a month is never the second weekday of a quarter |
| DigestMain.CleanupNotOnQuarterlyDay | cmd/digest/main.go:73-94 | the cleanup job never runs on a day the quarterly digest is sent |
| Queries.NormalizeComment | internal/queries/feedback.go:131-138 | a missing or whitespace-only comment becomes nil; any other comment is stored trimmed and is then non-empty |
| Queries.NormalizeFeedback | internal/queries/feedback.go:129-151 | origin, category, prompt and user id are trimmed, the comment normalised, and every other field of the record kept |
| Queries.NormalizeCommentIdempotent | internal/queries/feedback.go:131-138 | normalising a comment twice changes nothing more |
| Queries.NormalizeIdempotent | internal/queries/feedback.go:129-154 | a normalised row is left unchanged by a second normalisation |
| Queries.InsertFeedback | internal/queries/feedback.go:129-166 | the table gains exactly one row at its end: the normalised input with the id and created_at the database assigns in place of the record's own; only the submitting workspace's feedback_count rises, by one |
| Queries.InsertKeepsNormalized | internal/queries/feedback.go:129-166 | a table of normalised rows stays normalised after an insert |
| Queries.EmptyFiltersMatchAll | internal/queries/feedback.go:183-189 | empty origin, category, prompt and thumb filters select every row |
| Queries.Select | internal/queries/feedback.go:437-456 | a WHERE clause: exactly the rows of the table that satisfy the predicate |
| Queries.UserPos | internal/queries/feedback.go:443-456 | the position of the user's record in a one-per-user list, or -1 exactly when the user has none |
| Queries.LatestPerUser | internal/queries/feedback.go:443-456 | DISTINCT ON (user_id) ordered by created_at DESC: rows of the input, one per user, covering every user with a record at least as recent as any of theirs |
| Queries.OlderRecordIgnored | internal/queries/feedback.go:443-456 | adding a record no newer than one the user already has leaves the per-user selection unchanged |
| Queries.TallyOf | internal/queries/feedback.go:495-504 | the counts are taken over the latest record per user: as many responses as users, with no more thumbs-up or comments than responses, and zero exactly for no rows |
| Queries.OlderRecordNotCounted | internal/queries/feedback.go:496-504 | an older record of a user who already has a newer one changes none of the counts, comments included |
| Queries.Percent | internal/queries/feedback.go:479-484 | 100 times part over whole when whole is positive, else 0; between 0 and 100 for a part of the whole |
| Queries.Change | internal/queries/feedback.go:487-493 | the percentage change from previous to current, 0 when previous is 0; at least -100, zero exactly for equal counts and positive exactly for a rise |
| Queries.ComputeStats | internal/queries/feedback.go:478-506 | responses are the users counted in each period; the thumbs-up percentages of both periods come from their thumbs-up counts; the comment count and its change are over the latest record per user; both deltas are 0 when the previous count is 0 |
| Queries.PeriodRows | internal/queries/feedback.go:443-456 | exactly the production rows of the workspace with the cohort's origin, category and (when given) prompt, inside the window and passing the thumb filter |
| Queries.WeeklyWindowsAdjacent | internal/queries/feedback.go:454-474 | the weekly current period is the seven days before today and the previous one the seven before those, never overlapping |
| Queries.MonthlyWindowsAdjacent | internal/queries/feedback.go:543-562 | the monthly current period is last calendar month and the previous one the month before it |
| Queries.TrailingWindowsOverlap | internal/queries/feedback.go:800-819 | for the trailing 7- and 30-day stats a record from exactly that many days ago falls in both the current and the previous period |
| Queries.UpFilterScoresHundred | internal/queries/feedback.go:985-989 | with the thumb filter "Up", any period with responses scores 100 percent |
| Queries.IntervalOf | internal/models/models.go:73-82 | the SQL interval text exists exactly for the six named ranges |
| Queries.GroupKey | internal/queries/feedback.go:272-314 | quarterly groups keep only the origin, monthly groups the origin and category, the other ranges all three fields |
| Queries.GroupsIn | internal/queries/feedback.go:316-341 | SELECT DISTINCT: each group once, exactly the keys of live rows inside the window |
| Queries.GetFeedbackGroups | internal/queries/feedback.go:269-342 | succeeds exactly for a named range, and then returns the distinct keys of the workspace's production rows inside the window of the branch the range selects |
| Queries.WeeklyGroupsIncludeToday | internal/queries/feedback.go:290-297 | as written, a record created today yields a weekly group although the weekly stats of that group count no responses |
| Queries.WeeklyFeedbackGroups | internal/queries/feedback.go:306-314 | the intended weekly branch: the distinct keys of rows from the seven days before today |
| Queries.WeeklyGroupsHaveStats | internal/queries/feedback.go:306-314 | every group of the intended weekly branch has responses in the weekly stats |
| Queries.FilteredGroups | internal/queries/feedback.go:345-384 | the distinct (origin, category, prompt) of live rows in [from, to) that pass all four filters |
| Queries.SelectSummaries | internal/queries/feedback.go:407-413 | exactly the workspace's stored summaries dated inside the window |
| Queries.GetSummariesByWorkspace | internal/queries/feedback.go:387-433 | succeeds exactly for a named range and returns the workspace's summaries whose date lies in that range's window |
| Queries.DailySummariesAreYesterdays | internal/queries/feedback.go:406-413 | the daily range returns exactly yesterday's summaries |
| Queries.MonthlySummariesAreLastMonths | internal/queries/feedback.go:390-405 | the monthly range returns the summaries of last calendar month, the quarterly range those of the three months before this one |
| Queries.Column | internal/queries/feedback.go:177-218 | the distinct values of one column over the given rows |
| Queries.LiveIn | internal/queries/feedback.go:178-182 | the workspace's production rows inside the window |
| Queries.Choices | internal/queries/feedback.go:177-218 | the distinct column values of the rows that pass the other filters |
| Queries.GetHomeTabData | internal/queries/feedback.go:169-266 | the comment count never exceeds the feedback count, which never exceeds the table |
| Queries.HomeCounts | internal/queries/feedback.go:219-255 | the feedback count is exactly the number of live rows of the workspace in [from, to) that pass all four filters, and the comment count the number of those that also have a comment |
| Queries.HomeOrigins | internal/queries/feedback.go:177-190 | the offered origins are those of matching rows, the origin filter itself left out |
| Queries.HomeCategories | internal/queries/feedback.go:191-204 | the offered categories are those of matching rows, the category filter itself left out |
| Queries.HomePrompts | internal/queries/feedback.go:205-218 | the offered prompts are those of matching rows, the prompt filter itself left out |
| Queries.MatchedSelectionOffered | internal/queries/feedback.go:177-218 | when a row matches every filter, each non-empty selection is among the values offered for it |
| Queries.OriginsIgnoreOriginFilter | internal/queries/feedback.go:177-190 | the offered origins do not depend on the selected origin |
| Queries.FirstOfMonth | internal/queries/feedback.go:617 | DATE_TRUNC('month'): the first day of the indexed month |
| Queries.PlotStatsFor | internal/queries/feedback.go:614-684 | at most six monthly points, inside the six months before this one, in month order, each backed by records |
| Queries.MonthRowsMembers | internal/queries/feedback.go:623-629 | a month's plotted records are exactly the workspace's production rows with the origin (and category, when given) created in that month |
| Queries.PlotAt | internal/queries/feedback.go:616-622 | one point: the month's first day, a count equal to its records |
| Queries.PlotFrom | internal/queries/feedback.go:630-631 | GROUP BY month ORDER BY month: at most one point per month of the range, in order |
| Queries.PlotFromCovers | internal/queries/feedback.go:630-631 | a month has a point exactly when it is in range and has records |
| Queries.PlotFromCounts | internal/queries/feedback.go:621 | each point counts exactly the records of its month |
| CacheJob.Then | internal/cronjobs/cache.go:31-36 | a step that failed ends the trace unchanged; otherwise the next step's events follow and its outcome is the result |
| CacheJob.GroupFeedbackPartition | internal/cronjobs/cache.go:67-74 | GroupFeedback puts each row in the bucket of its (prompt, origin, category) key, each bucket holds exactly its key's rows in input order, and the bucket sizes add up to the input |
| CacheJob.SummariseSample | internal/cronjobs/cache.go:87-108 | the AI is asked first, with the comment prompt and the sample's CSV; a successful run then stores one summary for the workspace and key whose n_comments is the sample's size |
| CacheJob.ProcessGroup | internal/cronjobs/cache.go:76-112 | the AI input is the CSV of the sampled group; a successful run stores one summary for the group's key with n_comments = min(len(group), AICacheInputLimit) |
| CacheJob.IssueInputAsWritten | internal/cronjobs/cache.go:126-135 | as written, the issue-report input is the first AICacheInputLimit rows of the workspace's latest summaries, in order |
| CacheJob.AsWrittenSameForEveryOrigin | internal/cronjobs/cache.go:126 | as written, every origin receives the same summary list |
| CacheJob.AsWrittenMixesOrigins | internal/cronjobs/cache.go:126 | a concrete case: the report for origin "web" is generated from a summary of origin "app" |
| CacheJob.IssueInput | internal/cronjobs/cache.go:125-135 | the intended input: no more than the limit, only summaries of the origin, a prefix of that origin's summaries, and all of them when they fit |
| CacheJob.ReportOrigins | internal/cronjobs/cache.go:114-179 | as written: every AI call uses the issue prompt on the CSV, with dates, of the first AICacheInputLimit latest summaries, whatever the origin; every stored report is non-empty, for the workspace and one of the listed origins |
| CacheJob.ReportOriginsIntended | internal/cronjobs/cache.go:114-179 | with the intended input: every AI call is made on the CSV of one listed origin's own summaries |
| CacheJob.SingleOriginInputsAgree | internal/cronjobs/cache.go:126-135 | when all summaries come from one origin, the as-written and intended inputs coincide |
| CacheJob.EmptyReportSkipped | internal/cronjobs/cache.go:163-167 | an empty AI report for an origin is skipped without an error: the outcome is that of the remaining origins, and no report for it is stored |
| CacheJob.RunDailyCacheJob | internal/cronjobs/cache.go:19-38 | the issues table is truncated first; a truncate failure, or a failure to list workspaces, ends the run with that error |
| CacheJob.LaterWorkspacesIgnored | internal/cronjobs/cache.go:31-36 | the first failing workspace ends the job with its error, and later workspaces are never visited |
| CacheJob.GroupStored | internal/cronjobs/cache.go:76-112 | a non-empty group stores a summary counting between 1 and the limit of comments |
| CacheJob.GroupsStored | internal/cronjobs/cache.go:52-57 | every summary stored for a workspace's groups counts between 1 and the limit |
| CacheJob.ProcessGroupsSucceed | internal/cronjobs/cache.go:52-57 | the group loop ends without an error exactly when every group it visits succeeds, and it then records the AI call and the insert of every group |
| CacheJob.ProcessGroupsOrderFree | internal/cronjobs/cache.go:52-57 | whatever order the group map is ranged in, the loop succeeds in the same cases, and a successful loop makes the same AI calls and stores the same summaries |
| CacheJob.WorkspaceStored | internal/cronjobs/cache.go:40-65 | everything one workspace stores is bounded: summaries count between 1 and the limit, and issue reports are non-empty |
| CacheJob.RunStoresBoundedRows | internal/cronjobs/cache.go:19-38 | over a whole run with a positive limit, every stored summary counts between 1 and AICacheInputLimit comments, and every stored report is non-empty |
| CacheJob.WorkspacesStored | internal/cronjobs/cache.go:31-36 | everything the workspaces store, processed one after another, is bounded in the same way |
| Digests.Traverse | internal/digests/daily.go:35-50 | a loop that returns at the first error: it succeeds exactly when every element maps without error, its values are the mapped elements in order, and a failure carries the error of the first failing element |
| Digests.TraverseSorted | internal/digests/weekly.go:125-188 | the per-group loop followed by the sort: it succeeds exactly when every group succeeds, reports the first failure, and on success holds exactly the groups' entries, one per group, sorted by the digest's key |
| Digests.TraverseSortedOkMembers | internal/digests/weekly.go:125-175 | the loop succeeds exactly when every member of the group list produces an entry |
| Digests.TraverseSortedMembers | internal/digests/weekly.go:125-175 | the entries are exactly the results of the listed groups |
| Digests.TraverseSortedOkSame | internal/digests/weekly.go:125-175 | whether the loop succeeds depends only on which groups are listed, not on their order |
| Digests.TraverseSortedSameElements | internal/digests/weekly.go:125-186 | two listings of the same groups give the same entries |
| Digests.EntryKeysDistinct | internal/digests/weekly.go:177-186 | when each group's entry carries its own key, no two entries share a sort key |
| Digests.TraverseSortedIgnoresOrder | internal/digests/weekly.go:125-186 | for duplicate-free group lists with the same members, the sorted result does not depend on the order the groups arrive in |
| Digests.DistinctEntries | internal/digests/weekly.go:125-186 | distinct groups give distinct entries |
| Digests.AskAi | internal/digests/weekly.go:144-151 | the AI is asked with the job's prompt on the CSV of the sampled summaries, and its answer or error is passed through |
| Digests.GroupDigest | internal/digests/weekly.go:142-152 | a group without summaries gets "No comments to summarize" without asking the AI; any other group gets the AI's answer on its sample |
| Digests.ScoreDelta | internal/digests/weekly.go:159-162 | the score delta is "-" exactly when there is no previous feedback or the score did not change |
| Digests.UploadGraph | internal/digests/monthly.go:207-229 | fewer than three plot points is an error; otherwise the URL is the upload's, provided plotting and uploading succeed |
| Digests.TotalComments | internal/digests/daily.go:130-133 | the summed n_comments is non-negative for non-negative rows and at least the row count when every row counts one comment or more |
| Digests.DailySample | internal/digests/daily.go:110-118 | the daily sample has at most AIDigestInputLimit rows, all of them rows of that origin |
| Digests.DailyEntryFor | internal/digests/daily.go:110-139 | an origin's daily entry exists exactly when the AI answers on the CSV of its sample; it carries the origin and the total n_comments of the sample |
| Digests.OriginsOfRows | internal/digests/daily.go:101-105 | the origin buckets are exactly the origins that occur in the summaries |
| Digests.DailyKeyIdentifies | internal/digests/daily.go:134-144 | each origin's entry is keyed by that origin |
| Digests.PrepareDailyOk | internal/digests/daily.go:110-128 | preparation succeeds exactly when the AI answers for every origin that has summaries |
| Digests.PrepareDailyEntries | internal/digests/daily.go:110-139 | every daily entry is its origin's entry, for an origin that has summaries |
| Digests.PrepareDailyCovers | internal/digests/daily.go:101-139 | every origin with summaries gets an entry, and the list is empty exactly when there are no summaries |
| Digests.PrepareDailyDistinct | internal/digests/daily.go:101-139 | no two daily entries share an origin |
| Digests.PrepareDailyDigestData | internal/digests/daily.go:96-147 | the daily entries are sorted by origin, one per origin that has summaries, each equal to that origin's entry; preparation fails exactly when the AI fails for some origin |
| Digests.DailyIgnoresMapOrder | internal/digests/daily.go:110-144 | whatever order the origin map is walked in, the sorted result is the same |
| Digests.ProcessDailyDigest | internal/digests/daily.go:66-94 | a summaries failure is wrapped as "failed to get summaries: "; no summaries means no message; a preparation or bot-token failure is an error; a message carries the workspace's bot token, its channel and the daily blocks of the prepared entries |
| Digests.WeeklyEntryFor | internal/digests/weekly.go:125-175 | a group without summaries gets the placeholder digest; a stats failure is an error; an entry carries the group's key, the stats' response and comment counts, the rounded score, and "-" as delta exactly when there is no previous feedback or no change |
| Digests.PrepareWeeklyDigestData | internal/digests/weekly.go:104-189 | the weekly entries are one per feedback group, sorted by origin, category and prompt; preparation fails exactly when some group fails |
| Digests.WeeklyIgnoresGroupOrder | internal/digests/weekly.go:125-186 | the order of the feedback groups does not change the weekly entries |
| Digests.WeeklyEntriesHaveResponses | internal/digests/weekly.go:125-175 | with the corrected weekly groups, every weekly entry reports at least one response |
| Digests.ProcessWeeklyDigest | internal/digests/weekly.go:65-102 | uses the weekly feedback groups as written: a groups failure is wrapped as "failed to get feedback groups: "; no groups means no message; a summaries failure, a preparation failure or a bot-token failure is an error; a message carries the bot token, the channel and the weekly blocks |
| Digests.MonthlyGraph | internal/digests/monthly.go:198-230 | a graph exists only when there are at least three plot points; a plot-stats failure is wrapped as "failed to get plot stats: " |
| Digests.MonthlyEntryFor | internal/digests/monthly.go:133-183 | an entry carries the group's origin and category, the stats' responses, the rounded score and the group's graph URL; a graph or stats failure is an error; a group without summaries gets the placeholder digest |
| Digests.PrepareMonthlyDigestData | internal/digests/monthly.go:112-195 | the monthly entries are one per group, sorted by origin and category, and each has at least three plot points |
| Digests.MonthlyEntriesPlotted | internal/digests/monthly.go:163-166 | every monthly entry comes from a group whose plot had at least three points |
| Digests.MonthlyIgnoresGroupOrder | internal/digests/monthly.go:133-192 | the order of the monthly feedback groups does not change the entries |
| Digests.ProcessMonthlyDigest | internal/digests/monthly.go:72-110 | the failures are wrapped in the order groups, summaries, bot token ("no bot token found for workspace "), preparation; no groups means no message; a message carries the token, the channel and the monthly blocks under the month label |
| Digests.QuarterlyGraph | internal/digests/quarterly.go:173-205 | a graph exists only when the origin's quarter has at least three plot points; a plot-stats failure is an error |
| Digests.QuarterlyEntryFor | internal/digests/quarterly.go:128-161 | an entry carries the group's origin and the origin's graph URL; an origin without summaries gets the placeholder digest |
| Digests.PrepareQuarterlyDigestData | internal/digests/quarterly.go:112-170 | the quarterly entries are one per group, sorted by origin, and each has at least three plot points |
| Digests.QuarterlyEntriesPlotted | internal/digests/quarterly.go:152-155 | every quarterly entry comes from an origin whose plot had at least three points |
| Digests.QuarterlyGroupsByOrigin | internal/digests/quarterly.go:115 | the quarterly groups carry only an origin, and no origin is listed twice |
| Digests.QuarterlyKeyIdentifies | internal/digests/quarterly.go:157-167 | each quarterly entry is keyed by its origin |
| Digests.QuarterlyOneHeaderPerOrigin | internal/digests/quarterly.go:112-170 | the quarterly message has one header per origin, never two for the same origin |
| Digests.ProcessQuarterlyDigest | internal/digests/quarterly.go:72-110 | the failures are wrapped in the order groups, summaries, bot token, preparation; no groups means no message; a message carries the token, the channel and the quarterly blocks under the quarter label |
| Digests.Somes | internal/digests/daily.go:40-49 | the workspaces that produced no blocks are dropped, and exactly the produced messages remain |
| Digests.Step | internal/digests/daily.go:36-39 | a workspace failure stays a failure and a success passes through unchanged |
| Digests.SendAll | internal/digests/daily.go:52-61 | the daily, monthly and quarterly send loops never fail: each message is delivered or refused according to the sender, and none is lost |
| Digests.SendUntilRefused | internal/digests/weekly.go:52-60 | the weekly send loop succeeds exactly when every message is accepted; otherwise it stops at the first refusal with "failed to send weekly digest to workspace " and that workspace, having delivered only messages before it |
| Digests.CollectedMessages | internal/digests/daily.go:35-50 | every collected message comes from some workspace's step, and every message a workspace produced is collected |
| Digests.SendDigests | internal/digests/daily.go:22-64 | a workspace-list failure is wrapped as "failed to get active workspaces: "; nothing is sent unless every workspace was processed; every sent message is one a workspace produced, delivered only when the sender accepts it |
| Digests.SendCollected | internal/digests/weekly.go:52-60 | every sent message was collected; the weekly variant refuses at most one and then stops, the others deliver or refuse every collected message |
| Digests.SentToSubscribers | internal/digests/daily.go:26-49 | every message sent goes to a workspace and channel on the subscription list |
| Digests.DailyAddresses | internal/digests/daily.go:44-49 | a daily message is addressed to the workspace and channel that produced it |
| Digests.WeeklyAddresses | internal/digests/weekly.go:44-49 | a weekly message is addressed to the workspace and channel that produced it |
| Digests.MonthlyAddresses | internal/digests/monthly.go:46-51 | a monthly message is addressed to the workspace and channel that produced it |
| Digests.QuarterlyAddresses | internal/digests/quarterly.go:46-51 | a quarterly message is addressed to the workspace and channel that produced it |
| Digests.SendDailyDigests | internal/digests/daily.go:22-64 | the daily job fails exactly when the workspace list or some workspace's processing fails |
| Digests.SendWeeklyDigests | internal/digests/weekly.go:22-63 | the weekly job refuses at most one message, and a successful job refused none |
| Digests.SendMonthlyDigests | internal/digests/monthly.go:24-70 | the monthly job fails exactly when the workspace list or some workspace's processing fails |
| Digests.SendQuarterlyDigests | internal/digests/quarterly.go:24-70 | the quarterly job fails exactly when the workspace list or some workspace's processing fails |
| Digests.SendsReachSubscribers | internal/digests/daily.go:22-64 | in all four jobs, every message sent goes to a subscribed workspace and channel |
| DigestTemplates.DigestFooter | internal/templates/digests/common.go:7-34 | every digest ends with a divider followed by one actions block |
| DigestTemplates.FooterButtons | internal/templates/digests/common.go:12-31 | the footer's actions block holds exactly two plain buttons, "explore_feedback" then "report_issue" |
| DigestTemplates.MessageActionModal | internal/interactions/messages.go:64-73 | a message action opens a modal exactly for "explore_feedback" and "report_issue"; any other action id is unknown |
| DigestTemplates.FooterActionsDispatched | internal/interactions/messages.go:64-73 | every footer button is dispatched to a modal, and an action id is dispatched exactly when some footer button carries it |
| DigestTemplates.ChangesMembers | internal/templates/digests/weekly.go:30-45 | a header is emitted only for a value that occurs, and every value that differs from the previous one gets a header |
| DigestTemplates.StrLeAntisymmetric | internal/digests/weekly.go:177-186 | the string order used for sorting is antisymmetric |
| DigestTemplates.SortedChangesDistinct | internal/templates/digests/weekly.go:30-45 | over sorted entries, the headers emitted when the value changes are all different, and none repeats the starting value |
| DigestTemplates.OneHeaderPerValue | internal/templates/digests/weekly.go:30-45 | over sorted entries, each non-empty value gets exactly one header |
| DigestTemplates.SortedOnFirstField | internal/digests/weekly.go:177-186 | entries sorted by (origin, ...) are sorted by origin |
| DigestTemplates.CommentWord | internal/templates/digests/daily.go:37-40 | the word is "comment" exactly for a count of one, and "comments" otherwise |
| DigestTemplates.DailyEntries | internal/templates/digests/daily.go:36-64 | each daily entry adds two blocks |
| DigestTemplates.BuildDailyDigestBlocks | internal/templates/digests/daily.go:12-74 | a daily digest starts with its header and ends with the footer; with no entries it says "No new comments in the last 24 hours", otherwise it has two blocks per entry |
| DigestTemplates.DailyBlocksAt | internal/templates/digests/daily.go:36-64 | entry i is rendered at positions 1 + 2i (its section) and 2 + 2i (its digest as a quote) |
| DigestTemplates.DailyEntriesInside | internal/templates/digests/daily.go:36-64 | the entry blocks sit unchanged between the header and the footer |
| DigestTemplates.DailyReadsBack | internal/templates/digests/daily.go:36-64 | reading the quotes of the daily entries back gives every digest in order, and the entries contain no header |
| DigestTemplates.BuildWeeklyDigestBlocks | internal/templates/digests/weekly.go:14-109 | a weekly digest opens with spacer, "Weekly Digest" header, spacer and ends with the footer |
| DigestTemplates.WeeklyEntryRead | internal/templates/digests/weekly.go:31-100 | one weekly entry contributes its digest as the only quote, and an origin header exactly when its origin differs from the previous one |
| DigestTemplates.WeeklyEntriesRead | internal/templates/digests/weekly.go:30-100 | reading the weekly entries back gives every digest in order, and one origin header at each change of origin |
| DigestTemplates.FooterRead | internal/templates/digests/common.go:7-34 | the footer carries no header, quote or image |
| DigestTemplates.WeeklyReadsBack | internal/templates/digests/weekly.go:14-109 | the weekly message's headers are the title then one per change of origin, and its quotes are the digests in order |
| DigestTemplates.WeeklyOneHeaderPerOrigin | internal/templates/digests/weekly.go:30-45 | for sorted entries, each non-empty origin gets exactly one header |
| DigestTemplates.BuildMonthlyDigestBlocks | internal/templates/digests/monthly.go:14-113 | a monthly digest opens with spacer, "Monthly Digest" header, the month label as context, spacer, and ends with the footer |
| DigestTemplates.MonthlyCategoryBlocksRead | internal/templates/digests/monthly.go:59-104 | one category block shows its digest as the only quote, no header, and its graph image exactly when the graph URL is non-empty |
| DigestTemplates.MonthlyEntriesRead | internal/templates/digests/monthly.go:39-104 | reading the monthly entries back gives one origin header per change of origin, every digest in order, and every non-empty graph |
| DigestTemplates.MonthlyEntriesSize | internal/templates/digests/monthly.go:39-104 | the entries take two blocks per origin header, five per entry and one per graph |
| DigestTemplates.MonthlyOneHeaderPerOrigin | internal/templates/digests/monthly.go:39-57 | for sorted entries, each non-empty origin gets exactly one header |
| DigestTemplates.BuildQuarterlyDigestBlocks | internal/templates/digests/quarterly.go:12-86 | a quarterly digest opens with spacer, "Quarterly Digest" header, the quarter label as context, spacer, and ends with the footer |
| DigestTemplates.QuarterlyEntryRead | internal/templates/digests/quarterly.go:37-77 | one quarterly entry shows its origin as header, its digest as quote, and its graph exactly when the URL is non-empty |
| DigestTemplates.QuarterlyEntriesRead | internal/templates/digests/quarterly.go:37-77 | reading the quarterly entries back gives every origin header, every digest and every non-empty graph, in order |
| HomeTemplates.TabIndex | internal/templates/home/explore.go:42-64 | each home tab has a place in the four-button navigation bar |
| HomeTemplates.NavBar | internal/templates/home/explore.go:40-66 | the navigation bar holds the four buttons home-explore, home-prompts, home-settings and home-support, in that order |
| HomeTemplates.NavBarPrimary | internal/templates/home/prompts.go:17-41 | exactly the current tab's button is styled "primary"; the others carry no style |
| HomeTemplates.GenerateOptions | internal/templates/home/explore.go:425-442 | a select always has an option: "No options available" with value "none" when there are no items, otherwise one option per item, text and value equal to the item, in order |
| HomeTemplates.FirstWithValue | internal/templates/home/explore.go:414-419 | the search finds a listed option with the selected value, and finds none exactly when no option has it |
| HomeTemplates.StaticSelectBlock | internal/templates/home/explore.go:405-422 | the select carries its action id and the generated options; it has an initial option exactly when a non-empty selection matches an option's value, and that option is the match |
| HomeTemplates.InitialOptionListed | internal/templates/home/explore.go:405-442 | with items, the selection is shown exactly when it is non-empty and one of the items; with no items only "none" matches the placeholder option |
| HomeTemplates.FilterRow | internal/templates/home/explore.go:181-268 | a filter row is a select, followed by a clear button exactly when that filter has a selection |
| HomeTemplates.FilterRowIds | internal/templates/home/explore.go:181-268 | the filter row's action ids are the select's and, when a value is selected, that filter's clear id |
| HomeTemplates.DateRow | internal/templates/home/explore.go:276-307 | the date row holds the "stats-date-from" and "stats-date-to" pickers showing the range, plus a "clear-dates" button exactly when the range is not the default |
| HomeTemplates.DateRowShowsRange | internal/templates/home/explore.go:276-295 | parsing the pickers' initial dates gives back the range shown |
| HomeTemplates.DateRowIds | internal/templates/home/explore.go:276-307 | the date row's action ids are the two pickers and, off the default range, "clear-dates" |
| HomeTemplates.Noun | internal/templates/home/explore.go:316-331 | a count of one takes the singular noun, any other count the plural |
| HomeTemplates.QueryButtons | internal/templates/home/explore.go:338-392 | at most three query buttons; "view-data" always asks for confirmation |
| HomeTemplates.QueryRow | internal/templates/home/explore.go:394-400 | the query actions block is present exactly when there is feedback or there are comments |
| HomeTemplates.QueryRowIds | internal/templates/home/explore.go:338-400 | the query row's action ids depend only on the feedback and comment counts |
| HomeTemplates.FilterRows | internal/templates/home/explore.go:181-268 | the four filters each take one row |
| HomeTemplates.DateBlocks | internal/templates/home/explore.go:270-307 | the date range takes two blocks |
| HomeTemplates.CountBlocks | internal/templates/home/explore.go:309-337 | the counts line reports the number of feedback items and comments |
| HomeTemplates.ExploreExpanded | internal/templates/home/explore.go:146-402 | the expanded explore view has twelve blocks plus the query row when there is something to query |
| HomeTemplates.FilterRowsIds | internal/templates/home/explore.go:181-268 | the filter rows' ids are those of origin, category, prompt and thumb, in that order |
| HomeTemplates.ExpandedIds | internal/templates/home/explore.go:146-402 | the expanded view's ids are the back button, the filters, the dates and the queries, in that order |
| HomeTemplates.FilterIdsApart | internal/templates/home/explore.go:181-268 | a filter row carries the clear id of its own filter only, and only when something is selected; it carries none of the date or query ids |
| HomeTemplates.AllFilterIds | internal/templates/home/explore.go:181-268 | across the filter rows, a filter's clear button appears exactly when that filter has a selection |
| HomeTemplates.DateIdsApart | internal/templates/home/explore.go:296-303 | "clear-dates" appears exactly off the default range, and the date row holds no filter or query id |
| HomeTemplates.QueryIdsApart | internal/templates/home/explore.go:338-392 | "view-stats" and "view-data" appear exactly when there is feedback, "view-comments" exactly when there are comments |
| HomeTemplates.ExpandedControls | internal/templates/home/explore.go:146-402 | in the expanded view, each clear button, "clear-dates" and each query button appears exactly under its condition |
| HomeTemplates.ExploreDefault | internal/templates/home/explore.go:38-144 | the collapsed explore tab has sixteen blocks and opens with the navigation bar on Explore |
| HomeTemplates.ExploreBlocks | internal/templates/home/explore.go:14-36 | the expanded view opens with an actions block |
| HomeTemplates.ExploreCollapsedFixed | internal/templates/home/explore.go:14-36 | the collapsed view ignores the filter input and highlights Explore; the expanded one opens with the "< Back" button |
| HomeTemplates.PromptItem | internal/templates/home/prompts.go:82-105 | each prompt is shown as two blocks |
| HomeTemplates.PromptsHead | internal/templates/home/prompts.go:14-67 | the prompts tab opens with eight fixed blocks, the navigation bar on Prompts first |
| HomeTemplates.PromptsBlocks | internal/templates/home/prompts.go:14-116 | the prompts tab starts with its heading blocks |
| HomeTemplates.PromptItemShape | internal/templates/home/prompts.go:82-105 | a prompt item has no divider and one delete button whose value is the prompt's id |
| HomeTemplates.PromptsShape | internal/templates/home/prompts.go:69-113 | with no prompts the tab has eleven blocks; otherwise dividers separate the prompts, one fewer than there are |
| HomeTemplates.PromptsDeleteIds | internal/templates/home/prompts.go:94-104 | the delete buttons carry the prompts' ids in order, and each id reads back as the number |
| HomeTemplates.ChannelActions | internal/templates/home/settings.go:16-50 | the channel select shows the current channel when there is one; a "clear-channel" button with confirmation and the channel as value appears exactly then |
| HomeTemplates.SettingsBlocks | internal/templates/home/settings.go:12-183 | the settings tab has eighteen blocks, the navigation bar on Settings first and the channel actions in seventh place |
| HomeTemplates.KeyPartShowsKey | internal/templates/home/settings.go:114-161 | the API key section shows the workspace's key once |
| HomeTemplates.SettingsShowsKey | internal/templates/home/settings.go:12-183 | the whole settings tab shows the API key exactly once, in the key section |
| HomeTemplates.TestDataNoKey | internal/templates/home/settings.go:159-181 | the test-data section shows no key line |
| ModalTemplates.NoDividerIn | internal/templates/modals/explore.go:103-126 | a list of blocks with no divider counts no divider |
| ModalTemplates.CommentItem | internal/templates/modals/explore.go:103-122 | each comment is shown as three blocks |
| ModalTemplates.ExploreCommentsModal | internal/templates/modals/explore.go:75-141 | the comments modal carries the given title and a "Close" button; with no results it only says "No comments to display", otherwise it opens with the comment-count note and a spacer |
| ModalTemplates.CommentItemRead | internal/templates/modals/explore.go:103-122 | a comment item holds no divider and one section, the comment's text |
| ModalTemplates.CommentsListed | internal/templates/modals/explore.go:103-126 | every result is listed, in order, with one divider between consecutive comments and none after the last |
| ModalTemplates.IssueItem | internal/templates/modals/explore.go:171-189 | each issue report is shown as four blocks |
| ModalTemplates.TopIssuesModal | internal/templates/modals/explore.go:143-208 | the top-issues modal carries its title and "Close"; with no reports it only says "No issues to display", otherwise it opens with the note and a spacer |
| ModalTemplates.IssueItemRead | internal/templates/modals/explore.go:171-189 | an issue item has its origin as the only header and the formatted report as the only section |
| ModalTemplates.IssuesListed | internal/templates/modals/explore.go:171-193 | every report is listed in order, its origin as header and its formatted issues as text, with dividers only between reports |
| ModalTemplates.StatsEntry | internal/templates/modals/explore.go:227-291 | a stats row takes two blocks, plus three when it starts a new origin |
| ModalTemplates.StatsModal | internal/templates/modals/explore.go:210-306 | the stats modal carries its title and "Close"; with no rows it only says "No stats to display" |
| ModalTemplates.StatsEntryRead | internal/templates/modals/explore.go:227-291 | a row shows an origin header exactly when its origin changes, and its text names the category exactly when the category changes |
| ModalTemplates.StatsHeadersRead | internal/templates/modals/explore.go:229-246 | the stats rows' headers are one per change of origin |
| ModalTemplates.StatsEntriesSize | internal/templates/modals/explore.go:227-291 | the rows take two blocks each, plus three per origin header |
| ModalTemplates.StatsTextsRead | internal/templates/modals/explore.go:227-291 | the rows' texts are one per stats row, in order |
| ModalTemplates.StatsModalSections | internal/templates/modals/explore.go:227-291 | row i's text names the category exactly when i starts a new origin or its category differs from the previous row's |
| ModalTemplates.StatsModalHeaders | internal/templates/modals/explore.go:210-306 | the modal's headers are the changes of origin; for rows sorted by origin each non-empty origin gets exactly one header |
| ModalTemplates.CommentShown | internal/templates/modals/test_data.go:44-48 | a present comment is shown as is, a missing one as a single space |
| ModalTemplates.DataItem | internal/templates/modals/test_data.go:43-79 | each raw row is shown as four blocks |
| ModalTemplates.TestDataModal | internal/templates/modals/test_data.go:14-103 | the test-data modal carries its title and "Close"; with no rows it only says "No data to display", otherwise it opens with the note and a spacer |
| ModalTemplates.DataItemRead | internal/templates/modals/test_data.go:43-79 | a raw row shows its thumb, comment and user id in one fields block, and no divider |
| ModalTemplates.EventsListed | internal/templates/modals/test_data.go:43-89 | every raw row's thumb, comment and user id are listed in order, with one divider between consecutive rows |
| Interactions.NonEmptyMember | internal/interactions/common.go:151-153 | a member counts as present only when it is a non-empty string |
| Interactions.ExtractInteractionContext | internal/interactions/common.go:149-188 | a context is built exactly when trigger_id, team.id and user.id are non-empty strings and the bot token is found, and it carries those values; each missing field gives its own error, checked in the order trigger id, team, workspace id, user, user id, bot token |
| Interactions.ContextRoundTrip | internal/interactions/common.go:149-188 | a payload carrying a context's trigger, team and user ids is read back as that context |
| Interactions.Route | internal/interactions/common.go:57-136 | only the listed action ids are routed to a handler |
| Interactions.HomeActionsRouted | internal/interactions/common.go:59-69 | every navigation action has a handler |
| Interactions.QueryActionsRouted | internal/interactions/common.go:71-115 | every quick action and query action, on the home tab or in the modal, has a handler |
| Interactions.SettingsActionsRouted | internal/interactions/common.go:117-125 | every settings action has a handler |
| Interactions.FilterActionsRouted | internal/interactions/common.go:81-93 | the select and date-picker actions go to the filter-change handler, and each clear action to the clear handler with its own id |
| Interactions.RouteKnown | internal/interactions/common.go:57-136 | an action id has a handler exactly when it is one of the listed ids |
| Interactions.CommentsTwinned | internal/interactions/common.go:72-73 | "home-comments" and "modal-comments" run the same handler, differing only in the modal flag |
| Interactions.TopIssuesTwinned | internal/interactions/common.go:74-75 | "home-top-issues" and "modal-top-issues" run the same handler, differing only in the modal flag |
| Interactions.WeekStatsTwinned | internal/interactions/common.go:76-77 | "home-stats-7d" and "modal-stats-7d" run the 7-day stats, differing only in the modal flag |
| Interactions.MonthStatsTwinned | internal/interactions/common.go:78-79 | "home-stats-30d" and "modal-stats-30d" run the 30-day stats, differing only in the modal flag |
| Interactions.LinkRoute | internal/interactions/common.go:127-130 | only "link-workspace" reaches the link handler |
| Interactions.MessageActionsNotRouted | internal/interactions/common.go:132-135 | the digest footer's message actions are not view actions and are answered "unknown action" here |
| Interactions.ActionIdOf | internal/interactions/common.go:37-55 | the action id is a non-empty string; a malformed payload gives one of the three errors of the source |
| Interactions.ActionIdRoundTrip | internal/interactions/common.go:37-55 | a payload whose first action carries a non-empty id yields that id |
| Interactions.Dispatch | internal/interactions/common.go:57-145 | an unknown id is a 400 "unknown action"; the link action answers for itself; any other handler gives "action handled" exactly when it succeeds and the 500 "failed to handle action" exactly when it fails |
| Interactions.HandleViewInteraction | internal/interactions/common.go:28-146 | a context error or a malformed action is a 400 carrying its message; otherwise the routed handler decides the reply |
| Interactions.HandledIffSucceeded | internal/interactions/common.go:28-146 | outside the link action, the reply is "action handled" exactly when the context, the action id and the route are good and the handler succeeds; it is a 400 exactly when one of the first three fails |
| Interactions.StatsRow | internal/interactions/common.go:246-260 | a stats row carries its group, the score rounded to within a half, "-" as score delta exactly when there is no previous feedback or no change, the counts, and "-" for a zero count delta |
| Interactions.Collected | internal/interactions/common.go:234-261 | at most one row per group |
| Interactions.CollectedAgree | internal/interactions/common.go:234-261 | the collected rows depend only on what each fetch returns |
| Interactions.CollectedMembers | internal/interactions/common.go:234-261 | a row is collected exactly when it is the row of a group whose fetch succeeded with stats; failed or empty fetches are skipped |
| Interactions.CollectedAll | internal/interactions/common.go:234-261 | every group yields a row exactly when every fetch succeeds with stats |
| Interactions.FetchStats | internal/interactions/common.go:232-272 | the result is a permutation of the collected rows, sorted by origin and category |
| Interactions.FetchStatsMembers | internal/interactions/common.go:232-272 | the rows are exactly those of the groups whose fetch succeeded with stats, and all groups appear exactly when every fetch succeeds |
| Interactions.FetchStatsWithRange | internal/interactions/common.go:274-321 | the ranged rows are sorted, at most one per group, and are exactly the rows of the groups whose ranged fetch succeeded with stats |
| Interactions.PeriodStatsModal | internal/interactions/modals.go:61-87 | a groups failure is the only failure and keeps its error; the modal is titled for its period with "Close", and says "No stats to display" when there are no groups |
| Interactions.PeriodStatsOneHeaderPerOrigin | internal/interactions/modals.go:61-87 | the period stats modal shows each non-empty origin once |
| ExploreInteractions.DefaultFrom | internal/interactions/explore.go:35-37 | the default range starts 30 days before today |
| ExploreInteractions.DefaultValues | internal/interactions/explore.go:35-44 | the default filter values select nothing and span from 30 days ago to today |
| ExploreInteractions.CachedValues | internal/interactions/explore.go:28-45 | a cache entry younger than 30 minutes gives back its values; a missing or expired entry gives the defaults |
| ExploreInteractions.DefaultRangeIff | internal/utils/misc.go:69-73 | a range is the default exactly when it runs from 30 days ago to today |
| ExploreInteractions.KeepSelection | internal/interactions/explore.go:63-75 | a selection is kept exactly when it is non-empty and still offered; otherwise it is reset to "" |
| ExploreInteractions.ViewInput | internal/interactions/explore.go:76 | the thumb selection is passed through unchecked |
| ExploreInteractions.RenderExpanded | internal/templates/home/explore.go:29-31 | an expanded view renders the expanded blocks of its input |
| ExploreInteractions.Refresh | internal/interactions/explore.go:47-99 | a refresh fails exactly when the home-tab query fails; otherwise it caches the values with the current time and renders the query's data with the checked selections |
| ExploreInteractions.SelectedIffValid | internal/interactions/explore.go:63-76 | a filter shows as selected exactly when its value is still valid for the data |
| ExploreInteractions.RefreshShowsValidSelections | internal/interactions/explore.go:63-99 | after a refresh a filter's clear button is shown exactly when its selection is still valid, and the cache keeps the values as submitted |
| ExploreInteractions.ValidSelectionPreselected | internal/interactions/explore.go:63-99 | a still-offered origin is preselected in its select |
| ExploreInteractions.RefreshShowsDateReset | internal/interactions/explore.go:47-49 | the "clear-dates" button is shown exactly when the cached range is not the default |
| ExploreInteractions.CachedValuesExpire | internal/interactions/explore.go:28-45 | values cached by a refresh are read back for 30 minutes and replaced by the defaults from then on |
| ExploreInteractions.CachedEntryExpires | internal/interactions/explore.go:30-39 | a cached entry is used before its 30 minutes are up and replaced by the defaults after |
| ExploreInteractions.Store | internal/interactions/explore.go:78-83 | storing sets the user's entry and leaves every other entry as it was |
| ExploreInteractions.HandleTabExplore | internal/interactions/explore.go:27-102 | the tab fails exactly when the home-tab query on the cached values fails; otherwise it publishes the view of those values and caches them for this user with the current time, leaving other users' entries alone |
| ExploreInteractions.Upd | internal/interactions/explore.go:188-221 | an entry for another action id leaves the field as it was |
| ExploreInteractions.UnknownEntryIgnored | internal/interactions/explore.go:188-221 | an action id outside the six filter controls changes nothing |
| ExploreInteractions.FieldIsLastValue | internal/interactions/explore.go:178-223 | each filter field ends as the last readable value given for its control, or "" when there is none |
| ExploreInteractions.ExtractIsLastValue | internal/interactions/explore.go:171-225 | each of the six values read from the view state is the last readable value of its control |
| ExploreInteractions.FoldIsLastValue | internal/interactions/explore.go:178-223 | folding the state entries leaves each field at its control's last readable value |
| ExploreInteractions.FilterValuesOrderFree | internal/interactions/explore.go:178-183 | when each control appears once, the values read do not depend on the order the state map is walked in |
| ExploreInteractions.FillDates | internal/interactions/explore.go:105-112 | missing dates are filled with the default range; given dates and the four selections are kept |
| ExploreInteractions.HandleStatsFilterAction | internal/interactions/explore.go:104-169 | a filter change fails exactly when the home-tab query fails; otherwise it caches the submitted values with missing dates filled, and publishes the expanded view of them, leaving other users' entries alone |
| ExploreInteractions.ClearFilter | internal/interactions/explore.go:230-242 | an action other than the five clear actions leaves the values alone |
| ExploreInteractions.ClearOnlyNamed | internal/interactions/explore.go:230-238 | a clear action empties its own filter and nothing else |
| ExploreInteractions.ClearDatesRestoresDefault | internal/interactions/explore.go:239-241 | "clear-dates" restores the default range and keeps the four selections |
| ExploreInteractions.DefaultTextsAreDefault | internal/interactions/explore.go:240-246 | the default range, written out and parsed back, is recognised as the default |
| ExploreInteractions.ClearedButtonGone | internal/interactions/explore.go:227-299 | after a filter is cleared its clear button is no longer shown |
| ExploreInteractions.HandleClearFilter | internal/interactions/explore.go:227-299 | clearing fails exactly when the home-tab query fails; otherwise it caches the cleared values with the current time and publishes the expanded view of them, leaving other users' entries alone |
| ExploreInteractions.Midnight | internal/interactions/explore.go:303-305 | a parsed date is midnight UTC of that day |
| ExploreInteractions.MidnightWindow | internal/interactions/explore.go:311-312 | the window between two midnights holds exactly the days from the first up to, not including, the second |
| ExploreInteractions.PeriodDays | internal/interactions/explore.go:307 | the period counts the days from the start to the end date inclusive |
| ExploreInteractions.PrevWindowAsWritten | internal/interactions/explore.go:307-309 | as written: the previous window ends at midnight of the day before the range |
| ExploreInteractions.PrevWindowAsWrittenShort | internal/interactions/explore.go:307-309 | as written, the previous window covers one day fewer than the period, and the day just before the range is in neither window |
| ExploreInteractions.OneDayRangeHasNoPrevious | internal/interactions/explore.go:307-309 | as written, a one-day range has an empty previous window |
| ExploreInteractions.PrevWindow | internal/interactions/explore.go:307-309 | the intended previous window |
| ExploreInteractions.PrevWindowAdjacent | internal/interactions/explore.go:307-309 | the intended previous window is as long as the period and ends where the range starts, with no day missing |
| ExploreInteractions.StatsView | internal/interactions/explore.go:301-328 | as written: the stats view fails exactly when the groups query fails, with its error; otherwise it shows the stats of the filtered groups for the range and the as-written previous window |
| ExploreInteractions.StatsViewIntended | internal/interactions/explore.go:301-328 | the same view with the intended previous window |
| ExploreInteractions.FetchIgnoringPrevious | internal/interactions/common.go:274-321 | when the stats do not depend on the previous window, neither do the rows |
| ExploreInteractions.StatsViewsDifferOnlyInPrevious | internal/interactions/explore.go:307-323 | the two stats views agree whenever the previous window does not matter |
| ExploreInteractions.CommentsModalOf | internal/templates/modals/explore.go:75-141 | the comments modal lists every result's text in order, or says "No comments to display" |
| ExploreInteractions.CommentsView | internal/interactions/explore.go:330-350 | the comments view fails exactly when the filtered comments query fails, with its error; otherwise its modal lists the query's comments in order, or the placeholder when there are none |
| ExploreInteractions.RawDataExport | internal/interactions/explore.go:352-398 | the export fails exactly when the raw query fails, with its error; otherwise the CSV is the header followed by one record per row, in order |
| ModalInteractions.LatestComments | internal/interactions/modals.go:23-39 | a query failure is passed on unchanged; otherwise the "Latest Comments" modal lists every comment's text in order, pushed over the current modal when the action came from one and opened otherwise |
| ModalInteractions.TopIssues | internal/interactions/modals.go:42-58 | a query failure is passed on unchanged; otherwise the top-issues modal lists every report's origin in order, pushed or opened by where the action came from |
| ModalInteractions.PeriodStats | internal/interactions/modals.go:61-87 | a groups failure is passed on unchanged; otherwise the stats modal for the period is pushed or opened by where the action came from, and says "No stats to display" when there are no groups |
| ModalInteractions.CollectValuesIsLastValue | internal/interactions/modals.go:201-215 | a field is submitted exactly when some entry gives a string value for it, and its value is the last such value |
| ModalInteractions.SubmissionDataIsLastValue | internal/interactions/modals.go:185-218 | each submitted field holds the last string value given for its action id in the view state |
| ModalInteractions.SubmittedValuesOrderFree | internal/interactions/modals.go:201-206 | when each action id appears once, the submitted fields do not depend on the order the state map is walked in |
| ModalInteractions.NoViewNoData | internal/interactions/modals.go:188-191 | a payload without a view submits no fields |
| ModalInteractions.Field | internal/interactions/modals.go:113-116 | a field that was not submitted reads as "" |
| ModalInteractions.SupportEmailOf | internal/interactions/modals.go:112-123 | the email is an issue report exactly when the issue field is non-empty |
| ModalInteractions.ContactSupport | internal/interactions/modals.go:111-144 | the email is always attempted; a send failure shows the error view naming the sender address; otherwise the view is "report sent" exactly for an issue and "support sent" exactly for a plain message |
| ModalInteractions.PromptIdOf | internal/interactions/modals.go:155-161 | the prompt id is the view's private_metadata, and is missing exactly when that is absent or empty |
| ModalInteractions.DeletePrompt | internal/interactions/modals.go:147-182 | deleting never sends email and always updates the modal; a deletion is attempted only for the submitted prompt id |
| ModalInteractions.DeleteDecision | internal/interactions/modals.go:147-178 | the prompt is deleted exactly when the context and prompt id are good and the confirmation is "YES"; success is shown exactly when that deletion succeeds; the "type YES" view exactly when the confirmation is wrong; the error view exactly when the context or prompt id is bad or the deletion fails |
| ModalInteractions.OnlyExactWordDeletes | internal/interactions/modals.go:166-169 | without the exact word "YES" nothing is deleted |
| ModalInteractions.SubmissionDispatch | internal/interactions/modals.go:90-108 | a payload without a view is a 400; only the "contact-support" callback sends email; a deletion happens only under "delete-prompt" with confirmation; every other callback clears the modal |
| Payload.Lookup | internal/interactions/common.go:151 | a key's value is one the object holds for it, and nothing is found exactly when no member has that key |
| Payload.StringMember | internal/interactions/common.go:151 | a member reads as a string exactly when it is present and holds a string |
| Payload.ObjectMember | internal/interactions/common.go:157 | a member reads as an object exactly when it is present and holds an object |
| Payload.ObjectOrEmpty | internal/interactions/explore.go:174-176 | a missing or non-object member reads as the empty object |
| Payload.StateEntriesMembers | internal/interactions/explore.go:178-187 | the state entries are exactly the members of the blocks that are objects |
| Payload.LastValue | internal/interactions/explore.go:183-221 | the value found is one given for that id, and nothing is found exactly when no entry for the id has a readable value |
| Payload.LastValueOfOnly | internal/interactions/explore.go:183-221 | when ids are distinct, an id's value is what its one entry gives |
| Payload.LastValueOrderFree | internal/interactions/explore.go:178-183 | when ids are distinct, the value found does not depend on the order of the entries |

## Left out

- Database contents: each query is a pure specification function over an in-memory table.
  - Failures of the digest queries come from the `dbError` oracle. It covers the groups, summaries, stats and plot-stats calls.
  - Elsewhere a query result is a `Result` parameter.
  - Connection handling and the SQL text itself are not modelled.
- Go map iteration order (`range` over maps in explore.go:171-225, modals.go:201-214, the group loop of the cache job at cronjobs/cache.go:52-57, and the grouping maps of the digests) is fixed to first-occurrence order.
  - Order independence is proved for payloads with distinct action ids (`ExploreInteractions.FilterValuesOrderFree`, `ModalInteractions.SubmittedValuesOrderFree`, `Payload.LastValueOrderFree`) and for the daily digest (`Digests.DailyIgnoresMapOrder`).
  - For the cache job, `CacheJob.ProcessGroupsOrderFree` proves that every visiting order of the groups succeeds in the same cases, and that a successful loop makes the same AI calls and the same inserts.
  - When a group fails, Go's order decides which groups were stored before the error. The model stores the groups before it in first-occurrence order.
  - When two blocks carry the same action id, Go's result depends on the map order and the model's does not.
- `sort.Slice` is not stable. The model sorts with a deterministic sort, proved sorted and a permutation. Entries with equal keys may therefore be ordered differently from Go's.
- Queries.LatestPerUser: when two records of a user are equally recent, the model keeps the first of them, because `Newer` is strict. `DISTINCT ON (user_id) ... ORDER BY created_at DESC` keeps an unspecified one. Times have one-second resolution, so such ties can occur; the contracts hold whichever record is kept.
- ModalInteractions.SubmissionDispatch: the background `HandleTabPrompts` refresh after a successful deletion (internal/interactions/modals.go:178-180) is not modelled, because it runs in a goroutine whose result is discarded.
- HTTP and the Slack Web API are not modelled: publishing and opening views, pushing and updating modals, file upload, OAuth, request signatures and the HTTP status plumbing of the handlers. Sending, uploading and drawing are oracles. A handler's status code is modelled only where the source decides it.
- ExploreInteractions.RawDataExport stops after the query and the CSV records. The errors after that are not modelled: writing the CSV, creating and writing the temporary file, looking up the App Home channel, and the upload (internal/interactions/explore.go:371-398).
- Concurrency is not modelled:
  - goroutines;
  - the `sync.Map` filter cache, modelled as a map threaded through the handlers;
  - the rate limiter's mutex. `Limit` updates the visitor it got from `getVisitor` after the lock is released (internal/utils/rate_limiter.go:40-41, 66-80). The model applies each request atomically, so races between requests from one client are not modelled.
- RateLimiter.Cleanup: the background loop with `time.Sleep` (internal/utils/rate_limiter.go:50-60) is modelled as one sweep with the current time as a parameter.
- CSV quoting: `encoding/csv` quoting and escaping are not modelled. A CSV document is the sequence of its records, each a sequence of fields, joined with commas and newlines.
- Logging, and the `time.Sleep` pauses between monthly and quarterly workspaces (internal/digests/monthly.go:56, internal/digests/quarterly.go:56), are not modelled. Neither affects a result.
- Floating point: Go's `float64` is modelled as exact `real`. `Misc.RoundFloat` rounds half away from zero, as `math.Round` does. Results that depend on binary rounding of the percentages may differ.
- Times have a resolution of one second. Timestamps and dates use the proleptic Gregorian calendar. The round trip between a date and its day number is proved for years 0 to 9999.
- DigestMain.Run takes one `today` for the whole invocation. In the source, each weekday rule reads the clock itself (cmd/digest/main.go:51, 62, 73, 87), so a run that crosses midnight may decide its jobs on different days. That case is not modelled.
- Email delivery (SMTP), the chart renderer and the temporary image file behind `GenerateAndUploadMonthlyGraph` are oracles. The monthly upload's title is modelled as written, "Quarterly graph for " and the origin (internal/digests/monthly.go:224).
- Constant-only templates carry no modelled properties beyond their constants: the delete-prompt, support, report, welcome and support-email modals, and the Explore modal opened from a digest.
- Configuration loading, the `cmd` entry points other than the digest job (ingest, interact, keygen), and the settings, message-routing and prompt-management glue outside the listed members are not part of this model.
- Misc.FormatDigestStats and Misc.FormatModalStats are used by the templates and read back through the template lemmas; they carry no separate contract.
- CacheJob.PrepareIssueReports, CacheJob.ProcessWorkspace and CacheJob.ProcessWorkspaces have no ensures of their own. Their behaviour is stated by `CacheJob.ReportOrigins`, `CacheJob.EmptyReportSkipped`, `CacheJob.RunDailyCacheJob` and the lemmas listed above.
- ModalInteractions.HandleModalSubmission has no ensures of its own. Its outcomes are stated by `ModalInteractions.SubmissionDispatch`.
- Queries.WeeklyFeedbackStats, Queries.MonthlyFeedbackStats, Queries.TrailingStats and Queries.FilteredStats are window selectors around `Queries.ComputeStats`, whose contract states the statistics.
- ModalInteractions.SupportEmailOf states only which template the issue flag selects. The email's other fields are copied from the submitted values without a separate contract.

## Findings

| source | as written | input that shows it | evidently intended | confidence | as-written member | corrected member |
|---|---|---|---|---|---|---|
| internal/cronjobs/cache.go:126 | the issue-report input for each origin is `GetLatestSummaries(conn, workspace)`, the latest summaries of the whole workspace, so every origin gets the same list | a workspace with summaries for origins "web" and "app": the report for "web" is computed from the "app" summaries as well | each origin's report is built from that origin's summaries, as the per-origin log text and the per-origin insert suggest | not executed | CacheJob.IssueInputAsWritten, CacheJob.AsWrittenMixesOrigins, CacheJob.ReportOrigins | CacheJob.IssueInput, CacheJob.ReportOriginsIntended |
| internal/models/models.go:76-80 with internal/queries/feedback.go:290-297 | `Weekly` and `Last7d` are both "7 days", so `GetFeedbackGroups(…, Weekly)` takes the `Last7d` branch, which has no upper bound and includes today | a group whose only feedback was posted today: the weekly digest lists it with zero responses and a "-" delta | the `default` branch commented as Weekly: the seven days before today, so every listed group has responses in the digest's window | not executed | Queries.GetFeedbackGroups, Queries.WeeklyGroupsIncludeToday, Digests.ProcessWeeklyDigest | Queries.WeeklyFeedbackGroups, Queries.WeeklyGroupsHaveStats, Digests.WeeklyEntriesHaveResponses |
| internal/interactions/explore.go:307-309 with internal/queries/feedback.go:1007-1008 | the previous window is `[from − n, from − 1)` under the half-open filter, so it is one day short and skips the day before `from` | a one-day range `from == to`: the previous window is empty, so every previous count is 0 and every delta is "-" | the previous window `[from − n, from)` has the same length as the current one and ends where it starts | not executed | ExploreInteractions.PrevWindowAsWritten, ExploreInteractions.PrevWindowAsWrittenShort, ExploreInteractions.OneDayRangeHasNoPrevious, ExploreInteractions.StatsView | ExploreInteractions.PrevWindow, ExploreInteractions.PrevWindowAdjacent, ExploreInteractions.StatsViewIntended |

=== FILE: aiapi.dfy ===
/** Choosing the answer text of an AI "responses" call
    (internal/integrations/aiapi.go). The HTTP exchange is an input: either
    a transport error or a status code with a body; decoding the body's JSON
    is an oracle. */
module AiApi {
  import opened Wrappers
  import opened Text

  /** One element of a message's `content`. */
  datatype Part = Part(kind: string, text: string)

  /** One element of the response's `output`. */
  datatype OutputItem = OutputItem(kind: string, id: string, status: string, role: string, content: seq<Part>)

  /** What the HTTP call produced: no response, a response whose body
      could not be read, or a status with the body read in full. */
  datatype HttpReply = TransportError(error: string) | ReadError(error: string) | Reply(status: int, body: string)

  /** Decodes a response body into its `output` list, or gives the decoder's error. */
  type Decoder = string -> Result<seq<OutputItem>, string>

  const NoOutputText: string := "no output_text segment found"

  /** A completed assistant message. */
  predicate Qualifies(m: OutputItem) {
    m.kind == "message" && m.status == "completed" && m.role == "assistant"
  }

  predicate IsOutputText(p: Part) {
    p.kind == "output_text"
  }

  /** The text of the first `output_text` part. */
  function FirstOutputText(parts: seq<Part>): (r: Option<string>)
    ensures r.None? <==> forall j :: 0 <= j < |parts| ==> !IsOutputText(parts[j])
    ensures r.Some? ==>
              exists j :: 0 <= j < |parts| && IsOutputText(parts[j]) && r.value == parts[j].text
                          && forall k :: 0 <= k < j ==> !IsOutputText(parts[k])
  {
    if |parts| == 0 then None
    else if IsOutputText(parts[0]) then Some(parts[0].text)
    else
      var r := FirstOutputText(parts[1..]);
      if r.Some? then
        var j :| 0 <= j < |parts[1..]| && IsOutputText(parts[1..][j]) && r.value == parts[1..][j].text
                 && forall k :: 0 <= k < j ==> !IsOutputText(parts[1..][k]);
        assert IsOutputText(parts[j + 1]) && forall k :: 0 <= k < j + 1 ==> !IsOutputText(parts[k]);
        r
      else
        r
  }

  /** A message that yields an answer: completed, from the assistant, with
      an `output_text` part. */
  predicate Answers(m: OutputItem) {
    Qualifies(m) && FirstOutputText(m.content).Some?
  }

  /** The scan over `output`: other items are skipped, and a qualifying
      message without `output_text` falls through to the next item. */
  function SelectOutputText(items: seq<OutputItem>): (r: Result<string, string>)
    ensures r.Ok? <==> exists i :: 0 <= i < |items| && Answers(items[i])
    ensures r.Err? ==> r.error == NoOutputText
  {
    if |items| == 0 then Err(NoOutputText)
    else if Answers(items[0]) then Ok(FirstOutputText(items[0].content).value)
    else
      var r := SelectOutputText(items[1..]);
      assert forall i :: 1 <= i < |items| ==> items[i] == items[1..][i - 1];
      r
  }

  /** `GetAISummary` after the request is sent: transport failures, body
      read failures and non-200 replies are errors before any decoding;
      then the decoded output is scanned. */
  function GetAISummary(reply: HttpReply, decode: Decoder): (r: Result<string, string>)
    ensures reply.TransportError? ==> r == Err("call error: " + reply.error)
    ensures reply.ReadError? ==> r == Err("read error: " + reply.error)
    ensures reply.Reply? && reply.status != 200 ==>
              r == Err("AI API error " + IntToString(reply.status) + ": " + reply.body)
    ensures reply.Reply? && reply.status == 200 && decode(reply.body).Err? ==>
              r == Err("unmarshal error: " + decode(reply.body).error)
    ensures r.Ok? <==>
              reply.Reply? && reply.status == 200 && decode(reply.body).Ok?
              && exists i :: 0 <= i < |decode(reply.body).value| && Answers(decode(reply.body).value[i])
  {
    match reply
    case TransportError(e) => Err("call error: " + e)
    case ReadError(e) => Err("read error: " + e)
    case Reply(status, body) =>
      if status != 200 then Err("AI API error " + IntToString(status) + ": " + body)
      else match decode(body)
      case Err(e) => Err("unmarshal error: " + e)
      case Ok(items) => SelectOutputText(items)
  }

  /** A non-200 reply is reported without looking at the body's JSON: the
      decoder does not matter. */
  lemma ErrorStatusSkipsDecoding(reply: HttpReply, d1: Decoder, d2: Decoder)
    requires reply.Reply? && reply.status != 200
    ensures GetAISummary(reply, d1) == GetAISummary(reply, d2)
  {
  }

  /** Items before the first answering message do not influence the result,
      and items after it are never looked at. */
  lemma {:induction false} FirstAnswerWins(pre: seq<OutputItem>, m: OutputItem, post: seq<OutputItem>)
    requires forall k :: 0 <= k < |pre| ==> !Answers(pre[k])
    requires Answers(m)
    ensures SelectOutputText(pre + [m] + post) == Ok(FirstOutputText(m.content).value)
    decreases |pre|
  {
    if |pre| == 0 {
      assert pre + [m] + post == [m] + post;
    } else {
      assert (pre + [m] + post)[1..] == pre[1..] + [m] + post;
      FirstAnswerWins(pre[1..], m, post);
    }
  }
}

=== FILE: blocks.dfy ===
/** Slack Block Kit values as the templates build them. The Go code builds
    `map[string]any` trees; each block and element kind that appears in the
    templates becomes a constructor here, carrying exactly the fields the
    templates set. */
module Blocks {
  import opened Wrappers
  import opened Seqs

  /** A text object: "plain_text" or "mrkdwn". */
  datatype Text = Plain(text: string) | Markdown(text: string)

  /** A button's "confirm" dialog. */
  datatype Confirm = Confirm(title: string, text: string, confirmLabel: string, denyLabel: string)

  /** An option of a static select: "text" is shown, "value" is submitted. */
  datatype SelectOption = SelectOption(text: string, value: string)

  /** Interactive elements of an "actions" block. */
  datatype Element =
    | Button(caption: string, actionId: string, style: Option<string>, value: Option<string>,
             confirm: Option<Confirm>)
    | StaticSelect(actionId: string, placeholder: string, options: seq<SelectOption>,
                   initialOption: Option<SelectOption>)
    | DatePicker(actionId: string, initialDate: string, placeholder: string)
    | ChannelsSelect(actionId: string, placeholder: string, initialChannel: Option<string>)

  datatype Block =
    | Header(text: string)
    | Section(body: Text)
    | Fields(fields: seq<Text>)
    | Divider
    | Context(texts: seq<Text>)
    | Actions(elements: seq<Element>)
      /** A "rich_text" block holding one "rich_text_quote" of plain text. */
    | RichQuote(quote: string)
    | Image(url: string, altText: string)

  /** A modal view: title, close label and blocks. */
  datatype Modal = Modal(title: string, close: string, blocks: seq<Block>)

  /** `utils.Spacer`: a section holding a single blank. */
  const Spacer: Block := Section(Plain(" "))

  /** A button with only a label and an action id. */
  function PlainButton(caption: string, actionId: string): (e: Element)
    ensures e.Button? && e.actionId == actionId && e.style.None? && e.value.None?
  {
    Button(caption, actionId, None, None, None)
  }

  /** The three placeholder blocks the modals show for empty input. */
  function Placeholder(message: string): (bs: seq<Block>)
    ensures |bs| == 3 && bs[0] == Spacer && bs[2] == Spacer
    ensures bs[1] == Section(Plain(message))
  {
    [Spacer, Section(Plain(message)), Spacer]
  }

  /** What a reader of a message collects from it, in order: the value `f`
      finds in each block that has one. */
  function Pick<U>(bs: seq<Block>, f: Block -> Option<U>): (r: seq<U>)
    ensures |r| <= |bs|
  {
    if |bs| == 0 then [] else PickOne(bs[0], f) + Pick(bs[1..], f)
  }

  /** What `f` picks from a single block. */
  function PickOne<U>(b: Block, f: Block -> Option<U>): seq<U> {
    if f(b).Some? then [f(b).value] else []
  }

  lemma {:induction false} PickAppend<U>(a: seq<Block>, b: seq<Block>, f: Block -> Option<U>)
    ensures Pick(a + b, f) == Pick(a, f) + Pick(b, f)
    decreases |a|
  {
    if |a| == 0 {
      assert a + b == b;
    } else {
      var ab := a + b;
      assert ab[0] == a[0] && ab[1..] == a[1..] + b;
      PickAppend(a[1..], b, f);
      assert Pick(ab, f) == PickOne(a[0], f) + Pick(a[1..] + b, f);
    }
  }

  lemma PickSingle<U>(a: Block, f: Block -> Option<U>)
    ensures Pick([a], f) == PickOne(a, f)
  {
    assert [a][1..] == [];
  }

  lemma PickTwo<U>(a: Block, b: Block, f: Block -> Option<U>)
    ensures Pick([a, b], f) == PickOne(a, f) + PickOne(b, f)
  {
    assert [a, b][1..] == [b];
    assert [b][1..] == [];
  }

  lemma PickThree<U>(a: Block, b: Block, c: Block, f: Block -> Option<U>)
    ensures Pick([a, b, c], f) == PickOne(a, f) + PickOne(b, f) + PickOne(c, f)
  {
    assert [a, b, c][1..] == [b, c];
    PickTwo(b, c, f);
  }

  lemma PickFour<U>(a: Block, b: Block, c: Block, d: Block, f: Block -> Option<U>)
    ensures Pick([a, b, c, d], f) == PickOne(a, f) + PickOne(b, f) + PickOne(c, f) + PickOne(d, f)
  {
    assert [a, b, c, d][1..] == [b, c, d];
    PickThree(b, c, d, f);
  }

  /** The text of a header block. */
  function HeaderOf(b: Block): Option<string> {
    if b.Header? then Some(b.text) else None
  }

  /** The text of a quoted rich-text block. */
  function QuoteOf(b: Block): Option<string> {
    if b.RichQuote? then Some(b.quote) else None
  }

  /** The url and alt text of an image block. */
  function ImageOf(b: Block): Option<(string, string)> {
    if b.Image? then Some((b.url, b.altText)) else None
  }

  // ---------------------------------------------------------------------------
  // Item lists with separators
  // ---------------------------------------------------------------------------

  /** The templates' `for i, x := range xs { add item(x); if i < len(xs)-1
      { add sep } }`: the items in order, `sep` between neighbours only. */
  function Separated<T>(xs: seq<T>, item: T -> seq<Block>, sep: seq<Block>): seq<Block>
    decreases |xs|
  {
    if |xs| == 0 then []
    else item(xs[0]) + (if |xs| > 1 then sep else []) + Separated(xs[1..], item, sep)
  }

  /** Counting blocks of a kind: `a` per item and `b` per separator. */
  lemma {:induction false} SeparatedCount<T>(xs: seq<T>, item: T -> seq<Block>, sep: seq<Block>,
                                             p: Block -> bool, a: nat, b: nat)
    requires forall x :: CountIf(item(x), p) == a
    requires CountIf(sep, p) == b
    ensures CountIf(Separated(xs, item, sep), p) == if |xs| == 0 then 0 else a * |xs| + b * (|xs| - 1)
    decreases |xs|
  {
    if |xs| == 1 {
      assert Separated(xs, item, sep) == item(xs[0]) + [] + [];
      assert item(xs[0]) + [] + [] == item(xs[0]);
    } else if |xs| > 1 {
      var m := |xs| - 1;
      var rest := Separated(xs[1..], item, sep);
      SeparatedCount(xs[1..], item, sep, p, a, b);
      assert CountIf(rest, p) == a * m + b * (m - 1);
      assert Separated(xs, item, sep) == (item(xs[0]) + sep) + rest;
      CountIfAppend(item(xs[0]) + sep, rest, p);
      CountIfAppend(item(xs[0]), sep, p);
      PerItemStep(a, b, m);
    }
  }

  lemma PerItemStep(a: nat, b: nat, m: nat)
    requires m >= 1
    ensures a + b + (a * m + b * (m - 1)) == a * (m + 1) + b * m
  {
  }

  /** Length of an item list: `k` blocks per item plus the separators. */
  lemma {:induction false} SeparatedLength<T>(xs: seq<T>, item: T -> seq<Block>, sep: seq<Block>, k: nat)
    requires forall x :: |item(x)| == k
    ensures |Separated(xs, item, sep)| == if |xs| == 0 then 0 else k * |xs| + |sep| * (|xs| - 1)
    decreases |xs|
  {
    if |xs| > 0 {
      SeparatedLength(xs[1..], item, sep, k);
    }
  }

  /** When every item shows the reader exactly `g(x)` and the separator shows
      nothing, the reader sees `g` of each item, in order. */
  lemma {:induction false} SeparatedPick<T, U>(xs: seq<T>, item: T -> seq<Block>, sep: seq<Block>,
                                               f: Block -> Option<U>, g: T -> U)
    requires forall x :: Pick(item(x), f) == [g(x)]
    requires Pick(sep, f) == []
    ensures Pick(Separated(xs, item, sep), f) == MapSeq(xs, g)
    decreases |xs|
  {
    if |xs| > 0 {
      var mid := if |xs| > 1 then sep else [];
      SeparatedPick(xs[1..], item, sep, f, g);
      PickAppend(item(xs[0]) + mid, Separated(xs[1..], item, sep), f);
      PickAppend(item(xs[0]), mid, f);
      assert Pick([], f) == [];
    }
  }

  // ---------------------------------------------------------------------------
  // Action ids a view offers
  // ---------------------------------------------------------------------------

  /** The action ids of a block's interactive elements, in order. */
  function BlockActionIds(b: Block): seq<string> {
    if b.Actions? then MapSeq(b.elements, (e: Element) => e.actionId) else []
  }

  /** Every action id a view offers, block by block. */
  function ActionIds(bs: seq<Block>): seq<string>
    decreases |bs|
  {
    if |bs| == 0 then [] else BlockActionIds(bs[0]) + ActionIds(bs[1..])
  }

  lemma {:induction false} ActionIdsAppend(a: seq<Block>, b: seq<Block>)
    ensures ActionIds(a + b) == ActionIds(a) + ActionIds(b)
    decreases |a|
  {
    if |a| == 0 {
      assert a + b == b;
    } else {
      assert (a + b)[0] == a[0] && (a + b)[1..] == a[1..] + b;
      ActionIdsAppend(a[1..], b);
    }
  }

  lemma ActionIdsSingle(b: Block)
    ensures ActionIds([b]) == BlockActionIds(b)
  {
    assert [b][1..] == [];
  }

  lemma ActionIdsTwo(a: Block, b: Block)
    ensures ActionIds([a, b]) == BlockActionIds(a) + BlockActionIds(b)
  {
    assert [a, b][1..] == [b];
    ActionIdsSingle(b);
  }

  lemma ActionIdsThree(a: Block, b: Block, c: Block)
    ensures ActionIds([a, b, c]) == BlockActionIds(a) + BlockActionIds(b) + BlockActionIds(c)
  {
    assert [a, b, c] == [a, b] + [c];
    ActionIdsAppend([a, b], [c]);
    ActionIdsTwo(a, b);
    ActionIdsSingle(c);
  }

  lemma ActionIdsFour(a: Block, b: Block, c: Block, d: Block)
    ensures ActionIds([a, b, c, d]) == BlockActionIds(a) + BlockActionIds(b) + BlockActionIds(c) + BlockActionIds(d)
  {
    assert [a, b, c, d] == [a, b, c] + [d];
    ActionIdsAppend([a, b, c], [d]);
    ActionIdsThree(a, b, c);
    ActionIdsSingle(d);
  }

  lemma ActionIdsFive(a: seq<Block>, b: seq<Block>, c: seq<Block>, d: seq<Block>, e: seq<Block>)
    ensures ActionIds(a + b + c + d + e) == ActionIds(a) + ActionIds(b) + ActionIds(c) + ActionIds(d) + ActionIds(e)
  {
    ActionIdsAppend(a + b + c + d, e);
    ActionIdsAppend(a + b + c, d);
    ActionIdsAppend(a + b, c);
    ActionIdsAppend(a, b);
  }

  /** A reader that finds nothing in any block collects nothing. */
  lemma {:induction false} PickNoneOf<U>(bs: seq<Block>, f: Block -> Option<U>)
    requires forall i :: 0 <= i < |bs| ==> f(bs[i]).None?
    ensures Pick(bs, f) == []
    decreases |bs|
  {
    if |bs| > 0 {
      PickNoneOf(bs[1..], f);
    }
  }
}

=== FILE: cache_job.dfy ===
/** The nightly cache job of internal/cronjobs/cache.go: yesterday's
    comments of each workspace are grouped by (prompt, origin, category),
    each group is summarised by the AI and stored, and then one issue report
    per origin is generated from the stored summaries.

    The database, the AI call and the random source are oracles in
    `CacheEnv`. A run is described by its `Trace`: the AI calls and the
    writes it attempted, in order, and the error that stopped it. */
module CacheJob {
  import opened Wrappers
  import opened Models
  import opened Seqs
  import opened Grouping
  import opened Sampling
  import opened Csv

  datatype Event =
    | TruncateIssues
    | AskAi(prompt: string, input: seq<Record>)
    | InsertSummary(workspace: string, key: FeedbackGroup, nComments: int, summary: string)
    | InsertIssueReport(workspace: string, origin: string, report: string)

  datatype Trace = Trace(events: seq<Event>, error: Option<string>)

  /** `inputLimit` is `AICacheInputLimit`; the prompts are the comment and
      issue cache prompts. `draw(ws, key)` is the random source while a
      group is shuffled. `writeError(e)` is the error a write fails with. */
  datatype CacheEnv = CacheEnv(
    inputLimit: nat,
    commentPrompt: string,
    issuePrompt: string,
    activeWorkspaces: Result<seq<string>, string>,
    commentsForCaching: string -> Result<seq<Feedback>, string>,
    distinctOrigins: string -> Result<seq<string>, string>,
    latestSummaries: string -> Result<seq<SummaryRow>, string>,
    draw: (string, FeedbackGroup) -> nat -> nat,
    ai: (string, seq<Record>) -> Result<string, string>,
    writeError: Event -> Option<string>)

  const Done: Trace := Trace([], None)

  /** Run `u` only if `t` ended without an error. */
  function Then(t: Trace, u: Trace): (r: Trace)
    ensures t.error.Some? ==> r == t
    ensures t.error.None? ==> r.events == t.events + u.events && r.error == u.error
  {
    if t.error.Some? then t else Trace(t.events + u.events, u.error)
  }

  /** Attempt a write; a failed write ends the trace with its error. */
  function Write(env: CacheEnv, e: Event): Trace {
    Trace([e], env.writeError(e))
  }

  // ---------------------------------------------------------------------------
  // Comment summaries
  // ---------------------------------------------------------------------------

  /** The cohort key of a feedback row. */
  function KeyOf(f: Feedback): FeedbackGroup {
    FeedbackGroup(f.prompt, f.origin, f.category)
  }

  /** `GroupFeedback`: the bucket of every key holds exactly the rows with
      that key, in input order, and the buckets add up to the input. */
  lemma GroupFeedbackPartition(rows: seq<Feedback>)
    ensures forall k :: k in GroupBy(rows, KeyOf) ==> GroupBy(rows, KeyOf)[k] == Bucket(rows, KeyOf, k)
    ensures forall i :: 0 <= i < |rows| ==> KeyOf(rows[i]) in GroupBy(rows, KeyOf)
    ensures BucketSizes(rows, KeyOf, GroupKeys(rows, KeyOf)) == |rows|
  {
    forall i | 0 <= i < |rows| ensures KeyOf(rows[i]) in GroupBy(rows, KeyOf) {
      BucketMembers(rows, KeyOf, KeyOf(rows[i]));
      assert rows[i] in Bucket(rows, KeyOf, KeyOf(rows[i]));
    }
    GroupSizesAddUp(rows, KeyOf);
  }

  /** Ask the AI for a summary of `sample` and store it with the sample's
      size as `n_comments`. */
  function SummariseSample(env: CacheEnv, ws: string, key: FeedbackGroup, sample: seq<Feedback>): (r: Trace)
    ensures 1 <= |r.events| <= 2 && r.events[0] == AskAi(env.commentPrompt, FeedbackToCSV(sample))
    ensures r.error.None? ==> |r.events| == 2
    ensures |r.events| == 2 ==> && r.events[1].InsertSummary? && r.events[1].workspace == ws
                                && r.events[1].key == key && r.events[1].nComments == |sample|
  {
    var input := FeedbackToCSV(sample);
    match env.ai(env.commentPrompt, input)
    case Err(e) => Trace([AskAi(env.commentPrompt, input)], Some(e))
    case Ok(summary) =>
      var store := InsertSummary(ws, key, |sample|, summary);
      Trace([AskAi(env.commentPrompt, input), store], env.writeError(store))
  }

  /** `processFeedbackGroup`: sample the group, ask the AI for a summary of
      the sample and store it with the sample's size as `n_comments`. */
  function ProcessGroup(env: CacheEnv, ws: string, key: FeedbackGroup, group: seq<Feedback>): (r: Trace)
    ensures 1 <= |r.events| <= 2 && r.events[0].AskAi? && r.events[0].prompt == env.commentPrompt
    ensures r.events[0].input == FeedbackToCSV(Sample(group, env.inputLimit, env.draw(ws, key)))
    ensures r.error.None? ==> |r.events| == 2
    ensures |r.events| == 2 ==> && r.events[1].InsertSummary? && r.events[1].workspace == ws
                                && r.events[1].key == key
                                && r.events[1].nComments == (if |group| > env.inputLimit then env.inputLimit else |group|)
  {
    SummariseSample(env, ws, key, Sample(group, env.inputLimit, env.draw(ws, key)))
  }

  function ProcessGroups(env: CacheEnv, ws: string, groups: map<FeedbackGroup, seq<Feedback>>,
                         keys: seq<FeedbackGroup>): Trace
    requires forall k :: k in keys ==> k in groups
    decreases |keys|
  {
    if |keys| == 0 then Done
    else Then(ProcessGroup(env, ws, keys[0], groups[keys[0]]), ProcessGroups(env, ws, groups, keys[1..]))
  }

  /** The bags `f` gives the keys, added up. */
  ghost function BagSum<K, V>(keys: seq<K>, f: K -> multiset<V>): multiset<V>
    decreases |keys|
  {
    if |keys| == 0 then multiset{} else f(keys[0]) + BagSum(keys[1..], f)
  }

  lemma {:induction false} BagSumConcat<K, V>(a: seq<K>, b: seq<K>, f: K -> multiset<V>)
    ensures BagSum(a + b, f) == BagSum(a, f) + BagSum(b, f)
    decreases |a|
  {
    if |a| == 0 {
      assert a + b == b;
    } else {
      assert (a + b)[0] == a[0];
      assert (a + b)[1..] == a[1..] + b;
      BagSumConcat(a[1..], b, f);
    }
  }

  /** Adding up the same keys in another order gives the same bag. */
  lemma {:induction false} BagSumPermutation<K, V>(k1: seq<K>, k2: seq<K>, f: K -> multiset<V>)
    requires multiset(k1) == multiset(k2)
    ensures BagSum(k1, f) == BagSum(k2, f)
    decreases |k1|
  {
    if |k1| == 0 {
      assert |k2| == |multiset(k2)| == 0;
    } else {
      var x := k1[0];
      assert x in multiset(k2);
      var j :| 0 <= j < |k2| && k2[j] == x;
      var rest := k2[..j] + k2[j + 1..];
      assert k2 == k2[..j] + [x] + k2[j + 1..];
      assert multiset(k2) == multiset(k2[..j]) + multiset{x} + multiset(k2[j + 1..]);
      assert k1 == [x] + k1[1..];
      assert multiset(k1) == multiset{x} + multiset(k1[1..]);
      assert multiset(rest) == multiset(k2[..j]) + multiset(k2[j + 1..]);
      forall y ensures multiset(rest)[y] == multiset(k1[1..])[y] {
        assert multiset(k1)[y] == multiset(k2)[y];
      }
      assert multiset(rest) == multiset(k1[1..]);
      BagSumPermutation(k1[1..], rest, f);
      BagSumConcat(k2[..j], k2[j + 1..], f);
      BagSumConcat(k2[..j], [x], f);
      BagSumConcat(k2[..j] + [x], k2[j + 1..], f);
      assert BagSum([x], f) == f(x);
    }
  }

  /** The AI calls and inserts of one group, as a bag; nothing for a key
      without a group. */
  ghost function GroupBag(env: CacheEnv, ws: string, groups: map<FeedbackGroup, seq<Feedback>>): FeedbackGroup -> multiset<Event>
  {
    k => if k in groups then multiset(ProcessGroup(env, ws, k, groups[k]).events) else multiset{}
  }

  ghost predicate GroupsSucceed(env: CacheEnv, ws: string, groups: map<FeedbackGroup, seq<Feedback>>,
                                keys: seq<FeedbackGroup>)
    requires forall k :: k in keys ==> k in groups
  {
    forall k :: k in keys ==> ProcessGroup(env, ws, k, groups[k]).error.None?
  }

  /** The group loop ends without an error exactly when every group it
      visits succeeds, and then it records the events of every group. */
  lemma {:induction false} ProcessGroupsSucceed(env: CacheEnv, ws: string, groups: map<FeedbackGroup, seq<Feedback>>,
                                                keys: seq<FeedbackGroup>)
    requires forall k :: k in keys ==> k in groups
    ensures ProcessGroups(env, ws, groups, keys).error.None? <==> GroupsSucceed(env, ws, groups, keys)
    ensures ProcessGroups(env, ws, groups, keys).error.None? ==>
              multiset(ProcessGroups(env, ws, groups, keys).events) == BagSum(keys, GroupBag(env, ws, groups))
    decreases |keys|
  {
    if |keys| > 0 {
      ProcessGroupsSucceed(env, ws, groups, keys[1..]);
      assert forall k :: k in keys <==> k == keys[0] || k in keys[1..];
      assert GroupBag(env, ws, groups)(keys[0]) == multiset(ProcessGroup(env, ws, keys[0], groups[keys[0]]).events);
    }
  }

  /** Go ranges over the group map in an unspecified order. Whatever order
      the groups are visited in, the loop succeeds in the same cases, and a
      successful loop makes the same AI calls and stores the same summaries. */
  lemma ProcessGroupsOrderFree(env: CacheEnv, ws: string, groups: map<FeedbackGroup, seq<Feedback>>,
                               k1: seq<FeedbackGroup>, k2: seq<FeedbackGroup>)
    requires forall k :: k in k1 ==> k in groups
    requires forall k :: k in k2 ==> k in groups
    requires multiset(k1) == multiset(k2)
    ensures ProcessGroups(env, ws, groups, k1).error.None? <==> ProcessGroups(env, ws, groups, k2).error.None?
    ensures ProcessGroups(env, ws, groups, k1).error.None? ==>
              multiset(ProcessGroups(env, ws, groups, k1).events) == multiset(ProcessGroups(env, ws, groups, k2).events)
  {
    ProcessGroupsSucceed(env, ws, groups, k1);
    ProcessGroupsSucceed(env, ws, groups, k2);
    BagSumPermutation(k1, k2, GroupBag(env, ws, groups));
    forall k ensures k in k1 <==> k in k2 {
      assert k in k1 <==> k in multiset(k1);
      assert k in k2 <==> k in multiset(k2);
    }
  }

  // ---------------------------------------------------------------------------
  // Issue reports
  // ---------------------------------------------------------------------------

  function OriginOf(s: SummaryRow): string {
    s.origin
  }

  /** What the issue report of `origin` is generated from, as written: the
      first `limit` rows of the workspace's recent summaries, whatever
      their origin. */
  function IssueInputAsWritten(rows: seq<SummaryRow>, origin: string, limit: nat): (r: seq<SummaryRow>)
    ensures |r| <= limit && |r| <= |rows|
    ensures forall i :: 0 <= i < |r| ==> r[i] == rows[i]
  {
    Take(rows, limit)
  }

  /** As written, every origin receives the same list. */
  lemma AsWrittenSameForEveryOrigin(rows: seq<SummaryRow>, o1: string, o2: string, limit: nat)
    ensures IssueInputAsWritten(rows, o1, limit) == IssueInputAsWritten(rows, o2, limit)
  {
  }

  /** So the report of origin "web" is generated from a summary of origin
      "app". */
  lemma AsWrittenMixesOrigins()
    ensures var web := SummaryRow(Calendar.Date(2024, 1, 2), "web", "c", "p", 1, "slow");
            var app := SummaryRow(Calendar.Date(2024, 1, 2), "app", "c", "p", 1, "crash");
            app in IssueInputAsWritten([web, app], "web", 10) && app.origin != "web"
  {
  }

  /** What the issue report of `origin` is generated from: the first
      `limit` of that origin's recent summaries, in the order the query
      returns them. */
  function IssueInput(rows: seq<SummaryRow>, origin: string, limit: nat): (r: seq<SummaryRow>)
    ensures |r| <= limit
    ensures forall s :: s in r ==> s in rows && s.origin == origin
    ensures |r| <= |Bucket(rows, OriginOf, origin)|
    ensures forall i :: 0 <= i < |r| ==> r[i] == Bucket(rows, OriginOf, origin)[i]
    ensures |Bucket(rows, OriginOf, origin)| <= limit ==> r == Bucket(rows, OriginOf, origin)
  {
    BucketMembers(rows, OriginOf, origin);
    Take(Bucket(rows, OriginOf, origin), limit)
  }

  /** How the rows an issue report is generated from are chosen out of
      the workspace's recent summaries, given the origin and the limit. */
  type IssueSelector = (seq<SummaryRow>, string, nat) -> seq<SummaryRow>

  /** The report step for each origin in turn, with the report input chosen
      by `select`; an empty report is skipped without an error. Every AI
      call is given the selection of one of the origins. */
  function ReportOriginsBy(env: CacheEnv, ws: string, origins: seq<string>, select: IssueSelector): (r: Trace)
    ensures forall e :: e in r.events ==>
              (e.AskAi? && e.prompt == env.issuePrompt) || (e.InsertIssueReport? && e.workspace == ws && e.report != "")
    ensures forall e :: e in r.events && e.AskAi? ==>
              env.latestSummaries(ws).Ok? &&
              exists o :: o in origins && e.input == SummariesToCSV(select(env.latestSummaries(ws).value, o, env.inputLimit), true)
    ensures forall e :: e in r.events && e.InsertIssueReport? ==> e.origin in origins
    decreases |origins|
  {
    if |origins| == 0 then Done
    else
      var o := origins[0];
      match env.latestSummaries(ws)
      case Err(e) => Trace([], Some(e))
      case Ok(rows) =>
        var input := SummariesToCSV(select(rows, o, env.inputLimit), true);
        var ask := AskAi(env.issuePrompt, input);
        match env.ai(env.issuePrompt, input)
        case Err(e) => Trace([ask], Some(e))
        case Ok(report) =>
          if report == "" then Then(Trace([ask], None), ReportOriginsBy(env, ws, origins[1..], select))
          else
            var step := Then(Trace([ask], None), Write(env, InsertIssueReport(ws, o, report)));
            Then(step, ReportOriginsBy(env, ws, origins[1..], select))
  }

  /** The report loop as written: every origin's report is generated from
      the same first `inputLimit` rows of the workspace's summaries. */
  function ReportOrigins(env: CacheEnv, ws: string, origins: seq<string>): (r: Trace)
    ensures forall e :: e in r.events ==>
              (e.AskAi? && e.prompt == env.issuePrompt) || (e.InsertIssueReport? && e.workspace == ws && e.report != "")
    ensures forall e :: e in r.events && e.AskAi? ==>
              env.latestSummaries(ws).Ok? &&
              e.input == SummariesToCSV(Take(env.latestSummaries(ws).value, env.inputLimit), true)
  {
    var r := ReportOriginsBy(env, ws, origins, IssueInputAsWritten);
    assert forall e :: e in r.events && e.AskAi? ==>
             e.input == SummariesToCSV(Take(env.latestSummaries(ws).value, env.inputLimit), true) by {
      forall e | e in r.events && e.AskAi?
        ensures e.input == SummariesToCSV(Take(env.latestSummaries(ws).value, env.inputLimit), true)
      {
        var o :| o in origins && e.input == SummariesToCSV(IssueInputAsWritten(env.latestSummaries(ws).value, o, env.inputLimit), true);
      }
    }
    r
  }

  /** The report loop as intended: each origin's report is generated from
      that origin's own summaries only. */
  function ReportOriginsIntended(env: CacheEnv, ws: string, origins: seq<string>): (r: Trace)
    ensures forall e :: e in r.events && e.AskAi? ==>
              env.latestSummaries(ws).Ok? &&
              exists o :: o in origins && e.input == SummariesToCSV(IssueInput(env.latestSummaries(ws).value, o, env.inputLimit), true)
  {
    ReportOriginsBy(env, ws, origins, IssueInput)
  }

  /** When the recent summaries all come from one origin, the report of that
      origin is generated from the same rows either way. */
  lemma SingleOriginInputsAgree(rows: seq<SummaryRow>, o: string, limit: nat)
    requires forall i :: 0 <= i < |rows| ==> rows[i].origin == o
    ensures IssueInput(rows, o, limit) == IssueInputAsWritten(rows, o, limit)
  {
    BucketOfOneKey(rows, OriginOf, o);
  }

  /** An empty report writes nothing and does not stop the loop. */
  lemma EmptyReportSkipped(env: CacheEnv, ws: string, o: string, rest: seq<string>)
    requires env.latestSummaries(ws).Ok?
    requires env.ai(env.issuePrompt, SummariesToCSV(IssueInputAsWritten(env.latestSummaries(ws).value, o, env.inputLimit), true)) == Ok("")
    ensures ReportOrigins(env, ws, [o] + rest).error == ReportOrigins(env, ws, rest).error
    ensures forall e :: e in ReportOrigins(env, ws, [o] + rest).events && e.InsertIssueReport? && e.origin == o ==>
              e in ReportOrigins(env, ws, rest).events
  {
    assert ([o] + rest)[1..] == rest;
  }

  /** `prepareIssueReports`. */
  function PrepareIssueReports(env: CacheEnv, ws: string): Trace {
    match env.distinctOrigins(ws)
    case Err(e) => Trace([], Some(e))
    case Ok(origins) => ReportOrigins(env, ws, origins)
  }

  // ---------------------------------------------------------------------------
  // The job
  // ---------------------------------------------------------------------------

  /** `processWorkspace`: the groups are visited in order of first
      appearance, then the issue reports are prepared. */
  function ProcessWorkspace(env: CacheEnv, ws: string): Trace {
    match env.commentsForCaching(ws)
    case Err(e) => Trace([], Some(e))
    case Ok(rows) =>
      var groups := GroupBy(rows, KeyOf);
      Then(ProcessGroups(env, ws, groups, GroupKeys(rows, KeyOf)), PrepareIssueReports(env, ws))
  }

  function ProcessWorkspaces(env: CacheEnv, workspaces: seq<string>): Trace
    decreases |workspaces|
  {
    if |workspaces| == 0 then Done
    else Then(ProcessWorkspace(env, workspaces[0]), ProcessWorkspaces(env, workspaces[1..]))
  }

  /** `RunDailyCacheJob`: the issues table is truncated first; a failure
      there, or in listing the workspaces, ends the run. */
  function RunDailyCacheJob(env: CacheEnv): (r: Trace)
    ensures |r.events| > 0 && r.events[0] == TruncateIssues
    ensures env.writeError(TruncateIssues).Some? ==> r == Trace([TruncateIssues], env.writeError(TruncateIssues))
    ensures env.writeError(TruncateIssues).None? && env.activeWorkspaces.Err? ==>
              r == Trace([TruncateIssues], Some(env.activeWorkspaces.error))
  {
    var rest := match env.activeWorkspaces
      case Err(e) => Trace([], Some(e))
      case Ok(workspaces) => ProcessWorkspaces(env, workspaces);
    Then(Write(env, TruncateIssues), rest)
  }

  /** The first workspace that fails ends the job: the workspaces after it
      are not visited. */
  lemma {:induction false} LaterWorkspacesIgnored(env: CacheEnv, before: seq<string>, ws: string, after: seq<string>)
    requires forall i :: 0 <= i < |before| ==> ProcessWorkspace(env, before[i]).error.None?
    requires ProcessWorkspace(env, ws).error.Some?
    ensures ProcessWorkspaces(env, before + [ws] + after) == ProcessWorkspaces(env, before + [ws])
    ensures ProcessWorkspaces(env, before + [ws] + after).error == ProcessWorkspace(env, ws).error
    decreases |before|
  {
    if |before| == 0 {
      assert before + [ws] + after == [ws] + after;
      assert before + [ws] == [ws];
    } else {
      assert (before + [ws] + after)[1..] == before[1..] + [ws] + after;
      assert (before + [ws])[1..] == before[1..] + [ws];
      LaterWorkspacesIgnored(env, before[1..], ws, after);
    }
  }

  /** What every stored row of a run satisfies: a summary counts between 1
      and `limit` comments, and no issue report is empty. */
  predicate Stored(e: Event, limit: nat) {
    && (e.InsertSummary? ==> 1 <= e.nComments <= limit)
    && (e.InsertIssueReport? ==> e.report != "")
  }

  predicate AllStored(events: seq<Event>, limit: nat) {
    forall e :: e in events ==> Stored(e, limit)
  }

  lemma ThenStored(t: Trace, u: Trace, limit: nat)
    requires AllStored(t.events, limit) && AllStored(u.events, limit)
    ensures AllStored(Then(t, u).events, limit)
  {
  }

  lemma GroupStored(env: CacheEnv, ws: string, key: FeedbackGroup, group: seq<Feedback>)
    requires env.inputLimit > 0 && group != []
    ensures AllStored(ProcessGroup(env, ws, key, group).events, env.inputLimit)
  {
    var g := ProcessGroup(env, ws, key, group);
    assert |g.events| == 2 ==> Stored(g.events[1], env.inputLimit);
  }

  lemma {:induction false} GroupsStored(env: CacheEnv, ws: string, groups: map<FeedbackGroup, seq<Feedback>>,
                                        keys: seq<FeedbackGroup>)
    requires env.inputLimit > 0
    requires forall k :: k in keys ==> k in groups && groups[k] != []
    ensures AllStored(ProcessGroups(env, ws, groups, keys).events, env.inputLimit)
    decreases |keys|
  {
    if |keys| > 0 {
      GroupStored(env, ws, keys[0], groups[keys[0]]);
      GroupsStored(env, ws, groups, keys[1..]);
      ThenStored(ProcessGroup(env, ws, keys[0], groups[keys[0]]), ProcessGroups(env, ws, groups, keys[1..]),
                 env.inputLimit);
    }
  }

  lemma WorkspaceStored(env: CacheEnv, ws: string)
    requires env.inputLimit > 0
    ensures AllStored(ProcessWorkspace(env, ws).events, env.inputLimit)
  {
    if env.commentsForCaching(ws).Ok? {
      var rows := env.commentsForCaching(ws).value;
      var groups := GroupBy(rows, KeyOf);
      var keys := GroupKeys(rows, KeyOf);
      GroupsStored(env, ws, groups, keys);
      ThenStored(ProcessGroups(env, ws, groups, keys), PrepareIssueReports(env, ws), env.inputLimit);
    }
  }

  lemma {:induction false} WorkspacesStored(env: CacheEnv, workspaces: seq<string>)
    requires env.inputLimit > 0
    ensures AllStored(ProcessWorkspaces(env, workspaces).events, env.inputLimit)
    decreases |workspaces|
  {
    if |workspaces| > 0 {
      WorkspaceStored(env, workspaces[0]);
      WorkspacesStored(env, workspaces[1..]);
      ThenStored(ProcessWorkspace(env, workspaces[0]), ProcessWorkspaces(env, workspaces[1..]), env.inputLimit);
    }
  }

  /** Over a whole run (with the positive limit the configuration loader
      insists on), every stored summary counts between 1 and
      `AICacheInputLimit` comments, and every stored report is non-empty. */
  lemma RunStoresBoundedRows(env: CacheEnv)
    requires env.inputLimit > 0
    ensures AllStored(RunDailyCacheJob(env).events, env.inputLimit)
  {
    if env.activeWorkspaces.Ok? {
      WorkspacesStored(env, env.activeWorkspaces.value);
    }
  }
}

=== FILE: calendar.dfy ===
/** The proleptic Gregorian calendar in UTC, as far as the pipeline uses Go's
    `time` package: civil dates, day arithmetic (`AddDate(0, 0, k)`),
    weekdays, the "2006-01-02" layout and second-resolution timestamps.
    Days are numbered from 0001-01-01 (day 0), which is also Go's zero time. */
module Calendar {
  import opened Wrappers
  import opened Text

  datatype Date = Date(year: int, month: int, day: int)

  predicate IsLeapYear(y: int) {
    y % 4 == 0 && (y % 100 != 0 || y % 400 == 0)
  }

  function DaysInMonth(y: int, m: int): (n: int)
    requires 1 <= m <= 12
    ensures 28 <= n <= 31
    ensures m == 2 ==> (n == 29 <==> IsLeapYear(y))
  {
    if m == 2 then (if IsLeapYear(y) then 29 else 28)
    else if m == 4 || m == 6 || m == 9 || m == 11 then 30
    else 31
  }

  predicate ValidDate(d: Date) {
    1 <= d.month <= 12 && 1 <= d.day <= DaysInMonth(d.year, d.month)
  }

  /** A date that exists: what a Go `time.Time` truncated to a day holds. */
  type CivilDate = d: Date | ValidDate(d) witness Date(1, 1, 1)

  /** Days in the months of year `y` before month `m`. */
  function DaysBeforeMonth(y: int, m: int): nat
    requires 1 <= m <= 12
  {
    if m == 1 then 0 else DaysBeforeMonth(y, m - 1) + DaysInMonth(y, m - 1)
  }

  /** Leap years among 1 .. y-1 (for y <= 0, minus those among y .. 0). */
  function LeapYearsBefore(y: int): int {
    (y - 1) / 4 - (y - 1) / 100 + (y - 1) / 400
  }

  /** Day number: 0 for 0001-01-01, counting forwards and backwards. */
  function DayNumber(d: Date): int
    requires 1 <= d.month <= 12
  {
    365 * (d.year - 1) + LeapYearsBefore(d.year) + DaysBeforeMonth(d.year, d.month) + d.day - 1
  }

  lemma LeapYearsStep(y: int)
    ensures LeapYearsBefore(y + 1) == LeapYearsBefore(y) + (if IsLeapYear(y) then 1 else 0)
  {
    assert y / 4 - (y - 1) / 4 == (if y % 4 == 0 then 1 else 0);
    assert y / 100 - (y - 1) / 100 == (if y % 100 == 0 then 1 else 0);
    assert y / 400 - (y - 1) / 400 == (if y % 400 == 0 then 1 else 0);
    assert y % 400 == 0 ==> y % 100 == 0 && y % 4 == 0;
    assert y % 100 == 0 ==> y % 4 == 0;
  }

  lemma YearLength(y: int)
    ensures DaysBeforeMonth(y, 12) + 31 == 365 + (if IsLeapYear(y) then 1 else 0)
  {
    var leap := if IsLeapYear(y) then 1 else 0;
    assert DaysBeforeMonth(y, 2) == 31;
    assert DaysBeforeMonth(y, 3) == 59 + leap;
    assert DaysBeforeMonth(y, 4) == 90 + leap;
    assert DaysBeforeMonth(y, 5) == 120 + leap;
    assert DaysBeforeMonth(y, 6) == 151 + leap;
    assert DaysBeforeMonth(y, 7) == 181 + leap;
    assert DaysBeforeMonth(y, 8) == 212 + leap;
    assert DaysBeforeMonth(y, 9) == 243 + leap;
    assert DaysBeforeMonth(y, 10) == 273 + leap;
    assert DaysBeforeMonth(y, 11) == 304 + leap;
  }

  /** The next calendar day, as `AddDate(0, 0, 1)` normalises it. */
  function NextDay(d: Date): (r: Date)
    requires ValidDate(d)
    ensures ValidDate(r) && DayNumber(r) == DayNumber(d) + 1
  {
    if d.day < DaysInMonth(d.year, d.month) then Date(d.year, d.month, d.day + 1)
    else if d.month < 12 then Date(d.year, d.month + 1, 1)
    else
      YearLength(d.year);
      LeapYearsStep(d.year);
      Date(d.year + 1, 1, 1)
  }

  /** The previous calendar day, as `AddDate(0, 0, -1)` normalises it. */
  function PrevDay(d: Date): (r: Date)
    requires ValidDate(d)
    ensures ValidDate(r) && DayNumber(r) == DayNumber(d) - 1
  {
    if d.day > 1 then Date(d.year, d.month, d.day - 1)
    else if d.month > 1 then Date(d.year, d.month - 1, DaysInMonth(d.year, d.month - 1))
    else
      YearLength(d.year - 1);
      LeapYearsStep(d.year - 1);
      Date(d.year - 1, 12, 31)
  }

  /** `AddDate(0, 0, k)`: moves `k` days forwards or backwards. */
  function AddDays(d: Date, k: int): (r: Date)
    requires ValidDate(d)
    ensures ValidDate(r) && DayNumber(r) == DayNumber(d) + k
    decreases if k < 0 then -k else k
  {
    if k == 0 then d
    else if k > 0 then AddDays(NextDay(d), k - 1)
    else AddDays(PrevDay(d), k + 1)
  }

  /** Two valid dates with the same day number are the same date. */
  lemma {:induction false} DayNumberInjective(a: Date, b: Date)
    requires ValidDate(a) && ValidDate(b) && DayNumber(a) == DayNumber(b)
    ensures a == b
  {
    if a.year != b.year {
      if a.year < b.year {
        YearBoundary(a, b);
      } else {
        YearBoundary(b, a);
      }
    } else if a.month != b.month {
      if a.month < b.month {
        MonthBoundary(a.year, a.month, b.month);
      } else {
        MonthBoundary(a.year, b.month, a.month);
      }
    }
  }

  /** Every day of a later month comes after every day of an earlier one. */
  lemma {:induction false} MonthBoundary(y: int, m1: int, m2: int)
    requires 1 <= m1 < m2 <= 12
    ensures DaysBeforeMonth(y, m2) >= DaysBeforeMonth(y, m1) + DaysInMonth(y, m1)
    decreases m2 - m1
  {
    if m2 > m1 + 1 {
      MonthBoundary(y, m1, m2 - 1);
    }
  }

  /** The last day of a year is numbered one below the first of the next. */
  lemma YearStart(y: int)
    ensures DayNumber(Date(y + 1, 1, 1)) == DayNumber(Date(y, 12, 31)) + 1
  {
    YearLength(y);
    LeapYearsStep(y);
  }

  lemma {:induction false} YearOrder(y1: int, y2: int)
    requires y1 < y2
    ensures DayNumber(Date(y2, 1, 1)) > DayNumber(Date(y1, 12, 31))
    decreases y2 - y1
  {
    YearStart(y1);
    if y2 > y1 + 1 {
      YearOrder(y1 + 1, y2);
      YearLength(y1 + 1);
    }
  }

  lemma YearBoundary(a: Date, b: Date)
    requires ValidDate(a) && ValidDate(b) && a.year < b.year
    ensures DayNumber(a) < DayNumber(b)
  {
    YearOrder(a.year, b.year);
    if a.month < 12 {
      MonthBoundary(a.year, a.month, 12);
    }
  }

  /** Weekday with Sunday = 0, ..., Saturday = 6, as Go's `time.Weekday`;
      0001-01-01 was a Monday. */
  function Weekday(d: Date): (w: int)
    requires 1 <= d.month <= 12
    ensures 0 <= w < 7
  {
    (DayNumber(d) + 1) % 7
  }

  const Sunday := 0
  const Monday := 1
  const Saturday := 6

  predicate IsWeekend(d: Date)
    requires 1 <= d.month <= 12
  {
    Weekday(d) == Saturday || Weekday(d) == Sunday
  }

  /** Within a month, moving on by one day moves the weekday on by one. */
  lemma WeekdayNext(y: int, m: int, d: int)
    requires 1 <= m <= 12
    ensures Weekday(Date(y, m, d + 1)) == (Weekday(Date(y, m, d)) + 1) % 7
  {
  }

  /** Day of the month of the first weekday: day 1 unless the month starts on
      a Saturday (then the 3rd) or a Sunday (then the 2nd). */
  function FirstWeekdayDay(y: int, m: int): (r: int)
    requires 1 <= m <= 12
    ensures 1 <= r <= 3
    ensures !IsWeekend(Date(y, m, r))
    ensures forall k :: 1 <= k < r ==> IsWeekend(Date(y, m, k))
  {
    var w := Weekday(Date(y, m, 1));
    WeekdayNext(y, m, 1);
    WeekdayNext(y, m, 2);
    if w == Saturday then 3 else if w == Sunday then 2 else 1
  }

  /** Day of the month of the second weekday. */
  function SecondWeekdayDay(y: int, m: int): (r: int)
    requires 1 <= m <= 12
    ensures FirstWeekdayDay(y, m) < r <= 4
    ensures !IsWeekend(Date(y, m, r))
    ensures forall k :: FirstWeekdayDay(y, m) < k < r ==> IsWeekend(Date(y, m, k))
  {
    var f := FirstWeekdayDay(y, m);
    WeekdayNext(y, m, 1);
    WeekdayNext(y, m, 2);
    WeekdayNext(y, m, 3);
    if Weekday(Date(y, m, f)) == 5 then f + 3 else f + 1
  }

  /** The scan in `IsFirstWeekdayOfMonth`: start at day 1 and step a day at
      a time while the day is a Saturday or Sunday. */
  method FirstWeekdayOfMonth(y: int, m: int) returns (first: Date)
    requires 1 <= m <= 12
    ensures ValidDate(first) && first.year == y && first.month == m
    ensures first.day == FirstWeekdayDay(y, m)
  {
    first := Date(y, m, 1);
    while IsWeekend(first)
      invariant first.year == y && first.month == m && 1 <= first.day <= FirstWeekdayDay(y, m)
      decreases FirstWeekdayDay(y, m) - first.day
    {
      first := NextDay(first);
    }
  }

  /** The scan in `IsSecondWeekdayOfQuarter`: one day after the first
      weekday, then step while on a weekend. */
  method SecondWeekdayOfMonth(y: int, m: int) returns (second: Date)
    requires 1 <= m <= 12
    ensures ValidDate(second) && second.year == y && second.month == m
    ensures second.day == SecondWeekdayDay(y, m)
  {
    var first := FirstWeekdayOfMonth(y, m);
    second := NextDay(first);
    while IsWeekend(second)
      invariant second.year == y && second.month == m
      invariant FirstWeekdayDay(y, m) < second.day <= SecondWeekdayDay(y, m)
      decreases SecondWeekdayDay(y, m) - second.day
    {
      second := NextDay(second);
    }
  }

  /** Month index counting months from year 0; `DATE_TRUNC('month', ...)`
      comparisons become comparisons of this index. */
  function MonthIndex(d: Date): int {
    d.year * 12 + (d.month - 1)
  }

  /** Go's `time.Month.String`. */
  function MonthName(m: int): (s: string)
    requires 1 <= m <= 12
    ensures |s| >= 3
  {
    ["January", "February", "March", "April", "May", "June", "July",
     "August", "September", "October", "November", "December"][m - 1]
  }

  // ---------------------------------------------------------------------------
  // The "2006-01-02" layout
  // ---------------------------------------------------------------------------

  /** Go's "2006" element: at least four digits, a minus sign before negative
      years. */
  function FormatYear(y: int): (s: string)
    ensures 0 <= y <= 9999 ==> |s| == 4 && forall i :: 0 <= i < 4 ==> IsDigit(s[i])
  {
    if y < 0 then "-" + PadNat(-y, 4)
    else if y <= 9999 then (FourDigits(y); PadNat(y, 4))
    else PadNat(y, 4)
  }

  function Format2(n: nat): (s: string)
    requires n < 100
    ensures |s| == 2 && IsDigit(s[0]) && IsDigit(s[1])
    ensures DigitsValue(s) == n
  {
    var s := [DigitChar(n / 10), DigitChar(n % 10)];
    assert s[..1] == [DigitChar(n / 10)];
    assert s[..1][..0] == [];
    assert DigitsValue(s[..1]) == n / 10;
    s
  }

  /** `t.Format("2006-01-02")`. */
  function FormatDate(d: Date): (s: string)
    requires ValidDate(d)
    ensures 0 <= d.year <= 9999 ==> |s| == 10 && s[4] == '-' && s[7] == '-'
  {
    FormatYear(d.year) + "-" + Format2(d.month) + "-" + Format2(d.day)
  }

  /** `time.Parse("2006-01-02", s)`: exactly four year digits, two month
      digits in 01..12 and two day digits within the month. */
  function ParseDate(s: string): (r: Option<Date>)
    ensures r.Some? ==> ValidDate(r.value) && 0 <= r.value.year <= 9999
  {
    if |s| != 10 || s[4] != '-' || s[7] != '-' then None
    else if !(forall i :: 0 <= i < 10 && i != 4 && i != 7 ==> IsDigit(s[i])) then None
    else
      var y := DigitsValue(s[..4]);
      DigitsBound(s[..4]);
      assert Pow10(4) == 10000;
      var m := DigitsValue(s[5..7]);
      var d := DigitsValue(s[8..10]);
      if 1 <= m <= 12 && 1 <= d <= DaysInMonth(y, m) then Some(Date(y, m, d)) else None
  }

  /** `utils.ParseDate`: a malformed string silently becomes Go's zero time,
      0001-01-01. */
  function ParseDateOrZero(s: string): (d: Date)
    ensures ValidDate(d)
  {
    match ParseDate(s)
    case Some(d) => d
    case None => Date(1, 1, 1)
  }

  /** Four zero-padded digits read back as the number they encode. */
  lemma FourDigits(n: nat)
    requires n <= 9999
    ensures |PadNat(n, 4)| == 4
    ensures forall i :: 0 <= i < 4 ==> IsDigit(PadNat(n, 4)[i])
    ensures DigitsValue(PadNat(n, 4)) == n
  {
    var d := NatToString(n);
    DigitsBound(d);
    assert Pow10(4) == 10000;
    if |d| > 4 {
      Pow10Monotone(4, |d| - 1);
    }
    if |d| < 4 {
      ZerosPrefixValue(Zeros(4 - |d|), d);
    }
  }

  /** A digit string of length k is below 10^k. */
  lemma {:induction false} DigitsBound(s: string)
    requires forall i :: 0 <= i < |s| ==> IsDigit(s[i])
    ensures DigitsValue(s) < Pow10(|s|)
    ensures |s| > 1 && s[0] != '0' ==> DigitsValue(s) >= Pow10(|s| - 1)
  {
    if |s| > 0 {
      DigitsBound(s[..|s| - 1]);
      if |s| > 1 && s[0] != '0' {
        assert s[..|s| - 1][0] == s[0];
        if |s| == 2 {
          assert DigitsValue(s[..1]) == DigitsValue(s[..1][..0]) * 10 + DigitValue(s[0]);
        }
      }
    }
  }

  lemma {:induction false} Pow10Monotone(i: nat, j: nat)
    requires i <= j
    ensures Pow10(i) <= Pow10(j)
    decreases j - i
  {
    if i < j {
      Pow10Monotone(i, j - 1);
    }
  }

  function Pow10(k: nat): (p: nat)
    ensures p >= 1
  {
    if k == 0 then 1 else 10 * Pow10(k - 1)
  }

  /** Leading zeros do not change a digit string's value. */
  lemma {:induction false} ZerosPrefixValue(z: string, d: string)
    requires forall i :: 0 <= i < |z| ==> z[i] == '0'
    requires forall i :: 0 <= i < |d| ==> IsDigit(d[i])
    ensures forall i :: 0 <= i < |z + d| ==> IsDigit((z + d)[i])
    ensures DigitsValue(z + d) == DigitsValue(d)
    decreases |d|
  {
    if |d| == 0 {
      assert z + d == z;
      AllZerosValue(z);
    } else {
      var d' := d[..|d| - 1];
      assert (z + d)[..|z + d| - 1] == z + d';
      ZerosPrefixValue(z, d');
    }
  }

  lemma {:induction false} AllZerosValue(z: string)
    requires forall i :: 0 <= i < |z| ==> z[i] == '0'
    ensures DigitsValue(z) == 0
  {
    if |z| > 0 {
      AllZerosValue(z[..|z| - 1]);
    }
  }

  /** Formatting a four-digit-year date and parsing it back gives the date. */
  lemma FormatParseRoundTrip(d: Date)
    requires ValidDate(d) && 0 <= d.year <= 9999
    ensures ParseDate(FormatDate(d)) == Some(d)
  {
    var s := FormatDate(d);
    FourDigits(d.year);
    var y := FormatYear(d.year);
    assert s == y + "-" + Format2(d.month) + "-" + Format2(d.day);
    assert s[..4] == y;
    assert s[5..7] == Format2(d.month);
    assert s[8..10] == Format2(d.day);
  }

  // ---------------------------------------------------------------------------
  // Timestamps
  // ---------------------------------------------------------------------------

  /** A UTC instant at one-second resolution. */
  datatype Timestamp = Timestamp(date: Date, second: int)

  predicate ValidTimestamp(t: Timestamp) {
    ValidDate(t.date) && 0 <= t.second < 86400
  }

  /** An instant that exists: what a Go `time.Time` in UTC holds. */
  type Instant = t: Timestamp | ValidTimestamp(t) witness Timestamp(Date(1, 1, 1), 0)

  /** Seconds since 0001-01-01T00:00:00Z. */
  function Seconds(t: Timestamp): int
    requires 1 <= t.date.month <= 12
  {
    DayNumber(t.date) * 86400 + t.second
  }

  /** `t.Format(time.RFC3339)` for a UTC time: "2006-01-02T15:04:05Z". */
  function FormatRfc3339(t: Timestamp): (s: string)
    requires ValidTimestamp(t)
    ensures 0 <= t.date.year <= 9999 ==> |s| == 20 && s[10] == 'T' && s[19] == 'Z'
  {
    FormatDate(t.date) + "T" + Format2(t.second / 3600) + ":" + Format2(t.second % 3600 / 60)
    + ":" + Format2(t.second % 60) + "Z"
  }

  /** `t.Format("2006-01-02 15:04")`. */
  function FormatMinute(t: Timestamp): (s: string)
    requires ValidTimestamp(t)
    ensures 0 <= t.date.year <= 9999 ==> |s| == 16 && s[10] == ' ' && s[13] == ':'
  {
    FormatDate(t.date) + " " + Format2(t.second / 3600) + ":" + Format2(t.second % 3600 / 60)
  }
}

=== FILE: csv.dfy ===
/** Record layout of the CSV texts handed to the AI (internal/utils/csv.go).
    A CSV text is modelled as its list of records; `encoding/csv` quoting
    is not modelled, and writing to an in-memory buffer cannot fail. */
module Csv {
  import opened Wrappers
  import opened Text
  import opened Calendar
  import opened Models
  import opened Misc

  type Record = seq<string>

  const SummaryHeaderWithDates: Record := ["summary_date", "category", "prompt", "n_comments", "summary"]
  const SummaryHeader: Record := ["category", "prompt", "n_comments", "summary"]
  const RawHeader: Record := ["created_at", "origin", "category", "prompt", "thumb_up", "comment", "user_id"]

  /** One record of `SummariesToCSV`. */
  function SummaryRecord(s: SummaryRow, withDates: bool): Record {
    (if withDates then [FormatDate(s.summaryDate)] else [])
    + [s.category, s.prompt, IntToString(s.nComments), s.summary]
  }

  /** `SummariesToCSV`: a header, then one record per row in order; five
      columns with the date first, or four without it. */
  function SummariesToCSV(rows: seq<SummaryRow>, withDates: bool): (r: seq<Record>)
    ensures |r| == |rows| + 1
    ensures r[0] == if withDates then SummaryHeaderWithDates else SummaryHeader
    ensures forall i :: 0 <= i < |r| ==> |r[i]| == if withDates then 5 else 4
    ensures forall i :: 0 <= i < |rows| ==> r[i + 1] == SummaryRecord(rows[i], withDates)
  {
    [if withDates then SummaryHeaderWithDates else SummaryHeader]
    + seq(|rows|, i requires 0 <= i < |rows| => SummaryRecord(rows[i], withDates))
  }

  /** Reads a `%d` field back. */
  function ParseInt(s: string): Option<int> {
    if |s| > 1 && s[0] == '-' && (forall i :: 1 <= i < |s| ==> IsDigit(s[i])) then
      Some(0 - DigitsValue(s[1..]))
    else if |s| > 0 && forall i :: 0 <= i < |s| ==> IsDigit(s[i]) then Some(DigitsValue(s))
    else None
  }

  /** `%d` output reads back as the number printed. */
  lemma ParseIntToString(i: int)
    ensures ParseInt(IntToString(i)) == Some(i)
  {
    var s := IntToString(i);
    if i < 0 {
      assert s[1..] == NatToString(-i);
    } else {
      assert !(|s| > 1 && s[0] == '-');
    }
  }

  /** Reads a summary record back into its row; without dates the date is
      Go's zero time. */
  function DecodeSummaryRecord(rec: Record, withDates: bool): Option<SummaryRow> {
    if withDates then
      if |rec| != 5 then None
      else
        match (ParseDate(rec[0]), ParseInt(rec[3]))
        case (Some(d), Some(n)) => Some(SummaryRow(d, "", rec[1], rec[2], n, rec[4]))
        case _ => None
    else
      if |rec| != 4 then None
      else
        match ParseInt(rec[2])
        case Some(n) => Some(SummaryRow(Date(1, 1, 1), "", rec[0], rec[1], n, rec[3]))
        case None => None
  }

  /** Every data record reads back as its row, less the origin (which the
      CSV does not carry) and, without dates, the date. */
  lemma SummariesCsvRoundTrip(rows: seq<SummaryRow>, withDates: bool, i: nat)
    requires i < |rows|
    requires withDates ==> 0 <= rows[i].summaryDate.year <= 9999
    ensures var row := rows[i].(origin := "");
            DecodeSummaryRecord(SummariesToCSV(rows, withDates)[i + 1], withDates)
            == Some(if withDates then row else row.(summaryDate := Date(1, 1, 1)))
  {
    ParseIntToString(rows[i].nComments);
    if withDates {
      FormatParseRoundTrip(rows[i].summaryDate);
    }
  }

  /** `FeedbackToCSV`: nothing for no feedback; otherwise a "prompt" record,
      the first row's prompt, an empty record, a "comment,user_id" header and
      one record per row, a nil comment written as "". */
  function FeedbackToCSV(rows: seq<Feedback>): (r: seq<Record>)
    ensures rows == [] <==> r == []
    ensures rows != [] ==>
              && |r| == |rows| + 4
              && r[..4] == [["prompt"], [rows[0].prompt], [], ["comment", "user_id"]]
              && forall i :: 0 <= i < |rows| ==>
                   r[i + 4] == [PtrToString(rows[i].comment), rows[i].userId]
  {
    if |rows| == 0 then []
    else
      [["prompt"], [rows[0].prompt], [], ["comment", "user_id"]]
      + seq(|rows|, i requires 0 <= i < |rows| => [PtrToString(rows[i].comment), rows[i].userId])
  }

  /** `%t`. */
  function FormatBool(b: bool): (s: string)
    ensures s == "true" || s == "false"
    ensures s == "true" <==> b
  {
    if b then "true" else "false"
  }

  function RawRecord(d: RawData): Record {
    [FormatRfc3339(d.createdAt), d.origin, d.category, d.prompt,
     FormatBool(d.thumbUp), PtrToString(d.comment), d.userId]
  }

  /** `RawDataToCSV`: a seven-column header, then one record per row. */
  function RawDataToCSV(data: seq<RawData>): (r: seq<Record>)
    ensures |r| == |data| + 1 && r[0] == RawHeader
    ensures forall i :: 0 <= i < |r| ==> |r[i]| == 7
    ensures forall i :: 0 <= i < |data| ==> r[i + 1] == RawRecord(data[i])
  {
    [RawHeader] + seq(|data|, i requires 0 <= i < |data| => RawRecord(data[i]))
  }

  /** Each raw record gives back its row's fields: the date from the first
      ten characters of the timestamp, the thumb from "true"/"false", and the
      comment with nil read as "". */
  lemma RawRecordFields(d: RawData)
    requires 0 <= d.createdAt.date.year <= 9999
    ensures var rec := RawRecord(d);
            && ParseDate(rec[0][..10]) == Some(d.createdAt.date)
            && rec[1] == d.origin && rec[2] == d.category && rec[3] == d.prompt
            && (rec[4] == "true" <==> d.thumbUp)
            && rec[5] == PtrToString(d.comment) && rec[6] == d.userId
  {
    FormatParseRoundTrip(d.createdAt.date);
    var t := d.createdAt;
    assert FormatRfc3339(t)[..10] == FormatDate(t.date);
  }
}

=== FILE: digest_main.dfy ===
/** The daily run of the digest program: which jobs it starts on a given
    day, in which order, and when the cleanup job is held back. The jobs
    themselves are modelled elsewhere; here only whether each one failed
    matters, so that is an oracle `failed`. The clock is the parameter
    `today`, the calendar day the program starts on. */
module DigestMain {
  import opened Calendar
  import opened Misc

  datatype Job = DailyCache | Daily | Weekly | Monthly | Quarterly | Cleanup

  /** The digest senders, whose failures hold the cleanup back. */
  predicate IsDigest(j: Job) {
    j.Daily? || j.Weekly? || j.Monthly? || j.Quarterly?
  }

  /** The digest senders started on `today`, in the order they run. */
  function DigestJobs(today: CivilDate): (r: seq<Job>)
    ensures |r| >= 1 && r[0] == Daily
    ensures forall i :: 0 <= i < |r| ==> IsDigest(r[i])
    ensures Weekly in r <==> IsMonday(today)
    ensures Monthly in r <==> IsFirstWeekdayOfMonth(today)
    ensures Quarterly in r <==> IsSecondWeekdayOfQuarter(today)
  {
    [Daily]
    + (if IsMonday(today) then [Weekly] else [])
    + (if IsFirstWeekdayOfMonth(today) then [Monthly] else [])
    + (if IsSecondWeekdayOfQuarter(today) then [Quarterly] else [])
  }

  /** Some digest started on `today` failed: the program's `digestErr`. */
  predicate DigestFailed(today: CivilDate, failed: Job -> bool) {
    exists i :: 0 <= i < |DigestJobs(today)| && failed(DigestJobs(today)[i])
  }

  /** The jobs the program starts, in order: the cache job (whose failure is
      only logged), the daily digests, the weekly, monthly and quarterly
      digests on their days, and the cleanup on the first weekday of the
      month when no digest failed. */
  function Run(today: CivilDate, failed: Job -> bool): (jobs: seq<Job>)
    ensures |jobs| >= 2 && jobs[0] == DailyCache && jobs[1] == Daily
    ensures Cleanup in jobs <==> IsFirstWeekdayOfMonth(today) && !DigestFailed(today, failed)
    ensures Cleanup in jobs ==> jobs[|jobs| - 1] == Cleanup
  {
    [DailyCache] + DigestJobs(today)
    + (if IsFirstWeekdayOfMonth(today) && !DigestFailed(today, failed) then [Cleanup] else [])
  }

  /** Each digest is started exactly on its own days, whatever failed. */
  lemma DigestsOnTheirDays(today: CivilDate, failed: Job -> bool)
    ensures Daily in Run(today, failed)
    ensures Weekly in Run(today, failed) <==> IsMonday(today)
    ensures Monthly in Run(today, failed) <==> IsFirstWeekdayOfMonth(today)
    ensures Quarterly in Run(today, failed) <==> IsSecondWeekdayOfQuarter(today)
  {
    var d := DigestJobs(today);
    var tail := if IsFirstWeekdayOfMonth(today) && !DigestFailed(today, failed) then [Cleanup] else [];
    assert Run(today, failed) == [DailyCache] + d + tail;
    forall j | IsDigest(j) ensures j in Run(today, failed) <==> j in d {
      assert j !in tail && j != DailyCache;
    }
  }

  /** No job is started twice. */
  lemma RunOnce(today: CivilDate, failed: Job -> bool)
    ensures forall i, j :: 0 <= i < j < |Run(today, failed)| ==> Run(today, failed)[i] != Run(today, failed)[j]
  {
  }

  /** A failed cache job changes nothing about the rest of the run. */
  lemma CacheFailureIgnored(today: CivilDate, f1: Job -> bool, f2: Job -> bool)
    requires forall j :: IsDigest(j) ==> f1(j) == f2(j)
    ensures Run(today, f1) == Run(today, f2)
  {
    var d := DigestJobs(today);
    if DigestFailed(today, f1) {
      var i :| 0 <= i < |d| && f1(d[i]);
      assert f2(d[i]);
    }
    if DigestFailed(today, f2) {
      var i :| 0 <= i < |d| && f2(d[i]);
      assert f1(d[i]);
    }
  }

  /** A failed daily digest holds back the monthly cleanup. */
  lemma DailyFailureSkipsCleanup(today: CivilDate, failed: Job -> bool)
    requires failed(Daily)
    ensures Cleanup !in Run(today, failed)
  {
    assert DigestJobs(today)[0] == Daily;
  }

  /** The monthly and the quarterly digests never go out on the same day:
      the second weekday of a month comes after its first. */
  lemma MonthlyAndQuarterlyApart(today: CivilDate)
    ensures !(IsFirstWeekdayOfMonth(today) && IsSecondWeekdayOfQuarter(today))
  {
    var f := FirstWeekdayDay(today.year, today.month);
    assert IsSecondWeekdayOfQuarter(today) ==> today.day > f;
    assert today.day > f ==> !IsFirstWeekdayOfMonth(today) by {
      if today.day > f {
        assert 1 <= f < today.day && !IsWeekend(Date(today.year, today.month, f));
      }
    }
  }

  /** Consequently the cleanup and the quarterly digests never share a run. */
  lemma CleanupNotOnQuarterlyDay(today: CivilDate, failed: Job -> bool)
    ensures !(Cleanup in Run(today, failed) && Quarterly in Run(today, failed))
  {
    MonthlyAndQuarterlyApart(today);
    DigestsOnTheirDays(today, failed);
  }
}

=== FILE: digest_templates.dfy ===
/** The Block Kit messages of the four digests
    (the files under internal/templates/digests). Each builder is stated against what a
    reader collects from the message with `Blocks.Pick`: its header texts,
    its quoted digests and its images. */
module DigestTemplates {
  import opened Wrappers
  import opened Text
  import opened Blocks
  import opened Models
  import opened Misc
  import opened Seqs
  import opened Sorting

  // ---------------------------------------------------------------------------
  // Footer and the message actions it offers
  // ---------------------------------------------------------------------------

  /** `DigestFooter`: a divider, then the two buttons. It has no inputs, so
      every digest ends with the same two blocks. */
  function DigestFooter(): (bs: seq<Block>)
    ensures |bs| == 2 && bs[0] == Divider && bs[1].Actions?
  {
    [Divider, Actions([PlainButton("Explore Feedback", "explore_feedback"),
                       PlainButton("Report an Issue", "report_issue")])]
  }

  /** The footer's two buttons are plain (no style, no value) and carry the
      action ids "explore_feedback" and "report_issue". */
  lemma FooterButtons()
    ensures |DigestFooter()[1].elements| == 2
    ensures forall e :: e in DigestFooter()[1].elements ==> e.Button? && e.style.None? && e.value.None?
    ensures DigestFooter()[1].elements[0].actionId == "explore_feedback"
    ensures DigestFooter()[1].elements[1].actionId == "report_issue"
  {
  }

  datatype MessageModal = ExploreModal | ReportModal

  /** The modal a message action opens (internal/interactions/messages.go);
      any other action id is answered with 400 "unknown action". */
  function MessageActionModal(actionId: string): (r: Option<MessageModal>)
    ensures r.Some? <==> actionId == "explore_feedback" || actionId == "report_issue"
  {
    if actionId == "explore_feedback" then Some(ExploreModal)
    else if actionId == "report_issue" then Some(ReportModal)
    else None
  }

  /** Both footer buttons lead somewhere, and they are the only message
      actions that do. */
  lemma FooterActionsDispatched(actionId: string)
    ensures forall e :: e in DigestFooter()[1].elements ==> MessageActionModal(e.actionId).Some?
    ensures MessageActionModal(actionId).Some? <==>
              exists e :: e in DigestFooter()[1].elements && e.actionId == actionId
  {
    FooterButtons();
    var es := DigestFooter()[1].elements;
    if MessageActionModal(actionId).Some? {
      assert es[0] in es && es[1] in es;
    }
  }

  // ---------------------------------------------------------------------------
  // Header changes along a sorted list
  // ---------------------------------------------------------------------------

  /** The values of `f` at which a header is due: each value that differs
      from the one before it (`prev` before the first). */
  function Changes<T>(ds: seq<T>, f: T -> string, prev: string): seq<string>
    decreases |ds|
  {
    if |ds| == 0 then []
    else (if f(ds[0]) != prev then [f(ds[0])] else []) + Changes(ds[1..], f, f(ds[0]))
  }

  /** A header is due exactly for the values that occur and are not `prev`
      (the first occurrence of each always differs from its predecessor). */
  lemma {:induction false} ChangesMembers<T>(ds: seq<T>, f: T -> string, prev: string, x: string)
    ensures x in Changes(ds, f, prev) ==> x in MapSeq(ds, f)
    ensures x in MapSeq(ds, f) && x != prev ==> x in Changes(ds, f, prev)
    decreases |ds|
  {
    if |ds| > 0 {
      var o := f(ds[0]);
      var m := MapSeq(ds, f);
      var rest := MapSeq(ds[1..], f);
      ChangesMembers(ds[1..], f, o, x);
      assert m == [o] + rest;
    }
  }

  lemma StrLeAntisymmetric(a: string, b: string)
    requires StrLe(a, b) && StrLe(b, a)
    ensures a == b
  {
    if a != b {
      StrLtTransitive(a, b, a);
      StrLtIrreflexive(a);
    }
  }

  /** Along a list sorted on `f`, no value gets a second header. */
  lemma {:induction false} SortedChangesDistinct<T>(ds: seq<T>, f: T -> string, prev: string)
    requires forall i, j :: 0 <= i < j < |ds| ==> StrLe(f(ds[i]), f(ds[j]))
    requires forall i :: 0 <= i < |ds| ==> StrLe(prev, f(ds[i]))
    ensures NoDuplicates(Changes(ds, f, prev))
    ensures prev !in Changes(ds, f, prev)
    decreases |ds|
  {
    if |ds| > 0 {
      var o := f(ds[0]);
      var rest := Changes(ds[1..], f, o);
      SortedChangesDistinct(ds[1..], f, o);
      if o != prev && prev in rest {
        ChangesMembers(ds[1..], f, o, prev);
        var i :| 0 <= i < |ds[1..]| && MapSeq(ds[1..], f)[i] == prev;
        assert StrLe(o, f(ds[i + 1]));
        StrLeAntisymmetric(o, prev);
      }
    }
  }

  /** On input sorted by `f`, the headers are the non-empty values of `f`,
      each once. */
  lemma OneHeaderPerValue<T>(ds: seq<T>, f: T -> string)
    requires forall i, j :: 0 <= i < j < |ds| ==> StrLe(f(ds[i]), f(ds[j]))
    ensures NoDuplicates(Changes(ds, f, ""))
    ensures forall x :: x in Changes(ds, f, "") <==> x in MapSeq(ds, f) && x != ""
  {
    SortedChangesDistinct(ds, f, "");
    forall x ensures x in Changes(ds, f, "") <==> x in MapSeq(ds, f) && x != "" {
      ChangesMembers(ds, f, "", x);
    }
  }

  /** Sorting on a key tuple sorts on its first field. */
  lemma SortedOnFirstField<T>(ds: seq<T>, key: T -> seq<string>, f: T -> string)
    requires SortedBy(ds, key)
    requires forall d :: |key(d)| > 0 && key(d)[0] == f(d)
    ensures forall i, j :: 0 <= i < j < |ds| ==> StrLe(f(ds[i]), f(ds[j]))
  {
  }

  // ---------------------------------------------------------------------------
  // Daily
  // ---------------------------------------------------------------------------

  const DailyTitle: string := "Daily Digest  \U{2600}\U{FE0F}"
  const NoNewComments: string := "_No new comments in the last 24 hours_"

  /** Singular exactly for one comment. */
  function CommentWord(n: int): (w: string)
    ensures w == "comment" <==> n == 1
    ensures w == "comment" || w == "comments"
  {
    if n == 1 then "comment" else "comments"
  }

  /** `DailyBlockText`: "*origin* _(n new comments)_". */
  function DailyBlockText(origin: string, nComments: int, commentWord: string): string {
    "*" + origin + "* _(" + IntToString(nComments) + " new " + commentWord + ")_"
  }

  function DailySection(d: DailyDigestData): Block {
    Section(Markdown(DailyBlockText(d.origin, d.nComments, CommentWord(d.nComments))))
  }

  function DailyQuote(d: DailyDigestData): Block {
    RichQuote(d.digest)
  }

  /** Two blocks per entry: its line of text, then its quoted digest. */
  function DailyEntries(ds: seq<DailyDigestData>): (bs: seq<Block>)
    ensures |bs| == 2 * |ds|
  {
    Interleave(ds, DailySection, DailyQuote)
  }

  /** `BuildDailyDigestBlocks`: the title, then a "no new comments" section
      for an empty list or two blocks per entry in input order, then the
      footer. */
  function BuildDailyDigestBlocks(ds: seq<DailyDigestData>): (bs: seq<Block>)
    ensures |bs| >= 4 && bs[0] == Header(DailyTitle) && bs[|bs| - 2..] == DigestFooter()
    ensures |ds| == 0 ==> bs == [Header(DailyTitle), Section(Markdown(NoNewComments))] + DigestFooter()
    ensures |ds| > 0 ==> |bs| == 2 * |ds| + 3
  {
    if |ds| == 0 then [Header(DailyTitle), Section(Markdown(NoNewComments))] + DigestFooter()
    else
      [Header(DailyTitle)] + DailyEntries(ds) + DigestFooter()
  }

  /** Entry `i` of a non-empty list is blocks `1 + 2 * i` (its line) and
      `2 + 2 * i` (its quoted digest), right after the title. */
  lemma DailyBlocksAt(ds: seq<DailyDigestData>, i: nat)
    requires i < |ds|
    ensures BuildDailyDigestBlocks(ds)[1 + 2 * i] == DailySection(ds[i])
    ensures BuildDailyDigestBlocks(ds)[2 + 2 * i] == RichQuote(ds[i].digest)
  {
    DailyEntriesInside(ds, i);
    InterleaveAt(ds, DailySection, DailyQuote, i);
  }

  lemma DailyEntriesInside(ds: seq<DailyDigestData>, i: nat)
    requires i < |ds|
    ensures BuildDailyDigestBlocks(ds)[1 + 2 * i] == DailyEntries(ds)[2 * i]
    ensures BuildDailyDigestBlocks(ds)[2 + 2 * i] == DailyEntries(ds)[2 * i + 1]
  {
    var es := DailyEntries(ds);
    MiddleAt([Header(DailyTitle)], es, DigestFooter(), 2 * i);
    MiddleAt([Header(DailyTitle)], es, DigestFooter(), 2 * i + 1);
  }

  function DailyDigestOf(d: DailyDigestData): string {
    d.digest
  }

  /** Reading the daily entries back gives the digests in input order and
      no header. */
  lemma {:induction false} DailyReadsBack(ds: seq<DailyDigestData>)
    ensures Pick(DailyEntries(ds), QuoteOf) == MapSeq(ds, DailyDigestOf)
    ensures Pick(DailyEntries(ds), HeaderOf) == []
    decreases |ds|
  {
    if |ds| > 0 {
      var d := ds[0];
      var rest := DailyEntries(ds[1..]);
      assert DailyEntries(ds) == [DailySection(d), RichQuote(d.digest)] + rest;
      DailyReadsBack(ds[1..]);
      PickAppend([DailySection(d), RichQuote(d.digest)], rest, QuoteOf);
      PickAppend([DailySection(d), RichQuote(d.digest)], rest, HeaderOf);
      PickTwo(DailySection(d), RichQuote(d.digest), QuoteOf);
      PickTwo(DailySection(d), RichQuote(d.digest), HeaderOf);
      assert MapSeq(ds, DailyDigestOf) == [d.digest] + MapSeq(ds[1..], DailyDigestOf);
    }
  }

  // ---------------------------------------------------------------------------
  // Weekly
  // ---------------------------------------------------------------------------

  const WeeklyTitle: string := "Weekly Digest  \U{1F680}"

  function WeeklyPromptSection(d: WeeklyDigestData): Block {
    Section(Markdown(FormatDigestStats(d.prompt, d.score, d.scoreDelta, d.nResponses, d.nResponsesDelta,
                                       d.nComments, d.nCommentsDelta)))
  }

  /** The origin header, when the origin differs from the previous entry's. */
  function WeeklyOriginBlocks(d: WeeklyDigestData, lastOrigin: string): seq<Block> {
    if d.origin != lastOrigin then [Header(d.origin), Spacer] else []
  }

  /** The category header, when the category differs from the tracked one,
      which a new origin resets to "". */
  function WeeklyCategoryBlocks(d: WeeklyDigestData, lastOrigin: string, lastCategory: string): seq<Block> {
    var category := if d.origin != lastOrigin then "" else lastCategory;
    if d.category != category then [Divider, Section(Markdown("*" + d.category + "*")), Spacer] else []
  }

  /** Headers as due, then the four blocks every weekly entry adds. */
  function WeeklyEntry(d: WeeklyDigestData, lastOrigin: string, lastCategory: string): seq<Block> {
    WeeklyOriginBlocks(d, lastOrigin) + WeeklyCategoryBlocks(d, lastOrigin, lastCategory)
    + [WeeklyPromptSection(d), Spacer, RichQuote(d.digest), Spacer]
  }

  /** The loop of `BuildWeeklyDigestBlocks`; after an entry the tracked
      origin and category are the entry's own. */
  function WeeklyEntries(ds: seq<WeeklyDigestData>, lastOrigin: string, lastCategory: string): seq<Block>
    decreases |ds|
  {
    if |ds| == 0 then []
    else WeeklyEntry(ds[0], lastOrigin, lastCategory) + WeeklyEntries(ds[1..], ds[0].origin, ds[0].category)
  }

  /** `BuildWeeklyDigestBlocks`. */
  function BuildWeeklyDigestBlocks(ds: seq<WeeklyDigestData>): (bs: seq<Block>)
    ensures |bs| >= 5 && bs[..3] == [Spacer, Header(WeeklyTitle), Spacer] && bs[|bs| - 2..] == DigestFooter()
  {
    [Spacer, Header(WeeklyTitle), Spacer] + WeeklyEntries(ds, "", "") + DigestFooter()
  }

  function WeeklyOrigin(d: WeeklyDigestData): string {
    d.origin
  }

  function WeeklyDigestOf(d: WeeklyDigestData): string {
    d.digest
  }

  function WeeklyKey(d: WeeklyDigestData): seq<string> {
    [d.origin, d.category, d.prompt]
  }

  lemma WeeklyOriginBlocksRead(d: WeeklyDigestData, lastOrigin: string)
    ensures Pick(WeeklyOriginBlocks(d, lastOrigin), QuoteOf) == []
    ensures Pick(WeeklyOriginBlocks(d, lastOrigin), HeaderOf) == (if d.origin != lastOrigin then [d.origin] else [])
  {
    PickTwo(Header(d.origin), Spacer, QuoteOf);
    PickTwo(Header(d.origin), Spacer, HeaderOf);
  }

  lemma WeeklyCategoryBlocksRead(d: WeeklyDigestData, lastOrigin: string, lastCategory: string)
    ensures Pick(WeeklyCategoryBlocks(d, lastOrigin, lastCategory), QuoteOf) == []
    ensures Pick(WeeklyCategoryBlocks(d, lastOrigin, lastCategory), HeaderOf) == []
  {
    var s := Section(Markdown("*" + d.category + "*"));
    PickThree(Divider, s, Spacer, QuoteOf);
    PickThree(Divider, s, Spacer, HeaderOf);
  }

  lemma WeeklyPromptBlocksRead(d: WeeklyDigestData)
    ensures Pick([WeeklyPromptSection(d), Spacer, RichQuote(d.digest), Spacer], QuoteOf) == [d.digest]
    ensures Pick([WeeklyPromptSection(d), Spacer, RichQuote(d.digest), Spacer], HeaderOf) == []
  {
    PickFour(WeeklyPromptSection(d), Spacer, RichQuote(d.digest), Spacer, QuoteOf);
    PickFour(WeeklyPromptSection(d), Spacer, RichQuote(d.digest), Spacer, HeaderOf);
  }

  /** An entry quotes its digest and has a header exactly when its origin is
      new. */
  lemma WeeklyEntryRead(d: WeeklyDigestData, lastOrigin: string, lastCategory: string)
    ensures Pick(WeeklyEntry(d, lastOrigin, lastCategory), QuoteOf) == [d.digest]
    ensures Pick(WeeklyEntry(d, lastOrigin, lastCategory), HeaderOf) == (if d.origin != lastOrigin then [d.origin] else [])
  {
    var a := WeeklyOriginBlocks(d, lastOrigin);
    var b := WeeklyCategoryBlocks(d, lastOrigin, lastCategory);
    var c := [WeeklyPromptSection(d), Spacer, RichQuote(d.digest), Spacer];
    assert WeeklyEntry(d, lastOrigin, lastCategory) == (a + b) + c;
    WeeklyOriginBlocksRead(d, lastOrigin);
    WeeklyCategoryBlocksRead(d, lastOrigin, lastCategory);
    WeeklyPromptBlocksRead(d);
    PickAppend(a + b, c, QuoteOf);
    PickAppend(a, b, QuoteOf);
    PickAppend(a + b, c, HeaderOf);
    PickAppend(a, b, HeaderOf);
  }

  /** Every entry contributes its digest once, in order, and the only headers
      are the origin headers, one at each change of origin. */
  lemma {:induction false} WeeklyEntriesRead(ds: seq<WeeklyDigestData>, lastOrigin: string, lastCategory: string)
    ensures Pick(WeeklyEntries(ds, lastOrigin, lastCategory), QuoteOf) == MapSeq(ds, WeeklyDigestOf)
    ensures Pick(WeeklyEntries(ds, lastOrigin, lastCategory), HeaderOf) == Changes(ds, WeeklyOrigin, lastOrigin)
    decreases |ds|
  {
    if |ds| > 0 {
      var d := ds[0];
      var e := WeeklyEntry(d, lastOrigin, lastCategory);
      var rest := WeeklyEntries(ds[1..], d.origin, d.category);
      WeeklyEntriesRead(ds[1..], d.origin, d.category);
      WeeklyEntryRead(d, lastOrigin, lastCategory);
      PickAppend(e, rest, QuoteOf);
      PickAppend(e, rest, HeaderOf);
      assert MapSeq(ds, WeeklyDigestOf) == [d.digest] + MapSeq(ds[1..], WeeklyDigestOf);
    }
  }

  lemma FooterRead()
    ensures Pick(DigestFooter(), HeaderOf) == [] && Pick(DigestFooter(), QuoteOf) == []
    ensures Pick(DigestFooter(), ImageOf) == []
  {
    var f := DigestFooter();
    PickTwo(f[0], f[1], HeaderOf);
    PickTwo(f[0], f[1], QuoteOf);
    PickTwo(f[0], f[1], ImageOf);
  }

  /** The weekly message read back: the title and one header per change of
      origin, and every entry's digest in order. */
  lemma WeeklyReadsBack(ds: seq<WeeklyDigestData>)
    ensures Pick(BuildWeeklyDigestBlocks(ds), HeaderOf) == [WeeklyTitle] + Changes(ds, WeeklyOrigin, "")
    ensures Pick(BuildWeeklyDigestBlocks(ds), QuoteOf) == MapSeq(ds, WeeklyDigestOf)
  {
    WeeklyHeadersBack(ds);
    WeeklyQuotesBack(ds);
  }

  lemma WeeklyFramed<U>(ds: seq<WeeklyDigestData>, f: Block -> Option<U>)
    ensures Pick(BuildWeeklyDigestBlocks(ds), f) ==
              PickOne(Spacer, f) + PickOne(Header(WeeklyTitle), f) + PickOne(Spacer, f)
              + Pick(WeeklyEntries(ds, "", ""), f) + Pick(DigestFooter(), f)
  {
    var top := [Spacer, Header(WeeklyTitle), Spacer];
    var body := WeeklyEntries(ds, "", "");
    assert BuildWeeklyDigestBlocks(ds) == (top + body) + DigestFooter();
    PickAppend(top + body, DigestFooter(), f);
    PickAppend(top, body, f);
    PickThree(Spacer, Header(WeeklyTitle), Spacer, f);
  }

  lemma WeeklyHeadersBack(ds: seq<WeeklyDigestData>)
    ensures Pick(BuildWeeklyDigestBlocks(ds), HeaderOf) == [WeeklyTitle] + Changes(ds, WeeklyOrigin, "")
  {
    WeeklyFramed(ds, HeaderOf);
    WeeklyEntriesRead(ds, "", "");
    FooterRead();
  }

  lemma WeeklyQuotesBack(ds: seq<WeeklyDigestData>)
    ensures Pick(BuildWeeklyDigestBlocks(ds), QuoteOf) == MapSeq(ds, WeeklyDigestOf)
  {
    WeeklyFramed(ds, QuoteOf);
    WeeklyEntriesRead(ds, "", "");
    FooterRead();
  }

  /** On the sorted entries the weekly digest produces, every non-empty
      origin gets exactly one header after the title. */
  lemma WeeklyOneHeaderPerOrigin(ds: seq<WeeklyDigestData>)
    requires SortedBy(ds, WeeklyKey)
    ensures var hs := Changes(ds, WeeklyOrigin, "");
            && Pick(BuildWeeklyDigestBlocks(ds), HeaderOf) == [WeeklyTitle] + hs
            && NoDuplicates(hs) && forall o :: o in hs <==> o in MapSeq(ds, WeeklyOrigin) && o != ""
  {
    WeeklyReadsBack(ds);
    SortedOnFirstField(ds, WeeklyKey, WeeklyOrigin);
    OneHeaderPerValue(ds, WeeklyOrigin);
  }

  // ---------------------------------------------------------------------------
  // Monthly
  // ---------------------------------------------------------------------------

  const MonthlyTitle: string := "Monthly Digest  \U{1F319}"

  /** `MonthlyBlockText`: the category in bold, two blank lines, then score,
      responses and comments with their deltas. */
  function MonthlyBlockText(category: string, score: int, scoreDelta: string, nResponses: int,
                            nResponsesDelta: string, nComments: int, nCommentsDelta: string): string {
    "*" + category + "*\n\n\n"
    + "\U{1F44D}   " + IntToString(score) + "% (" + scoreDelta + "%)    "
    + "\U{1F44B}   " + IntToString(nResponses) + " (" + nResponsesDelta + "%)    "
    + "\U{1F4AC}   " + IntToString(nComments) + " (" + nCommentsDelta + "%)"
  }

  /** The graph of an entry, when it has one. */
  function MonthlyImage(d: MonthlyDigestData): seq<Block> {
    if d.graphUrl != "" then [Image(d.graphUrl, d.category)] else []
  }

  function MonthlySection(d: MonthlyDigestData): Block {
    Section(Markdown(MonthlyBlockText(d.category, d.score, d.scoreDelta, d.nResponses, d.nResponsesDelta,
                                      d.nComments, d.nCommentsDelta)))
  }

  function MonthlyCategoryBlocks(d: MonthlyDigestData): seq<Block> {
    [Spacer, MonthlySection(d), Spacer, RichQuote(d.digest)] + MonthlyImage(d) + [Spacer]
  }

  /** The loop of `BuildMonthlyDigestBlocks`: divider and header once per
      change of origin, then the category blocks. */
  function MonthlyEntries(ds: seq<MonthlyDigestData>, lastOrigin: string): seq<Block>
    decreases |ds|
  {
    if |ds| == 0 then []
    else
      (if ds[0].origin != lastOrigin then [Divider, Header(ds[0].origin)] else [])
      + MonthlyCategoryBlocks(ds[0])
      + MonthlyEntries(ds[1..], ds[0].origin)
  }

  /** `BuildMonthlyDigestBlocks`: four opening blocks with the month label,
      the entries, the footer. */
  function BuildMonthlyDigestBlocks(ds: seq<MonthlyDigestData>, monthLabel: string): (bs: seq<Block>)
    ensures |bs| >= 6 && bs[..4] == [Spacer, Header(MonthlyTitle), Context([Plain(monthLabel)]), Spacer]
    ensures bs[|bs| - 2..] == DigestFooter()
  {
    [Spacer, Header(MonthlyTitle), Context([Plain(monthLabel)]), Spacer] + MonthlyEntries(ds, "") + DigestFooter()
  }

  function MonthlyOrigin(d: MonthlyDigestData): string {
    d.origin
  }

  function MonthlyDigestOf(d: MonthlyDigestData): string {
    d.digest
  }

  function MonthlyKey(d: MonthlyDigestData): seq<string> {
    [d.origin, d.category]
  }

  /** The graphs the entries carry, as (url, alt text): one per entry with a
      non-empty url, captioned with its category. */
  function MonthlyGraphs(ds: seq<MonthlyDigestData>): seq<(string, string)>
    decreases |ds|
  {
    if |ds| == 0 then []
    else (if ds[0].graphUrl != "" then [(ds[0].graphUrl, ds[0].category)] else []) + MonthlyGraphs(ds[1..])
  }

  lemma MonthlyCategoryBlocksRead(d: MonthlyDigestData)
    ensures Pick(MonthlyCategoryBlocks(d), QuoteOf) == [d.digest]
    ensures Pick(MonthlyCategoryBlocks(d), HeaderOf) == []
    ensures Pick(MonthlyCategoryBlocks(d), ImageOf) == (if d.graphUrl != "" then [(d.graphUrl, d.category)] else [])
    ensures |MonthlyCategoryBlocks(d)| == 5 + |MonthlyImage(d)|
  {
    MonthlyCategoryQuotes(d);
    MonthlyCategoryHeaders(d);
    MonthlyCategoryImages(d);
  }

  lemma MonthlyCategoryQuotes(d: MonthlyDigestData)
    ensures Pick(MonthlyCategoryBlocks(d), QuoteOf) == [d.digest]
  {
    MonthlyCategoryPick(d, QuoteOf);
    PickSingle(Image(d.graphUrl, d.category), QuoteOf);
  }

  lemma MonthlyCategoryHeaders(d: MonthlyDigestData)
    ensures Pick(MonthlyCategoryBlocks(d), HeaderOf) == []
  {
    MonthlyCategoryPick(d, HeaderOf);
    PickSingle(Image(d.graphUrl, d.category), HeaderOf);
  }

  lemma MonthlyCategoryImages(d: MonthlyDigestData)
    ensures Pick(MonthlyCategoryBlocks(d), ImageOf) == (if d.graphUrl != "" then [(d.graphUrl, d.category)] else [])
  {
    MonthlyCategoryPick(d, ImageOf);
    PickSingle(Image(d.graphUrl, d.category), ImageOf);
  }

  lemma MonthlyCategoryPick<U>(d: MonthlyDigestData, f: Block -> Option<U>)
    ensures Pick(MonthlyCategoryBlocks(d), f) ==
              PickOne(Spacer, f) + PickOne(MonthlySection(d), f) + PickOne(Spacer, f) + PickOne(RichQuote(d.digest), f)
              + Pick(MonthlyImage(d), f) + PickOne(Spacer, f)
  {
    var a := [Spacer, MonthlySection(d), Spacer, RichQuote(d.digest)];
    PickAppend(a + MonthlyImage(d), [Spacer], f);
    PickAppend(a, MonthlyImage(d), f);
    PickFour(Spacer, MonthlySection(d), Spacer, RichQuote(d.digest), f);
    PickSingle(Spacer, f);
  }

  lemma MonthlyOriginBlocksRead(o: string)
    ensures Pick([Divider, Header(o)], HeaderOf) == [o]
    ensures Pick([Divider, Header(o)], QuoteOf) == [] && Pick([Divider, Header(o)], ImageOf) == []
  {
    PickTwo(Divider, Header(o), HeaderOf);
    PickTwo(Divider, Header(o), QuoteOf);
    PickTwo(Divider, Header(o), ImageOf);
  }

  /** Monthly entries read back: a header per change of origin, each digest
      once in order, and a graph exactly for the entries with a url. */
  lemma MonthlyEntriesRead(ds: seq<MonthlyDigestData>, lastOrigin: string)
    ensures Pick(MonthlyEntries(ds, lastOrigin), HeaderOf) == Changes(ds, MonthlyOrigin, lastOrigin)
    ensures Pick(MonthlyEntries(ds, lastOrigin), QuoteOf) == MapSeq(ds, MonthlyDigestOf)
    ensures Pick(MonthlyEntries(ds, lastOrigin), ImageOf) == MonthlyGraphs(ds)
  {
    MonthlyHeadersRead(ds, lastOrigin);
    MonthlyQuotesRead(ds, lastOrigin);
    MonthlyImagesRead(ds, lastOrigin);
  }

  /** The blocks `MonthlyEntries` puts before the rest: the origin header
      when the origin changes, then the category blocks. */
  function MonthlyHead(d: MonthlyDigestData, lastOrigin: string): seq<Block> {
    (if d.origin != lastOrigin then [Divider, Header(d.origin)] else []) + MonthlyCategoryBlocks(d)
  }

  lemma MonthlyHeadPick<U>(d: MonthlyDigestData, lastOrigin: string, f: Block -> Option<U>)
    ensures Pick(MonthlyHead(d, lastOrigin), f) ==
              (if d.origin != lastOrigin then Pick([Divider, Header(d.origin)], f) else [])
              + Pick(MonthlyCategoryBlocks(d), f)
  {
    var a: seq<Block> := if d.origin != lastOrigin then [Divider, Header(d.origin)] else [];
    PickAppend(a, MonthlyCategoryBlocks(d), f);
  }

  lemma MonthlyEntriesUnfold(ds: seq<MonthlyDigestData>, lastOrigin: string)
    requires |ds| > 0
    ensures MonthlyEntries(ds, lastOrigin) == MonthlyHead(ds[0], lastOrigin) + MonthlyEntries(ds[1..], ds[0].origin)
  {
  }

  lemma MonthlyHeadHeaders(d: MonthlyDigestData, lastOrigin: string)
    ensures Pick(MonthlyHead(d, lastOrigin), HeaderOf) == (if d.origin != lastOrigin then [d.origin] else [])
  {
    MonthlyHeadPick(d, lastOrigin, HeaderOf);
    PickTwo(Divider, Header(d.origin), HeaderOf);
    MonthlyCategoryHeaders(d);
  }

  lemma MonthlyHeadQuotes(d: MonthlyDigestData, lastOrigin: string)
    ensures Pick(MonthlyHead(d, lastOrigin), QuoteOf) == [d.digest]
  {
    MonthlyHeadPick(d, lastOrigin, QuoteOf);
    PickTwo(Divider, Header(d.origin), QuoteOf);
    MonthlyCategoryQuotes(d);
  }

  lemma MonthlyHeadImages(d: MonthlyDigestData, lastOrigin: string)
    ensures Pick(MonthlyHead(d, lastOrigin), ImageOf) == (if d.graphUrl != "" then [(d.graphUrl, d.category)] else [])
  {
    MonthlyHeadPick(d, lastOrigin, ImageOf);
    PickTwo(Divider, Header(d.origin), ImageOf);
    MonthlyCategoryImages(d);
  }

  lemma {:induction false} MonthlyHeadersRead(ds: seq<MonthlyDigestData>, lastOrigin: string)
    ensures Pick(MonthlyEntries(ds, lastOrigin), HeaderOf) == Changes(ds, MonthlyOrigin, lastOrigin)
    decreases |ds|
  {
    if |ds| > 0 {
      var d := ds[0];
      MonthlyEntriesUnfold(ds, lastOrigin);
      MonthlyHeadersRead(ds[1..], d.origin);
      MonthlyHeadHeaders(d, lastOrigin);
      PickAppend(MonthlyHead(d, lastOrigin), MonthlyEntries(ds[1..], d.origin), HeaderOf);
    }
  }

  lemma {:induction false} MonthlyQuotesRead(ds: seq<MonthlyDigestData>, lastOrigin: string)
    ensures Pick(MonthlyEntries(ds, lastOrigin), QuoteOf) == MapSeq(ds, MonthlyDigestOf)
    decreases |ds|
  {
    if |ds| > 0 {
      var d := ds[0];
      MonthlyEntriesUnfold(ds, lastOrigin);
      MonthlyQuotesRead(ds[1..], d.origin);
      MonthlyHeadQuotes(d, lastOrigin);
      PickAppend(MonthlyHead(d, lastOrigin), MonthlyEntries(ds[1..], d.origin), QuoteOf);
      assert MapSeq(ds, MonthlyDigestOf) == [d.digest] + MapSeq(ds[1..], MonthlyDigestOf);
    }
  }

  lemma {:induction false} MonthlyImagesRead(ds: seq<MonthlyDigestData>, lastOrigin: string)
    ensures Pick(MonthlyEntries(ds, lastOrigin), ImageOf) == MonthlyGraphs(ds)
    decreases |ds|
  {
    if |ds| > 0 {
      var d := ds[0];
      MonthlyEntriesUnfold(ds, lastOrigin);
      MonthlyImagesRead(ds[1..], d.origin);
      MonthlyHeadImages(d, lastOrigin);
      PickAppend(MonthlyHead(d, lastOrigin), MonthlyEntries(ds[1..], d.origin), ImageOf);
    }
  }

  /** Five blocks per entry, two per origin header and one per graph. */
  lemma {:induction false} MonthlyEntriesSize(ds: seq<MonthlyDigestData>, lastOrigin: string)
    ensures |MonthlyEntries(ds, lastOrigin)| ==
              2 * |Changes(ds, MonthlyOrigin, lastOrigin)| + 5 * |ds| + |MonthlyGraphs(ds)|
    decreases |ds|
  {
    if |ds| > 0 {
      MonthlyEntriesSize(ds[1..], ds[0].origin);
      MonthlyCategoryBlocksRead(ds[0]);
    }
  }

  /** On the sorted entries the monthly digest produces, every non-empty
      origin gets exactly one header. */
  lemma MonthlyOneHeaderPerOrigin(ds: seq<MonthlyDigestData>, monthLabel: string)
    requires SortedBy(ds, MonthlyKey)
    ensures var hs := Pick(MonthlyEntries(ds, ""), HeaderOf);
            NoDuplicates(hs) && forall o :: o in hs <==> o in MapSeq(ds, MonthlyOrigin) && o != ""
  {
    MonthlyEntriesRead(ds, "");
    SortedOnFirstField(ds, MonthlyKey, MonthlyOrigin);
    OneHeaderPerValue(ds, MonthlyOrigin);
  }

  // ---------------------------------------------------------------------------
  // Quarterly
  // ---------------------------------------------------------------------------

  const QuarterlyTitle: string := "Quarterly Digest  \U{1F4CA}"

  /** One entry: divider and header always, the graph (captioned with the
      origin) when there is one, then spacer, quote, spacer. */
  function QuarterlyEntry(d: QuarterlyDigestData): seq<Block> {
    [Divider, Header(d.origin)] + QuarterlyImage(d) + [Spacer, RichQuote(d.digest), Spacer]
  }

  function QuarterlyImage(d: QuarterlyDigestData): seq<Block> {
    if d.graphUrl != "" then [Image(d.graphUrl, d.origin)] else []
  }

  function QuarterlyEntries(ds: seq<QuarterlyDigestData>): seq<Block>
    decreases |ds|
  {
    if |ds| == 0 then [] else QuarterlyEntry(ds[0]) + QuarterlyEntries(ds[1..])
  }

  /** `BuildQuarterlyDigestBlocks`. */
  function BuildQuarterlyDigestBlocks(ds: seq<QuarterlyDigestData>, quarterLabel: string): (bs: seq<Block>)
    ensures |bs| >= 6 && bs[..4] == [Spacer, Header(QuarterlyTitle), Context([Plain(quarterLabel)]), Spacer]
    ensures bs[|bs| - 2..] == DigestFooter()
  {
    [Spacer, Header(QuarterlyTitle), Context([Plain(quarterLabel)]), Spacer] + QuarterlyEntries(ds) + DigestFooter()
  }

  function QuarterlyOrigin(d: QuarterlyDigestData): string {
    d.origin
  }

  function QuarterlyDigestOf(d: QuarterlyDigestData): string {
    d.digest
  }

  function QuarterlyGraphs(ds: seq<QuarterlyDigestData>): seq<(string, string)>
    decreases |ds|
  {
    if |ds| == 0 then []
    else (if ds[0].graphUrl != "" then [(ds[0].graphUrl, ds[0].origin)] else []) + QuarterlyGraphs(ds[1..])
  }

  lemma QuarterlyEntryPick<U>(d: QuarterlyDigestData, f: Block -> Option<U>)
    ensures Pick(QuarterlyEntry(d), f) ==
              Pick([Divider, Header(d.origin)], f) + Pick(QuarterlyImage(d), f)
              + Pick([Spacer, RichQuote(d.digest), Spacer], f)
  {
    var a := [Divider, Header(d.origin)];
    var c := [Spacer, RichQuote(d.digest), Spacer];
    PickAppend(a + QuarterlyImage(d), c, f);
    PickAppend(a, QuarterlyImage(d), f);
  }

  lemma QuarterlyEntryRead(d: QuarterlyDigestData)
    ensures Pick(QuarterlyEntry(d), HeaderOf) == [d.origin]
    ensures Pick(QuarterlyEntry(d), QuoteOf) == [d.digest]
    ensures Pick(QuarterlyEntry(d), ImageOf) == (if d.graphUrl != "" then [(d.graphUrl, d.origin)] else [])
  {
    QuarterlyEntryHeaders(d);
    QuarterlyEntryQuotes(d);
    QuarterlyEntryImages(d);
  }

  lemma QuarterlyEntryHeaders(d: QuarterlyDigestData)
    ensures Pick(QuarterlyEntry(d), HeaderOf) == [d.origin]
  {
    QuarterlyEntryPick(d, HeaderOf);
    PickTwo(Divider, Header(d.origin), HeaderOf);
    PickThree(Spacer, RichQuote(d.digest), Spacer, HeaderOf);
    PickSingle(Image(d.graphUrl, d.origin), HeaderOf);
  }

  lemma QuarterlyEntryQuotes(d: QuarterlyDigestData)
    ensures Pick(QuarterlyEntry(d), QuoteOf) == [d.digest]
  {
    QuarterlyEntryPick(d, QuoteOf);
    PickTwo(Divider, Header(d.origin), QuoteOf);
    PickThree(Spacer, RichQuote(d.digest), Spacer, QuoteOf);
    PickSingle(Image(d.graphUrl, d.origin), QuoteOf);
  }

  lemma QuarterlyEntryImages(d: QuarterlyDigestData)
    ensures Pick(QuarterlyEntry(d), ImageOf) == (if d.graphUrl != "" then [(d.graphUrl, d.origin)] else [])
  {
    QuarterlyEntryPick(d, ImageOf);
    PickTwo(Divider, Header(d.origin), ImageOf);
    PickThree(Spacer, RichQuote(d.digest), Spacer, ImageOf);
    PickSingle(Image(d.graphUrl, d.origin), ImageOf);
  }

  /** Quarterly entries read back: a header for every entry (no collapsing,
      so an origin repeated in the input is repeated in the message), each
      digest in order, and a graph exactly for the entries with a url. */
  lemma {:induction false} QuarterlyEntriesRead(ds: seq<QuarterlyDigestData>)
    ensures Pick(QuarterlyEntries(ds), HeaderOf) == MapSeq(ds, QuarterlyOrigin)
    ensures Pick(QuarterlyEntries(ds), QuoteOf) == MapSeq(ds, QuarterlyDigestOf)
    ensures Pick(QuarterlyEntries(ds), ImageOf) == QuarterlyGraphs(ds)
    decreases |ds|
  {
    if |ds| > 0 {
      var e := QuarterlyEntry(ds[0]);
      var rest := QuarterlyEntries(ds[1..]);
      QuarterlyEntriesRead(ds[1..]);
      QuarterlyEntryRead(ds[0]);
      PickAppend(e, rest, HeaderOf);
      PickAppend(e, rest, QuoteOf);
      PickAppend(e, rest, ImageOf);
      assert MapSeq(ds, QuarterlyOrigin) == [ds[0].origin] + MapSeq(ds[1..], QuarterlyOrigin);
      assert MapSeq(ds, QuarterlyDigestOf) == [ds[0].digest] + MapSeq(ds[1..], QuarterlyDigestOf);
    }
  }
}

=== FILE: digests.dfy ===
/** The four digest jobs (the files under internal/digests). Each job lists the
    workspaces subscribed to its range, builds at most one message per
    workspace, and only then sends the messages. The database is the query
    model over `feedback` and `summaries`; the workspace list, bot tokens,
    the random source, the AI call, plotting, file upload and message
    sending are oracles in `DigestEnv`. */
module Digests {
  import opened Wrappers
  import opened Calendar
  import opened Models
  import opened Blocks
  import opened Misc
  import opened Seqs
  import opened Grouping
  import opened Sampling
  import opened Sorting
  import opened Csv
  import opened Queries
  import opened DigestTemplates

  const NoCommentsToSummarize: string := "No comments to summarize"

  /** `DigestConfig` and the outside world. `draw(workspace, key)` is the
      random source used when the group `key` of `workspace` is sampled. */
  datatype DigestEnv = DigestEnv(
    today: CivilDate,
    feedback: seq<Feedback>,
    summaries: seq<StoredSummary>,
    digestInputLimit: nat,
    dailyPrompt: string,
    weeklyPrompt: string,
    monthlyPrompt: string,
    quarterlyPrompt: string,
    workspaces: DigestRange -> Result<seq<WorkspaceChannel>, string>,
    botToken: string -> Result<string, string>,
    draw: (string, seq<string>) -> nat -> nat,
    ai: (string, seq<Record>) -> Result<string, string>,
    plot: seq<PlotStats> -> Option<string>,
    upload: (string, string, string) -> Result<string, string>,
    send: DigestMessage -> Option<string>,
    dbError: DbCall -> Option<string>)

  /** The database queries a digest job makes. The rows they return are
      the query model over `feedback` and `summaries`; `dbError` says
      whether the call fails instead, and with which error. */
  datatype DbCall =
    | GroupsCall(workspace: string, dr: DigestRange)
    | SummariesCall(workspace: string, dr: DigestRange)
    | StatsCall(workspace: string, dr: DigestRange, group: FeedbackGroup)
    | PlotStatsCall(workspace: string, dr: DigestRange, group: FeedbackGroup)

  /** `GetFeedbackGroups(conn, workspace, dr)`. */
  function FeedbackGroupsOf(env: DigestEnv, workspace: string, dr: DigestRange): Result<seq<FeedbackGroup>, string> {
    match env.dbError(GroupsCall(workspace, dr))
    case Some(e) => Err(e)
    case None => GetFeedbackGroups(env.feedback, workspace, dr, env.today)
  }

  /** `GetSummariesByWorkspace(conn, workspace, dr)`. */
  function SummariesOf(env: DigestEnv, workspace: string, dr: DigestRange): Result<seq<SummaryRow>, string> {
    match env.dbError(SummariesCall(workspace, dr))
    case Some(e) => Err(e)
    case None => GetSummariesByWorkspace(env.summaries, workspace, dr, env.today)
  }

  // ---------------------------------------------------------------------------
  // Building blocks shared by the four jobs
  // ---------------------------------------------------------------------------

  /** A loop that stops at the first error: every element is mapped, or the
      first failing element's error is returned. */
  function Traverse<A, B>(xs: seq<A>, f: A -> Result<B, string>): (r: Result<seq<B>, string>)
    ensures r.Ok? <==> forall i :: 0 <= i < |xs| ==> f(xs[i]).Ok?
    ensures r.Ok? ==> |r.value| == |xs| && forall i :: 0 <= i < |xs| ==> r.value[i] == f(xs[i]).value
    ensures r.Err? ==>
              exists i :: 0 <= i < |xs| && f(xs[i]) == Err(r.error) && forall k :: 0 <= k < i ==> f(xs[k]).Ok?
    decreases |xs|
  {
    if |xs| == 0 then Ok([])
    else match f(xs[0])
      case Err(e) => Err(e)
      case Ok(y) =>
        var rest := Traverse(xs[1..], f);
        if rest.Err? then
          var i :| 0 <= i < |xs[1..]| && f(xs[1..][i]) == Err(rest.error)
                   && forall k :: 0 <= k < i ==> f(xs[1..][k]).Ok?;
          assert f(xs[i + 1]) == Err(rest.error) && forall k :: 0 <= k < i + 1 ==> f(xs[k]).Ok?;
          Err(rest.error)
        else
          Ok([y] + rest.value)
  }

  /** Build one entry per group, stopping at the first error, then sort the
      entries by `key` (`sort.Slice` at the end of every prepare function). */
  function TraverseSorted<A, B(!new)>(xs: seq<A>, f: A -> Result<B, string>, key: B -> seq<string>)
    : (r: Result<seq<B>, string>)
    ensures r.Ok? <==> forall i :: 0 <= i < |xs| ==> f(xs[i]).Ok?
    ensures r.Err? ==>
              exists i :: 0 <= i < |xs| && f(xs[i]) == Err(r.error) && forall k :: 0 <= k < i ==> f(xs[k]).Ok?
    ensures r.Ok? ==> SortedBy(r.value, key) && |r.value| == |xs|
    ensures r.Ok? ==> forall y :: y in r.value <==> exists i :: 0 <= i < |xs| && f(xs[i]) == Ok(y)
  {
    match Traverse(xs, f)
    case Err(e) => Err(e)
    case Ok(ys) =>
      var s := SortBy(ys, key);
      assert |s| == |multiset(s)| == |multiset(ys)| == |ys|;
      forall y ensures y in s <==> exists i :: 0 <= i < |xs| && f(xs[i]) == Ok(y) {
        assert y in s <==> y in multiset(s);
        assert y in ys <==> y in multiset(ys);
        if y in ys {
          var i :| 0 <= i < |ys| && ys[i] == y;
          assert f(xs[i]) == Ok(y);
        }
      }
      Ok(s)
  }

  /** `TraverseSorted` succeeds exactly when every element maps. */
  lemma TraverseSortedOkMembers<A, B(!new)>(xs: seq<A>, f: A -> Result<B, string>, key: B -> seq<string>)
    ensures TraverseSorted(xs, f, key).Ok? <==> forall a :: a in xs ==> f(a).Ok?
  {
    if TraverseSorted(xs, f, key).Ok? {
      forall a | a in xs ensures f(a).Ok? {
        var i :| 0 <= i < |xs| && xs[i] == a;
      }
    }
  }

  /** The entries of a successful `TraverseSorted` are the images of its
      elements. */
  lemma TraverseSortedMembers<A, B(!new)>(xs: seq<A>, f: A -> Result<B, string>, key: B -> seq<string>)
    ensures var r := TraverseSorted(xs, f, key);
            r.Ok? ==> forall y :: y in r.value <==> exists a :: a in xs && f(a) == Ok(y)
  {
    var r := TraverseSorted(xs, f, key);
    if r.Ok? {
      forall y ensures y in r.value <==> exists a :: a in xs && f(a) == Ok(y) {
        if exists a :: a in xs && f(a) == Ok(y) {
          var a :| a in xs && f(a) == Ok(y);
          var i :| 0 <= i < |xs| && xs[i] == a;
        }
        if y in r.value {
          var i :| 0 <= i < |xs| && f(xs[i]) == Ok(y);
          assert xs[i] in xs;
        }
      }
    }
  }

  /** Entries built from different groups have different sort keys. */
  ghost predicate KeyIdentifies<A, B>(xs: seq<A>, f: A -> Result<B, string>, key: B -> seq<string>) {
    forall a, b :: a in xs && b in xs && f(a).Ok? && f(b).Ok? && key(f(a).value) == key(f(b).value) ==> a == b
  }

  lemma TraverseSortedOkSame<A, B(!new)>(xs1: seq<A>, xs2: seq<A>, f: A -> Result<B, string>, key: B -> seq<string>)
    requires forall a :: a in xs1 <==> a in xs2
    ensures TraverseSorted(xs1, f, key).Ok? <==> TraverseSorted(xs2, f, key).Ok?
  {
    if TraverseSorted(xs1, f, key).Ok? {
      forall i | 0 <= i < |xs2| ensures f(xs2[i]).Ok? {
        assert xs2[i] in xs1;
      }
    }
    if TraverseSorted(xs2, f, key).Ok? {
      forall i | 0 <= i < |xs1| ensures f(xs1[i]).Ok? {
        assert xs1[i] in xs2;
      }
    }
  }

  lemma TraverseSortedSameElements<A, B(!new)>(xs1: seq<A>, xs2: seq<A>, f: A -> Result<B, string>,
                                               key: B -> seq<string>)
    requires forall a :: a in xs1 <==> a in xs2
    requires TraverseSorted(xs1, f, key).Ok? && TraverseSorted(xs2, f, key).Ok?
    ensures forall y :: y in TraverseSorted(xs1, f, key).value <==> y in TraverseSorted(xs2, f, key).value
  {
    var a1 := TraverseSorted(xs1, f, key).value;
    var a2 := TraverseSorted(xs2, f, key).value;
    forall y ensures y in a1 <==> y in a2 {
      if y in a1 {
        var i :| 0 <= i < |xs1| && f(xs1[i]) == Ok(y);
        assert xs1[i] in xs2;
        var j :| 0 <= j < |xs2| && xs2[j] == xs1[i];
      }
      if y in a2 {
        var j :| 0 <= j < |xs2| && f(xs2[j]) == Ok(y);
        assert xs2[j] in xs1;
        var i :| 0 <= i < |xs1| && xs1[i] == xs2[j];
      }
    }
  }

  lemma EntryKeysDistinct<A, B(!new)>(xs: seq<A>, f: A -> Result<B, string>, key: B -> seq<string>)
    requires KeyIdentifies(xs, f, key)
    requires TraverseSorted(xs, f, key).Ok?
    ensures KeysDistinct(TraverseSorted(xs, f, key).value, key)
  {
    var ys := TraverseSorted(xs, f, key).value;
    forall i, j | 0 <= i < |ys| && 0 <= j < |ys| && key(ys[i]) == key(ys[j]) ensures ys[i] == ys[j] {
      assert ys[i] in ys && ys[j] in ys;
      var a :| 0 <= a < |xs| && f(xs[a]) == Ok(ys[i]);
      var b :| 0 <= b < |xs| && f(xs[b]) == Ok(ys[j]);
      assert xs[a] in xs && xs[b] in xs;
    }
  }

  /** Go iterates a map, and a query returns its groups, in no fixed order.
      When entries are told apart by their sort key, the sorted result does
      not depend on that order: it fails for both orders or for neither, and
      is the same list when it succeeds. */
  lemma TraverseSortedIgnoresOrder<A, B(!new)>(xs1: seq<A>, xs2: seq<A>, f: A -> Result<B, string>,
                                               key: B -> seq<string>)
    requires NoDuplicates(xs1) && NoDuplicates(xs2)
    requires forall a :: a in xs1 <==> a in xs2
    requires KeyIdentifies(xs1, f, key)
    ensures TraverseSorted(xs1, f, key).Ok? <==> TraverseSorted(xs2, f, key).Ok?
    ensures TraverseSorted(xs1, f, key).Ok? ==> TraverseSorted(xs1, f, key) == TraverseSorted(xs2, f, key)
  {
    TraverseSortedOkSame(xs1, xs2, f, key);
    if TraverseSorted(xs1, f, key).Ok? {
      var a1 := TraverseSorted(xs1, f, key).value;
      var a2 := TraverseSorted(xs2, f, key).value;
      TraverseSortedSameElements(xs1, xs2, f, key);
      assert KeyIdentifies(xs2, f, key);
      DistinctEntries(xs1, f, key, a1);
      DistinctEntries(xs2, f, key, a2);
      SameElementsPermutation(a1, a2);
      EntryKeysDistinct(xs1, f, key);
      SortedPermutationUnique(a1, a2, key);
    }
  }

  /** Entries built from distinct groups and told apart by key are distinct. */
  lemma DistinctEntries<A, B(!new)>(xs: seq<A>, f: A -> Result<B, string>, key: B -> seq<string>, ys: seq<B>)
    requires NoDuplicates(xs)
    requires KeyIdentifies(xs, f, key)
    requires TraverseSorted(xs, f, key) == Ok(ys)
    ensures NoDuplicates(ys)
  {
    var t := Traverse(xs, f).value;
    assert multiset(ys) == multiset(t);
    forall i, j | 0 <= i < j < |t| ensures t[i] != t[j] {
      assert xs[i] in xs && xs[j] in xs;
    }
    assert NoDuplicates(t);
    forall x ensures multiset(ys)[x] <= 1 {
      AtMostOnce(t, x);
    }
    forall i, j | 0 <= i < j < |ys| ensures ys[i] != ys[j] {
      if ys[i] == ys[j] {
        TwiceCounted(ys, i, j);
      }
    }
  }

  /** The AI call on a group's CSV; its error names the group. */
  function AskAi(env: DigestEnv, prompt: string, rows: seq<SummaryRow>, withDates: bool, group: string)
    : (r: Result<string, string>)
    ensures r.Ok? <==> env.ai(prompt, SummariesToCSV(rows, withDates)).Ok?
    ensures r.Ok? ==> r.value == env.ai(prompt, SummariesToCSV(rows, withDates)).value
  {
    match env.ai(prompt, SummariesToCSV(rows, withDates))
    case Err(e) => Err("AI job failed for " + group + ": " + e)
    case Ok(text) => Ok(text)
  }

  /** The digest of a group: the placeholder when the group has no
      summaries (the AI is not asked), otherwise the AI's answer. */
  function GroupDigest(env: DigestEnv, prompt: string, bucket: seq<SummaryRow>, sample: seq<SummaryRow>,
                       withDates: bool, group: string): (r: Result<string, string>)
    ensures |bucket| == 0 ==> r == Ok(NoCommentsToSummarize)
    ensures |bucket| > 0 ==> r == AskAi(env, prompt, sample, withDates, group)
  {
    if |bucket| == 0 then Ok(NoCommentsToSummarize) else AskAi(env, prompt, sample, withDates, group)
  }

  /** `scoreDelta`: "-" when the previous period had no responses or the
      score did not move, otherwise the signed change. */
  function ScoreDelta(stats: FeedbackStats): (r: string)
    ensures r == "-" <==> stats.prevNFeedback <= 0 || stats.thumbsUpPct == stats.prevThumbsUpPct
  {
    if stats.prevNFeedback > 0 then FormatDelta(stats.thumbsUpPct - stats.prevThumbsUpPct) else "-"
  }

  /** `GenerateAndUploadMonthlyGraph` / `...QuarterlyGraph` after the plot
      stats query: fewer than three points is an error, then plotting, then
      the upload, whose url is the result. */
  function UploadGraph(env: DigestEnv, points: seq<PlotStats>, botToken: string, channel: string,
                       title: string, tooFew: string): (r: Result<string, string>)
    ensures |points| < 3 ==> r == Err(tooFew)
    ensures r.Ok? <==> |points| >= 3 && env.plot(points).None? && env.upload(botToken, channel, title).Ok?
    ensures r.Ok? ==> r.value == env.upload(botToken, channel, title).value
  {
    if |points| < 3 then Err(tooFew)
    else match env.plot(points)
      case Some(e) => Err("failed to plot graph: " + e)
      case None =>
        match env.upload(botToken, channel, title)
        case Err(e) => Err("failed to upload file to Slack: " + e)
        case Ok(url) => Ok(url)
  }

  function TotalComments(rows: seq<SummaryRow>): (n: int)
    ensures (forall i :: 0 <= i < |rows| ==> rows[i].nComments >= 0) ==> n >= 0
    ensures (forall i :: 0 <= i < |rows| ==> rows[i].nComments >= 1) ==> n >= |rows|
  {
    if |rows| == 0 then 0 else rows[0].nComments + TotalComments(rows[1..])
  }

  function SummaryOrigin(s: SummaryRow): string {
    s.origin
  }

  function SummaryGroup(s: SummaryRow): FeedbackGroup {
    FeedbackGroup(s.prompt, s.origin, s.category)
  }

  function SummaryOriginCategory(s: SummaryRow): (string, string) {
    (s.origin, s.category)
  }

  // ---------------------------------------------------------------------------
  // Daily
  // ---------------------------------------------------------------------------

  function DailySample(env: DigestEnv, workspace: string, rows: seq<SummaryRow>, origin: string)
    : (r: seq<SummaryRow>)
    ensures |r| <= env.digestInputLimit
    ensures forall s :: s in r ==> s in rows && s.origin == origin
  {
    var bucket := Bucket(rows, SummaryOrigin, origin);
    BucketMembers(rows, SummaryOrigin, origin);
    SampleFromGroup(bucket, env.digestInputLimit, env.draw(workspace, [origin]));
    Sample(bucket, env.digestInputLimit, env.draw(workspace, [origin]))
  }

  /** One origin of `prepareDailyDigestData`: its summaries, sampled, go to
      the AI; the entry counts the comments of the sampled summaries. */
  function DailyEntryFor(env: DigestEnv, workspace: string, rows: seq<SummaryRow>, origin: string)
    : (r: Result<DailyDigestData, string>)
    ensures r.Ok? <==> env.ai(env.dailyPrompt, SummariesToCSV(DailySample(env, workspace, rows, origin), false)).Ok?
    ensures r.Ok? ==> r.value.origin == origin
                      && r.value.nComments == TotalComments(DailySample(env, workspace, rows, origin))
  {
    var sample := DailySample(env, workspace, rows, origin);
    match AskAi(env, env.dailyPrompt, sample, false, "workspace " + workspace + ", origin " + origin)
    case Err(e) => Err(e)
    case Ok(digest) => Ok(DailyDigestData(origin, TotalComments(sample), digest))
  }

  function DailyEntryOf(env: DigestEnv, workspace: string, rows: seq<SummaryRow>)
    : string -> Result<DailyDigestData, string>
  {
    o => DailyEntryFor(env, workspace, rows, o)
  }

  function DailyKey(d: DailyDigestData): seq<string> {
    [d.origin]
  }

  /** `prepareDailyDigestData`, visiting the origins of the map in the order
      `origins`. */
  function PrepareDailyIn(env: DigestEnv, workspace: string, rows: seq<SummaryRow>, origins: seq<string>)
    : Result<seq<DailyDigestData>, string>
  {
    TraverseSorted(origins, DailyEntryOf(env, workspace, rows), DailyKey)
  }

  /** The origins of the map are the origins of the rows. */
  lemma OriginsOfRows(rows: seq<SummaryRow>)
    ensures forall o :: o in GroupKeys(rows, SummaryOrigin) <==> exists s :: s in rows && s.origin == o
  {
    forall o ensures o in GroupKeys(rows, SummaryOrigin) <==> exists s :: s in rows && s.origin == o {
      if o in GroupKeys(rows, SummaryOrigin) {
        var b := Bucket(rows, SummaryOrigin, o);
        BucketMembers(rows, SummaryOrigin, o);
        assert b[0] in b;
      } else {
        forall s | s in rows ensures s.origin != o {
          BucketMembers(rows, SummaryOrigin, s.origin);
          assert s in Bucket(rows, SummaryOrigin, s.origin);
        }
      }
    }
  }

  lemma DailyKeyIdentifies(env: DigestEnv, workspace: string, rows: seq<SummaryRow>, origins: seq<string>)
    ensures KeyIdentifies(origins, DailyEntryOf(env, workspace, rows), DailyKey)
  {
    var f := DailyEntryOf(env, workspace, rows);
    forall a, b | a in origins && b in origins && f(a).Ok? && f(b).Ok? && DailyKey(f(a).value) == DailyKey(f(b).value)
      ensures a == b
    {
      assert DailyKey(f(a).value)[0] == a && DailyKey(f(b).value)[0] == b;
    }
  }

  lemma PrepareDailyOk(env: DigestEnv, workspace: string, rows: seq<SummaryRow>)
    ensures PrepareDailyIn(env, workspace, rows, GroupKeys(rows, SummaryOrigin)).Ok?
            <==> forall s :: s in rows ==> DailyEntryFor(env, workspace, rows, s.origin).Ok?
  {
    var os := GroupKeys(rows, SummaryOrigin);
    var f := DailyEntryOf(env, workspace, rows);
    var r := PrepareDailyIn(env, workspace, rows, os);
    OriginsOfRows(rows);
    if r.Ok? {
      forall s | s in rows ensures DailyEntryFor(env, workspace, rows, s.origin).Ok? {
        assert s.origin in os;
        var i :| 0 <= i < |os| && os[i] == s.origin;
        assert f(os[i]).Ok?;
      }
    } else {
      var i :| 0 <= i < |os| && f(os[i]) == Err(r.error);
      assert os[i] in os;
      var s :| s in rows && s.origin == os[i];
      assert !DailyEntryFor(env, workspace, rows, s.origin).Ok?;
    }
  }

  lemma PrepareDailyEntries(env: DigestEnv, workspace: string, rows: seq<SummaryRow>)
    ensures var r := PrepareDailyIn(env, workspace, rows, GroupKeys(rows, SummaryOrigin));
            r.Ok? ==> forall d :: d in r.value ==>
              DailyEntryFor(env, workspace, rows, d.origin) == Ok(d) && exists s :: s in rows && s.origin == d.origin
  {
    var os := GroupKeys(rows, SummaryOrigin);
    var r := PrepareDailyIn(env, workspace, rows, os);
    OriginsOfRows(rows);
    if r.Ok? {
      forall d | d in r.value
        ensures DailyEntryFor(env, workspace, rows, d.origin) == Ok(d) && exists s :: s in rows && s.origin == d.origin
      {
        var i :| 0 <= i < |os| && DailyEntryOf(env, workspace, rows)(os[i]) == Ok(d);
        assert os[i] in os;
      }
    }
  }

  lemma PrepareDailyCovers(env: DigestEnv, workspace: string, rows: seq<SummaryRow>)
    ensures var r := PrepareDailyIn(env, workspace, rows, GroupKeys(rows, SummaryOrigin));
            r.Ok? ==> (forall s :: s in rows ==> exists d :: d in r.value && d.origin == s.origin)
                      && (|r.value| == 0 <==> |rows| == 0)
  {
    var os := GroupKeys(rows, SummaryOrigin);
    var f := DailyEntryOf(env, workspace, rows);
    var r := PrepareDailyIn(env, workspace, rows, os);
    OriginsOfRows(rows);
    if r.Ok? {
      forall s | s in rows ensures exists d :: d in r.value && d.origin == s.origin {
        assert s.origin in os;
        var i :| 0 <= i < |os| && os[i] == s.origin;
        assert f(os[i]).value in r.value;
      }
      if |rows| > 0 {
        assert rows[0] in rows;
      }
    }
  }

  lemma PrepareDailyDistinct(env: DigestEnv, workspace: string, rows: seq<SummaryRow>)
    ensures var r := PrepareDailyIn(env, workspace, rows, GroupKeys(rows, SummaryOrigin));
            r.Ok? ==> forall i, j :: 0 <= i < j < |r.value| ==> r.value[i].origin != r.value[j].origin
  {
    var os := GroupKeys(rows, SummaryOrigin);
    var r := PrepareDailyIn(env, workspace, rows, os);
    if r.Ok? {
      DailyKeyIdentifies(env, workspace, rows, os);
      DistinctEntries(os, DailyEntryOf(env, workspace, rows), DailyKey, r.value);
      PrepareDailyEntries(env, workspace, rows);
      forall i, j | 0 <= i < j < |r.value| ensures r.value[i].origin != r.value[j].origin {
        assert r.value[i] in r.value && r.value[j] in r.value;
      }
    }
  }

  /** `prepareDailyDigestData`: one entry per origin that has summaries,
      sorted by origin, or the first AI error. */
  function PrepareDailyDigestData(env: DigestEnv, workspace: string, rows: seq<SummaryRow>)
    : (r: Result<seq<DailyDigestData>, string>)
    ensures r.Ok? <==> forall s :: s in rows ==> DailyEntryFor(env, workspace, rows, s.origin).Ok?
    ensures r.Ok? ==> SortedBy(r.value, DailyKey)
    ensures r.Ok? ==> forall d :: d in r.value ==>
              DailyEntryFor(env, workspace, rows, d.origin) == Ok(d) && exists s :: s in rows && s.origin == d.origin
    ensures r.Ok? ==> forall s :: s in rows ==> exists d :: d in r.value && d.origin == s.origin
    ensures r.Ok? ==> forall i, j :: 0 <= i < j < |r.value| ==> r.value[i].origin != r.value[j].origin
    ensures r.Ok? ==> (|r.value| == 0 <==> |rows| == 0)
  {
    PrepareDailyOk(env, workspace, rows);
    PrepareDailyEntries(env, workspace, rows);
    PrepareDailyCovers(env, workspace, rows);
    PrepareDailyDistinct(env, workspace, rows);
    PrepareDailyIn(env, workspace, rows, GroupKeys(rows, SummaryOrigin))
  }

  /** Whatever order Go visits the origins of the map in, the daily job
      fails for all orders or for none, and otherwise builds the same
      entries. Which AI error is reported first does depend on the order. */
  lemma DailyIgnoresMapOrder(env: DigestEnv, workspace: string, rows: seq<SummaryRow>, origins: seq<string>)
    requires NoDuplicates(origins)
    requires forall o :: o in origins <==> o in GroupKeys(rows, SummaryOrigin)
    ensures PrepareDailyIn(env, workspace, rows, origins).Ok? <==> PrepareDailyDigestData(env, workspace, rows).Ok?
    ensures PrepareDailyIn(env, workspace, rows, origins).Ok? ==>
              PrepareDailyIn(env, workspace, rows, origins) == PrepareDailyDigestData(env, workspace, rows)
  {
    DailyKeyIdentifies(env, workspace, rows, origins);
    TraverseSortedIgnoresOrder(origins, GroupKeys(rows, SummaryOrigin), DailyEntryOf(env, workspace, rows), DailyKey);
  }

  /** `processDailyDigest`: no message when yesterday has no summaries;
      otherwise the digest message, unless preparing it or fetching the bot
      token (asked only after the blocks are built) fails. */
  function ProcessDailyDigest(env: DigestEnv, ws: WorkspaceChannel): (r: Result<Option<DigestMessage>, string>)
    ensures var summaries := SummariesOf(env, ws.workspace, Daily);
            summaries.Err? ==> r == Err("failed to get summaries: " + summaries.error)
    ensures var summaries := SummariesOf(env, ws.workspace, Daily);
            summaries.Ok? ==>
            var rows := summaries.value;
            var prepared := PrepareDailyDigestData(env, ws.workspace, rows);
            && (r == Ok(None) <==> rows == [])
            && (rows != [] && prepared.Err? ==> r == Err(prepared.error))
            && (rows != [] && prepared.Ok? && env.botToken(ws.workspace).Err? ==> r.Err?)
            && (r.Ok? && r.value.Some? ==>
                  && prepared.Ok? && env.botToken(ws.workspace).Ok?
                  && r.value.value == DigestMessage(env.botToken(ws.workspace).value, ws.channel,
                                                    BuildDailyDigestBlocks(prepared.value), ws.workspace))
  {
    match SummariesOf(env, ws.workspace, Daily)
    case Err(e) => Err("failed to get summaries: " + e)
    case Ok(rows) =>
      match PrepareDailyDigestData(env, ws.workspace, rows)
      case Err(e) => Err(e)
      case Ok(ds) =>
        if |ds| == 0 then Ok(None)
        else
          var blocks := BuildDailyDigestBlocks(ds);
          match env.botToken(ws.workspace)
          case Err(e) => Err("no bot token found for workspace " + ws.workspace + ": " + e)
          case Ok(token) => Ok(Some(DigestMessage(token, ws.channel, blocks, ws.workspace)))
  }

  // ---------------------------------------------------------------------------
  // Weekly
  // ---------------------------------------------------------------------------

  function WeeklySample(env: DigestEnv, workspace: string, rows: seq<SummaryRow>, g: FeedbackGroup)
    : seq<SummaryRow>
  {
    Sample(Bucket(rows, SummaryGroup, g), env.digestInputLimit, env.draw(workspace, [g.origin, g.category, g.prompt]))
  }

  /** One group of `prepareWeeklyDigestData`: its digest (the placeholder
      when it has no summaries) and its weekly stats. */
  function WeeklyEntryFor(env: DigestEnv, workspace: string, rows: seq<SummaryRow>, g: FeedbackGroup)
    : (r: Result<WeeklyDigestData, string>)
    ensures Bucket(rows, SummaryGroup, g) == [] && env.dbError(StatsCall(workspace, Weekly, g)).None? ==>
              r.Ok? && r.value.digest == NoCommentsToSummarize
    ensures env.dbError(StatsCall(workspace, Weekly, g)).Some? ==> r.Err?
    ensures r.Ok? ==>
              var stats := WeeklyFeedbackStats(env.feedback, workspace, g.origin, g.category, g.prompt, env.today);
              && WeeklyKey(r.value) == [g.origin, g.category, g.prompt]
              && r.value.nResponses == stats.nFeedback && r.value.nComments == stats.nComments
              && r.value.score == RoundFloat(stats.thumbsUpPct)
              && (r.value.scoreDelta == "-" <==> stats.prevNFeedback <= 0 || stats.thumbsUpPct == stats.prevThumbsUpPct)
  {
    var bucket := Bucket(rows, SummaryGroup, g);
    var group := "workspace " + workspace + ", origin " + g.origin + ", category " + g.category + ", prompt " + g.prompt;
    match GroupDigest(env, env.weeklyPrompt, bucket, WeeklySample(env, workspace, rows, g), false, group)
    case Err(e) => Err(e)
    case Ok(digest) =>
      if env.dbError(StatsCall(workspace, Weekly, g)).Some? then
        Err("failed to get stats for " + group + ": " + env.dbError(StatsCall(workspace, Weekly, g)).value)
      else
      var stats := WeeklyFeedbackStats(env.feedback, workspace, g.origin, g.category, g.prompt, env.today);
      Ok(WeeklyDigestData(g.origin, g.category, g.prompt, RoundFloat(stats.thumbsUpPct), ScoreDelta(stats),
                          stats.nFeedback, FormatDelta(stats.prevNFeedbackDl),
                          stats.nComments, FormatDelta(stats.prevCommentsDl), digest))
  }

  function WeeklyEntryOf(env: DigestEnv, workspace: string, rows: seq<SummaryRow>)
    : FeedbackGroup -> Result<WeeklyDigestData, string>
  {
    g => WeeklyEntryFor(env, workspace, rows, g)
  }

  /** `prepareWeeklyDigestData`: one entry per group, sorted by origin,
      category and prompt. */
  function PrepareWeeklyDigestData(env: DigestEnv, workspace: string, rows: seq<SummaryRow>,
                                   groups: seq<FeedbackGroup>): (r: Result<seq<WeeklyDigestData>, string>)
    ensures r.Ok? <==> forall g :: g in groups ==> WeeklyEntryFor(env, workspace, rows, g).Ok?
    ensures r.Ok? ==> SortedBy(r.value, WeeklyKey) && |r.value| == |groups|
    ensures r.Ok? ==> forall d :: d in r.value <==>
              exists g :: g in groups && WeeklyEntryFor(env, workspace, rows, g) == Ok(d)
  {
    var f := WeeklyEntryOf(env, workspace, rows);
    TraverseSortedOkMembers(groups, f, WeeklyKey);
    TraverseSortedMembers(groups, f, WeeklyKey);
    TraverseSorted(groups, f, WeeklyKey)
  }

  /** The order of the groups returned by the query does not matter. */
  lemma WeeklyIgnoresGroupOrder(env: DigestEnv, workspace: string, rows: seq<SummaryRow>,
                                g1: seq<FeedbackGroup>, g2: seq<FeedbackGroup>)
    requires NoDuplicates(g1) && NoDuplicates(g2)
    requires forall g :: g in g1 <==> g in g2
    ensures PrepareWeeklyDigestData(env, workspace, rows, g1).Ok? ==>
              PrepareWeeklyDigestData(env, workspace, rows, g1) == PrepareWeeklyDigestData(env, workspace, rows, g2)
  {
    TraverseSortedIgnoresOrder(g1, g2, WeeklyEntryOf(env, workspace, rows), WeeklyKey);
  }

  /** The weekly groups (the seven days before today): every entry of a
      weekly digest reports at least one response. */
  lemma WeeklyEntriesHaveResponses(env: DigestEnv, workspace: string, rows: seq<SummaryRow>)
    ensures var r := PrepareWeeklyDigestData(env, workspace, rows, WeeklyFeedbackGroups(env.feedback, workspace, env.today));
            r.Ok? ==> forall d :: d in r.value ==> d.nResponses > 0
  {
    var groups := WeeklyFeedbackGroups(env.feedback, workspace, env.today);
    var r := PrepareWeeklyDigestData(env, workspace, rows, groups);
    if r.Ok? {
      forall d | d in r.value ensures d.nResponses > 0 {
        var g :| g in groups && WeeklyEntryFor(env, workspace, rows, g) == Ok(d);
        WeeklyGroupsHaveStats(env.feedback, workspace, env.today, g);
      }
    }
  }

  /** `processWeeklyDigest`: the groups come from `GetFeedbackGroups` with
      the Weekly range, which takes the Last7d branch and so includes
      today. No message without groups; otherwise the digest message, or
      the first error of summaries, preparation and the bot token (asked
      last). */
  function ProcessWeeklyDigest(env: DigestEnv, ws: WorkspaceChannel): (r: Result<Option<DigestMessage>, string>)
    ensures var groups := FeedbackGroupsOf(env, ws.workspace, Weekly);
            groups.Err? ==> r == Err("failed to get feedback groups: " + groups.error)
    ensures r == Ok(None) <==> FeedbackGroupsOf(env, ws.workspace, Weekly) == Ok([])
    ensures var groups := FeedbackGroupsOf(env, ws.workspace, Weekly);
            var summaries := SummariesOf(env, ws.workspace, Weekly);
            groups.Ok? && groups.value != [] && summaries.Err? ==> r == Err("failed to get summaries: " + summaries.error)
    ensures var groups := FeedbackGroupsOf(env, ws.workspace, Weekly);
            var summaries := SummariesOf(env, ws.workspace, Weekly);
            groups.Ok? && groups.value != [] && summaries.Ok? ==>
            var prepared := PrepareWeeklyDigestData(env, ws.workspace, summaries.value, groups.value);
            && (prepared.Err? ==> r == Err(prepared.error))
            && (prepared.Ok? && env.botToken(ws.workspace).Err? ==> r.Err?)
            && (r.Ok? ==> prepared.Ok? && env.botToken(ws.workspace).Ok?
                          && r.value == Some(DigestMessage(env.botToken(ws.workspace).value, ws.channel,
                                                           BuildWeeklyDigestBlocks(prepared.value), ws.workspace)))
  {
    match FeedbackGroupsOf(env, ws.workspace, Weekly)
    case Err(e) => Err("failed to get feedback groups: " + e)
    case Ok(groups) =>
      if |groups| == 0 then Ok(None)
      else match SummariesOf(env, ws.workspace, Weekly)
        case Err(e) => Err("failed to get summaries: " + e)
        case Ok(rows) =>
          match PrepareWeeklyDigestData(env, ws.workspace, rows, groups)
          case Err(e) => Err(e)
          case Ok(ds) =>
            if |ds| == 0 then Ok(None)
            else
              var blocks := BuildWeeklyDigestBlocks(ds);
              match env.botToken(ws.workspace)
              case Err(e) => Err("no bot token found for workspace " + ws.workspace + ": " + e)
              case Ok(token) => Ok(Some(DigestMessage(token, ws.channel, blocks, ws.workspace)))
  }

  // ---------------------------------------------------------------------------
  // Monthly
  // ---------------------------------------------------------------------------

  function MonthlySample(env: DigestEnv, workspace: string, rows: seq<SummaryRow>, g: FeedbackGroup)
    : seq<SummaryRow>
  {
    Sample(Bucket(rows, SummaryOriginCategory, (g.origin, g.category)), env.digestInputLimit,
           env.draw(workspace, [g.origin, g.category]))
  }

  /** `GenerateAndUploadMonthlyGraph` (its upload title says "Quarterly"). */
  function MonthlyGraph(env: DigestEnv, workspace: string, botToken: string, channel: string, g: FeedbackGroup)
    : (r: Result<string, string>)
    ensures r.Ok? ==> |PlotStatsFor(env.feedback, workspace, g.origin, Some(g.category), env.today)| >= 3
    ensures env.dbError(PlotStatsCall(workspace, Monthly, g)).Some? ==>
              r == Err("failed to get plot stats: " + env.dbError(PlotStatsCall(workspace, Monthly, g)).value)
  {
    match env.dbError(PlotStatsCall(workspace, Monthly, g))
    case Some(e) => Err("failed to get plot stats: " + e)
    case None =>
      UploadGraph(env, PlotStatsFor(env.feedback, workspace, g.origin, Some(g.category), env.today), botToken, channel,
                  "Quarterly graph for " + g.origin, "no stats for origin " + g.origin + " and category " + g.category)
  }

  /** One (origin, category) group of `prepareMonthlyDigestData`: digest,
      monthly stats and graph, each of which can fail. */
  function MonthlyEntryFor(env: DigestEnv, workspace: string, botToken: string, channel: string,
                           rows: seq<SummaryRow>, g: FeedbackGroup): (r: Result<MonthlyDigestData, string>)
    ensures r.Ok? ==>
              var stats := MonthlyFeedbackStats(env.feedback, workspace, g.origin, g.category, env.today);
              && MonthlyKey(r.value) == [g.origin, g.category]
              && r.value.nResponses == stats.nFeedback && r.value.score == RoundFloat(stats.thumbsUpPct)
              && MonthlyGraph(env, workspace, botToken, channel, g) == Ok(r.value.graphUrl)
    ensures MonthlyGraph(env, workspace, botToken, channel, g).Err? ==> r.Err?
    ensures env.dbError(StatsCall(workspace, Monthly, g)).Some? ==> r.Err?
    ensures r.Ok? && Bucket(rows, SummaryOriginCategory, (g.origin, g.category)) == [] ==>
              r.value.digest == NoCommentsToSummarize
  {
    var bucket := Bucket(rows, SummaryOriginCategory, (g.origin, g.category));
    var group := "workspace " + workspace + ", origin " + g.origin + ", category " + g.category;
    match GroupDigest(env, env.monthlyPrompt, bucket, MonthlySample(env, workspace, rows, g), true, group)
    case Err(e) => Err(e)
    case Ok(digest) =>
      if env.dbError(StatsCall(workspace, Monthly, g)).Some? then
        Err("failed to get stats for " + group + ": " + env.dbError(StatsCall(workspace, Monthly, g)).value)
      else
      var stats := MonthlyFeedbackStats(env.feedback, workspace, g.origin, g.category, env.today);
      match MonthlyGraph(env, workspace, botToken, channel, g)
      case Err(e) =>
        Err("failed to generate or upload graph for " + g.origin + "/" + g.category + " of workspace " + workspace + ": " + e)
      case Ok(url) =>
        Ok(MonthlyDigestData(g.origin, g.category, RoundFloat(stats.thumbsUpPct), ScoreDelta(stats),
                             stats.nFeedback, FormatDelta(stats.prevNFeedbackDl),
                             stats.nComments, FormatDelta(stats.prevCommentsDl), digest, url))
  }

  function MonthlyEntryOf(env: DigestEnv, workspace: string, botToken: string, channel: string, rows: seq<SummaryRow>)
    : FeedbackGroup -> Result<MonthlyDigestData, string>
  {
    g => MonthlyEntryFor(env, workspace, botToken, channel, rows, g)
  }

  /** `prepareMonthlyDigestData`: one entry per group, sorted by origin and
      category; every entry carries a graph of at least three months. */
  function PrepareMonthlyDigestData(env: DigestEnv, workspace: string, botToken: string, channel: string,
                                    rows: seq<SummaryRow>, groups: seq<FeedbackGroup>)
    : (r: Result<seq<MonthlyDigestData>, string>)
    ensures r.Ok? <==> forall g :: g in groups ==> MonthlyEntryFor(env, workspace, botToken, channel, rows, g).Ok?
    ensures r.Ok? ==> SortedBy(r.value, MonthlyKey) && |r.value| == |groups|
    ensures r.Ok? ==> forall d :: d in r.value <==>
              exists g :: g in groups && MonthlyEntryFor(env, workspace, botToken, channel, rows, g) == Ok(d)
    ensures r.Ok? ==> forall d :: d in r.value ==>
              |PlotStatsFor(env.feedback, workspace, d.origin, Some(d.category), env.today)| >= 3
  {
    var f := MonthlyEntryOf(env, workspace, botToken, channel, rows);
    TraverseSortedOkMembers(groups, f, MonthlyKey);
    TraverseSortedMembers(groups, f, MonthlyKey);
    MonthlyEntriesPlotted(env, workspace, botToken, channel, rows, groups);
    TraverseSorted(groups, f, MonthlyKey)
  }

  /** Every monthly entry comes with an uploaded graph, so its group has at
      least three months of statistics. */
  lemma MonthlyEntriesPlotted(env: DigestEnv, workspace: string, botToken: string, channel: string,
                              rows: seq<SummaryRow>, groups: seq<FeedbackGroup>)
    ensures var r := TraverseSorted(groups, MonthlyEntryOf(env, workspace, botToken, channel, rows), MonthlyKey);
            r.Ok? ==> forall d :: d in r.value ==>
              |PlotStatsFor(env.feedback, workspace, d.origin, Some(d.category), env.today)| >= 3
  {
    var f := MonthlyEntryOf(env, workspace, botToken, channel, rows);
    var r := TraverseSorted(groups, f, MonthlyKey);
    if r.Ok? {
      TraverseSortedMembers(groups, f, MonthlyKey);
      forall d | d in r.value
        ensures |PlotStatsFor(env.feedback, workspace, d.origin, Some(d.category), env.today)| >= 3
      {
        var g :| g in groups && f(g) == Ok(d);
        assert MonthlyEntryFor(env, workspace, botToken, channel, rows, g) == Ok(d);
        assert MonthlyKey(d)[0] == g.origin && MonthlyKey(d)[1] == g.category;
      }
    }
  }

  /** The order of the monthly groups does not matter: they come from the
      monthly group query, whose groups differ in origin or category. */
  lemma MonthlyIgnoresGroupOrder(env: DigestEnv, workspace: string, botToken: string, channel: string,
                                 rows: seq<SummaryRow>, g1: seq<FeedbackGroup>, g2: seq<FeedbackGroup>)
    requires GetFeedbackGroups(env.feedback, workspace, Monthly, env.today) == Ok(g1)
    requires NoDuplicates(g2) && forall g :: g in g1 <==> g in g2
    ensures PrepareMonthlyDigestData(env, workspace, botToken, channel, rows, g1).Ok? ==>
              PrepareMonthlyDigestData(env, workspace, botToken, channel, rows, g1)
              == PrepareMonthlyDigestData(env, workspace, botToken, channel, rows, g2)
  {
    var f := MonthlyEntryOf(env, workspace, botToken, channel, rows);
    forall a | a in g1 ensures a.prompt == "" {
      var x :| x in env.feedback && Live(x, workspace)
               && InWindow(x.createdAt, GroupWindow(Monthly, IntervalOf(Monthly).value, env.today))
               && GroupKey(x, Monthly) == a;
    }
    TraverseSortedIgnoresOrder(g1, g2, f, MonthlyKey);
  }

  /** `processMonthlyDigest`: no message without groups; the bot token is
      fetched before any entry is prepared (it is needed for the uploads). */
  function ProcessMonthlyDigest(env: DigestEnv, ws: WorkspaceChannel): (r: Result<Option<DigestMessage>, string>)
    ensures var groups := FeedbackGroupsOf(env, ws.workspace, Monthly);
            groups.Err? ==> r == Err("failed to get feedback groups: " + groups.error)
    ensures r == Ok(None) <==> FeedbackGroupsOf(env, ws.workspace, Monthly) == Ok([])
    ensures var groups := FeedbackGroupsOf(env, ws.workspace, Monthly);
            var summaries := SummariesOf(env, ws.workspace, Monthly);
            groups.Ok? && groups.value != [] && summaries.Err? ==> r == Err("failed to get summaries: " + summaries.error)
    ensures var groups := FeedbackGroupsOf(env, ws.workspace, Monthly);
            var summaries := SummariesOf(env, ws.workspace, Monthly);
            var token := env.botToken(ws.workspace);
            groups.Ok? && groups.value != [] && summaries.Ok? ==>
            && (token.Err? ==> r == Err("no bot token found for workspace " + ws.workspace + ": " + token.error))
            && (token.Ok? && PrepareMonthlyDigestData(env, ws.workspace, token.value, ws.channel, summaries.value, groups.value).Err? ==>
                  r == Err(PrepareMonthlyDigestData(env, ws.workspace, token.value, ws.channel, summaries.value, groups.value).error))
            && (r.Ok? ==>
                  && token.Ok?
                  && PrepareMonthlyDigestData(env, ws.workspace, token.value, ws.channel, summaries.value, groups.value).Ok?
                  && r.value == Some(DigestMessage(token.value, ws.channel,
                       BuildMonthlyDigestBlocks(PrepareMonthlyDigestData(env, ws.workspace, token.value, ws.channel, summaries.value, groups.value).value,
                             MonthLabel(env.today)), ws.workspace)))
  {
    match FeedbackGroupsOf(env, ws.workspace, Monthly)
    case Err(e) => Err("failed to get feedback groups: " + e)
    case Ok(groups) =>
      if |groups| == 0 then Ok(None)
      else match SummariesOf(env, ws.workspace, Monthly)
        case Err(e) => Err("failed to get summaries: " + e)
        case Ok(rows) =>
          match env.botToken(ws.workspace)
          case Err(e) => Err("no bot token found for workspace " + ws.workspace + ": " + e)
          case Ok(token) =>
            match PrepareMonthlyDigestData(env, ws.workspace, token, ws.channel, rows, groups)
            case Err(e) => Err(e)
            case Ok(ds) =>
              if |ds| == 0 then Ok(None)
              else Ok(Some(DigestMessage(token, ws.channel, BuildMonthlyDigestBlocks(ds, MonthLabel(env.today)),
                                         ws.workspace)))
  }

  // ---------------------------------------------------------------------------
  // Quarterly
  // ---------------------------------------------------------------------------

  function QuarterlySample(env: DigestEnv, workspace: string, rows: seq<SummaryRow>, origin: string)
    : seq<SummaryRow>
  {
    Sample(Bucket(rows, SummaryOrigin, origin), env.digestInputLimit, env.draw(workspace, [origin]))
  }

  /** `GenerateAndUploadQuarterlyGraph`: one point per month with feedback
      of the origin, at least three of them. */
  function QuarterlyGraph(env: DigestEnv, workspace: string, botToken: string, channel: string, origin: string)
    : (r: Result<string, string>)
    ensures r.Ok? ==> |PlotStatsFor(env.feedback, workspace, origin, None, env.today)| >= 3
    ensures env.dbError(PlotStatsCall(workspace, Quarterly, FeedbackGroup("", origin, ""))).Some? ==> r.Err?
  {
    match env.dbError(PlotStatsCall(workspace, Quarterly, FeedbackGroup("", origin, "")))
    case Some(e) => Err("failed to get plot stats: " + e)
    case None =>
      UploadGraph(env, PlotStatsFor(env.feedback, workspace, origin, None, env.today), botToken, channel,
                  "Quarterly graph for " + origin, "not enough stats for origin " + origin)
  }

  function QuarterlyEntryFor(env: DigestEnv, workspace: string, botToken: string, channel: string,
                             rows: seq<SummaryRow>, g: FeedbackGroup): (r: Result<QuarterlyDigestData, string>)
    ensures r.Ok? ==> r.value.origin == g.origin
                      && QuarterlyGraph(env, workspace, botToken, channel, g.origin) == Ok(r.value.graphUrl)
    ensures r.Ok? && Bucket(rows, SummaryOrigin, g.origin) == [] ==> r.value.digest == NoCommentsToSummarize
  {
    var bucket := Bucket(rows, SummaryOrigin, g.origin);
    var group := "workspace " + workspace + ", origin " + g.origin;
    match GroupDigest(env, env.quarterlyPrompt, bucket, QuarterlySample(env, workspace, rows, g.origin), true, group)
    case Err(e) => Err(e)
    case Ok(digest) =>
      match QuarterlyGraph(env, workspace, botToken, channel, g.origin)
      case Err(e) => Err("failed to generate or upload graph for " + g.origin + " of workspace " + workspace + ": " + e)
      case Ok(url) => Ok(QuarterlyDigestData(g.origin, digest, url))
  }

  function QuarterlyEntryOf(env: DigestEnv, workspace: string, botToken: string, channel: string,
                            rows: seq<SummaryRow>): FeedbackGroup -> Result<QuarterlyDigestData, string>
  {
    g => QuarterlyEntryFor(env, workspace, botToken, channel, rows, g)
  }

  function QuarterlyKey(d: QuarterlyDigestData): seq<string> {
    [d.origin]
  }

  /** `prepareQuarterlyDigestData`: one entry per origin, sorted; every
      entry carries a graph of at least three months. */
  function PrepareQuarterlyDigestData(env: DigestEnv, workspace: string, botToken: string, channel: string,
                                      rows: seq<SummaryRow>, groups: seq<FeedbackGroup>)
    : (r: Result<seq<QuarterlyDigestData>, string>)
    ensures r.Ok? <==> forall g :: g in groups ==> QuarterlyEntryFor(env, workspace, botToken, channel, rows, g).Ok?
    ensures r.Ok? ==> SortedBy(r.value, QuarterlyKey) && |r.value| == |groups|
    ensures r.Ok? ==> forall d :: d in r.value <==>
              exists g :: g in groups && QuarterlyEntryFor(env, workspace, botToken, channel, rows, g) == Ok(d)
    ensures r.Ok? ==> forall d :: d in r.value ==>
              |PlotStatsFor(env.feedback, workspace, d.origin, None, env.today)| >= 3
  {
    var f := QuarterlyEntryOf(env, workspace, botToken, channel, rows);
    TraverseSortedOkMembers(groups, f, QuarterlyKey);
    TraverseSortedMembers(groups, f, QuarterlyKey);
    QuarterlyEntriesPlotted(env, workspace, botToken, channel, rows, groups);
    TraverseSorted(groups, f, QuarterlyKey)
  }

  /** Every quarterly entry comes with an uploaded graph, so its origin has
      at least three months of statistics. */
  lemma QuarterlyEntriesPlotted(env: DigestEnv, workspace: string, botToken: string, channel: string,
                                rows: seq<SummaryRow>, groups: seq<FeedbackGroup>)
    ensures var r := TraverseSorted(groups, QuarterlyEntryOf(env, workspace, botToken, channel, rows), QuarterlyKey);
            r.Ok? ==> forall d :: d in r.value ==>
              |PlotStatsFor(env.feedback, workspace, d.origin, None, env.today)| >= 3
  {
    var f := QuarterlyEntryOf(env, workspace, botToken, channel, rows);
    var r := TraverseSorted(groups, f, QuarterlyKey);
    if r.Ok? {
      TraverseSortedMembers(groups, f, QuarterlyKey);
      forall d | d in r.value ensures |PlotStatsFor(env.feedback, workspace, d.origin, None, env.today)| >= 3 {
        var g :| g in groups && f(g) == Ok(d);
        assert QuarterlyEntryFor(env, workspace, botToken, channel, rows, g) == Ok(d);
      }
    }
  }

  /** The quarterly groups are one per origin, with empty category and
      prompt. */
  lemma QuarterlyGroupsByOrigin(env: DigestEnv, workspace: string, groups: seq<FeedbackGroup>)
    requires GetFeedbackGroups(env.feedback, workspace, Quarterly, env.today) == Ok(groups)
    ensures NoDuplicates(groups)
    ensures forall a :: a in groups ==> a == FeedbackGroup("", a.origin, "")
  {
    forall a | a in groups ensures a == FeedbackGroup("", a.origin, "") {
      var x :| x in env.feedback && Live(x, workspace)
               && InWindow(x.createdAt, GroupWindow(Quarterly, IntervalOf(Quarterly).value, env.today))
               && GroupKey(x, Quarterly) == a;
    }
  }

  lemma QuarterlyKeyIdentifies(env: DigestEnv, workspace: string, botToken: string, channel: string,
                               rows: seq<SummaryRow>, groups: seq<FeedbackGroup>)
    requires forall a :: a in groups ==> a == FeedbackGroup("", a.origin, "")
    ensures KeyIdentifies(groups, QuarterlyEntryOf(env, workspace, botToken, channel, rows), QuarterlyKey)
  {
    var f := QuarterlyEntryOf(env, workspace, botToken, channel, rows);
    forall a, b | a in groups && b in groups && f(a).Ok? && f(b).Ok? && QuarterlyKey(f(a).value) == QuarterlyKey(f(b).value)
      ensures a == b
    {
      assert QuarterlyKey(f(a).value)[0] == a.origin && QuarterlyKey(f(b).value)[0] == b.origin;
    }
  }

  /** On the quarterly groups (one per origin) the message has one header per
      origin, each once, in sorted order. */
  lemma QuarterlyOneHeaderPerOrigin(env: DigestEnv, workspace: string, botToken: string, channel: string,
                                    rows: seq<SummaryRow>, groups: seq<FeedbackGroup>)
    requires GetFeedbackGroups(env.feedback, workspace, Quarterly, env.today) == Ok(groups)
    ensures var r := PrepareQuarterlyDigestData(env, workspace, botToken, channel, rows, groups);
            r.Ok? ==> NoDuplicates(Pick(QuarterlyEntries(r.value), HeaderOf))
  {
    var f := QuarterlyEntryOf(env, workspace, botToken, channel, rows);
    var r := PrepareQuarterlyDigestData(env, workspace, botToken, channel, rows, groups);
    if r.Ok? {
      var ys := r.value;
      assert TraverseSorted(groups, f, QuarterlyKey) == Ok(ys);
      QuarterlyGroupsByOrigin(env, workspace, groups);
      QuarterlyKeyIdentifies(env, workspace, botToken, channel, rows, groups);
      DistinctEntries(groups, f, QuarterlyKey, ys);
      EntryKeysDistinct(groups, f, QuarterlyKey);
      QuarterlyEntriesRead(ys);
      var hs := MapSeq(ys, QuarterlyOrigin);
      forall i, j | 0 <= i < j < |hs| ensures hs[i] != hs[j] {
        assert ys[i] != ys[j];
        assert QuarterlyKey(ys[i]) == [hs[i]] && QuarterlyKey(ys[j]) == [hs[j]];
      }
    }
  }

  /** `processQuarterlyDigest`: as the monthly one, with the quarter label. */
  function ProcessQuarterlyDigest(env: DigestEnv, ws: WorkspaceChannel): (r: Result<Option<DigestMessage>, string>)
    ensures var groups := FeedbackGroupsOf(env, ws.workspace, Quarterly);
            groups.Err? ==> r == Err("failed to get feedback groups: " + groups.error)
    ensures r == Ok(None) <==> FeedbackGroupsOf(env, ws.workspace, Quarterly) == Ok([])
    ensures var groups := FeedbackGroupsOf(env, ws.workspace, Quarterly);
            var summaries := SummariesOf(env, ws.workspace, Quarterly);
            groups.Ok? && groups.value != [] && summaries.Err? ==> r == Err("failed to get summaries: " + summaries.error)
    ensures var groups := FeedbackGroupsOf(env, ws.workspace, Quarterly);
            var summaries := SummariesOf(env, ws.workspace, Quarterly);
            var token := env.botToken(ws.workspace);
            groups.Ok? && groups.value != [] && summaries.Ok? ==>
            && (token.Err? ==> r == Err("no bot token found for workspace " + ws.workspace + ": " + token.error))
            && (token.Ok? && PrepareQuarterlyDigestData(env, ws.workspace, token.value, ws.channel, summaries.value, groups.value).Err? ==>
                  r == Err(PrepareQuarterlyDigestData(env, ws.workspace, token.value, ws.channel, summaries.value, groups.value).error))
            && (r.Ok? ==>
                  && token.Ok?
                  && PrepareQuarterlyDigestData(env, ws.workspace, token.value, ws.channel, summaries.value, groups.value).Ok?
                  && r.value == Some(DigestMessage(token.value, ws.channel,
                       BuildQuarterlyDigestBlocks(PrepareQuarterlyDigestData(env, ws.workspace, token.value, ws.channel, summaries.value, groups.value).value,
                             QuarterLabel(env.today)), ws.workspace)))
  {
    match FeedbackGroupsOf(env, ws.workspace, Quarterly)
    case Err(e) => Err("failed to get feedback groups: " + e)
    case Ok(groups) =>
      if |groups| == 0 then Ok(None)
      else match SummariesOf(env, ws.workspace, Quarterly)
        case Err(e) => Err("failed to get summaries: " + e)
        case Ok(rows) =>
          match env.botToken(ws.workspace)
          case Err(e) => Err("no bot token found for workspace " + ws.workspace + ": " + e)
          case Ok(token) =>
            match PrepareQuarterlyDigestData(env, ws.workspace, token, ws.channel, rows, groups)
            case Err(e) => Err(e)
            case Ok(ds) =>
              if |ds| == 0 then Ok(None)
              else Ok(Some(DigestMessage(token, ws.channel, BuildQuarterlyDigestBlocks(ds, QuarterLabel(env.today)),
                                         ws.workspace)))
  }

  // ---------------------------------------------------------------------------
  // Collecting and sending
  // ---------------------------------------------------------------------------

  /** What a `Send...Digests` call did: the messages Slack accepted, those
      it refused, and the error the call returned. */
  datatype Run = Run(delivered: seq<DigestMessage>, refused: seq<DigestMessage>, error: Option<string>)

  function Somes<T(!new)>(xs: seq<Option<T>>): (r: seq<T>)
    ensures |r| <= |xs|
    ensures forall x :: x in r <==> Some(x) in xs
  {
    if |xs| == 0 then []
    else (if xs[0].Some? then [xs[0].value] else []) + Somes(xs[1..])
  }

  /** The per-workspace step with the job's error prefix. */
  function Step(kind: string, ws: WorkspaceChannel, r: Result<Option<DigestMessage>, string>)
    : (s: Result<Option<DigestMessage>, string>)
    ensures s.Ok? <==> r.Ok?
    ensures s.Ok? ==> s == r
  {
    match r
    case Err(e) => Err("failed to process " + kind + " digest for workspace " + ws.workspace + ": " + e)
    case Ok(m) => Ok(m)
  }

  /** Daily, monthly and quarterly sending: a refused message is logged and
      the next one is sent. */
  function SendAll(msgs: seq<DigestMessage>, send: DigestMessage -> Option<string>): (r: Run)
    ensures r.error.None?
    ensures |r.delivered| + |r.refused| == |msgs|
    ensures forall m :: m in r.delivered <==> m in msgs && send(m).None?
    ensures forall m :: m in r.refused <==> m in msgs && send(m).Some?
  {
    if |msgs| == 0 then Run([], [], None)
    else
      var rest := SendAll(msgs[1..], send);
      if send(msgs[0]).None? then Run([msgs[0]] + rest.delivered, rest.refused, None)
      else Run(rest.delivered, [msgs[0]] + rest.refused, None)
  }

  /** Weekly sending: the first refused message ends the job with an error;
      the messages after it are not sent. */
  function SendUntilRefused(msgs: seq<DigestMessage>, send: DigestMessage -> Option<string>): (r: Run)
    ensures r.error.None? <==> forall m :: m in msgs ==> send(m).None?
    ensures r.error.None? ==> r.delivered == msgs && r.refused == []
    ensures r.error.Some? ==>
              && |r.refused| == 1 && r.delivered + r.refused <= msgs
              && (forall m :: m in r.delivered ==> send(m).None?)
              && send(r.refused[0]).Some?
              && r.error.value == "failed to send weekly digest to workspace " + r.refused[0].workspace
                                  + ": " + send(r.refused[0]).value
    decreases |msgs|
  {
    if |msgs| == 0 then Run([], [], None)
    else
      assert msgs == [msgs[0]] + msgs[1..];
      match send(msgs[0])
      case Some(e) =>
        Run([], [msgs[0]], Some("failed to send weekly digest to workspace " + msgs[0].workspace + ": " + e))
      case None =>
        var rest := SendUntilRefused(msgs[1..], send);
        if rest.error.None? then Run(msgs, [], None)
        else
          var sent := rest.delivered + rest.refused;
          assert [msgs[0]] + rest.delivered + rest.refused == [msgs[0]] + sent;
          assert msgs[1..][..|sent|] == sent;
          assert msgs[..|sent| + 1] == [msgs[0]] + sent;
          Run([msgs[0]] + rest.delivered, rest.refused, rest.error)
  }

  /** The messages collected from the per-workspace steps are exactly the
      messages the steps produced. */
  lemma CollectedMessages(wss: seq<WorkspaceChannel>, step: WorkspaceChannel -> Result<Option<DigestMessage>, string>,
                          opts: seq<Option<DigestMessage>>)
    requires Traverse(wss, step) == Ok(opts)
    ensures forall m :: m in Somes(opts) ==> exists i :: 0 <= i < |wss| && step(wss[i]) == Ok(Some(m))
    ensures forall i :: 0 <= i < |wss| && step(wss[i]).Ok? && step(wss[i]).value.Some? ==>
              step(wss[i]).value.value in Somes(opts)
  {
    var msgs := Somes(opts);
    forall m | m in msgs ensures exists i :: 0 <= i < |wss| && step(wss[i]) == Ok(Some(m)) {
      var i :| 0 <= i < |opts| && opts[i] == Some(m);
      assert step(wss[i]) == Ok(opts[i]);
    }
    forall i | 0 <= i < |wss| && step(wss[i]).Ok? && step(wss[i]).value.Some?
      ensures step(wss[i]).value.value in msgs
    {
      assert opts[i] == step(wss[i]).value;
      assert opts[i] in opts;
    }
  }

  /** The shape shared by `SendDailyDigests` ... `SendQuarterlyDigests`: any
      error before sending ends the job before a single message goes out. */
  function SendDigests(workspaces: Result<seq<WorkspaceChannel>, string>,
                       step: WorkspaceChannel -> Result<Option<DigestMessage>, string>,
                       send: DigestMessage -> Option<string>, stopOnRefusal: bool): (r: Run)
    ensures workspaces.Err? ==> r == Run([], [], Some("failed to get active workspaces: " + workspaces.error))
    ensures r.error.None? ==> workspaces.Ok? && forall i :: 0 <= i < |workspaces.value| ==> step(workspaces.value[i]).Ok?
    ensures r.delivered + r.refused != [] ==>
              workspaces.Ok? && forall i :: 0 <= i < |workspaces.value| ==> step(workspaces.value[i]).Ok?
    ensures forall m :: m in r.delivered + r.refused ==>
              workspaces.Ok? && exists i :: 0 <= i < |workspaces.value| && step(workspaces.value[i]) == Ok(Some(m))
    ensures forall m :: m in r.delivered ==> send(m).None?
    ensures forall m :: m in r.refused ==> send(m).Some?
    ensures stopOnRefusal ==> |r.refused| <= 1 && (r.error.None? ==> r.refused == [])
    ensures !stopOnRefusal ==>
              (r.error.None? <==> workspaces.Ok? && forall i :: 0 <= i < |workspaces.value| ==> step(workspaces.value[i]).Ok?)
    ensures !stopOnRefusal && r.error.None? ==>
              workspaces.Ok? &&
              forall i :: 0 <= i < |workspaces.value| && step(workspaces.value[i]).Ok? && step(workspaces.value[i]).value.Some? ==>
                var m := step(workspaces.value[i]).value.value;
                (m in r.delivered <==> send(m).None?) && (m in r.refused <==> send(m).Some?)
  {
    match workspaces
    case Err(e) => Run([], [], Some("failed to get active workspaces: " + e))
    case Ok(wss) =>
      match Traverse(wss, step)
      case Err(e) => Run([], [], Some(e))
      case Ok(opts) =>
        CollectedMessages(wss, step, opts);
        SendCollected(Somes(opts), send, stopOnRefusal)
  }

  /** Sending the collected messages, one way or the other. */
  function SendCollected(msgs: seq<DigestMessage>, send: DigestMessage -> Option<string>, stopOnRefusal: bool)
    : (r: Run)
    ensures forall m :: m in r.delivered + r.refused ==> m in msgs
    ensures forall m :: m in r.delivered ==> send(m).None?
    ensures forall m :: m in r.refused ==> send(m).Some?
    ensures stopOnRefusal ==> |r.refused| <= 1 && (r.error.None? ==> r.refused == [])
    ensures !stopOnRefusal ==>
              r.error.None? && forall m :: m in msgs ==> (m in r.delivered <==> send(m).None?) && (m in r.refused <==> send(m).Some?)
  {
    if stopOnRefusal then
      var r := SendUntilRefused(msgs, send);
      assert forall m :: m in r.delivered + r.refused ==> m in msgs;
      r
    else SendAll(msgs, send)
  }

  function DailyStep(env: DigestEnv): WorkspaceChannel -> Result<Option<DigestMessage>, string> {
    ws => Step("daily", ws, ProcessDailyDigest(env, ws))
  }

  function WeeklyStep(env: DigestEnv): WorkspaceChannel -> Result<Option<DigestMessage>, string> {
    ws => Step("weekly", ws, ProcessWeeklyDigest(env, ws))
  }

  function MonthlyStep(env: DigestEnv): WorkspaceChannel -> Result<Option<DigestMessage>, string> {
    ws => Step("monthly", ws, ProcessMonthlyDigest(env, ws))
  }

  function QuarterlyStep(env: DigestEnv): WorkspaceChannel -> Result<Option<DigestMessage>, string> {
    ws => Step("quarterly", ws, ProcessQuarterlyDigest(env, ws))
  }

  /** A step that addresses its message to the workspace it was built for. */
  ghost predicate StepAddresses(step: WorkspaceChannel -> Result<Option<DigestMessage>, string>) {
    forall ws :: step(ws).Ok? && step(ws).value.Some? ==>
      step(ws).value.value.workspace == ws.workspace && step(ws).value.value.channel == ws.channel
  }

  /** Every message a job hands to Slack goes to one of the workspaces
      subscribed to it, on that workspace's channel. */
  lemma SentToSubscribers(workspaces: Result<seq<WorkspaceChannel>, string>,
                          step: WorkspaceChannel -> Result<Option<DigestMessage>, string>,
                          send: DigestMessage -> Option<string>, stopOnRefusal: bool)
    requires StepAddresses(step)
    ensures var r := SendDigests(workspaces, step, send, stopOnRefusal);
            forall m :: m in r.delivered + r.refused ==>
              workspaces.Ok? && exists ws :: ws in workspaces.value && m.workspace == ws.workspace && m.channel == ws.channel
  {
    var r := SendDigests(workspaces, step, send, stopOnRefusal);
    forall m | m in r.delivered + r.refused
      ensures workspaces.Ok? && exists ws :: ws in workspaces.value && m.workspace == ws.workspace && m.channel == ws.channel
    {
      var i :| 0 <= i < |workspaces.value| && step(workspaces.value[i]) == Ok(Some(m));
      assert workspaces.value[i] in workspaces.value;
    }
  }

  lemma DailyAddresses(env: DigestEnv)
    ensures StepAddresses(DailyStep(env))
  {
  }

  lemma WeeklyAddresses(env: DigestEnv)
    ensures StepAddresses(WeeklyStep(env))
  {
  }

  lemma MonthlyAddresses(env: DigestEnv)
    ensures StepAddresses(MonthlyStep(env))
  {
  }

  lemma QuarterlyAddresses(env: DigestEnv)
    ensures StepAddresses(QuarterlyStep(env))
  {
  }

  /** `SendDailyDigests`. */
  function SendDailyDigests(env: DigestEnv): (r: Run)
    ensures r.error.None? <==>
              env.workspaces(Daily).Ok?
              && forall i :: 0 <= i < |env.workspaces(Daily).value| ==> DailyStep(env)(env.workspaces(Daily).value[i]).Ok?
  {
    SendDigests(env.workspaces(Daily), DailyStep(env), env.send, false)
  }

  /** `SendWeeklyDigests`: the only job that stops at a refused message. */
  function SendWeeklyDigests(env: DigestEnv): (r: Run)
    ensures r.error.None? ==>
              env.workspaces(Weekly).Ok?
              && forall i :: 0 <= i < |env.workspaces(Weekly).value| ==> WeeklyStep(env)(env.workspaces(Weekly).value[i]).Ok?
    ensures r.error.None? ==> r.refused == []
    ensures |r.refused| <= 1
  {
    SendDigests(env.workspaces(Weekly), WeeklyStep(env), env.send, true)
  }

  /** `SendMonthlyDigests`. */
  function SendMonthlyDigests(env: DigestEnv): (r: Run)
    ensures r.error.None? <==>
              env.workspaces(Monthly).Ok?
              && forall i :: 0 <= i < |env.workspaces(Monthly).value| ==> MonthlyStep(env)(env.workspaces(Monthly).value[i]).Ok?
  {
    SendDigests(env.workspaces(Monthly), MonthlyStep(env), env.send, false)
  }

  /** `SendQuarterlyDigests`. */
  function SendQuarterlyDigests(env: DigestEnv): (r: Run)
    ensures r.error.None? <==>
              env.workspaces(Quarterly).Ok?
              && forall i :: 0 <= i < |env.workspaces(Quarterly).value| ==> QuarterlyStep(env)(env.workspaces(Quarterly).value[i]).Ok?
  {
    SendDigests(env.workspaces(Quarterly), QuarterlyStep(env), env.send, false)
  }

  /** Every message a digest job hands to Slack goes to a workspace
      subscribed to that digest, on its channel. */
  lemma SendsReachSubscribers(env: DigestEnv)
    ensures forall m :: m in SendDailyDigests(env).delivered + SendDailyDigests(env).refused ==>
              env.workspaces(Daily).Ok?
              && exists ws :: ws in env.workspaces(Daily).value && m.workspace == ws.workspace && m.channel == ws.channel
    ensures forall m :: m in SendWeeklyDigests(env).delivered + SendWeeklyDigests(env).refused ==>
              env.workspaces(Weekly).Ok?
              && exists ws :: ws in env.workspaces(Weekly).value && m.workspace == ws.workspace && m.channel == ws.channel
    ensures forall m :: m in SendMonthlyDigests(env).delivered + SendMonthlyDigests(env).refused ==>
              env.workspaces(Monthly).Ok?
              && exists ws :: ws in env.workspaces(Monthly).value && m.workspace == ws.workspace && m.channel == ws.channel
    ensures forall m :: m in SendQuarterlyDigests(env).delivered + SendQuarterlyDigests(env).refused ==>
              env.workspaces(Quarterly).Ok?
              && exists ws :: ws in env.workspaces(Quarterly).value && m.workspace == ws.workspace && m.channel == ws.channel
  {
    DailyAddresses(env);
    WeeklyAddresses(env);
    MonthlyAddresses(env);
    QuarterlyAddresses(env);
    SentToSubscribers(env.workspaces(Daily), DailyStep(env), env.send, false);
    SentToSubscribers(env.workspaces(Weekly), WeeklyStep(env), env.send, true);
    SentToSubscribers(env.workspaces(Monthly), MonthlyStep(env), env.send, false);
    SentToSubscribers(env.workspaces(Quarterly), QuarterlyStep(env), env.send, false);
  }
}

=== FILE: explore_interactions.dfy ===
/** The explore tab's filter handling: the per-user filter cache and its
    expiry, reading the filter controls out of a submitted view, clearing a
    filter, re-rendering the tab with selections that are still valid, and
    the date windows of the stats, comments and raw-data queries. The clock
    is the parameter `now`; the home-tab query, the groups query, the stats
    fetch, the comments query and the raw-data query are oracles. */
module ExploreInteractions {
  import opened Wrappers
  import opened Seqs
  import opened Payload
  import opened Calendar
  import opened Blocks
  import opened Models
  import opened Misc
  import opened Csv
  import opened Queries
  import opened HomeTemplates
  import opened ModalTemplates
  import opened Interactions

  // ---------------------------------------------------------------------------
  // Default range and the filter cache
  // ---------------------------------------------------------------------------

  /** A cache entry is used while it is younger than 30 minutes. */
  const CacheTtl: int := 30 * 60

  /** The first day of the default range: 30 days before today. */
  function DefaultFrom(today: CivilDate): (d: CivilDate)
    ensures DayNumber(d) == DayNumber(today) - 30
  {
    AddDays(today, -30)
  }

  /** No filters, the last 30 days up to today. */
  function DefaultValues(today: CivilDate): (v: StatsFilterValues)
    ensures v.origin == "" && v.category == "" && v.prompt == "" && v.thumb == ""
    ensures v.dateFrom == FormatDate(DefaultFrom(today)) && v.dateTo == FormatDate(today)
  {
    StatsFilterValues("", "", "", FormatDate(DefaultFrom(today)), FormatDate(today), "")
  }

  /** The filter values `HandleTabExplore` starts from: the cached ones while
      fresh, the defaults when there is no entry or it has expired. */
  function CachedValues(entry: Option<UserFilterCacheEntry>, now: Instant): (v: StatsFilterValues)
    ensures entry.Some? && Seconds(now) - Seconds(entry.value.timestamp) < CacheTtl ==> v == entry.value.values
    ensures entry.None? || Seconds(now) - Seconds(entry.value.timestamp) >= CacheTtl ==> v == DefaultValues(now.date)
  {
    if entry.Some? && Seconds(now) - Seconds(entry.value.timestamp) < CacheTtl then entry.value.values
    else DefaultValues(now.date)
  }

  /** `IsDefaultDateRange`: both ends equal the default range after a
      format-and-parse round of the default dates. */
  predicate IsDefaultDateRange(from: Date, to: Date, today: CivilDate) {
    from == ParseDateOrZero(FormatDate(DefaultFrom(today))) && to == ParseDateOrZero(FormatDate(today))
  }

  /** For four-digit years the round trip is exact, so the range is the
      default one exactly when it runs from 30 days ago to today. */
  lemma DefaultRangeIff(from: Date, to: Date, today: CivilDate)
    requires 0 <= DefaultFrom(today).year <= 9999 && 0 <= today.year <= 9999
    ensures IsDefaultDateRange(from, to, today) <==> from == DefaultFrom(today) && to == today
  {
    FormatParseRoundTrip(DefaultFrom(today));
    FormatParseRoundTrip(today);
  }

  /** The cache key of a user in a workspace. */
  function CacheKey(ctx: InteractionContext): string {
    ctx.userId + ":" + ctx.workspace
  }

  function CacheEntry(cache: map<string, UserFilterCacheEntry>, ctx: InteractionContext): Option<UserFilterCacheEntry> {
    if CacheKey(ctx) in cache then Some(cache[CacheKey(ctx)]) else None
  }

  // ---------------------------------------------------------------------------
  // Re-rendering the tab
  // ---------------------------------------------------------------------------

  /** A selection survives only when it is non-empty and still offered. */
  function KeepSelection(value: string, offered: seq<string>): (r: string)
    ensures r != "" <==> value != "" && value in offered
    ensures r == "" || r == value
  {
    if value != "" && value in offered then value else ""
  }

  /** What `GetHomeTabData` returns: the values each filter offers and the
      two counts. */
  datatype HomeData = HomeData(origins: seq<string>, categories: seq<string>, prompts: seq<string>,
                               feedbackCount: int, commentCount: int)

  /** `GetHomeTabData(workspace, from, to + 1 day, origin, category, prompt, thumb)`. */
  type HomeQuery = (string, CivilDate, CivilDate, string, string, string, string) -> Result<HomeData, string>

  function RunHomeQuery(query: HomeQuery, workspace: string, values: StatsFilterValues): Result<HomeData, string> {
    var from := ParseDateOrZero(values.dateFrom);
    var to := ParseDateOrZero(values.dateTo);
    query(workspace, from, AddDays(to, 1), values.origin, values.category, values.prompt, values.thumb)
  }

  /** The arguments of `ExploreBlocks`: dates parsed (a bad date becomes
      0001-01-01), stale selections reset, the thumb kept as it is. */
  function ViewInput(values: StatsFilterValues, today: CivilDate, data: HomeData): (input: ExploreInput)
    ensures input.selectedThumb == values.thumb
  {
    var from := ParseDateOrZero(values.dateFrom);
    var to := ParseDateOrZero(values.dateTo);
    ExploreInput(data.origins, data.categories, data.prompts, from, to, IsDefaultDateRange(from, to, today),
                 data.feedbackCount, data.commentCount,
                 KeepSelection(values.origin, data.origins), KeepSelection(values.category, data.categories),
                 KeepSelection(values.prompt, data.prompts), values.thumb)
  }

  /** The home view to publish: the explore template in either layout with
      its arguments. */
  datatype HomeView = HomeView(expanded: bool, input: ExploreInput)

  /** The blocks the published view holds. */
  function Render(v: HomeView): seq<Block> {
    ExploreBlocks(v.expanded, v.input)
  }

  /** The expanded layout is the filter form. */
  lemma RenderExpanded(v: HomeView)
    requires v.expanded
    ensures Render(v) == ExploreExpanded(v.input)
  {
  }

  /** The view to publish and the entry to cache. */
  datatype Refreshed = Refreshed(view: HomeView, entry: UserFilterCacheEntry)

  /** The common tail of the three explore handlers: query, reset stale
      selections, cache the values as they came in, render. A query error
      is returned and nothing is cached. */
  function Refresh(workspace: string, values: StatsFilterValues, now: Instant, query: HomeQuery, expanded: bool)
    : (r: Result<Refreshed, string>)
    ensures r.Err? <==> RunHomeQuery(query, workspace, values).Err?
    ensures r.Ok? ==> r.value.entry == UserFilterCacheEntry(values, now)
    ensures r.Ok? ==> r.value.view == HomeView(expanded, ViewInput(values, now.date, RunHomeQuery(query, workspace, values).value))
  {
    match RunHomeQuery(query, workspace, values)
    case Err(e) => Err(e)
    case Ok(data) => Ok(Refreshed(HomeView(expanded, ViewInput(values, now.date, data)), UserFilterCacheEntry(values, now)))
  }

  /** Whether the selection of filter `f` is still valid after the query. */
  predicate SelectionValid(values: StatsFilterValues, data: HomeData, f: Filter) {
    match f
    case OriginFilter => values.origin != "" && values.origin in data.origins
    case CategoryFilter => values.category != "" && values.category in data.categories
    case PromptFilter => values.prompt != "" && values.prompt in data.prompts
    case ThumbFilter => values.thumb != ""
  }

  lemma SelectedIffValid(values: StatsFilterValues, today: CivilDate, data: HomeData, f: Filter)
    ensures Selected(ViewInput(values, today, data), f) != "" <==> SelectionValid(values, data, f)
  {
  }

  /** The expanded tab offers a Clear button exactly for the selections that
      are still valid, while the cache keeps every value as it came in, the
      reset ones included. */
  lemma RefreshShowsValidSelections(workspace: string, values: StatsFilterValues, now: Instant, query: HomeQuery, f: Filter)
    requires RunHomeQuery(query, workspace, values).Ok?
    ensures var r := Refresh(workspace, values, now, query, true);
            var data := RunHomeQuery(query, workspace, values).value;
            && (ClearId(f) in ActionIds(ExploreExpanded(r.value.view.input)) <==> SelectionValid(values, data, f))
            && r.value.entry.values == values
  {
    var data := RunHomeQuery(query, workspace, values).value;
    var input := ViewInput(values, now.date, data);
    ExpandedControls(input, f);
    SelectedIffValid(values, now.date, data, f);
  }

  /** A selection that is still valid is the initial option of its menu. */
  lemma ValidSelectionPreselected(values: StatsFilterValues, today: CivilDate, data: HomeData)
    requires values.origin != "" && values.origin in data.origins
    ensures var input := ViewInput(values, today, data);
            StaticSelectBlock(SelectId(OriginFilter), FilterPlaceholder(input, OriginFilter), input.origins,
                              input.selectedOrigin).initialOption == Some(SelectOption(values.origin, values.origin))
  {
    var input := ViewInput(values, today, data);
    InitialOptionListed(SelectId(OriginFilter), FilterPlaceholder(input, OriginFilter), input.origins, input.selectedOrigin);
  }

  /** The expanded tab offers the date reset exactly when the range is not
      the default one. */
  lemma RefreshShowsDateReset(workspace: string, values: StatsFilterValues, now: Instant, query: HomeQuery)
    requires RunHomeQuery(query, workspace, values).Ok?
    ensures var r := Refresh(workspace, values, now, query, true);
            "clear-dates" in ActionIds(ExploreExpanded(r.value.view.input)) <==>
              !IsDefaultDateRange(ParseDateOrZero(values.dateFrom), ParseDateOrZero(values.dateTo), now.date)
  {
    var data := RunHomeQuery(query, workspace, values).value;
    ExpandedControls(ViewInput(values, now.date, data), OriginFilter);
  }

  /** A value cached by a refresh is what the tab starts from for the next
      30 minutes; after that the defaults come back. */
  lemma CachedValuesExpire(workspace: string, values: StatsFilterValues, t1: Instant, t2: Instant, query: HomeQuery,
                           expanded: bool)
    requires Refresh(workspace, values, t1, query, expanded).Ok?
    ensures var e := Some(Refresh(workspace, values, t1, query, expanded).value.entry);
            && (Seconds(t2) - Seconds(t1) < CacheTtl ==> CachedValues(e, t2) == values)
            && (Seconds(t2) - Seconds(t1) >= CacheTtl ==> CachedValues(e, t2) == DefaultValues(t2.date))
  {
    var entry := Refresh(workspace, values, t1, query, expanded).value.entry;
    assert entry == UserFilterCacheEntry(values, t1);
    CachedEntryExpires(entry, t2);
  }

  lemma CachedEntryExpires(entry: UserFilterCacheEntry, now: Instant)
    ensures Seconds(now) - Seconds(entry.timestamp) < CacheTtl ==> CachedValues(Some(entry), now) == entry.values
    ensures Seconds(now) - Seconds(entry.timestamp) >= CacheTtl ==> CachedValues(Some(entry), now) == DefaultValues(now.date)
  {
  }

  /** Stores a refresh's entry under the user's key; other users' entries
      are untouched. */
  function Store(cache: map<string, UserFilterCacheEntry>, ctx: InteractionContext, entry: UserFilterCacheEntry)
    : (c: map<string, UserFilterCacheEntry>)
    ensures CacheKey(ctx) in c && c[CacheKey(ctx)] == entry
    ensures forall k :: k != CacheKey(ctx) ==> (k in c <==> k in cache) && (k in cache ==> c[k] == cache[k])
  {
    cache[CacheKey(ctx) := entry]
  }

  /** Every user other than `ctx`'s keeps their cache entry. */
  ghost predicate OthersKept(before: map<string, UserFilterCacheEntry>, after: map<string, UserFilterCacheEntry>,
                       ctx: InteractionContext)
  {
    forall k :: k != CacheKey(ctx) ==> (k in after <==> k in before) && (k in before ==> after[k] == before[k])
  }

  /** `HandleTabExplore`: the view to publish and the updated cache. */
  function HandleTabExplore(ctx: InteractionContext, cache: map<string, UserFilterCacheEntry>, now: Instant,
                            query: HomeQuery, expanded: bool)
    : (r: Result<(HomeView, map<string, UserFilterCacheEntry>), string>)
    ensures r.Ok? ==> CacheKey(ctx) in r.value.1 && r.value.1[CacheKey(ctx)].timestamp == now
    ensures r.Ok? ==> r.value.1[CacheKey(ctx)].values == CachedValues(CacheEntry(cache, ctx), now)
    ensures var values := CachedValues(CacheEntry(cache, ctx), now);
            && (r.Err? <==> RunHomeQuery(query, ctx.workspace, values).Err?)
            && (r.Ok? ==> r.value.0 == HomeView(expanded, ViewInput(values, now.date, RunHomeQuery(query, ctx.workspace, values).value)))
    ensures r.Ok? ==> OthersKept(cache, r.value.1, ctx)
  {
    var values := CachedValues(CacheEntry(cache, ctx), now);
    match Refresh(ctx.workspace, values, now, query, expanded)
    case Err(e) => Err(e)
    case Ok(x) =>
      assert x.entry == UserFilterCacheEntry(values, now);
      Ok((x.view, Store(cache, ctx, x.entry)))
  }

  // ---------------------------------------------------------------------------
  // Reading the filter controls
  // ---------------------------------------------------------------------------

  /** `selected_option.value` of a select. */
  function SelectedValue(action: Json): Option<string> {
    match ObjectMember(action, "selected_option")
    case Some(sel) => StringMember(sel, "value")
    case None => None
  }

  /** `selected_date` of a date picker. */
  function SelectedDate(action: Json): Option<string> {
    StringMember(action, "selected_date")
  }

  /** One field's update by one state entry: set when the entry is the
      field's control and carries a value. */
  function Upd(prior: string, e: (string, Json), id: string, read: Json -> Option<string>): (r: string)
    ensures e.0 != id ==> r == prior
  {
    if e.0 == id && read(e.1).Some? then read(e.1).value else prior
  }

  /** The body of the loop over the state entries: the entry's action id
      picks at most one field, the others are left as they are. */
  function ApplyFilterEntry(v: StatsFilterValues, e: (string, Json)): StatsFilterValues {
    StatsFilterValues(
      Upd(v.origin, e, "select-origin", SelectedValue),
      Upd(v.category, e, "select-category", SelectedValue),
      Upd(v.prompt, e, "select-prompt", SelectedValue),
      Upd(v.dateFrom, e, "stats-date-from", SelectedDate),
      Upd(v.dateTo, e, "stats-date-to", SelectedDate),
      Upd(v.thumb, e, "select-thumb", SelectedValue))
  }

  const NoFilters: StatsFilterValues := StatsFilterValues("", "", "", "", "", "")

  /** The loop itself, entry after entry from empty values. */
  function FoldFilterEntries(entries: seq<(string, Json)>): StatsFilterValues
    decreases |entries|
  {
    if |entries| == 0 then NoFilters
    else ApplyFilterEntry(FoldFilterEntries(entries[..|entries| - 1]), entries[|entries| - 1])
  }

  /** `extractStatsFilterValues`. */
  function ExtractStatsFilterValues(payload: Json): StatsFilterValues {
    FoldFilterEntries(ViewStateEntries(payload))
  }

  /** Entries that are none of the six controls change nothing. */
  lemma UnknownEntryIgnored(v: StatsFilterValues, e: (string, Json))
    requires e.0 !in FilterActions
    ensures ApplyFilterEntry(v, e) == v
  {
  }

  /** Any one field of the loop ends with the last value its control
      carried, or "" when no entry of that control had one. */
  lemma {:induction false} FieldIsLastValue(entries: seq<(string, Json)>, get: StatsFilterValues -> string,
                                            id: string, read: Json -> Option<string>)
    requires get(NoFilters) == ""
    requires forall v, e :: get(ApplyFilterEntry(v, e)) == Upd(get(v), e, id, read)
    ensures get(FoldFilterEntries(entries)) == LastValue(entries, id, read).GetOr("")
    decreases |entries|
  {
    if |entries| > 0 {
      var init := entries[..|entries| - 1];
      FieldIsLastValue(init, get, id, read);
      assert get(FoldFilterEntries(entries)) == Upd(get(FoldFilterEntries(init)), entries[|entries| - 1], id, read);
    }
  }

  /** Each filter value is the last one its control submitted; controls that
      are missing, ill-typed or empty-handed leave "". */
  lemma ExtractIsLastValue(payload: Json)
    ensures var v := ExtractStatsFilterValues(payload);
            var es := ViewStateEntries(payload);
            && v.origin == LastValue(es, "select-origin", SelectedValue).GetOr("")
            && v.category == LastValue(es, "select-category", SelectedValue).GetOr("")
            && v.prompt == LastValue(es, "select-prompt", SelectedValue).GetOr("")
            && v.thumb == LastValue(es, "select-thumb", SelectedValue).GetOr("")
            && v.dateFrom == LastValue(es, "stats-date-from", SelectedDate).GetOr("")
            && v.dateTo == LastValue(es, "stats-date-to", SelectedDate).GetOr("")
  {
    FoldIsLastValue(ViewStateEntries(payload));
  }

  lemma FoldIsLastValue(es: seq<(string, Json)>)
    ensures var v := FoldFilterEntries(es);
            && v.origin == LastValue(es, "select-origin", SelectedValue).GetOr("")
            && v.category == LastValue(es, "select-category", SelectedValue).GetOr("")
            && v.prompt == LastValue(es, "select-prompt", SelectedValue).GetOr("")
            && v.thumb == LastValue(es, "select-thumb", SelectedValue).GetOr("")
            && v.dateFrom == LastValue(es, "stats-date-from", SelectedDate).GetOr("")
            && v.dateTo == LastValue(es, "stats-date-to", SelectedDate).GetOr("")
  {
    FieldIsLastValue(es, (v: StatsFilterValues) => v.origin, "select-origin", SelectedValue);
    FieldIsLastValue(es, (v: StatsFilterValues) => v.category, "select-category", SelectedValue);
    FieldIsLastValue(es, (v: StatsFilterValues) => v.prompt, "select-prompt", SelectedValue);
    FieldIsLastValue(es, (v: StatsFilterValues) => v.thumb, "select-thumb", SelectedValue);
    FieldIsLastValue(es, (v: StatsFilterValues) => v.dateFrom, "stats-date-from", SelectedDate);
    FieldIsLastValue(es, (v: StatsFilterValues) => v.dateTo, "stats-date-to", SelectedDate);
  }

  /** When no action id repeats, the order in which the Go map of the view
      state is visited does not change the values read. */
  lemma FilterValuesOrderFree(e1: seq<(string, Json)>, e2: seq<(string, Json)>)
    requires DistinctIds(e1) && DistinctIds(e2)
    requires forall x :: x in e1 <==> x in e2
    ensures FoldFilterEntries(e1) == FoldFilterEntries(e2)
  {
    FoldIsLastValue(e1);
    FoldIsLastValue(e2);
    LastValueOrderFree(e1, e2, "select-origin", SelectedValue);
    LastValueOrderFree(e1, e2, "select-category", SelectedValue);
    LastValueOrderFree(e1, e2, "select-prompt", SelectedValue);
    LastValueOrderFree(e1, e2, "select-thumb", SelectedValue);
    LastValueOrderFree(e1, e2, "stats-date-from", SelectedDate);
    LastValueOrderFree(e1, e2, "stats-date-to", SelectedDate);
  }

  // ---------------------------------------------------------------------------
  // Filter change and clearing
  // ---------------------------------------------------------------------------

  /** An empty date falls back to the default range's end. */
  function FillDates(v: StatsFilterValues, today: CivilDate): (r: StatsFilterValues)
    ensures r.origin == v.origin && r.category == v.category && r.prompt == v.prompt && r.thumb == v.thumb
    ensures r.dateFrom != "" && r.dateTo != ""
    ensures v.dateFrom != "" ==> r.dateFrom == v.dateFrom
    ensures v.dateTo != "" ==> r.dateTo == v.dateTo
  {
    v.(dateFrom := if v.dateFrom == "" then FormatDate(DefaultFrom(today)) else v.dateFrom,
       dateTo := if v.dateTo == "" then FormatDate(today) else v.dateTo)
  }

  /** `handleStatsFilterAction`. */
  function HandleStatsFilterAction(ctx: InteractionContext, payload: Json, cache: map<string, UserFilterCacheEntry>,
                                   now: Instant, query: HomeQuery)
    : (r: Result<(HomeView, map<string, UserFilterCacheEntry>), string>)
    ensures r.Ok? ==> CacheKey(ctx) in r.value.1
                      && r.value.1[CacheKey(ctx)] == UserFilterCacheEntry(FillDates(ExtractStatsFilterValues(payload), now.date), now)
    ensures var values := FillDates(ExtractStatsFilterValues(payload), now.date);
            && (r.Err? <==> RunHomeQuery(query, ctx.workspace, values).Err?)
            && (r.Ok? ==> r.value.0 == HomeView(true, ViewInput(values, now.date, RunHomeQuery(query, ctx.workspace, values).value)))
    ensures r.Ok? ==> OthersKept(cache, r.value.1, ctx)
  {
    var values := FillDates(ExtractStatsFilterValues(payload), now.date);
    match Refresh(ctx.workspace, values, now, query, true)
    case Err(e) => Err(e)
    case Ok(x) => Ok((x.view, Store(cache, ctx, x.entry)))
  }

  /** The switch of `handleClearFilter`: one field emptied, or the default
      range restored; any other action leaves the values alone. */
  function ClearFilter(v: StatsFilterValues, action: string, today: CivilDate): (r: StatsFilterValues)
    ensures action !in ClearActions ==> r == v
  {
    if action == "clear-origin" then v.(origin := "")
    else if action == "clear-category" then v.(category := "")
    else if action == "clear-prompt" then v.(prompt := "")
    else if action == "clear-thumb" then v.(thumb := "")
    else if action == "clear-dates" then v.(dateFrom := FormatDate(DefaultFrom(today)), dateTo := FormatDate(today))
    else v
  }

  /** The value of filter `f` in a set of filter values. */
  function FilterValue(v: StatsFilterValues, f: Filter): string {
    match f
    case OriginFilter => v.origin
    case CategoryFilter => v.category
    case PromptFilter => v.prompt
    case ThumbFilter => v.thumb
  }

  /** Clearing filter `f` empties exactly that filter: the other filters and
      the dates are unchanged. */
  lemma ClearOnlyNamed(v: StatsFilterValues, f: Filter, today: CivilDate)
    ensures var r := ClearFilter(v, ClearId(f), today);
            && FilterValue(r, f) == ""
            && (forall g :: g != f ==> FilterValue(r, g) == FilterValue(v, g))
            && r.dateFrom == v.dateFrom && r.dateTo == v.dateTo
  {
  }

  /** Clearing the dates restores the default range and nothing else. */
  lemma ClearDatesRestoresDefault(v: StatsFilterValues, today: CivilDate)
    ensures var r := ClearFilter(v, "clear-dates", today);
            && IsDefaultDateRange(ParseDateOrZero(r.dateFrom), ParseDateOrZero(r.dateTo), today)
            && forall g :: FilterValue(r, g) == FilterValue(v, g)
  {
    var r := ClearFilter(v, "clear-dates", today);
    assert r == v.(dateFrom := FormatDate(DefaultFrom(today)), dateTo := FormatDate(today));
    DefaultTextsAreDefault(r.dateFrom, r.dateTo, today);
    forall g ensures FilterValue(r, g) == FilterValue(v, g) {
      SameFiltersAfterDates(v, r, g);
    }
  }

  lemma SameFiltersAfterDates(v: StatsFilterValues, r: StatsFilterValues, g: Filter)
    requires r.origin == v.origin && r.category == v.category && r.prompt == v.prompt && r.thumb == v.thumb
    ensures FilterValue(r, g) == FilterValue(v, g)
  {
  }

  /** The default range's texts parse back to the default range. */
  lemma DefaultTextsAreDefault(from: string, to: string, today: CivilDate)
    requires from == FormatDate(DefaultFrom(today)) && to == FormatDate(today)
    ensures IsDefaultDateRange(ParseDateOrZero(from), ParseDateOrZero(to), today)
  {
  }

  /** After a clear the re-rendered tab no longer offers that Clear button. */
  lemma ClearedButtonGone(v: StatsFilterValues, f: Filter, today: CivilDate, data: HomeData)
    ensures ClearId(f) !in ActionIds(ExploreExpanded(ViewInput(ClearFilter(v, ClearId(f), today), today, data)))
  {
    var r := ClearFilter(v, ClearId(f), today);
    ClearOnlyNamed(v, f, today);
    ExpandedControls(ViewInput(r, today, data), f);
  }

  /** `handleClearFilter`. */
  function HandleClearFilter(ctx: InteractionContext, payload: Json, action: string,
                             cache: map<string, UserFilterCacheEntry>, now: Instant, query: HomeQuery)
    : (r: Result<(HomeView, map<string, UserFilterCacheEntry>), string>)
    ensures r.Ok? ==> CacheKey(ctx) in r.value.1
                      && r.value.1[CacheKey(ctx)].values == ClearFilter(ExtractStatsFilterValues(payload), action, now.date)
                      && r.value.1[CacheKey(ctx)].timestamp == now
    ensures var values := ClearFilter(ExtractStatsFilterValues(payload), action, now.date);
            && (r.Err? <==> RunHomeQuery(query, ctx.workspace, values).Err?)
            && (r.Ok? ==> r.value.0 == HomeView(true, ViewInput(values, now.date, RunHomeQuery(query, ctx.workspace, values).value)))
    ensures r.Ok? ==> OthersKept(cache, r.value.1, ctx)
  {
    var values := ClearFilter(ExtractStatsFilterValues(payload), action, now.date);
    match Refresh(ctx.workspace, values, now, query, true)
    case Err(e) => Err(e)
    case Ok(x) => Ok((x.view, Store(cache, ctx, x.entry)))
  }

  // ---------------------------------------------------------------------------
  // Query windows
  // ---------------------------------------------------------------------------

  /** Midnight UTC at the start of a day. */
  function Midnight(d: CivilDate): (t: Instant)
    ensures t.date == d && t.second == 0
  {
    Timestamp(d, 0)
  }

  /** A window between two midnights holds exactly the instants on the days
      from the first up to, not including, the second. */
  lemma MidnightWindow(a: CivilDate, b: CivilDate, t: Instant)
    ensures InWindow(t, Between(Midnight(a), Midnight(b))) <==> DayNumber(a) <= DayNumber(t.date) < DayNumber(b)
  {
  }

  /** The number of days from `from` to `to`, both included. */
  function PeriodDays(from: CivilDate, to: CivilDate): (n: int)
    ensures DayNumber(from) + n == DayNumber(to) + 1
  {
    DayNumber(to) + 1 - DayNumber(from)
  }

  /** The current period of the stats view: `from` up to the day after `to`. */
  function CurrentWindow(from: CivilDate, to: CivilDate): (w: Window)
    ensures w.Between?
  {
    Between(Midnight(from), Midnight(AddDays(to, 1)))
  }

  /** The previous period as the code computes it: `prevTo` is the day
      before `from` and `prevFrom` is `periodDays - 1` days before that, and
      the query treats `prevTo` as exclusive. */
  function PrevWindowAsWritten(from: CivilDate, to: CivilDate): (w: Window)
    ensures w.Between?
  {
    var prevTo := AddDays(from, -1);
    Between(Midnight(AddDays(prevTo, -PeriodDays(from, to) + 1)), Midnight(prevTo))
  }

  /** As written, the previous period is one day short: it ends two days
      before `from`, so the day before `from` is counted in neither period. */
  lemma PrevWindowAsWrittenShort(from: CivilDate, to: CivilDate, t: Instant)
    ensures InWindow(t, PrevWindowAsWritten(from, to)) <==>
              DayNumber(from) - PeriodDays(from, to) <= DayNumber(t.date) < DayNumber(from) - 1
    ensures DayNumber(t.date) == DayNumber(from) - 1 ==>
              !InWindow(t, PrevWindowAsWritten(from, to)) && !InWindow(t, CurrentWindow(from, to))
  {
    var prevTo := AddDays(from, -1);
    MidnightWindow(AddDays(prevTo, -PeriodDays(from, to) + 1), prevTo, t);
    MidnightWindow(from, AddDays(to, 1), t);
  }

  /** As written, a one-day range has an empty previous period, so its score
      change always shows "-". */
  lemma OneDayRangeHasNoPrevious(day: CivilDate, t: Instant)
    ensures !InWindow(t, PrevWindowAsWritten(day, day))
  {
    PrevWindowAsWrittenShort(day, day, t);
  }

  /** The previous period as intended: the `periodDays` days right before
      `from`, `from` itself exclusive. */
  function PrevWindow(from: CivilDate, to: CivilDate): (w: Window)
    ensures w.Between?
  {
    Between(Midnight(AddDays(from, -PeriodDays(from, to))), Midnight(from))
  }

  /** The intended periods are back to back and equally long: the previous
      one covers the `periodDays` days before `from`, the current one
      `from` through `to`. */
  lemma PrevWindowAdjacent(from: CivilDate, to: CivilDate, t: Instant)
    ensures var d := DayNumber(t.date);
            var n := PeriodDays(from, to);
            && (InWindow(t, PrevWindow(from, to)) <==> DayNumber(from) - n <= d < DayNumber(from))
            && (InWindow(t, CurrentWindow(from, to)) <==> DayNumber(from) <= d < DayNumber(from) + n)
  {
    MidnightWindow(AddDays(from, -PeriodDays(from, to)), from, t);
    MidnightWindow(from, AddDays(to, 1), t);
  }

  /** The date range of a submitted view, parsed as the query handlers do:
      a missing or bad date becomes 0001-01-01. */
  function RangeOf(values: StatsFilterValues): (CivilDate, CivilDate) {
    (ParseDateOrZero(values.dateFrom), ParseDateOrZero(values.dateTo))
  }

  const StatsViewTitle: string := "Stats \U{00F0}\U{0178}\U{201C}\U{0160}"

  /** `GetFeedbackGroupsWithFilters(workspace, from, to + 1 day, origin,
      category, prompt, thumb)`. */
  type GroupsQuery = (string, CivilDate, CivilDate, string, string, string, string) -> Result<seq<FeedbackGroup>, string>

  /** The per-group stats fetch with its two windows and the thumb filter. */
  type RangeFetch = (FeedbackGroup, Instant, Instant, Instant, Instant, string) -> Result<Option<FeedbackStats>, string>

  /** `handleStatsViewAction` up to opening the modal, with the previous
      period chosen by `prevOf`: the groups query's error, or the stats
      modal of every group fetched over the current period and that
      previous period. */
  function StatsViewBy(workspace: string, payload: Json, groups: GroupsQuery, fetch: RangeFetch,
                       prevOf: (CivilDate, CivilDate) -> (Instant, Instant)): (r: Result<Modal, string>)
  {
    var v := ExtractStatsFilterValues(payload);
    var (from, to) := RangeOf(v);
    var cur := CurrentWindow(from, to);
    var prev := prevOf(from, to);
    match groups(workspace, from, AddDays(to, 1), v.origin, v.category, v.prompt, v.thumb)
    case Err(e) => Err(e)
    case Ok(gs) => Ok(StatsModal(StatsViewTitle, FetchStatsWithRange(gs, cur.from, cur.to, prev.0, prev.1, v.thumb, fetch)))
  }

  /** `handleStatsViewAction` as written: the previous period is the one
      `PrevWindowAsWritten` computes, ending the day before `from`. */
  function StatsView(workspace: string, payload: Json, groups: GroupsQuery, fetch: RangeFetch): (r: Result<Modal, string>)
    ensures r.Ok? ==> r.value.title == StatsViewTitle
    ensures var v := ExtractStatsFilterValues(payload);
            var (from, to) := RangeOf(v);
            var gs := groups(workspace, from, AddDays(to, 1), v.origin, v.category, v.prompt, v.thumb);
            var prev := PrevWindowAsWritten(from, to);
            && (r.Err? <==> gs.Err?)
            && (r.Err? ==> r.error == gs.error)
            && (r.Ok? ==> r.value == StatsModal(StatsViewTitle,
                                                FetchStatsWithRange(gs.value, Midnight(from), Midnight(AddDays(to, 1)),
                                                                    prev.from, prev.to, v.thumb, fetch)))
  {
    StatsViewBy(workspace, payload, groups, fetch,
                (a, b) => (PrevWindowAsWritten(a, b).from, PrevWindowAsWritten(a, b).to))
  }

  /** The same handler with the previous period as intended. */
  function StatsViewIntended(workspace: string, payload: Json, groups: GroupsQuery, fetch: RangeFetch)
    : (r: Result<Modal, string>)
    ensures r.Ok? ==> r.value.title == StatsViewTitle
    ensures var v := ExtractStatsFilterValues(payload);
            var (from, to) := RangeOf(v);
            var gs := groups(workspace, from, AddDays(to, 1), v.origin, v.category, v.prompt, v.thumb);
            var prev := PrevWindow(from, to);
            && (r.Err? <==> gs.Err?)
            && (r.Err? ==> r.error == gs.error)
            && (r.Ok? ==> r.value == StatsModal(StatsViewTitle,
                                                FetchStatsWithRange(gs.value, Midnight(from), Midnight(AddDays(to, 1)),
                                                                    prev.from, prev.to, v.thumb, fetch)))
  {
    StatsViewBy(workspace, payload, groups, fetch, (a, b) => (PrevWindow(a, b).from, PrevWindow(a, b).to))
  }

  /** A fetch whose answer does not depend on the previous period. */
  ghost predicate IgnoresPrevious(fetch: RangeFetch) {
    forall g, a, b, c, d, c', d', t :: fetch(g, a, b, c, d, t) == fetch(g, a, b, c', d', t)
  }

  lemma FetchIgnoringPrevious(gs: seq<FeedbackGroup>, a: Instant, b: Instant, c: Instant, d: Instant,
                               c': Instant, d': Instant, thumb: string, fetch: RangeFetch)
    requires IgnoresPrevious(fetch)
    ensures FetchStatsWithRange(gs, a, b, c, d, thumb, fetch) == FetchStatsWithRange(gs, a, b, c', d', thumb, fetch)
  {
    var f1 := (g: FeedbackGroup) => fetch(g, a, b, c, d, thumb);
    var f2 := (g: FeedbackGroup) => fetch(g, a, b, c', d', thumb);
    forall g ensures f1(g) == f2(g) {
      assert fetch(g, a, b, c, d, thumb) == fetch(g, a, b, c', d', thumb);
    }
    CollectedAgree(gs, f1, f2);
  }

  /** The two handlers differ only in the previous period they ask for:
      for a fetch that ignores it they show the same modal. */
  lemma StatsViewsDifferOnlyInPrevious(workspace: string, payload: Json, groups: GroupsQuery, fetch: RangeFetch)
    requires IgnoresPrevious(fetch)
    ensures StatsView(workspace, payload, groups, fetch) == StatsViewIntended(workspace, payload, groups, fetch)
  {
    var v := ExtractStatsFilterValues(payload);
    var (from, to) := RangeOf(v);
    var gs := groups(workspace, from, AddDays(to, 1), v.origin, v.category, v.prompt, v.thumb);
    if gs.Ok? {
      var p1 := PrevWindowAsWritten(from, to);
      var p2 := PrevWindow(from, to);
      FetchIgnoringPrevious(gs.value, Midnight(from), Midnight(AddDays(to, 1)), p1.from, p1.to, p2.from, p2.to,
                            v.thumb, fetch);
    }
  }

  const CommentsViewTitle: string := "Comments  " + SpeechGlyph

  /** `GetCommentsWithFilters(workspace, from, to + 1 day, origin, category,
      prompt, thumb, limit)`. */
  type CommentsQuery = (string, CivilDate, CivilDate, string, string, string, string, int) -> Result<seq<ExploreCommentsResult>, string>

  /** `handleCommentsViewAction` up to opening the modal. */
  function CommentsView(workspace: string, payload: Json, nComments: int, query: CommentsQuery, now: Instant)
    : (r: Result<Modal, string>)
    ensures r.Ok? ==> r.value.title == CommentsViewTitle && r.value.close == "Close"
    ensures var v := ExtractStatsFilterValues(payload);
            var (from, to) := RangeOf(v);
            var q := query(workspace, from, AddDays(to, 1), v.origin, v.category, v.prompt, v.thumb, nComments);
            && (r.Err? <==> q.Err?)
            && (r.Err? ==> r.error == q.error)
            && (r.Ok? && |q.value| == 0 ==> r.value.blocks == Placeholder("No comments to display"))
            && (r.Ok? && |q.value| > 0 ==> |r.value.blocks| >= 2 && Pick(r.value.blocks[2..], SectionTextOf) == MapSeq(q.value, CommentText))
  {
    var v := ExtractStatsFilterValues(payload);
    var (from, to) := RangeOf(v);
    match query(workspace, from, AddDays(to, 1), v.origin, v.category, v.prompt, v.thumb, nComments)
    case Err(e) => Err(e)
    case Ok(results) => Ok(CommentsModalOf(nComments, results, now))
  }

  /** The comments modal lists every result's text, in order. */
  function CommentsModalOf(nComments: int, results: seq<ExploreCommentsResult>, now: Instant): (m: Modal)
    ensures m.title == CommentsViewTitle && m.close == "Close"
    ensures |results| == 0 ==> m.blocks == Placeholder("No comments to display")
    ensures |results| > 0 ==> |m.blocks| >= 2 && Pick(m.blocks[2..], SectionTextOf) == MapSeq(results, CommentText)
  {
    if |results| > 0 then
      CommentsListed(CommentsViewTitle, nComments, results, now);
      ExploreCommentsModal(CommentsViewTitle, nComments, results, now)
    else ExploreCommentsModal(CommentsViewTitle, nComments, results, now)
  }

  /** `GetRawFeedbackData(workspace, from, to + 1 day, origin, category,
      prompt, thumb)`. */
  type RawQuery = (string, CivilDate, CivilDate, string, string, string, string) -> Result<seq<RawData>, string>

  function ExportMessage(from: CivilDate, to: CivilDate): string {
    "Attached is your feedback export from " + FormatDate(from) + " to " + FormatDate(to) + "."
  }

  /** `handleRawDataViewAction` up to the upload: the CSV records and the
      message that goes with the file. */
  function RawDataExport(workspace: string, payload: Json, query: RawQuery): (r: Result<(seq<Record>, string), string>)
    ensures var v := ExtractStatsFilterValues(payload);
            var (from, to) := RangeOf(v);
            var rows := query(workspace, from, AddDays(to, 1), v.origin, v.category, v.prompt, v.thumb);
            && (r.Ok? <==> rows.Ok?)
            && (r.Err? ==> r.error == rows.error)
            && (r.Ok? ==> |r.value.0| == |rows.value| + 1 && r.value.0[0] == RawHeader)
            && (r.Ok? ==> forall i :: 0 <= i < |rows.value| ==> r.value.0[i + 1] == RawRecord(rows.value[i]))
  {
    var v := ExtractStatsFilterValues(payload);
    var (from, to) := RangeOf(v);
    match query(workspace, from, AddDays(to, 1), v.origin, v.category, v.prompt, v.thumb)
    case Err(e) => Err(e)
    case Ok(rows) => Ok((RawDataToCSV(rows), ExportMessage(from, to)))
  }
}

=== FILE: feedback_api.dfy ===
/** The feedback ingest endpoint (internal/api/feedback.go): request
    validation, the prompt-count limit and the order in which `POST /feedback`
    answers. The account lookup, the prompt-count query and the two inserts
    are oracles; "now" is a parameter. */
module FeedbackApi {
  import opened Wrappers
  import opened Text
  import opened Calendar
  import opened Models
  import opened Misc

  /** Field limits in bytes (internal/config/ingest.go). */
  const MaxPromptLen: nat := 128
  const MaxOriginLen: nat := 32
  const MaxCategoryLen: nat := 32
  const MaxCommentLen: nat := 256
  const MaxUserIdLen: nat := 64

  // ---------------------------------------------------------------------------
  // Binding
  // ---------------------------------------------------------------------------

  /** gin's `binding:"required"` rejects the zero value: an empty string or a
      missing boolean. The comment is not required. */
  predicate RequiredFieldsPresent(req: FeedbackRequest) {
    req.prompt != "" && req.thumbUp.Some? && req.origin != "" && req.category != ""
    && req.inProduction.Some? && req.userId != ""
  }

  /** `ShouldBindJSON`: `body` is None when the JSON does not decode into the
      request shape; a decoded request still fails when a required field is
      missing. */
  function BindRequest(body: Option<FeedbackRequest>): (r: Option<FeedbackRequest>)
    ensures r.Some? <==> body.Some? && RequiredFieldsPresent(body.value)
    ensures r.Some? ==> r == body
  {
    if body.Some? && RequiredFieldsPresent(body.value) then body else None
  }

  // ---------------------------------------------------------------------------
  // Validation
  // ---------------------------------------------------------------------------

  /** A required text field: not blank once trimmed, and at most `max` bytes
      as sent (the length is taken before trimming). */
  predicate RequiredText(s: string, max: nat) {
    TrimSpace(s) != [] && Utf8Len(s) <= max
  }

  function RequiredMessage(field: string, max: nat): string {
    field + " is required and must be at most " + NatToString(max) + " characters"
  }

  const CommentMessage: string := "Comment must be at most " + NatToString(MaxCommentLen) + " characters"

  /** One check of `validateFeedbackRequest`: whether it passes and what it
      reports when it does not. */
  datatype Check = Check(ok: bool, message: string)

  /** The messages of the seven checks, in order. */
  const Messages: seq<string> := [
    RequiredMessage("Prompt", MaxPromptLen), "ThumbUp is required",
    RequiredMessage("Origin", MaxOriginLen), "InProduction is required",
    RequiredMessage("UserID", MaxUserIdLen), RequiredMessage("Category", MaxCategoryLen),
    CommentMessage]

  /** The checks in the order the handler runs them. */
  function Checks(req: FeedbackRequest): (cs: seq<Check>)
    ensures |cs| == |Messages| == 7
    ensures forall k :: 0 <= k < |cs| ==> cs[k].message == Messages[k]
  {
    [ Check(RequiredText(req.prompt, MaxPromptLen), Messages[0]),
      Check(req.thumbUp.Some?, Messages[1]),
      Check(RequiredText(req.origin, MaxOriginLen), Messages[2]),
      Check(req.inProduction.Some?, Messages[3]),
      Check(RequiredText(req.userId, MaxUserIdLen), Messages[4]),
      Check(RequiredText(req.category, MaxCategoryLen), Messages[5]),
      Check(Utf8Len(req.comment) <= MaxCommentLen, Messages[6]) ]
  }

  /** A request every field of which is acceptable. */
  predicate ValidRequest(req: FeedbackRequest) {
    RequiredText(req.prompt, MaxPromptLen) && req.thumbUp.Some?
    && RequiredText(req.origin, MaxOriginLen) && req.inProduction.Some?
    && RequiredText(req.userId, MaxUserIdLen) && RequiredText(req.category, MaxCategoryLen)
    && Utf8Len(req.comment) <= MaxCommentLen
  }

  /** `validateFeedbackRequest`: passes exactly on valid requests, and
      otherwise reports the message of the first check that fails. */
  function ValidateFeedbackRequest(req: FeedbackRequest): (r: Outcome<string>)
    ensures r.Pass? <==> ValidRequest(req)
    ensures r.Fail? ==>
              var cs := Checks(req);
              exists k :: 0 <= k < |cs| && !cs[k].ok && r.error == cs[k].message
                          && forall j :: 0 <= j < k ==> cs[j].ok
  {
    ChecksMeanValid(req);
    FirstFailure(Checks(req))
  }

  lemma ChecksMeanValid(req: FeedbackRequest)
    ensures ValidRequest(req) <==> forall k :: 0 <= k < |Checks(req)| ==> Checks(req)[k].ok
  {
    if ValidRequest(req) {
      ValidChecksPass(req);
    } else {
      InvalidCheckFails(req);
    }
  }

  lemma ValidChecksPass(req: FeedbackRequest)
    requires ValidRequest(req)
    ensures forall k :: 0 <= k < |Checks(req)| ==> Checks(req)[k].ok
  {
    var cs := Checks(req);
    forall k | 0 <= k < |cs| ensures cs[k].ok {
      if k == 0 {} else if k == 1 {} else if k == 2 {} else if k == 3 {}
      else if k == 4 {} else if k == 5 {} else {}
    }
  }

  lemma InvalidCheckFails(req: FeedbackRequest)
    requires !ValidRequest(req)
    ensures exists k :: 0 <= k < |Checks(req)| && !Checks(req)[k].ok
  {
    var cs := Checks(req);
    assert !(cs[0].ok && cs[1].ok && cs[2].ok && cs[3].ok && cs[4].ok && cs[5].ok && cs[6].ok);
  }

  /** The message of the first failing check, if any. */
  function FirstFailure(cs: seq<Check>): (r: Outcome<string>)
    ensures r.Pass? <==> forall k :: 0 <= k < |cs| ==> cs[k].ok
    ensures r.Fail? ==>
              exists k :: 0 <= k < |cs| && !cs[k].ok && r.error == cs[k].message
                          && forall j :: 0 <= j < k ==> cs[j].ok
  {
    if |cs| == 0 then Pass
    else if !cs[0].ok then
      Fail(cs[0].message)
    else
      var rest := FirstFailure(cs[1..]);
      if rest.Fail? then
        var k :| 0 <= k < |cs[1..]| && !cs[1..][k].ok && rest.error == cs[1..][k].message
                 && forall j :: 0 <= j < k ==> cs[1..][j].ok;
        assert !cs[k + 1].ok && forall j :: 0 <= j < k + 1 ==> cs[j].ok;
        rest
      else
        rest
  }

  /** Binding rejects a missing `thumb_up` before validation runs, so the
      "ThumbUp is required" and "InProduction is required" checks never fire
      for a bound request. */
  lemma BoundRequestHasBooleans(body: Option<FeedbackRequest>)
    requires BindRequest(body).Some?
    ensures var r := ValidateFeedbackRequest(BindRequest(body).value);
            r != Fail("ThumbUp is required") && r != Fail("InProduction is required")
  {
    var req := BindRequest(body).value;
    var r := ValidateFeedbackRequest(req);
    if r.Fail? {
      var cs := Checks(req);
      var k :| 0 <= k < |cs| && !cs[k].ok && r.error == cs[k].message
               && forall j :: 0 <= j < k ==> cs[j].ok;
      assert k != 1 && k != 3;
      MessagesDistinct();
      assert r.error == Messages[k];
    }
  }

  /** The seven messages are pairwise different, so a message names its check. */
  lemma MessagesDistinct()
    ensures forall i, j :: 0 <= i < j < |Messages| ==> Messages[i] != Messages[j]
  {
    assert Messages[0][0] == 'P' && Messages[1][0] == 'T' && Messages[2][0] == 'O';
    assert Messages[3][0] == 'I' && Messages[4][0] == 'U' && Messages[5][0] == 'C';
    assert Messages[6][0] == 'C' && Messages[5][1] == 'a' && Messages[6][1] == 'o';
  }

  // ---------------------------------------------------------------------------
  // Prompt limit
  // ---------------------------------------------------------------------------

  /** `enforcePromptLimit`: `query` is the (count, exists) answer for the
      workspace. A known prompt is always allowed, a new one only while the
      workspace is under the limit, and a failed query denies. */
  function EnforcePromptLimit(query: Result<(int, bool), string>, limit: int): (allowed: bool)
    ensures query.Err? ==> !allowed
    ensures query.Ok? && query.value.1 ==> allowed
    ensures query.Ok? && !query.value.1 ==> (allowed <==> query.value.0 < limit)
  {
    match query
    case Err(_) => false
    case Ok((count, exists_)) => exists_ || count < limit
  }

  /** Raising the limit never turns an allowed request away. */
  lemma PromptLimitMonotone(query: Result<(int, bool), string>, limit: int, larger: int)
    requires limit <= larger
    ensures EnforcePromptLimit(query, limit) ==> EnforcePromptLimit(query, larger)
  {
  }

  // ---------------------------------------------------------------------------
  // POST /feedback
  // ---------------------------------------------------------------------------

  /** An HTTP status with the error or success message of the JSON body. */
  datatype Response = Response(status: nat, message: string)

  const Unauthorized := Response(401, "Unauthorized")
  const InternalError := Response(500, "Internal server error")
  const Expired := Response(402, "Account expired")
  const BadBody := Response(400, "Invalid request body")
  const MonthlyLimitReached := Response(429, "Monthly feedback limit reached")
  const PromptLimitReached := Response(400, "Prompt limit reached")
  const Created := Response(201, "Feedback submitted successfully")

  /** The database as the handler sees it, and the configured limits. */
  datatype IngestEnv = IngestEnv(
    getAccount: string -> Result<Option<Account>, string>,
    promptCount: (string, string, string, string) -> Result<(int, bool), string>,
    insertPrompt: (string, string, string, string) -> Outcome<string>,
    insertFeedback: Feedback -> Outcome<string>,
    monthlyFeedbackLimit: int,
    promptCountLimit: int)

  /** The zero `time.Time`; the database stamps `created_at` itself. */
  const ZeroInstant: Instant := Timestamp(Date(1, 1, 1), 0)

  /** The record the handler hands to `InsertFeedback`: request values as
      sent, with an empty comment as nil. */
  function NewFeedback(workspace: string, req: FeedbackRequest): (fb: Feedback)
    requires req.thumbUp.Some? && req.inProduction.Some?
    ensures fb.workspace == workspace && fb.prompt == req.prompt && fb.origin == req.origin
    ensures fb.category == req.category && fb.userId == req.userId
    ensures fb.thumbUp == req.thumbUp.value && fb.inProduction == req.inProduction.value
    ensures PtrToString(fb.comment) == req.comment
  {
    PtrRoundTrip(req.comment, None);
    Feedback(0, ZeroInstant, workspace, req.prompt, req.thumbUp.value, PtrOrNil(req.comment),
             req.origin, req.category, req.inProduction.value, req.userId)
  }

  /** An account that may submit: linked to a workspace and not expired. */
  predicate ActiveAccount(a: Account, now: Instant) {
    a.workspace.Some? && !(Seconds(a.expiry) < Seconds(now))
  }

  /** The key names an account that may submit. */
  predicate Authorized(apiKey: string, now: Instant, env: IngestEnv) {
    apiKey != "" && env.getAccount(apiKey).Ok? && env.getAccount(apiKey).value.Some?
    && ActiveAccount(env.getAccount(apiKey).value.value, now)
  }

  /** The account checks: 401 without a key or for an unknown or unlinked
      account, 500 when the lookup fails, 402 once the account has expired. */
  function Authorize(apiKey: string, now: Instant, env: IngestEnv): (r: Result<Account, Response>)
    ensures r.Ok? <==> Authorized(apiKey, now, env)
    ensures r.Ok? ==> r.value == env.getAccount(apiKey).value.value
    ensures r.Err? ==> r.error in {Unauthorized, InternalError, Expired}
    ensures apiKey == "" ==> r == Err(Unauthorized)
    ensures r == Err(InternalError) <==> apiKey != "" && env.getAccount(apiKey).Err?
    ensures r == Err(Expired) ==>
              env.getAccount(apiKey).Ok? && env.getAccount(apiKey).value.Some?
              && env.getAccount(apiKey).value.value.workspace.Some?
  {
    if apiKey == "" then Err(Unauthorized)
    else match env.getAccount(apiKey)
    case Err(_) => Err(InternalError)
    case Ok(found) =>
      if found.None? || found.value.workspace.None? then Err(Unauthorized)
      else if Seconds(found.value.expiry) < Seconds(now) then Err(Expired)
      else Ok(found.value)
  }

  /** The limits and the two inserts all let a valid request through. */
  predicate Admitted(ws: string, feedbackCount: int, req: FeedbackRequest, env: IngestEnv)
    requires req.thumbUp.Some? && req.inProduction.Some?
  {
    feedbackCount < env.monthlyFeedbackLimit
    && EnforcePromptLimit(env.promptCount(ws, req.origin, req.category, req.prompt), env.promptCountLimit)
    && env.insertPrompt(ws, req.origin, req.category, req.prompt).Pass?
    && env.insertFeedback(NewFeedback(ws, req)).Pass?
  }

  /** Everything that follows a successful authorisation succeeds. */
  predicate SubmissionAccepted(a: Account, body: Option<FeedbackRequest>, env: IngestEnv)
    requires a.workspace.Some?
  {
    BindRequest(body).Some? && ValidRequest(body.value)
    && Admitted(a.workspace.value, a.feedbackCount, body.value, env)
  }

  /** The steps after validation: monthly limit (429), prompt limit (400),
      then the two inserts (500 on failure). */
  function Admit(ws: string, feedbackCount: int, req: FeedbackRequest, env: IngestEnv): (r: Response)
    requires req.thumbUp.Some? && req.inProduction.Some?
    ensures r == Created <==> Admitted(ws, feedbackCount, req, env)
    ensures r in {Created, MonthlyLimitReached, PromptLimitReached, InternalError}
    ensures r == MonthlyLimitReached <==> feedbackCount >= env.monthlyFeedbackLimit
  {
    if feedbackCount >= env.monthlyFeedbackLimit then MonthlyLimitReached
    else if !EnforcePromptLimit(env.promptCount(ws, req.origin, req.category, req.prompt),
                                env.promptCountLimit) then PromptLimitReached
    else if env.insertPrompt(ws, req.origin, req.category, req.prompt).Fail? then InternalError
    else if env.insertFeedback(NewFeedback(ws, req)).Fail? then InternalError
    else Created
  }

  /** The steps after authorisation: bind (400), validate (400 with the
      check's message), then the limits and inserts of `Admit`. */
  function Submit(a: Account, body: Option<FeedbackRequest>, env: IngestEnv): (r: Response)
    requires a.workspace.Some?
    ensures r == Created <==> SubmissionAccepted(a, body, env)
    ensures r.status in {201, 400, 429, 500}
    ensures r == MonthlyLimitReached ==>
              a.feedbackCount >= env.monthlyFeedbackLimit && BindRequest(body).Some? && ValidRequest(body.value)
    ensures BindRequest(body).None? ==> r == BadBody
    ensures BindRequest(body).Some? && !ValidRequest(body.value) ==>
              r == Response(400, ValidateFeedbackRequest(body.value).error)
  {
    match BindRequest(body)
    case None => BadBody
    case Some(req) =>
      match ValidateFeedbackRequest(req)
      case Fail(msg) => Response(400, msg)
      case Pass => Admit(a.workspace.value, a.feedbackCount, req, env)
  }

  /** `PostFeedback`: authorise by API key, then bind, validate, apply the
      monthly and prompt limits and insert. The first failing step decides
      the answer; the 201 comes only when every step succeeds. */
  function PostFeedback(apiKey: string, body: Option<FeedbackRequest>, now: Instant, env: IngestEnv): (r: Response)
    ensures r == Created <==>
              Authorized(apiKey, now, env)
              && SubmissionAccepted(env.getAccount(apiKey).value.value, body, env)
    ensures r.status in {201, 400, 401, 402, 429, 500}
    ensures apiKey == "" ==> r == Unauthorized
    ensures r.status in {201, 400, 429} ==> Authorized(apiKey, now, env)
  {
    match Authorize(apiKey, now, env)
    case Err(resp) => resp
    case Ok(a) => Submit(a, body, env)
  }
}

=== FILE: grouping.dfy ===
/** Bucketing rows by a key, as the digest and cache jobs do with
    `m[key] = append(m[key], row)` over a Go map. Buckets are modelled as a
    Dafny `map`; the order in which a job visits the keys is a separate
    choice (see `GroupKeys`). */
module Grouping {
  import opened Seqs

  /** The rows whose key is `k`, in input order: the reference each bucket
      is compared with. */
  function Bucket<T(!new), K(==, !new)>(rows: seq<T>, key: T -> K, k: K): (r: seq<T>)
    ensures |r| <= |rows|
  {
    if |rows| == 0 then []
    else (if key(rows[0]) == k then [rows[0]] else []) + Bucket(rows[1..], key, k)
  }

  /** A bucket holds exactly the rows of its key. */
  lemma {:induction false} BucketMembers<T(!new), K(!new)>(rows: seq<T>, key: T -> K, k: K)
    ensures forall x :: x in Bucket(rows, key, k) <==> x in rows && key(x) == k
    decreases |rows|
  {
    if |rows| > 0 {
      BucketMembers(rows[1..], key, k);
      assert rows == [rows[0]] + rows[1..];
    }
  }

  /** When every row has key `k`, the bucket of `k` is the whole input. */
  lemma {:induction false} BucketOfOneKey<T(!new), K(!new)>(rows: seq<T>, key: T -> K, k: K)
    requires forall i :: 0 <= i < |rows| ==> key(rows[i]) == k
    ensures Bucket(rows, key, k) == rows
    decreases |rows|
  {
    if |rows| > 0 {
      BucketOfOneKey(rows[1..], key, k);
    }
  }

  lemma {:induction false} BucketAppend<T(!new), K(!new)>(rows: seq<T>, x: T, key: T -> K, k: K)
    ensures Bucket(rows + [x], key, k) == Bucket(rows, key, k) + (if key(x) == k then [x] else [])
    decreases |rows|
  {
    if |rows| == 0 {
      assert rows + [x] == [x];
    } else {
      var t := rows + [x];
      var head := if key(rows[0]) == k then [rows[0]] else [];
      var last := if key(x) == k then [x] else [];
      assert t[0] == rows[0] && t[1..] == rows[1..] + [x];
      assert Bucket(t, key, k) == head + Bucket(rows[1..] + [x], key, k);
      BucketAppend(rows[1..], x, key, k);
      assert Bucket(rows, key, k) == head + Bucket(rows[1..], key, k);
      assert head + (Bucket(rows[1..], key, k) + last) == (head + Bucket(rows[1..], key, k)) + last;
    }
  }

  /** The Go loop: each row is appended to the bucket of its key. */
  function GroupBy<T(!new), K(==, !new)>(rows: seq<T>, key: T -> K): (m: map<K, seq<T>>)
    ensures forall k :: k in m <==> Bucket(rows, key, k) != []
    ensures forall k :: k in m ==> m[k] == Bucket(rows, key, k)
    decreases |rows|
  {
    if |rows| == 0 then map[]
    else
      var init := rows[..|rows| - 1];
      var x := rows[|rows| - 1];
      var m := GroupBy(init, key);
      assert rows == init + [x];
      AppendToBucket(init, x, key, m);
      m[key(x) := (if key(x) in m then m[key(x)] else []) + [x]]
  }

  /** One step of the Go loop: appending `x` to the bucket of its key turns
      the buckets of `rows` into those of `rows + [x]`. */
  lemma AppendToBucket<T(!new), K(!new)>(rows: seq<T>, x: T, key: T -> K, m: map<K, seq<T>>)
    requires forall k :: k in m <==> Bucket(rows, key, k) != []
    requires forall k :: k in m ==> m[k] == Bucket(rows, key, k)
    ensures var grown := m[key(x) := (if key(x) in m then m[key(x)] else []) + [x]];
            && (forall k :: k in grown <==> Bucket(rows + [x], key, k) != [])
            && (forall k :: k in grown ==> grown[k] == Bucket(rows + [x], key, k))
  {
    forall k {
      BucketAppend(rows, x, key, k);
    }
  }

  /** Every row sits in the bucket of its own key and in no other. */
  lemma RowInOwnBucketOnly<T(!new), K(!new)>(rows: seq<T>, key: T -> K, i: nat, k: K)
    requires i < |rows|
    requires k in GroupBy(rows, key)
    ensures rows[i] in GroupBy(rows, key)[k] <==> key(rows[i]) == k
  {
    BucketMembers(rows, key, k);
  }

  /** The keys in order of first appearance: one way to visit a Go map. */
  function GroupKeys<T(!new), K(==, !new)>(rows: seq<T>, key: T -> K): (r: seq<K>)
    ensures forall k :: k in r <==> k in GroupBy(rows, key)
    ensures NoDuplicates(r)
  {
    var ks := MapSeq(rows, key);
    forall k ensures k in GroupBy(rows, key) <==> k in ks {
      KeyOfSomeRow(rows, key, k);
    }
    Distinct(ks)
  }

  lemma KeyOfSomeRow<T(!new), K(!new)>(rows: seq<T>, key: T -> K, k: K)
    ensures k in GroupBy(rows, key) <==> k in MapSeq(rows, key)
  {
    var m := GroupBy(rows, key);
    var b := Bucket(rows, key, k);
    BucketMembers(rows, key, k);
    MapSeqMembers(rows, key, k);
    if k in MapSeq(rows, key) {
      var x :| x in rows && key(x) == k;
      assert x in b;
    }
    if k in m {
      assert b != [];
      assert b[0] in b;
    }
  }

  /** The sizes of the buckets of `ks`, added up. */
  function BucketSizes<T(!new), K(==, !new)>(rows: seq<T>, key: T -> K, ks: seq<K>): nat {
    if |ks| == 0 then 0 else |Bucket(rows, key, ks[0])| + BucketSizes(rows, key, ks[1..])
  }

  function Occurrences<K(==, !new)>(ks: seq<K>, k: K): nat {
    if |ks| == 0 then 0 else (if ks[0] == k then 1 else 0) + Occurrences(ks[1..], k)
  }

  lemma {:induction false} BucketSizesCons<T(!new), K(!new)>(x: T, rows: seq<T>, key: T -> K, ks: seq<K>)
    ensures BucketSizes([x] + rows, key, ks) == Occurrences(ks, key(x)) + BucketSizes(rows, key, ks)
    decreases |ks|
  {
    if |ks| > 0 {
      assert ([x] + rows)[1..] == rows;
      BucketSizesCons(x, rows, key, ks[1..]);
    }
  }

  lemma {:induction false} OccursOnce<K(!new)>(ks: seq<K>, k: K)
    requires NoDuplicates(ks) && k in ks
    ensures Occurrences(ks, k) == 1
    decreases |ks|
  {
    if ks[0] == k {
      NotOccurring(ks[1..], k);
    } else {
      OccursOnce(ks[1..], k);
    }
  }

  lemma {:induction false} NotOccurring<K(!new)>(ks: seq<K>, k: K)
    requires k !in ks
    ensures Occurrences(ks, k) == 0
    decreases |ks|
  {
    if |ks| > 0 {
      NotOccurring(ks[1..], k);
    }
  }

  /** Buckets over a duplicate-free list of keys that covers every row add
      up to the number of rows. */
  lemma {:induction false} BucketSizesCover<T(!new), K(!new)>(rows: seq<T>, key: T -> K, ks: seq<K>)
    requires NoDuplicates(ks)
    requires forall x :: x in rows ==> key(x) in ks
    ensures BucketSizes(rows, key, ks) == |rows|
    decreases |rows|
  {
    if |rows| == 0 {
      EmptyBucketSizes(key, ks);
    } else {
      assert rows == [rows[0]] + rows[1..];
      BucketSizesCons(rows[0], rows[1..], key, ks);
      OccursOnce(ks, key(rows[0]));
      BucketSizesCover(rows[1..], key, ks);
    }
  }

  lemma {:induction false} EmptyBucketSizes<T(!new), K(!new)>(key: T -> K, ks: seq<K>)
    ensures BucketSizes([], key, ks) == 0
    decreases |ks|
  {
    if |ks| > 0 {
      EmptyBucketSizes(key, ks[1..]);
    }
  }

  /** Grouping loses and duplicates nothing: the buckets, over all keys,
      hold exactly as many rows as the input. */
  lemma GroupSizesAddUp<T(!new), K(!new)>(rows: seq<T>, key: T -> K)
    ensures BucketSizes(rows, key, GroupKeys(rows, key)) == |rows|
  {
    var ks := GroupKeys(rows, key);
    forall x | x in rows ensures key(x) in ks {
      BucketMembers(rows, key, key(x));
      assert x in Bucket(rows, key, key(x));
    }
    BucketSizesCover(rows, key, ks);
  }
}

=== FILE: home_templates.dfy ===
/** The App Home tabs: Explore (a fixed landing view, or the expanded
    filter form), Prompts and Settings. Every tab opens with the same
    navigation bar, which marks the current tab as "primary". */
module HomeTemplates {
  import opened Wrappers
  import opened Seqs
  import opened Text
  import opened Calendar
  import opened Blocks
  import opened Models

  // ---------------------------------------------------------------------------
  // Navigation
  // ---------------------------------------------------------------------------

  datatype Tab = ExploreTab | PromptsTab | SettingsTab

  /** The action ids of the navigation buttons, left to right. */
  const NavIds: seq<string> := ["home-explore", "home-prompts", "home-settings", "home-support"]

  function TabIndex(t: Tab): (i: nat)
    ensures i < |NavIds|
  {
    match t
    case ExploreTab => 0
    case PromptsTab => 1
    case SettingsTab => 2
  }

  function NavButton(caption: string, actionId: string, current: bool): Element {
    Button(caption, actionId, if current then Some("primary") else None, None, None)
  }

  /** The navigation bar of a tab. */
  function NavBar(current: Tab): (b: Block)
    ensures b.Actions? && |b.elements| == |NavIds|
    ensures forall i :: 0 <= i < |NavIds| ==> b.elements[i].Button? && b.elements[i].actionId == NavIds[i]
  {
    var k := TabIndex(current);
    Actions([
      NavButton("Explore Feedback", NavIds[0], k == 0),
      NavButton("Prompts", NavIds[1], k == 1),
      NavButton("Settings", NavIds[2], k == 2),
      NavButton("Support", NavIds[3], false)])
  }

  /** Exactly the current tab's button is primary; the others carry no style. */
  lemma NavBarPrimary(current: Tab)
    ensures forall i :: 0 <= i < |NavIds| ==>
              (NavBar(current).elements[i].style == Some("primary") <==> i == TabIndex(current))
    ensures forall i :: 0 <= i < |NavIds| && i != TabIndex(current) ==> NavBar(current).elements[i].style.None?
  {
  }

  // ---------------------------------------------------------------------------
  // Select menus
  // ---------------------------------------------------------------------------

  /** The option a select shows when there is nothing to choose from. */
  const NoOptions: SelectOption := SelectOption("No options available", "none")

  /** `generateOptions`: one option per item, shown and submitted as the item
      itself; never empty, because Slack rejects a select without options. */
  function GenerateOptions(items: seq<string>): (r: seq<SelectOption>)
    ensures |r| >= 1
    ensures |items| == 0 ==> r == [NoOptions]
    ensures |items| > 0 ==> |r| == |items|
    ensures |items| > 0 ==> forall i :: 0 <= i < |items| ==> r[i].text == items[i] && r[i].value == items[i]
  {
    if |items| == 0 then [NoOptions]
    else MapSeq(items, (s: string) => SelectOption(s, s))
  }

  /** The first option whose value is `v`, as the template's loop with
      `break` finds it. */
  function FirstWithValue(options: seq<SelectOption>, v: string): (r: Option<SelectOption>)
    ensures r.Some? ==> r.value in options && r.value.value == v
    ensures r.None? <==> forall i :: 0 <= i < |options| ==> options[i].value != v
    decreases |options|
  {
    if |options| == 0 then None
    else if options[0].value == v then Some(options[0])
    else FirstWithValue(options[1..], v)
  }

  /** `staticSelectBlock`: the options of `items`, with the selected option
      preset when `selected` is non-empty and is one of the option values. */
  function StaticSelectBlock(actionId: string, placeholder: string, items: seq<string>, selected: string): (e: Element)
    ensures e.StaticSelect? && e.actionId == actionId && e.options == GenerateOptions(items)
    ensures e.initialOption.Some? <==>
              selected != "" && exists i :: 0 <= i < |e.options| && e.options[i].value == selected
    ensures e.initialOption.Some? ==> e.initialOption.value in e.options && e.initialOption.value.value == selected
  {
    var options := GenerateOptions(items);
    StaticSelect(actionId, placeholder, options, if selected != "" then FirstWithValue(options, selected) else None)
  }

  /** In terms of the items: a selection is preset exactly when it is listed;
      with nothing listed, only the placeholder value "none" is. */
  lemma InitialOptionListed(actionId: string, placeholder: string, items: seq<string>, selected: string)
    ensures |items| > 0 ==>
              (StaticSelectBlock(actionId, placeholder, items, selected).initialOption.Some? <==>
               selected != "" && selected in items)
    ensures |items| > 0 && selected != "" && selected in items ==>
              StaticSelectBlock(actionId, placeholder, items, selected).initialOption == Some(SelectOption(selected, selected))
    ensures |items| == 0 ==>
              (StaticSelectBlock(actionId, placeholder, items, selected).initialOption.Some? <==> selected == "none")
  {
    var e := StaticSelectBlock(actionId, placeholder, items, selected);
    if |items| > 0 && selected in items {
      var i :| 0 <= i < |items| && items[i] == selected;
      assert e.options[i].value == selected;
      if selected != "" {
        var j :| 0 <= j < |e.options| && e.options[j] == e.initialOption.value;
        assert e.options[j].text == e.options[j].value;
      }
    }
  }

  // ---------------------------------------------------------------------------
  // The expanded Explore tab
  // ---------------------------------------------------------------------------

  /** The four filters of the Explore form. */
  datatype Filter = OriginFilter | CategoryFilter | PromptFilter | ThumbFilter

  function SelectId(f: Filter): string {
    match f
    case OriginFilter => "select-origin"
    case CategoryFilter => "select-category"
    case PromptFilter => "select-prompt"
    case ThumbFilter => "select-thumb"
  }

  function ClearId(f: Filter): string {
    match f
    case OriginFilter => "clear-origin"
    case CategoryFilter => "clear-category"
    case PromptFilter => "clear-prompt"
    case ThumbFilter => "clear-thumb"
  }

  /** The values the Thumb filter offers. */
  const ThumbOptions: seq<string> := ["Up", "Down"]

  /** What the expanded Explore tab is built from. */
  datatype ExploreInput = ExploreInput(
    origins: seq<string>, categories: seq<string>, prompts: seq<string>,
    dateFrom: CivilDate, dateTo: CivilDate, dateInitial: bool,
    numFeedbackItems: int, numComments: int,
    selectedOrigin: string, selectedCategory: string, selectedPrompt: string, selectedThumb: string)

  function Selected(input: ExploreInput, f: Filter): string {
    match f
    case OriginFilter => input.selectedOrigin
    case CategoryFilter => input.selectedCategory
    case PromptFilter => input.selectedPrompt
    case ThumbFilter => input.selectedThumb
  }

  /** The choices a filter's select offers. */
  function FilterItems(input: ExploreInput, f: Filter): seq<string> {
    match f
    case OriginFilter => input.origins
    case CategoryFilter => input.categories
    case PromptFilter => input.prompts
    case ThumbFilter => ThumbOptions
  }

  /** The placeholder of a filter's select: the number of choices, except for
      Thumb, whose two choices are fixed. */
  function FilterPlaceholder(input: ExploreInput, f: Filter): string {
    match f
    case OriginFilter => "Origin (" + IntToString(|input.origins|) + ")"
    case CategoryFilter => "Category (" + IntToString(|input.categories|) + ")"
    case PromptFilter => "Prompt (" + IntToString(|input.prompts|) + ")"
    case ThumbFilter => "Thumb"
  }

  function ClearButton(f: Filter): Element {
    Button("Clear", ClearId(f), Some("danger"), None, None)
  }

  /** A filter row: the select, then a Clear button while something is
      selected. */
  function FilterRow(input: ExploreInput, f: Filter): (b: Block)
    ensures b.Actions? && |b.elements| == if Selected(input, f) != "" then 2 else 1
    ensures b.elements[0].StaticSelect?
  {
    var select := StaticSelectBlock(SelectId(f), FilterPlaceholder(input, f), FilterItems(input, f), Selected(input, f));
    Actions([select] + (if Selected(input, f) != "" then [ClearButton(f)] else []))
  }

  /** The ids a filter row offers: its select, then Clear while set. */
  function FilterIds(input: ExploreInput, f: Filter): seq<string> {
    [SelectId(f)] + (if Selected(input, f) != "" then [ClearId(f)] else [])
  }

  lemma FilterRowIds(input: ExploreInput, f: Filter)
    ensures BlockActionIds(FilterRow(input, f)) == FilterIds(input, f)
  {
    var b := FilterRow(input, f);
    assert BlockActionIds(b) == MapSeq(b.elements, (e: Element) => e.actionId);
  }

  const ResetButton: Element := Button("Reset", "clear-dates", Some("danger"), None, None)

  /** The date pickers, preset to the range, then Reset unless the range is
      the default one. */
  function DateRow(from: CivilDate, to: CivilDate, dateInitial: bool): (b: Block)
    ensures b.Actions? && |b.elements| == if dateInitial then 2 else 3
    ensures b.elements[0] == DatePicker("stats-date-from", FormatDate(from), "Start date")
    ensures b.elements[1] == DatePicker("stats-date-to", FormatDate(to), "End date")
  {
    Actions([DatePicker("stats-date-from", FormatDate(from), "Start date"),
             DatePicker("stats-date-to", FormatDate(to), "End date")]
            + (if dateInitial then [] else [ResetButton]))
  }

  /** The pickers show the range, and parsing what they show gives it back. */
  lemma DateRowShowsRange(from: CivilDate, to: CivilDate, dateInitial: bool)
    requires 0 <= from.year <= 9999 && 0 <= to.year <= 9999
    ensures ParseDate(DateRow(from, to, dateInitial).elements[0].initialDate) == Some(from)
    ensures ParseDate(DateRow(from, to, dateInitial).elements[1].initialDate) == Some(to)
  {
    FormatParseRoundTrip(from);
    FormatParseRoundTrip(to);
  }

  function DateIds(dateInitial: bool): seq<string> {
    ["stats-date-from", "stats-date-to"] + (if dateInitial then [] else ["clear-dates"])
  }

  lemma DateRowIds(from: CivilDate, to: CivilDate, dateInitial: bool)
    ensures BlockActionIds(DateRow(from, to, dateInitial)) == DateIds(dateInitial)
  {
    var b := DateRow(from, to, dateInitial);
    assert BlockActionIds(b) == MapSeq(b.elements, (e: Element) => e.actionId);
  }

  /** "item"/"items" and "comment"/"comments": singular exactly at 1. */
  function Noun(n: int, singular: string): (r: string)
    ensures n == 1 ==> r == singular
    ensures n != 1 ==> r == singular + "s"
  {
    if n == 1 then singular else singular + "s"
  }

  /** The line under the form counting what the filters match. */
  function CountLine(numFeedbackItems: int, numComments: int): string {
    "_" + IntToString(numFeedbackItems) + " matching feedback " + Noun(numFeedbackItems, "item")
    + " with " + IntToString(numComments) + " " + Noun(numComments, "comment") + "_"
  }

  const RawDataConfirm: Confirm := Confirm(
    "Fetch Raw Data?",
    RawDataNote, "Export", "Cancel")

  const RawDataNote: string :=
    "This action will generate a CSV file of matching raw data. The file will then be sent to you as a direct message."

  /** The query buttons the counts allow: Stats and Raw Data need matching
      feedback, Comments needs matching comments. */
  function QueryButtons(numFeedbackItems: int, numComments: int): (es: seq<Element>)
    ensures |es| <= 3
    ensures forall e :: e in es ==> e.Button?
    ensures forall e :: e in es && e.actionId == "view-data" ==> e.confirm == Some(RawDataConfirm)
  {
    (if numFeedbackItems > 0 then [PlainButton("Stats", "view-stats")] else [])
    + (if numComments > 0 then [PlainButton("Comments", "view-comments")] else [])
    + (if numFeedbackItems > 0 then [Button("Raw Data", "view-data", None, None, Some(RawDataConfirm))] else [])
  }

  /** The query row, left out when it would hold no button. */
  function QueryRow(numFeedbackItems: int, numComments: int): (bs: seq<Block>)
    ensures |bs| == if numFeedbackItems > 0 || numComments > 0 then 1 else 0
  {
    var es := QueryButtons(numFeedbackItems, numComments);
    if |es| > 0 then [Actions(es)] else []
  }

  function QueryIds(numFeedbackItems: int, numComments: int): seq<string> {
    (if numFeedbackItems > 0 then ["view-stats"] else [])
    + (if numComments > 0 then ["view-comments"] else [])
    + (if numFeedbackItems > 0 then ["view-data"] else [])
  }

  lemma QueryRowIds(numFeedbackItems: int, numComments: int)
    ensures ActionIds(QueryRow(numFeedbackItems, numComments)) == QueryIds(numFeedbackItems, numComments)
  {
    var es := QueryButtons(numFeedbackItems, numComments);
    if |es| > 0 {
      ActionIdsSingle(Actions(es));
      assert ActionIds(QueryRow(numFeedbackItems, numComments)) == MapSeq(es, (e: Element) => e.actionId);
    } else {
      assert QueryRow(numFeedbackItems, numComments) == [];
    }
  }

  /** The first three blocks of the expanded form. */
  function FormHead(): seq<Block> {
    [Actions([PlainButton("< Back", "home-explore")]), Spacer, Section(Markdown("*Filters*"))]
  }

  function FilterRows(input: ExploreInput): (bs: seq<Block>)
    ensures |bs| == 4
  {
    [FilterRow(input, OriginFilter), FilterRow(input, CategoryFilter),
     FilterRow(input, PromptFilter), FilterRow(input, ThumbFilter)]
  }

  function DateBlocks(input: ExploreInput): (bs: seq<Block>)
    ensures |bs| == 2
  {
    [Section(Markdown("*Date Range (UTC)*")), DateRow(input.dateFrom, input.dateTo, input.dateInitial)]
  }

  function CountBlocks(input: ExploreInput): (bs: seq<Block>)
    ensures |bs| == 3 && bs[1] == Context([Markdown(CountLine(input.numFeedbackItems, input.numComments))])
  {
    [Spacer, Context([Markdown(CountLine(input.numFeedbackItems, input.numComments))]), Spacer]
  }

  /** `exploreBlocksExpanded`: the back button, the four filter rows, the
      date row, the counts and the query row. */
  function ExploreExpanded(input: ExploreInput): (bs: seq<Block>)
    ensures |bs| == 12 + (if input.numFeedbackItems > 0 || input.numComments > 0 then 1 else 0)
  {
    FormHead() + FilterRows(input) + DateBlocks(input) + CountBlocks(input)
    + QueryRow(input.numFeedbackItems, input.numComments)
  }

  lemma FilterRowsIds(input: ExploreInput)
    ensures ActionIds(FilterRows(input))
            == FilterIds(input, OriginFilter) + FilterIds(input, CategoryFilter)
               + FilterIds(input, PromptFilter) + FilterIds(input, ThumbFilter)
  {
    var rs := FilterRows(input);
    ActionIdsFour(rs[0], rs[1], rs[2], rs[3]);
    assert rs == [rs[0], rs[1], rs[2], rs[3]];
    FilterRowIds(input, OriginFilter);
    FilterRowIds(input, CategoryFilter);
    FilterRowIds(input, PromptFilter);
    FilterRowIds(input, ThumbFilter);
  }

  lemma FormHeadIds()
    ensures ActionIds(FormHead()) == ["home-explore"]
  {
    var h := FormHead();
    ActionIdsThree(h[0], h[1], h[2]);
    assert h == [h[0], h[1], h[2]];
    assert BlockActionIds(h[0]) == ["home-explore"];
  }

  lemma DateBlocksIds(input: ExploreInput)
    ensures ActionIds(DateBlocks(input)) == DateIds(input.dateInitial)
  {
    var d := DateBlocks(input);
    ActionIdsTwo(d[0], d[1]);
    assert d == [d[0], d[1]];
    DateRowIds(input.dateFrom, input.dateTo, input.dateInitial);
  }

  lemma CountBlocksIds(input: ExploreInput)
    ensures ActionIds(CountBlocks(input)) == []
  {
    var c := CountBlocks(input);
    ActionIdsThree(c[0], c[1], c[2]);
    assert c == [c[0], c[1], c[2]];
  }

  /** The ids the expanded form offers, part by part. */
  lemma ExpandedIds(input: ExploreInput)
    ensures ActionIds(ExploreExpanded(input))
            == ["home-explore"] + ActionIds(FilterRows(input)) + DateIds(input.dateInitial)
               + QueryIds(input.numFeedbackItems, input.numComments)
  {
    var h := FormHead();
    var f := FilterRows(input);
    var d := DateBlocks(input);
    var c := CountBlocks(input);
    var q := QueryRow(input.numFeedbackItems, input.numComments);
    FormHeadIds();
    DateBlocksIds(input);
    CountBlocksIds(input);
    QueryRowIds(input.numFeedbackItems, input.numComments);
    PartsIds(h, f, d, c, q, ["home-explore"], DateIds(input.dateInitial),
             QueryIds(input.numFeedbackItems, input.numComments));
  }

  lemma PartsIds(h: seq<Block>, f: seq<Block>, d: seq<Block>, c: seq<Block>, q: seq<Block>,
                 hi: seq<string>, di: seq<string>, qi: seq<string>)
    requires ActionIds(h) == hi && ActionIds(d) == di && ActionIds(c) == [] && ActionIds(q) == qi
    ensures ActionIds(h + f + d + c + q) == hi + ActionIds(f) + di + qi
  {
    ActionIdsFive(h, f, d, c, q);
    assert hi + ActionIds(f) + di + [] == hi + ActionIds(f) + di;
  }

  /** The filters' ids are pairwise distinct, and none is a date or query id. */
  lemma FilterIdsApart(input: ExploreInput, f: Filter, g: Filter)
    ensures ClearId(g) in FilterIds(input, f) <==> f == g && Selected(input, f) != ""
    ensures "clear-dates" !in FilterIds(input, f)
    ensures "view-stats" !in FilterIds(input, f) && "view-data" !in FilterIds(input, f)
    ensures "view-comments" !in FilterIds(input, f)
  {
  }

  /** The ids of the whole filter block, in terms of the four rows. */
  lemma AllFilterIds(input: ExploreInput, g: Filter)
    ensures ClearId(g) in ActionIds(FilterRows(input)) <==> Selected(input, g) != ""
    ensures "clear-dates" !in ActionIds(FilterRows(input))
    ensures "view-stats" !in ActionIds(FilterRows(input)) && "view-data" !in ActionIds(FilterRows(input))
    ensures "view-comments" !in ActionIds(FilterRows(input))
  {
    FilterRowsIds(input);
    FilterIdsApart(input, OriginFilter, g);
    FilterIdsApart(input, CategoryFilter, g);
    FilterIdsApart(input, PromptFilter, g);
    FilterIdsApart(input, ThumbFilter, g);
  }

  lemma DateIdsApart(dateInitial: bool, g: Filter)
    ensures "clear-dates" in DateIds(dateInitial) <==> !dateInitial
    ensures ClearId(g) !in DateIds(dateInitial)
    ensures "view-stats" !in DateIds(dateInitial) && "view-data" !in DateIds(dateInitial)
    ensures "view-comments" !in DateIds(dateInitial)
  {
  }

  lemma QueryIdsApart(numFeedbackItems: int, numComments: int, g: Filter)
    ensures "view-stats" in QueryIds(numFeedbackItems, numComments) <==> numFeedbackItems > 0
    ensures "view-data" in QueryIds(numFeedbackItems, numComments) <==> numFeedbackItems > 0
    ensures "view-comments" in QueryIds(numFeedbackItems, numComments) <==> numComments > 0
    ensures ClearId(g) !in QueryIds(numFeedbackItems, numComments)
    ensures "clear-dates" !in QueryIds(numFeedbackItems, numComments)
  {
  }

  /** Membership in the form's ids, part by part. */
  lemma InForm(x: string, ids: seq<string>, f: seq<string>, d: seq<string>, q: seq<string>)
    requires ids == ["home-explore"] + f + d + q
    requires x != "home-explore"
    ensures x in ids <==> x in f || x in d || x in q
  {
  }

  lemma ExpandedClear(input: ExploreInput, g: Filter)
    ensures ClearId(g) in ActionIds(ExploreExpanded(input)) <==> Selected(input, g) != ""
  {
    ExpandedIds(input);
    AllFilterIds(input, g);
    DateIdsApart(input.dateInitial, g);
    QueryIdsApart(input.numFeedbackItems, input.numComments, g);
    assert ClearId(g) != "home-explore";
    InForm(ClearId(g), ActionIds(ExploreExpanded(input)), ActionIds(FilterRows(input)),
           DateIds(input.dateInitial), QueryIds(input.numFeedbackItems, input.numComments));
  }

  lemma ExpandedReset(input: ExploreInput)
    ensures "clear-dates" in ActionIds(ExploreExpanded(input)) <==> !input.dateInitial
  {
    ExpandedIds(input);
    AllFilterIds(input, OriginFilter);
    DateIdsApart(input.dateInitial, OriginFilter);
    QueryIdsApart(input.numFeedbackItems, input.numComments, OriginFilter);
    InForm("clear-dates", ActionIds(ExploreExpanded(input)), ActionIds(FilterRows(input)),
           DateIds(input.dateInitial), QueryIds(input.numFeedbackItems, input.numComments));
  }

  lemma ExpandedQueries(input: ExploreInput)
    ensures "view-stats" in ActionIds(ExploreExpanded(input)) <==> input.numFeedbackItems > 0
    ensures "view-data" in ActionIds(ExploreExpanded(input)) <==> input.numFeedbackItems > 0
    ensures "view-comments" in ActionIds(ExploreExpanded(input)) <==> input.numComments > 0
  {
    var ids := ActionIds(ExploreExpanded(input));
    var f := ActionIds(FilterRows(input));
    var d := DateIds(input.dateInitial);
    var q := QueryIds(input.numFeedbackItems, input.numComments);
    ExpandedIds(input);
    AllFilterIds(input, OriginFilter);
    DateIdsApart(input.dateInitial, OriginFilter);
    QueryIdsApart(input.numFeedbackItems, input.numComments, OriginFilter);
    InForm("view-stats", ids, f, d, q);
    InForm("view-data", ids, f, d, q);
    InForm("view-comments", ids, f, d, q);
  }

  /** Every conditional control of the form is offered exactly when its
      condition holds: a Clear per set filter, Reset for a non-default
      range, and the query buttons by the counts. */
  lemma ExpandedControls(input: ExploreInput, g: Filter)
    ensures ClearId(g) in ActionIds(ExploreExpanded(input)) <==> Selected(input, g) != ""
    ensures "clear-dates" in ActionIds(ExploreExpanded(input)) <==> !input.dateInitial
    ensures "view-stats" in ActionIds(ExploreExpanded(input)) <==> input.numFeedbackItems > 0
    ensures "view-data" in ActionIds(ExploreExpanded(input)) <==> input.numFeedbackItems > 0
    ensures "view-comments" in ActionIds(ExploreExpanded(input)) <==> input.numComments > 0
  {
    ExpandedClear(input, g);
    ExpandedReset(input);
    ExpandedQueries(input);
  }

  // ---------------------------------------------------------------------------
  // The Explore tab
  // ---------------------------------------------------------------------------

  const QuickActionsNote: string :=
    "Read the latest comments, see AI-identified issues, or quickly review stats. Cheers!"
  const DeepDiveNote: string :=
    "Dive deep into feedback by viewing stats, reading comments, or exporting feedback as a CSV file for additional analysis. Use the provided filters to narrow down the data as needed. Have fun!"

  /** `exploreBlocksDefault`: the landing view, the same on every call. */
  function ExploreDefault(): (bs: seq<Block>)
    ensures |bs| == 16 && bs[0] == NavBar(ExploreTab)
  {
    [NavBar(ExploreTab), Spacer, Divider,
     Header("Quick Actions  \U{26A1}\U{FE0F}"), Spacer,
     Section(Plain(QuickActionsNote)), Spacer,
     Actions([PlainButton("Latest Comments", "home-comments"), PlainButton("Top Issues", "home-top-issues"),
              PlainButton("7-Day Stats", "home-stats-7d"), PlainButton("30-Day Stats", "home-stats-30d")]),
     Spacer, Divider, Spacer,
     Header("Stats, Comments, Raw Data  \U{1F575}"), Spacer,
     Section(Plain(DeepDiveNote)),
     Spacer,
     Actions([PlainButton("Begin", "home-expand")])]
  }

  function ExploreBlocks(expanded: bool, input: ExploreInput): (bs: seq<Block>)
    ensures expanded ==> |bs| >= 12 && bs[0].Actions?
  {
    if expanded then ExploreExpanded(input) else ExploreDefault()
  }

  /** Collapsed, the tab ignores every input; expanded, it is the filter
      form, whose first button leads back. */
  lemma ExploreCollapsedFixed(a: ExploreInput, b: ExploreInput)
    ensures ExploreBlocks(false, a) == ExploreBlocks(false, b)
    ensures ExploreBlocks(false, a)[0].elements[0].style == Some("primary")
    ensures ExploreBlocks(true, a)[0] == Actions([PlainButton("< Back", "home-explore")])
  {
  }

  // ---------------------------------------------------------------------------
  // The Prompts tab
  // ---------------------------------------------------------------------------

  function PromptText(p: Prompt): string {
    "Origin: " + p.origin + "\nCategory: " + p.category + "\n\n>_" + p.prompt + "_"
  }

  function DeleteButton(p: Prompt): Element {
    Button("Delete", "modal-delete-prompt", None, Some(IntToString(p.id)), None)
  }

  /** The two blocks listing one prompt. */
  function PromptItem(p: Prompt): (bs: seq<Block>)
    ensures |bs| == 2
  {
    [Section(Markdown(PromptText(p))), Actions([DeleteButton(p)])]
  }

  function UsageLine(n: int, maxPromptCount: int): string {
    "_" + IntToString(n) + "/" + IntToString(maxPromptCount) + " prompts in use_"
  }

  function PromptsHead(n: int, maxPromptCount: int): (bs: seq<Block>)
    ensures |bs| == 8 && bs[0] == NavBar(PromptsTab)
  {
    [NavBar(PromptsTab), Spacer, Divider, Header("Prompts  \U{1F64C}"), Spacer,
     Context([Markdown(UsageLine(n, maxPromptCount))]), Spacer, Divider]
  }

  const NoPrompts: seq<Block> := [Spacer, Section(Markdown("_No prompts to display_")), Spacer]

  /** `PromptsBlocks`: the usage counter, then each prompt with its Delete
      button, dividers between prompts. */
  function PromptsBlocks(prompts: seq<Prompt>, maxPromptCount: int): (bs: seq<Block>)
    ensures |bs| >= 8 && bs[..8] == PromptsHead(|prompts|, maxPromptCount)
  {
    var head := PromptsHead(|prompts|, maxPromptCount);
    var body := if |prompts| == 0 then NoPrompts else Separated(prompts, PromptItem, [Divider]);
    assert (head + body)[..8] == head;
    head + body
  }

  predicate IsDivider(b: Block) {
    b.Divider?
  }

  /** The Delete button's value in a block, if the block is one. */
  function DeleteValueOf(b: Block): Option<string> {
    if b.Actions? && |b.elements| == 1 && b.elements[0].Button? && b.elements[0].actionId == "modal-delete-prompt"
    then b.elements[0].value else None
  }

  lemma PromptItemShape(p: Prompt)
    ensures CountIf(PromptItem(p), IsDivider) == 0
    ensures Pick(PromptItem(p), DeleteValueOf) == [IntToString(p.id)]
  {
    var bs := PromptItem(p);
    assert bs[1..] == [bs[1]] && bs[1..][1..] == [];
    PickTwo(bs[0], bs[1], DeleteValueOf);
  }

  /** Length and dividers: 8 + 3 blocks for no prompts, otherwise 8 + 2 per
      prompt + one divider between each two. */
  lemma PromptsShape(prompts: seq<Prompt>, maxPromptCount: int)
    ensures |PromptsBlocks(prompts, maxPromptCount)| == if |prompts| == 0 then 11 else 8 + 3 * |prompts| - 1
    ensures |prompts| > 0 ==>
              CountIf(PromptsBlocks(prompts, maxPromptCount)[8..], IsDivider) == |prompts| - 1
  {
    var body := Separated(prompts, PromptItem, [Divider]);
    SeparatedLength(prompts, PromptItem, [Divider], 2);
    if |prompts| > 0 {
      forall p ensures CountIf(PromptItem(p), IsDivider) == 0 {
        PromptItemShape(p);
      }
      assert CountIf([Divider], IsDivider) == 1 by {
        assert [Divider][1..] == [];
      }
      SeparatedCount(prompts, PromptItem, [Divider], IsDivider, 0, 1);
      assert PromptsBlocks(prompts, maxPromptCount)[8..] == body;
    }
  }

  /** Reading the Delete buttons back gives the prompt ids in list order,
      each as the decimal the delete handler parses. */
  lemma PromptsDeleteIds(prompts: seq<Prompt>, maxPromptCount: int)
    ensures |prompts| > 0 ==>
              Pick(PromptsBlocks(prompts, maxPromptCount)[8..], DeleteValueOf) == MapSeq(prompts, (p: Prompt) => IntToString(p.id))
    ensures forall p: Prompt :: p.id >= 0 ==> DigitsValue(IntToString(p.id)) == p.id
  {
    if |prompts| > 0 {
      ItemsDeleteIds(prompts);
      assert PromptsBlocks(prompts, maxPromptCount)[8..] == Separated(prompts, PromptItem, [Divider]);
    }
  }

  lemma ItemsDeleteIds(prompts: seq<Prompt>)
    ensures Pick(Separated(prompts, PromptItem, [Divider]), DeleteValueOf) == MapSeq(prompts, (p: Prompt) => IntToString(p.id))
  {
    forall p ensures Pick(PromptItem(p), DeleteValueOf) == [IntToString(p.id)] {
      PromptItemShape(p);
    }
    assert Pick([Divider], DeleteValueOf) == [] by {
      PickSingle(Divider, DeleteValueOf);
    }
    SeparatedPick(prompts, PromptItem, [Divider], DeleteValueOf, (p: Prompt) => IntToString(p.id));
  }

  // ---------------------------------------------------------------------------
  // The Settings tab
  // ---------------------------------------------------------------------------

  const ClearChannelConfirm: Confirm := Confirm(
    "Clear Output Channel?",
    ClearChannelNote, "Clear", "Cancel")

  const ClearChannelNote: string :=
    "No digests shall be delivered without an output channel. Are you certain you want to clear the output channel?"

  const RotateConfirm: Confirm := Confirm(
    "Rotate API Key?",
    RotateNote, "Rotate", "Cancel")

  const RotateNote: string :=
    "Are you sure you want to rotate your API key? This will invalidate your current key and generate a new one."

  /** The channel picker, preset to the configured channel, and a Clear
      button carrying that channel while one is configured. */
  function ChannelActions(channel: string): (es: seq<Element>)
    ensures |es| >= 1 && es[0].ChannelsSelect? && es[0].actionId == "set-channel"
    ensures es[0].initialChannel.Some? <==> channel != ""
    ensures es[0].initialChannel.Some? ==> es[0].initialChannel.value == channel
    ensures |es| == 2 <==> channel != ""
    ensures |es| == 2 ==> es[1].Button? && es[1].actionId == "clear-channel" && es[1].value == Some(channel)
                          && es[1].confirm == Some(ClearChannelConfirm)
  {
    [ChannelsSelect("set-channel", "Select a channel", if channel != "" then Some(channel) else None)]
    + (if channel != "" then [Button("Clear", "clear-channel", None, Some(channel), Some(ClearChannelConfirm))] else [])
  }

  const KeyPrefix: string := "Your current API key: "
  const ChannelPrompt: string := "Select the channel where digests are sent:"
  const InviteNote: string :=
    "_Please note the Two Thumbs app must be invited to the channel (use Slack's /invite command)._"
  /** The line above the test-data button: which rows the button shows. */
  const TestDataPrompt: string := "View feedback data " + "with in_production = false:"

  function ChannelPart(channel: string): (bs: seq<Block>)
    ensures |bs| == 8
  {
    [NavBar(SettingsTab), Spacer, Divider, Header("Output Channel  \U{1F4E2}"), Spacer,
     Section(Plain(ChannelPrompt)),
     Actions(ChannelActions(channel)),
     Context([Markdown(InviteNote)])]
  }

  function KeyPart(apiKey: string): (bs: seq<Block>)
    ensures |bs| == 5
  {
    [Spacer, Header("API Key  \U{1F511}"), Spacer,
     Section(Plain(KeyPrefix + apiKey)),
     Actions([Button("Rotate API Key", "rotate-api-key", None, None, Some(RotateConfirm))])]
  }

  const TestDataPart: seq<Block> :=
    [Spacer, Header("Test Data  \U{2697}\U{FE0F}"), Spacer,
     Section(Plain(TestDataPrompt)),
     Actions([PlainButton("View Test Data", "view-test-data")])]

  /** `SettingsBlocks`: the output channel, the API key and the test-data
      entry point. */
  function SettingsBlocks(channel: string, apiKey: string): (bs: seq<Block>)
    ensures |bs| == 18 && bs[0] == NavBar(SettingsTab)
    ensures bs[6] == Actions(ChannelActions(channel))
  {
    ChannelPart(channel) + KeyPart(apiKey) + TestDataPart
  }

  /** What a reader takes for the API key: the rest of a plain section that
      starts with the key prefix. */
  function ShownKey(b: Block): Option<string> {
    if b.Section? && b.body.Plain? && |b.body.text| >= |KeyPrefix| && b.body.text[..|KeyPrefix|] == KeyPrefix
    then Some(b.body.text[|KeyPrefix|..]) else None
  }

  lemma NotKeyLine(s: string)
    requires |s| > 0 && s[0] != KeyPrefix[0]
    ensures ShownKey(Section(Plain(s))).None?
  {
    if |s| >= |KeyPrefix| {
      assert s[..|KeyPrefix|][0] == s[0];
    }
  }

  lemma ChannelPartNoKey(channel: string)
    ensures Pick(ChannelPart(channel), ShownKey) == []
  {
    var c := ChannelPart(channel);
    NotKeyLine(" ");
    NotKeyLine(ChannelPrompt);
    forall i | 0 <= i < |c| ensures ShownKey(c[i]).None? {
    }
    PickNoneOf(c, ShownKey);
  }

  lemma TestDataNoKey()
    ensures Pick(TestDataPart, ShownKey) == []
  {
    var t := TestDataPart;
    NotKeyLine(" ");
    assert TestDataPrompt[0] == 'V';
    NotKeyLine(TestDataPrompt);
    forall i | 0 <= i < |t| ensures ShownKey(t[i]).None? {
    }
    PickNoneOf(t, ShownKey);
  }

  lemma KeyPartShowsKey(apiKey: string)
    ensures Pick(KeyPart(apiKey), ShownKey) == [apiKey]
  {
    var k := KeyPart(apiKey);
    NotKeyLine(" ");
    assert (KeyPrefix + apiKey)[..|KeyPrefix|] == KeyPrefix;
    assert (KeyPrefix + apiKey)[|KeyPrefix|..] == apiKey;
    assert ShownKey(k[3]) == Some(apiKey);
    assert k == [k[0], k[1], k[2], k[3]] + [k[4]];
    PickAppend([k[0], k[1], k[2], k[3]], [k[4]], ShownKey);
    PickFour(k[0], k[1], k[2], k[3], ShownKey);
    PickSingle(k[4], ShownKey);
  }

  /** The tab shows the API key verbatim, once: reading it back gives the key. */
  lemma SettingsShowsKey(channel: string, apiKey: string)
    ensures Pick(SettingsBlocks(channel, apiKey), ShownKey) == [apiKey]
  {
    var c := ChannelPart(channel);
    var k := KeyPart(apiKey);
    PickAppend(c + k, TestDataPart, ShownKey);
    PickAppend(c, k, ShownKey);
    ChannelPartNoKey(channel);
    KeyPartShowsKey(apiKey);
    TestDataNoKey();
  }
}

=== FILE: interactions.dfy ===
/** The entry point for Slack view interactions: reading the caller's
    context out of the payload, routing an action id to its handler, the
    HTTP reply, and the per-group stats that several handlers show. The
    database, Slack's API and the handlers' own effects are oracles: a bot
    token lookup, a per-group stats fetch, and the error a handler returns. */
module Interactions {
  import opened Wrappers
  import opened Seqs
  import opened Payload
  import opened Calendar
  import opened Blocks
  import opened Models
  import opened Misc
  import opened Sorting
  import opened Digests
  import opened DigestTemplates
  import opened ModalTemplates

  // ---------------------------------------------------------------------------
  // Interaction context
  // ---------------------------------------------------------------------------

  /** The string member `key` of `j`, when it is present and non-empty. */
  function NonEmptyMember(j: Json, key: string): (r: Option<string>)
    ensures r.Some? <==> StringMember(j, key).Some? && StringMember(j, key).value != ""
    ensures r.Some? ==> r == StringMember(j, key)
  {
    match StringMember(j, key)
    case Some(s) => if s == "" then None else Some(s)
    case None => None
  }

  /** `ExtractInteractionContext`: trigger id, team id and user id must be
      non-empty strings, checked in that order, and the workspace's bot
      token comes from `botToken`. */
  function ExtractInteractionContext(payload: Json, botToken: string -> Result<string, string>)
    : (r: Result<InteractionContext, string>)
    ensures r.Ok? <==>
              && NonEmptyMember(payload, "trigger_id").Some?
              && NonEmptyMember(ObjectOrEmpty(payload, "team"), "id").Some?
              && NonEmptyMember(ObjectOrEmpty(payload, "user"), "id").Some?
              && ObjectMember(payload, "team").Some? && ObjectMember(payload, "user").Some?
              && botToken(NonEmptyMember(ObjectOrEmpty(payload, "team"), "id").value).Ok?
    ensures r.Ok? ==>
              && r.value.triggerId != "" && r.value.workspace != "" && r.value.userId != ""
              && StringMember(payload, "trigger_id") == Some(r.value.triggerId)
              && StringMember(ObjectOrEmpty(payload, "team"), "id") == Some(r.value.workspace)
              && StringMember(ObjectOrEmpty(payload, "user"), "id") == Some(r.value.userId)
              && botToken(r.value.workspace) == Ok(r.value.botToken)
    ensures NonEmptyMember(payload, "trigger_id").None? ==> r == Err("missing or invalid trigger_id")
    ensures NonEmptyMember(payload, "trigger_id").Some? ==>
              && (ObjectMember(payload, "team").None? ==> r == Err("missing or invalid team in payload"))
              && (ObjectMember(payload, "team").Some? && NonEmptyMember(ObjectOrEmpty(payload, "team"), "id").None? ==>
                    r == Err("missing or invalid workspace ID"))
    ensures NonEmptyMember(payload, "trigger_id").Some? && NonEmptyMember(ObjectOrEmpty(payload, "team"), "id").Some?
            && ObjectMember(payload, "team").Some? ==>
              var workspace := NonEmptyMember(ObjectOrEmpty(payload, "team"), "id").value;
              && (ObjectMember(payload, "user").None? ==> r == Err("missing or invalid user in payload"))
              && (ObjectMember(payload, "user").Some? && NonEmptyMember(ObjectOrEmpty(payload, "user"), "id").None? ==>
                    r == Err("missing or invalid user ID"))
              && (ObjectMember(payload, "user").Some? && NonEmptyMember(ObjectOrEmpty(payload, "user"), "id").Some?
                  && botToken(workspace).Err? ==>
                    r == Err("failed to fetch bot token for workspace " + workspace + ": " + botToken(workspace).error))
  {
    match NonEmptyMember(payload, "trigger_id")
    case None => Err("missing or invalid trigger_id")
    case Some(triggerId) =>
      match ObjectMember(payload, "team")
      case None => Err("missing or invalid team in payload")
      case Some(team) =>
        match NonEmptyMember(team, "id")
        case None => Err("missing or invalid workspace ID")
        case Some(workspace) =>
          match ObjectMember(payload, "user")
          case None => Err("missing or invalid user in payload")
          case Some(user) =>
            match NonEmptyMember(user, "id")
            case None => Err("missing or invalid user ID")
            case Some(userId) =>
              match botToken(workspace)
              case Err(e) => Err("failed to fetch bot token for workspace " + workspace + ": " + e)
              case Ok(token) => Ok(InteractionContext(triggerId, workspace, token, userId))
  }

  /** The members a payload carries for a context, in the order Slack sends
      them. */
  function ContextPayload(ctx: InteractionContext): Json {
    JObj([("trigger_id", JStr(ctx.triggerId)),
          ("team", JObj([("id", JStr(ctx.workspace))])),
          ("user", JObj([("id", JStr(ctx.userId))]))])
  }

  /** A payload written for a context is read back as that context, given
      that the token store holds its token. */
  lemma ContextRoundTrip(ctx: InteractionContext, botToken: string -> Result<string, string>)
    requires ctx.triggerId != "" && ctx.workspace != "" && ctx.userId != ""
    requires botToken(ctx.workspace) == Ok(ctx.botToken)
    ensures ExtractInteractionContext(ContextPayload(ctx), botToken) == Ok(ctx)
  {
    var p := ContextPayload(ctx);
    var ms := p.members;
    assert ms[..2] == [ms[0], ms[1]] && ms[..2][..1] == [ms[0]];
    assert Lookup(ms, "user") == Some(JObj([("id", JStr(ctx.userId))]));
    assert Lookup(ms, "team") == Some(JObj([("id", JStr(ctx.workspace))]));
    assert Lookup(ms, "trigger_id") == Some(JStr(ctx.triggerId));
  }

  // ---------------------------------------------------------------------------
  // Routing
  // ---------------------------------------------------------------------------

  datatype StatsPeriod = Stats7d | Stats30d

  function StatsTitle(p: StatsPeriod): string {
    match p
    case Stats7d => "7-Day Stats"
    case Stats30d => "30-Day Stats"
  }

  function StatsRange(p: StatsPeriod): DigestRange {
    match p
    case Stats7d => Last7d
    case Stats30d => Last30d
  }

  /** The handlers of view actions; `inModal` handlers push a view onto an
      open modal instead of opening one. */
  datatype Handler =
    | TabExplore(expanded: bool)
    | TabPrompts
    | TabSettings
    | OpenSupport
    | LatestComments(inModal: bool)
    | TopIssues(inModal: bool)
    | PeriodStats(period: StatsPeriod, inModal: bool)
    | FilterChange
    | ClearFilter(action: string)
    | ViewStats
    | ViewComments
    | ViewRawData
    | DeletePromptModal
    | SetChannel
    | ClearChannel
    | RotateApiKey
    | ViewTestData
    | LinkWorkspace

  const HomeActions: seq<string> :=
    ["home-explore", "home-expand", "home-prompts", "home-settings", "home-support",
     "home-comments", "home-top-issues", "home-stats-7d", "home-stats-30d"]
  const FilterActions: seq<string> :=
    ["select-origin", "select-category", "select-prompt", "select-thumb", "stats-date-from", "stats-date-to"]
  const ClearActions: seq<string> := ["clear-origin", "clear-category", "clear-prompt", "clear-thumb", "clear-dates"]
  const QueryActions: seq<string> := ["view-stats", "view-comments", "view-data", "modal-delete-prompt"]
  const ModalActions: seq<string> := ["modal-comments", "modal-top-issues", "modal-stats-7d", "modal-stats-30d"]
  const SettingsActions: seq<string> := ["set-channel", "clear-channel", "rotate-api-key", "view-test-data", "link-workspace"]

  /** Every action id the dispatcher knows. */
  const KnownActions: seq<string> :=
    HomeActions + FilterActions + ClearActions + QueryActions + ModalActions + SettingsActions

  /** The `switch` of `HandleViewInteraction`. */
  function Route(actionId: string): (h: Option<Handler>)
    ensures h.Some? ==> actionId in KnownActions
  {
    if actionId == "home-explore" then Some(TabExplore(false))
    else if actionId == "home-expand" then Some(TabExplore(true))
    else if actionId == "home-prompts" then Some(TabPrompts)
    else if actionId == "home-settings" then Some(TabSettings)
    else if actionId == "home-support" then Some(OpenSupport)
    else if actionId == "home-comments" then Some(LatestComments(false))
    else if actionId == "home-top-issues" then Some(TopIssues(false))
    else if actionId == "home-stats-7d" then Some(PeriodStats(Stats7d, false))
    else if actionId == "home-stats-30d" then Some(PeriodStats(Stats30d, false))
    else if actionId in FilterActions then Some(FilterChange)
    else if actionId in ClearActions then Some(ClearFilter(actionId))
    else if actionId == "view-stats" then Some(ViewStats)
    else if actionId == "view-comments" then Some(ViewComments)
    else if actionId == "view-data" then Some(ViewRawData)
    else if actionId == "modal-delete-prompt" then Some(DeletePromptModal)
    else if actionId == "modal-comments" then Some(LatestComments(true))
    else if actionId == "modal-top-issues" then Some(TopIssues(true))
    else if actionId == "modal-stats-7d" then Some(PeriodStats(Stats7d, true))
    else if actionId == "modal-stats-30d" then Some(PeriodStats(Stats30d, true))
    else if actionId == "set-channel" then Some(SetChannel)
    else if actionId == "clear-channel" then Some(ClearChannel)
    else if actionId == "rotate-api-key" then Some(RotateApiKey)
    else if actionId == "view-test-data" then Some(ViewTestData)
    else if actionId == "link-workspace" then Some(LinkWorkspace)
    else None
  }

  lemma HomeActionsRouted(actionId: string)
    requires actionId in HomeActions
    ensures Route(actionId).Some?
  {
  }

  lemma QueryActionsRouted(actionId: string)
    requires actionId in QueryActions || actionId in ModalActions
    ensures Route(actionId).Some?
  {
  }

  lemma SettingsActionsRouted(actionId: string)
    requires actionId in SettingsActions
    ensures Route(actionId).Some?
  {
  }

  /** Every filter control runs the filter handler, and every clear button
      the clear handler with its own id. */
  lemma FilterActionsRouted(actionId: string)
    ensures actionId in FilterActions ==> Route(actionId) == Some(FilterChange)
    ensures actionId in ClearActions ==> Route(actionId) == Some(ClearFilter(actionId))
  {
  }

  /** An action id is routed exactly when the dispatcher lists it; any
      other id is answered 400 (see `HandleViewInteraction`). */
  lemma RouteKnown(actionId: string)
    ensures Route(actionId).Some? <==> actionId in KnownActions
  {
    if actionId in HomeActions {
      HomeActionsRouted(actionId);
    } else if actionId in QueryActions || actionId in ModalActions {
      QueryActionsRouted(actionId);
    } else if actionId in SettingsActions {
      SettingsActionsRouted(actionId);
    } else {
      FilterActionsRouted(actionId);
    }
  }

  /** The home buttons and their twins inside the explore modal run the
      same handler, opening a modal or pushing onto the open one. */
  lemma CommentsTwinned()
    ensures Route("home-comments") == Some(LatestComments(false)) && Route("modal-comments") == Some(LatestComments(true))
  {
  }

  lemma TopIssuesTwinned()
    ensures Route("home-top-issues") == Some(TopIssues(false)) && Route("modal-top-issues") == Some(TopIssues(true))
  {
  }

  lemma WeekStatsTwinned()
    ensures Route("home-stats-7d") == Some(PeriodStats(Stats7d, false))
            && Route("modal-stats-7d") == Some(PeriodStats(Stats7d, true))
  {
  }

  lemma MonthStatsTwinned()
    ensures Route("home-stats-30d") == Some(PeriodStats(Stats30d, false))
            && Route("modal-stats-30d") == Some(PeriodStats(Stats30d, true))
  {
  }

  /** Only the link action's id reaches the link handler. */
  lemma LinkRoute(actionId: string)
    ensures Route(actionId) == Some(LinkWorkspace) ==> actionId == "link-workspace"
  {
  }

  /** The buttons of a digest message are answered elsewhere, not here. */
  lemma MessageActionsNotRouted()
    ensures Route("explore_feedback").None? && Route("report_issue").None?
  {
  }

  // ---------------------------------------------------------------------------
  // Reply
  // ---------------------------------------------------------------------------

  /** A JSON reply with one member: `{"error": …}` or `{"status": …}`. */
  datatype Reply = Reply(status: int, key: string, message: string)

  function BadRequest(message: string): Reply {
    Reply(400, "error", message)
  }

  const Handled: Reply := Reply(200, "status", "action handled")
  const HandlerFailed: Reply := Reply(500, "error", "failed to handle action")

  /** The action id of the first action, with the error for each way it can
      be missing. */
  function ActionIdOf(payload: Json): (r: Result<string, string>)
    ensures r.Ok? ==> r.value != ""
    ensures r.Err? ==> r.error in ["invalid actions payload", "invalid action structure", "missing or invalid action ID"]
  {
    var actions := Member(payload, "actions");
    if actions.None? || !actions.value.JArr? || |actions.value.items| == 0 then Err("invalid actions payload")
    else if !actions.value.items[0].JObj? then Err("invalid action structure")
    else
      match NonEmptyMember(actions.value.items[0], "action_id")
      case Some(id) => Ok(id)
      case None => Err("missing or invalid action ID")
  }

  /** A payload whose last member is a one-action list names that action. */
  lemma ActionIdRoundTrip(members: seq<(string, Json)>, id: string)
    requires id != ""
    ensures ActionIdOf(JObj(members + [("actions", JArr([JObj([("action_id", JStr(id))])]))])) == Ok(id)
  {
    var action := JObj([("action_id", JStr(id))]);
    var ms := members + [("actions", JArr([action]))];
    assert ms[|ms| - 1] == ("actions", JArr([action]));
    assert Lookup(action.members, "action_id") == Some(JStr(id));
  }

  /** The reply once the context and the action id are known: 400 for an
      unknown action, the link handler's own reply, 500 for a failing
      handler, 200 otherwise. */
  function Dispatch(h: Option<Handler>, ctx: InteractionContext, payload: Json,
                    run: (InteractionContext, Handler) -> Option<string>,
                    link: (InteractionContext, Json) -> Reply): (r: Reply)
    ensures h.None? ==> r == BadRequest("unknown action")
    ensures h == Some(LinkWorkspace) ==> r == link(ctx, payload)
    ensures h.Some? && h != Some(LinkWorkspace) ==>
              && (r == Handled <==> run(ctx, h.value).None?)
              && (r == HandlerFailed <==> run(ctx, h.value).Some?)
              && (r == Handled || r == HandlerFailed)
  {
    match h
    case None => BadRequest("unknown action")
    case Some(LinkWorkspace) => link(ctx, payload)
    case Some(handler) => if run(ctx, handler).Some? then HandlerFailed else Handled
  }

  /** `HandleViewInteraction`. `run` is the error the routed handler
      returns; the link handler writes its own reply, `link`. */
  function HandleViewInteraction(payload: Json, botToken: string -> Result<string, string>,
                                 run: (InteractionContext, Handler) -> Option<string>,
                                 link: (InteractionContext, Json) -> Reply): (r: Reply)
    ensures ExtractInteractionContext(payload, botToken).Err? ==>
              r == BadRequest(ExtractInteractionContext(payload, botToken).error)
    ensures ExtractInteractionContext(payload, botToken).Ok? && ActionIdOf(payload).Err? ==>
              r == BadRequest(ActionIdOf(payload).error)
    ensures ExtractInteractionContext(payload, botToken).Ok? && ActionIdOf(payload).Ok? ==>
              r == Dispatch(Route(ActionIdOf(payload).value), ExtractInteractionContext(payload, botToken).value,
                            payload, run, link)
  {
    match ExtractInteractionContext(payload, botToken)
    case Err(e) => BadRequest(e)
    case Ok(ctx) =>
      match ActionIdOf(payload)
      case Err(e) => BadRequest(e)
      case Ok(id) => Dispatch(Route(id), ctx, payload, run, link)
  }

  /** Apart from the link action, the request is answered 200 exactly when
      the context and the action are valid and the handler succeeds, and
      500 exactly when the handler fails; its error never reaches the
      caller. `RouteKnown` says which action ids are routed. */
  lemma HandledIffSucceeded(payload: Json, botToken: string -> Result<string, string>,
                            run: (InteractionContext, Handler) -> Option<string>,
                            link: (InteractionContext, Json) -> Reply)
    requires ActionIdOf(payload) != Ok("link-workspace")
    ensures var r := HandleViewInteraction(payload, botToken, run, link);
            var ctx := ExtractInteractionContext(payload, botToken);
            var id := ActionIdOf(payload);
            && (r == Handled <==> ctx.Ok? && id.Ok? && Route(id.value).Some? && run(ctx.value, Route(id.value).value).None?)
            && (r == HandlerFailed <==> ctx.Ok? && id.Ok? && Route(id.value).Some? && run(ctx.value, Route(id.value).value).Some?)
            && (r.status == 400 <==> ctx.Err? || id.Err? || Route(id.value).None?)
  {
    var id := ActionIdOf(payload);
    if id.Ok? {
      LinkRoute(id.value);
    }
  }

  // ---------------------------------------------------------------------------
  // Stats rows
  // ---------------------------------------------------------------------------

  /** One group's row of a stats modal. */
  function StatsRow(g: FeedbackGroup, s: FeedbackStats): (r: StatsData)
    ensures r.origin == g.origin && r.category == g.category && r.prompt == g.prompt
    ensures -0.5 <= (r.score as real) - s.thumbsUpPct <= 0.5
    ensures r.scoreDelta == "-" <==> s.prevNFeedback <= 0 || s.thumbsUpPct == s.prevThumbsUpPct
    ensures r.nResponses == s.nFeedback && r.nComments == s.nComments
    ensures r.nResponsesDelta == "-" <==> s.prevNFeedbackDl == 0.0
    ensures r.nCommentsDelta == "-" <==> s.prevCommentsDl == 0.0
  {
    StatsData(g.origin, g.category, g.prompt, RoundFloat(s.thumbsUpPct), ScoreDelta(s),
              s.nFeedback, FormatDelta(s.prevNFeedbackDl), s.nComments, FormatDelta(s.prevCommentsDl))
  }

  /** A fetch that returned stats: neither an error nor nil. */
  predicate Fetched(g: FeedbackGroup, fetch: FeedbackGroup -> Result<Option<FeedbackStats>, string>) {
    fetch(g).Ok? && fetch(g).value.Some?
  }

  /** The loop of `FetchStats`: one row per group whose fetch returned
      stats, in group order; the others are skipped. */
  function Collected(groups: seq<FeedbackGroup>, fetch: FeedbackGroup -> Result<Option<FeedbackStats>, string>)
    : (r: seq<StatsData>)
    ensures |r| <= |groups|
    decreases |groups|
  {
    if |groups| == 0 then []
    else
      (if Fetched(groups[0], fetch) then [StatsRow(groups[0], fetch(groups[0]).value.value)] else [])
      + Collected(groups[1..], fetch)
  }

  /** Two fetches that answer alike collect the same rows. */
  lemma {:induction false} CollectedAgree(groups: seq<FeedbackGroup>, f1: FeedbackGroup -> Result<Option<FeedbackStats>, string>,
                                          f2: FeedbackGroup -> Result<Option<FeedbackStats>, string>)
    requires forall g :: f1(g) == f2(g)
    ensures Collected(groups, f1) == Collected(groups, f2)
    decreases |groups|
  {
    if |groups| > 0 {
      CollectedAgree(groups[1..], f1, f2);
    }
  }

  /** A row is collected exactly when it is the row of some fetched group. */
  lemma {:induction false} CollectedMembers(groups: seq<FeedbackGroup>,
                                            fetch: FeedbackGroup -> Result<Option<FeedbackStats>, string>, x: StatsData)
    ensures x in Collected(groups, fetch) <==>
              exists i :: 0 <= i < |groups| && Fetched(groups[i], fetch) && x == StatsRow(groups[i], fetch(groups[i]).value.value)
    decreases |groups|
  {
    if |groups| > 0 {
      CollectedMembers(groups[1..], fetch, x);
      if x in Collected(groups[1..], fetch) {
        var i :| 0 <= i < |groups[1..]| && Fetched(groups[1..][i], fetch)
                 && x == StatsRow(groups[1..][i], fetch(groups[1..][i]).value.value);
        assert groups[1..][i] == groups[i + 1];
      }
      if exists i :: 0 <= i < |groups| && Fetched(groups[i], fetch) && x == StatsRow(groups[i], fetch(groups[i]).value.value) {
        var i :| 0 <= i < |groups| && Fetched(groups[i], fetch) && x == StatsRow(groups[i], fetch(groups[i]).value.value);
        if i > 0 {
          assert groups[1..][i - 1] == groups[i];
        }
      }
    }
  }

  /** No row is lost exactly when every fetch returned stats. */
  lemma {:induction false} CollectedAll(groups: seq<FeedbackGroup>, fetch: FeedbackGroup -> Result<Option<FeedbackStats>, string>)
    ensures |Collected(groups, fetch)| == |groups| <==> forall i :: 0 <= i < |groups| ==> Fetched(groups[i], fetch)
    decreases |groups|
  {
    if |groups| > 0 {
      CollectedAll(groups[1..], fetch);
      if forall i :: 0 <= i < |groups| ==> Fetched(groups[i], fetch) {
        forall i | 0 <= i < |groups[1..]| ensures Fetched(groups[1..][i], fetch) {
          assert groups[1..][i] == groups[i + 1];
        }
      }
      if |Collected(groups, fetch)| == |groups| {
        forall i | 0 <= i < |groups| ensures Fetched(groups[i], fetch) {
          if i > 0 {
            assert groups[i] == groups[1..][i - 1];
          }
        }
      }
    }
  }

  /** `FetchStats`: the collected rows sorted by origin, then category. */
  function FetchStats(groups: seq<FeedbackGroup>, fetch: FeedbackGroup -> Result<Option<FeedbackStats>, string>)
    : (r: seq<StatsData>)
    ensures SortedBy(r, StatKey)
    ensures multiset(r) == multiset(Collected(groups, fetch))
    ensures |r| <= |groups|
  {
    var r := SortBy(Collected(groups, fetch), StatKey);
    assert |r| == |multiset(r)| == |Collected(groups, fetch)|;
    r
  }

  /** The stats shown are the rows of the fetched groups, each once per
      group, and all groups are shown exactly when every fetch succeeded. */
  lemma FetchStatsMembers(groups: seq<FeedbackGroup>, fetch: FeedbackGroup -> Result<Option<FeedbackStats>, string>)
    ensures forall x :: x in FetchStats(groups, fetch) <==>
              exists i :: 0 <= i < |groups| && Fetched(groups[i], fetch) && x == StatsRow(groups[i], fetch(groups[i]).value.value)
    ensures |FetchStats(groups, fetch)| == |groups| <==> forall i :: 0 <= i < |groups| ==> Fetched(groups[i], fetch)
  {
    var r := FetchStats(groups, fetch);
    var c := Collected(groups, fetch);
    forall x ensures x in r <==> exists i :: 0 <= i < |groups| && Fetched(groups[i], fetch) && x == StatsRow(groups[i], fetch(groups[i]).value.value) {
      assert x in r <==> x in multiset(r);
      assert x in c <==> x in multiset(c);
      CollectedMembers(groups, fetch, x);
    }
    assert |r| == |multiset(r)| == |c|;
    CollectedAll(groups, fetch);
  }

  /** `FetchStatsWithRange`: `FetchStats` with every group fetched over the
      same two windows and thumb filter. */
  function FetchStatsWithRange(groups: seq<FeedbackGroup>, from: Instant, to: Instant, prevFrom: Instant, prevTo: Instant,
                               thumb: string,
                               fetch: (FeedbackGroup, Instant, Instant, Instant, Instant, string) -> Result<Option<FeedbackStats>, string>)
    : (r: seq<StatsData>)
    ensures SortedBy(r, StatKey) && |r| <= |groups|
    ensures forall x :: x in r <==>
              exists i :: 0 <= i < |groups| && fetch(groups[i], from, to, prevFrom, prevTo, thumb).Ok?
                          && fetch(groups[i], from, to, prevFrom, prevTo, thumb).value.Some?
                          && x == StatsRow(groups[i], fetch(groups[i], from, to, prevFrom, prevTo, thumb).value.value)
  {
    var f := (g: FeedbackGroup) => fetch(g, from, to, prevFrom, prevTo, thumb);
    FetchStatsMembers(groups, f);
    FetchStats(groups, f)
  }

  /** `handleStats` up to opening the modal: the groups query's error is
      returned, otherwise the stats modal of the fetched rows. */
  function PeriodStatsModal(period: StatsPeriod, groups: Result<seq<FeedbackGroup>, string>,
                            fetch: FeedbackGroup -> Result<Option<FeedbackStats>, string>): (r: Result<Modal, string>)
    ensures groups.Err? <==> r.Err?
    ensures groups.Err? ==> r.error == groups.error
    ensures r.Ok? ==> r.value.title == StatsTitle(period) && r.value.close == "Close"
    ensures r.Ok? && |groups.value| == 0 ==> r.value.blocks == Placeholder("No stats to display")
  {
    match groups
    case Err(e) => Err(e)
    case Ok(gs) => Ok(StatsModal(StatsTitle(period), FetchStats(gs, fetch)))
  }

  /** In a stats modal each origin with a row gets exactly one header. */
  lemma PeriodStatsOneHeaderPerOrigin(period: StatsPeriod, groups: seq<FeedbackGroup>,
                                      fetch: FeedbackGroup -> Result<Option<FeedbackStats>, string>)
    requires |FetchStats(groups, fetch)| > 0
    ensures var hs := Pick(PeriodStatsModal(period, Ok(groups), fetch).value.blocks, HeaderOf);
            var stats := FetchStats(groups, fetch);
            NoDuplicates(hs) && forall o :: o in hs <==> o in MapSeq(stats, StatOrigin) && o != ""
  {
    StatsModalHeaders(StatsTitle(period), FetchStats(groups, fetch));
  }
}

=== FILE: keygen.dfy ===
/** Activation codes and API keys (internal/utils/keygen.go). The random
    source is an input: the bytes `crypto/rand.Read` filled, or its error. */
module Keygen {
  import opened Wrappers

  newtype byte = b: int | 0 <= b < 256

  // ---------------------------------------------------------------------------
  // Upper-case hex
  // ---------------------------------------------------------------------------

  function HexDigit(d: int): (c: char)
    requires 0 <= d < 16
    ensures IsHexUpper(c) && HexValue(c) == d
  {
    if d < 10 then ('0' as int + d) as char else ('A' as int + d - 10) as char
  }

  predicate IsHexUpper(c: char) {
    ('0' <= c <= '9') || ('A' <= c <= 'F')
  }

  function HexValue(c: char): (d: int)
    requires IsHexUpper(c)
    ensures 0 <= d < 16
  {
    if '0' <= c <= '9' then c as int - '0' as int else c as int - 'A' as int + 10
  }

  /** `strings.ToUpper(hex.EncodeToString(bs))`: two digits per byte, high
      nibble first. */
  function HexUpper(bs: seq<byte>): (s: string)
    ensures |s| == 2 * |bs|
  {
    if |bs| == 0 then ""
    else [HexDigit(bs[0] as int / 16), HexDigit(bs[0] as int % 16)] + HexUpper(bs[1..])
  }

  /** Reads upper-case hex back into bytes. */
  function HexDecode(s: string): Option<seq<byte>>
    decreases |s|
  {
    if |s| == 0 then Some([])
    else if |s| == 1 || !IsHexUpper(s[0]) || !IsHexUpper(s[1]) then None
    else
      match HexDecode(s[2..])
      case None => None
      case Some(rest) => Some([(HexValue(s[0]) * 16 + HexValue(s[1])) as byte] + rest)
  }

  lemma {:induction false} HexRoundTrip(bs: seq<byte>)
    ensures HexDecode(HexUpper(bs)) == Some(bs)
    decreases |bs|
  {
    if |bs| > 0 {
      var s := HexUpper(bs);
      assert s[2..] == HexUpper(bs[1..]);
      HexRoundTrip(bs[1..]);
      assert bs == [bs[0]] + bs[1..];
    }
  }

  // ---------------------------------------------------------------------------
  // Activation codes
  // ---------------------------------------------------------------------------

  const ActivationPrefix: string := "TWTH-"

  /** The code for four random bytes: "TWTH-" + hex of bytes 0-1 + "-" +
      hex of bytes 2-3. */
  function ActivationCode(b: seq<byte>): (code: string)
    requires |b| == 4
    ensures |code| == 14 && code[..5] == ActivationPrefix && code[9] == '-'
  {
    ActivationPrefix + HexUpper(b[0..2]) + "-" + HexUpper(b[2..4])
  }

  /** Reads the four bytes back from a code. */
  function ParseActivationCode(code: string): Option<seq<byte>> {
    if |code| != 14 || code[..5] != ActivationPrefix || code[9] != '-' then None
    else
      match (HexDecode(code[5..9]), HexDecode(code[10..14]))
      case (Some(a), Some(b)) => Some(a + b)
      case _ => None
  }

  /** The code encodes the random bytes in order. */
  lemma ActivationCodeRoundTrip(b: seq<byte>)
    requires |b| == 4
    ensures ParseActivationCode(ActivationCode(b)) == Some(b)
  {
    var code := ActivationCode(b);
    assert code[5..9] == HexUpper(b[0..2]);
    assert code[10..14] == HexUpper(b[2..4]);
    HexRoundTrip(b[0..2]);
    HexRoundTrip(b[2..4]);
    assert b[0..2] + b[2..4] == b;
  }

  /** `GenerateActivationCode`: a read error is returned as is. */
  function GenerateActivationCode(read: Result<seq<byte>, string>): (r: Result<string, string>)
    requires read.Ok? ==> |read.value| == 4
    ensures read.Err? ==> r == Err(read.error)
    ensures read.Ok? ==> r.Ok? && ParseActivationCode(r.value) == Some(read.value)
  {
    match read
    case Err(e) => Err(e)
    case Ok(b) =>
      ActivationCodeRoundTrip(b);
      Ok(ActivationCode(b))
  }

  // ---------------------------------------------------------------------------
  // Unpadded base64url (section 5 of RFC 4648)
  // ---------------------------------------------------------------------------

  /** The URL- and filename-safe alphabet. */
  function B64Char(v: int): (c: char)
    requires 0 <= v < 64
    ensures IsB64Char(c) && B64Value(c) == v
  {
    if v < 26 then ('A' as int + v) as char
    else if v < 52 then ('a' as int + v - 26) as char
    else if v < 62 then ('0' as int + v - 52) as char
    else if v == 62 then '-'
    else '_'
  }

  predicate IsB64Char(c: char) {
    ('A' <= c <= 'Z') || ('a' <= c <= 'z') || ('0' <= c <= '9') || c == '-' || c == '_'
  }

  function B64Value(c: char): (v: int)
    requires IsB64Char(c)
    ensures 0 <= v < 64
  {
    if 'A' <= c <= 'Z' then c as int - 'A' as int
    else if 'a' <= c <= 'z' then c as int - 'a' as int + 26
    else if '0' <= c <= '9' then c as int - '0' as int + 52
    else if c == '-' then 62
    else 63
  }

  /** Every value is a sextet, the index of one alphabet character. */
  predicate AllSextets(vs: seq<int>) {
    forall i :: 0 <= i < |vs| ==> 0 <= vs[i] < 64
  }

  /** The sextets of one full group of three bytes, most significant bits
      first. Reading them back gives the three bytes. */
  function GroupSextets(b0: byte, b1: byte, b2: byte): (g: seq<int>)
    ensures |g| == 4 && AllSextets(g)
    ensures Byte0(g[0], g[1]) == b0 && Byte1(g[1], g[2]) == b1 && Byte2(g[2], g[3]) == b2
  {
    var x0, x1, x2 := b0 as int, b1 as int, b2 as int;
    var v0, v1, v2, v3 := x0 / 4, x0 % 4 * 16 + x1 / 16, x1 % 16 * 4 + x2 / 64, x2 % 64;
    GroupRoundTrip(x0, x1, x2, v0, v1, v2, v3);
    [v0, v1, v2, v3]
  }

  /** A trailing pair of bytes: three sextets, the last padded with zero bits. */
  function PairSextets(b0: byte, b1: byte): (g: seq<int>)
    ensures |g| == 3 && AllSextets(g)
    ensures Byte0(g[0], g[1]) == b0 && Byte1(g[1], g[2]) == b1
  {
    var x0, x1 := b0 as int, b1 as int;
    var v0, v1, v2 := x0 / 4, x0 % 4 * 16 + x1 / 16, x1 % 16 * 4;
    GroupRoundTrip(x0, x1, 0, v0, v1, v2, 0);
    [v0, v1, v2]
  }

  /** A trailing single byte: two sextets, the second padded with zero bits. */
  function SingleSextets(b0: byte): (g: seq<int>)
    ensures |g| == 2 && AllSextets(g)
    ensures Byte0(g[0], g[1]) == b0
  {
    var x0 := b0 as int;
    var v0, v1 := x0 / 4, x0 % 4 * 16;
    GroupRoundTrip(x0, 0, 0, v0, v1, 0, 0);
    [v0, v1]
  }

  /** The sextets of a byte string: 4 per full group of 3 bytes, 2 or 3 for
      a trailing 1 or 2 bytes (no padding). */
  function Sextets(bs: seq<byte>): (vs: seq<int>)
    ensures |vs| == (4 * |bs| + 2) / 3 && AllSextets(vs)
    decreases |bs|
  {
    if |bs| == 0 then []
    else if |bs| == 1 then SingleSextets(bs[0])
    else if |bs| == 2 then PairSextets(bs[0], bs[1])
    else
      var g := GroupSextets(bs[0], bs[1], bs[2]);
      var rest := Sextets(bs[3..]);
      assert forall i :: 4 <= i < |g + rest| ==> (g + rest)[i] == rest[i - 4];
      g + rest
  }

  /** The alphabet characters of a list of sextets. */
  function Chars(vs: seq<int>): (s: string)
    requires AllSextets(vs)
    ensures |s| == |vs|
  {
    if |vs| == 0 then "" else [B64Char(vs[0])] + Chars(vs[1..])
  }

  /** `base64.RawURLEncoding.EncodeToString`: each 3 bytes become 4
      characters; a trailing 1 or 2 bytes become 2 or 3, without padding. */
  function Base64Url(bs: seq<byte>): (s: string)
    ensures |s| == (4 * |bs| + 2) / 3
  {
    Chars(Sextets(bs))
  }

  lemma {:induction false} CharsAlphabet(vs: seq<int>)
    requires AllSextets(vs)
    ensures forall c :: c in Chars(vs) ==> IsB64Char(c)
    decreases |vs|
  {
    if |vs| > 0 {
      CharsAlphabet(vs[1..]);
    }
  }

  /** An encoding uses only the URL-safe alphabet. */
  lemma Base64UrlAlphabet(bs: seq<byte>)
    ensures forall c :: c in Base64Url(bs) ==> IsB64Char(c)
  {
    CharsAlphabet(Sextets(bs));
  }

  /** The byte a group's first two sextets stand for. */
  function Byte0(v0: int, v1: int): byte
    requires 0 <= v0 < 64 && 0 <= v1 < 64
  {
    (v0 * 4 + v1 / 16) as byte
  }

  /** The byte a group's second and third sextets stand for. */
  function Byte1(v1: int, v2: int): byte
    requires 0 <= v1 < 64 && 0 <= v2 < 64
  {
    (v1 % 16 * 16 + v2 / 4) as byte
  }

  /** The byte a group's third and fourth sextets stand for. */
  function Byte2(v2: int, v3: int): byte
    requires 0 <= v2 < 64 && 0 <= v3 < 64
  {
    (v2 % 4 * 64 + v3) as byte
  }

  /** The sextets of a string, or `None` at the first character outside
      the alphabet. */
  function Values(s: string): (r: Option<seq<int>>)
    ensures r.Some? ==> |r.value| == |s| && AllSextets(r.value)
  {
    if |s| == 0 then Some([])
    else if !IsB64Char(s[0]) then None
    else match Values(s[1..])
      case None => None
      case Some(rest) =>
        var vs := [B64Value(s[0])] + rest;
        assert forall i :: 1 <= i < |vs| ==> vs[i] == rest[i - 1];
        Some(vs)
  }

  /** The bytes a list of sextets stands for; a single sextet left over
      cannot stand for a byte. */
  function FromSextets(vs: seq<int>): Option<seq<byte>>
    requires AllSextets(vs)
    decreases |vs|
  {
    if |vs| == 0 then Some([])
    else if |vs| == 1 then None
    else if |vs| == 2 then Some([Byte0(vs[0], vs[1])])
    else if |vs| == 3 then Some([Byte0(vs[0], vs[1]), Byte1(vs[1], vs[2])])
    else
      match FromSextets(vs[4..])
      case None => None
      case Some(rest) => Some([Byte0(vs[0], vs[1]), Byte1(vs[1], vs[2]), Byte2(vs[2], vs[3])] + rest)
  }

  /** Unpadded base64url decoding. */
  function Base64UrlDecode(s: string): Option<seq<byte>> {
    match Values(s)
    case None => None
    case Some(vs) => FromSextets(vs)
  }

  /** Byte arithmetic of one group: the sextets give the bytes back. */
  lemma GroupRoundTrip(b0: int, b1: int, b2: int, v0: int, v1: int, v2: int, v3: int)
    requires 0 <= b0 < 256 && 0 <= b1 < 256 && 0 <= b2 < 256
    requires v0 == b0 / 4 && v1 == b0 % 4 * 16 + b1 / 16
    requires v2 == b1 % 16 * 4 + b2 / 64 && v3 == b2 % 64
    ensures 0 <= v0 < 64 && 0 <= v1 < 64 && 0 <= v2 < 64 && 0 <= v3 < 64
    ensures v0 * 4 + v1 / 16 == b0
    ensures v1 % 16 * 16 + v2 / 4 == b1
    ensures v2 % 4 * 64 + v3 == b2
  {
    assert v1 / 16 == b0 % 4;
    assert v1 % 16 == b1 / 16;
    assert v2 / 4 == b1 % 16;
    assert v2 % 4 == b2 / 64;
  }

  /** Reading the alphabet characters gives the sextets back. */
  lemma {:induction false} CharsRoundTrip(vs: seq<int>)
    requires AllSextets(vs)
    ensures Values(Chars(vs)) == Some(vs)
    decreases |vs|
  {
    if |vs| > 0 {
      var s := Chars(vs);
      assert s[0] == B64Char(vs[0]) && s[1..] == Chars(vs[1..]);
      CharsRoundTrip(vs[1..]);
      assert vs == [vs[0]] + vs[1..];
    }
  }

  /** Reading the sextets gives the bytes back. */
  lemma {:induction false} SextetsRoundTrip(bs: seq<byte>)
    ensures FromSextets(Sextets(bs)) == Some(bs)
    decreases |bs|
  {
    if |bs| == 1 {
      assert bs == [bs[0]];
    } else if |bs| == 2 {
      assert bs == [bs[0], bs[1]];
    } else if |bs| >= 3 {
      assert bs == [bs[0], bs[1], bs[2]] + bs[3..];
      SextetsRoundTrip(bs[3..]);
      GroupThenRest(bs);
    }
  }

  lemma GroupThenRest(bs: seq<byte>)
    requires |bs| >= 3
    requires FromSextets(Sextets(bs[3..])) == Some(bs[3..])
    ensures FromSextets(Sextets(bs)) == Some([bs[0], bs[1], bs[2]] + bs[3..])
  {
    SextetsSplit(bs);
    GroupDecodes(GroupSextets(bs[0], bs[1], bs[2]), Sextets(bs[3..]), bs[0], bs[1], bs[2], bs[3..]);
  }

  lemma SextetsSplit(bs: seq<byte>)
    requires |bs| >= 3
    ensures Sextets(bs) == GroupSextets(bs[0], bs[1], bs[2]) + Sextets(bs[3..])
  {
  }

  /** A group standing for three bytes, in front of sextets standing for
      the rest, stands for the three bytes and then the rest. */
  lemma GroupDecodes(g: seq<int>, rest: seq<int>, b0: byte, b1: byte, b2: byte, tail: seq<byte>)
    requires |g| == 4 && AllSextets(g) && AllSextets(rest) && AllSextets(g + rest)
    requires Byte0(g[0], g[1]) == b0 && Byte1(g[1], g[2]) == b1 && Byte2(g[2], g[3]) == b2
    requires FromSextets(rest) == Some(tail)
    ensures FromSextets(g + rest) == Some([b0, b1, b2] + tail)
  {
    FromSextetsGroup(g, rest);
  }

  /** Decoding reads one group of four sextets, then the rest. */
  lemma FromSextetsGroup(g: seq<int>, rest: seq<int>)
    requires |g| == 4 && AllSextets(g) && AllSextets(rest) && AllSextets(g + rest)
    ensures FromSextets(g + rest) == match FromSextets(rest)
                                     case None => None
                                     case Some(r) => Some([Byte0(g[0], g[1]), Byte1(g[1], g[2]), Byte2(g[2], g[3])] + r)
  {
    var vs := g + rest;
    assert vs[4..] == rest;
    assert vs[0] == g[0] && vs[1] == g[1] && vs[2] == g[2] && vs[3] == g[3];
  }

  lemma Base64UrlRoundTrip(bs: seq<byte>)
    ensures Base64UrlDecode(Base64Url(bs)) == Some(bs)
  {
    CharsRoundTrip(Sextets(bs));
    SextetsRoundTrip(bs);
  }

  // ---------------------------------------------------------------------------
  // API keys
  // ---------------------------------------------------------------------------

  const ApiKeyPrefix: string := "twth_"

  /** `GenerateApiKey`: "twth_" + unpadded base64url of 16 random bytes,
      27 characters in all. */
  function GenerateApiKey(read: Result<seq<byte>, string>): (r: Result<string, string>)
    requires read.Ok? ==> |read.value| == 16
    ensures read.Err? ==> r == Err(read.error)
    ensures read.Ok? ==> r.Ok? && |r.value| == 27 && r.value[..5] == ApiKeyPrefix
                         && Base64UrlDecode(r.value[5..]) == Some(read.value)
  {
    match read
    case Err(e) => Err(e)
    case Ok(b) =>
      var key := ApiKeyPrefix + Base64Url(b);
      assert key[5..] == Base64Url(b);
      Base64UrlRoundTrip(b);
      Ok(key)
  }

  const MaxKeyAttempts: nat := 5
  const UniqueKeyError: string := "could not generate unique API key"

  /** The outcome of attempts `i` .. 4 of `GenerateUniqueApiKey`: attempt
      `i` generates a key, asks whether it is taken, and returns it if not;
      any error ends the search. */
  function UniqueKeyFrom(generate: nat -> Result<string, string>,
                         taken: string -> Result<bool, string>, i: nat): Result<string, string>
    decreases MaxKeyAttempts - i
  {
    if i >= MaxKeyAttempts then Err(UniqueKeyError)
    else match generate(i)
      case Err(e) => Err(e)
      case Ok(key) =>
        match taken(key)
        case Err(e) => Err(e)
        case Ok(true) => UniqueKeyFrom(generate, taken, i + 1)
        case Ok(false) => Ok(key)
  }

  /** Attempt `i` found its key taken. */
  predicate Collided(generate: nat -> Result<string, string>,
                     taken: string -> Result<bool, string>, i: nat) {
    generate(i).Ok? && taken(generate(i).value) == Ok(true)
  }

  /** `GenerateUniqueApiKey`, with `generate(i)` the i-th `GenerateApiKey`
      call and `taken` the existence query: at most five attempts; a key is
      returned only if the query said it is free. */
  method GenerateUniqueApiKey(generate: nat -> Result<string, string>,
                              taken: string -> Result<bool, string>)
    returns (r: Result<string, string>)
    ensures r == UniqueKeyFrom(generate, taken, 0)
    ensures r.Ok? ==> taken(r.value) == Ok(false)
                      && exists i :: 0 <= i < MaxKeyAttempts && generate(i) == Ok(r.value)
    ensures (forall i :: 0 <= i < MaxKeyAttempts ==> Collided(generate, taken, i))
            ==> r == Err(UniqueKeyError)
  {
    var i: nat := 0;
    while i < MaxKeyAttempts
      invariant i <= MaxKeyAttempts
      invariant forall j :: 0 <= j < i ==> Collided(generate, taken, j)
      invariant UniqueKeyFrom(generate, taken, 0) == UniqueKeyFrom(generate, taken, i)
    {
      var key := generate(i);
      if key.Err? {
        assert !Collided(generate, taken, i);
        return Err(key.error);
      }
      var exists_ := taken(key.value);
      if exists_.Err? {
        assert !Collided(generate, taken, i);
        return Err(exists_.error);
      }
      if !exists_.value {
        assert !Collided(generate, taken, i);
        return Ok(key.value);
      }
      i := i + 1;
    }
    return Err(UniqueKeyError);
  }
}

=== FILE: misc.dfy ===
/** Pure helpers from internal/utils/misc.go: nullable strings, rounding and
    delta formatting, issue numbering, relative times, period labels and
    the scheduling rules. "Now" is always an explicit parameter. */
module Misc {
  import opened Wrappers
  import opened Text
  import opened Calendar

  // ---------------------------------------------------------------------------
  // Nullable strings
  // ---------------------------------------------------------------------------

  /** `PtrOrNil`: the empty string becomes nil. */
  function PtrOrNil(s: string): (p: Option<string>)
    ensures p.None? <==> s == ""
    ensures p.Some? ==> p.value == s
  {
    if s == "" then None else Some(s)
  }

  /** `PtrToString`: nil becomes the empty string. */
  function PtrToString(p: Option<string>): (s: string)
    ensures p.None? ==> s == ""
    ensures p.Some? ==> s == p.value
  {
    match p
    case None => ""
    case Some(v) => v
  }

  /** The two conversions are inverse, except that a pointer to "" comes
      back as nil. */
  lemma PtrRoundTrip(s: string, p: Option<string>)
    ensures PtrToString(PtrOrNil(s)) == s
    ensures PtrOrNil(PtrToString(p)) == (if p == Some("") then None else p)
  {
  }

  // ---------------------------------------------------------------------------
  // Rounding and deltas
  // ---------------------------------------------------------------------------

  function Abs(i: int): nat {
    if i < 0 then -i else i
  }

  /** `RoundFloat`: `math.Round`, which rounds half away from zero, then
      conversion to int (overflow is not modelled). */
  function RoundFloat(v: real): (r: int)
    ensures -0.5 <= (r as real) - v <= 0.5
    ensures (r as real) - v == 0.5 ==> v >= 0.0
    ensures v - (r as real) == 0.5 ==> v < 0.0
  {
    if v >= 0.0 then (v + 0.5).Floor else -((0.5 - v).Floor)
  }

  /** Rounding is symmetric about zero. */
  lemma RoundFloatOdd(v: real)
    ensures RoundFloat(-v) == -RoundFloat(v)
  {
    if v != 0.0 {
      assert v > 0.0 ==> RoundFloat(-v) == -((0.5 + v).Floor);
    }
  }

  /** `FormatDelta`: "-" for exactly zero; otherwise `%+.0f` of the rounded
      value. A negative value that rounds to zero keeps its sign ("-0"), a
      small positive one gives "+0". */
  function FormatDelta(v: real): (r: string)
    ensures r == "-" <==> v == 0.0
    ensures v != 0.0 ==>
              && |r| >= 2
              && (r[0] == '+' <==> v > 0.0)
              && (r[0] == '-' <==> v < 0.0)
              && (forall i :: 1 <= i < |r| ==> IsDigit(r[i]))
              && DigitsValue(r[1..]) == Abs(RoundFloat(v))
  {
    if v == 0.0 then "-"
    else
      var digits := NatToString(Abs(RoundFloat(v)));
      var r := (if v > 0.0 then "+" else "-") + digits;
      assert r[1..] == digits;
      r
  }

  // ---------------------------------------------------------------------------
  // Issue numbering
  // ---------------------------------------------------------------------------

  const ParagraphBreak: string := "\n\n"
  const IssueBreak: string := "\n\n\n"

  /** Paragraph `i` (from 0) as printed: "<i+1>. <trimmed paragraph>". */
  function NumberParagraph(i: nat, p: string): string {
    NatToString(i + 1) + ". " + TrimSpace(p)
  }

  function NumberParagraphs(ps: seq<string>): (r: seq<string>)
    ensures |r| == |ps|
    ensures forall i :: 0 <= i < |ps| ==> r[i] == NumberParagraph(i, ps[i])
  {
    seq(|ps|, i requires 0 <= i < |ps| => NumberParagraph(i, ps[i]))
  }

  /** `FormatIssues`: split on blank lines, number and trim each paragraph,
      join with two blank lines. */
  function FormatIssues(input: string): string {
    Join(NumberParagraphs(Split(input, ParagraphBreak)), IssueBreak)
  }

  /** Splitting the formatted text on two blank lines gives back one numbered
      item per input paragraph, in order: the paragraph count is kept and
      item i is "i+1. " followed by the trimmed paragraph i. */
  lemma FormatIssuesParagraphs(input: string)
    ensures var ps := Split(input, ParagraphBreak);
            && Split(FormatIssues(input), IssueBreak) == NumberParagraphs(ps)
            && |Split(FormatIssues(input), IssueBreak)| == |ps|
  {
    var ps := Split(input, ParagraphBreak);
    var items := NumberParagraphs(ps);
    forall k | 0 <= k < |items|
      ensures NoOccurrence(items[k] + IssueBreak[..|IssueBreak| - 1], IssueBreak)
    {
      assert IssueBreak[..|IssueBreak| - 1] == ParagraphBreak;
      NumberedItemSafe(k, ps[k]);
    }
    SplitJoin(items, IssueBreak);
  }

  /** A numbered paragraph followed by a blank line never contains two blank
      lines: the number and ". " hold no newline, the paragraph holds no
      blank line, and it does not end in a newline once trimmed. */
  lemma NumberedItemSafe(i: nat, p: string)
    requires NoOccurrence(p, ParagraphBreak)
    ensures NoOccurrence(NumberParagraph(i, p) + ParagraphBreak, IssueBreak)
  {
    var pre := NatToString(i + 1) + ". ";
    var t := TrimSpace(p);
    var k: nat :| TrimmedAt(t, p, k);
    NoOccurrenceSlice(p, ParagraphBreak, k, k + |t|);
    assert p[k..k + |t|] == t;
    assert forall c :: 0 <= c < |pre| ==> pre[c] != '\n' by {
      var d := NatToString(i + 1);
      assert forall c :: 0 <= c < |d| ==> IsDigit(d[c]);
    }
    NoBlankLineAfter(pre, t);
    assert NumberParagraph(i, p) + ParagraphBreak == pre + t + ParagraphBreak;
  }

  /** A slice of a string without `sep` has no `sep` either. */
  lemma NoOccurrenceSlice(s: string, sep: string, lo: nat, hi: nat)
    requires lo <= hi <= |s| && NoOccurrence(s, sep)
    ensures NoOccurrence(s[lo..hi], sep)
  {
    var t := s[lo..hi];
    forall j: nat | j <= |t| ensures !OccursAt(t, sep, j) {
      if OccursAt(t, sep, j) {
        assert forall m :: 0 <= m < |sep| ==> sep[m] == t[j + m] == s[lo + j + m];
        assert s[lo + j..lo + j + |sep|] == sep;
        assert OccursAt(s, sep, lo + j);
      }
    }
  }

  /** `pre + t + "\n\n"` has no three newlines in a row when `pre` has no
      newline, `t` no two in a row, and `t` does not end in one. */
  lemma NoBlankLineAfter(pre: string, t: string)
    requires |pre| > 0 && forall c :: 0 <= c < |pre| ==> pre[c] != '\n'
    requires NoOccurrence(t, ParagraphBreak)
    requires |t| > 0 ==> t[|t| - 1] != '\n'
    ensures NoOccurrence(pre + t + ParagraphBreak, IssueBreak)
  {
    var s := pre + t + ParagraphBreak;
    var L := |pre| + |t|;
    assert s[L - 1] != '\n' by {
      if |t| == 0 {
        assert s[L - 1] == pre[|pre| - 1];
      } else {
        assert s[L - 1] == t[|t| - 1];
      }
    }
    forall j: nat | j <= |s| ensures !OccursAt(s, IssueBreak, j) {
      if OccursAt(s, IssueBreak, j) {
        assert s[j..j + 3] == IssueBreak;
        assert s[j] == '\n' && s[j + 1] == '\n';
        if j + 1 < L {
          InnerPair(pre, t, j);
        }
      }
    }
  }

  lemma InnerPair(pre: string, t: string, j: nat)
    requires forall c :: 0 <= c < |pre| ==> pre[c] != '\n'
    requires NoOccurrence(t, ParagraphBreak)
    requires j + 1 < |pre| + |t|
    ensures var s := pre + t + ParagraphBreak; !(s[j] == '\n' && s[j + 1] == '\n')
  {
    var s := pre + t + ParagraphBreak;
    if s[j] == '\n' && s[j + 1] == '\n' {
      if j >= |pre| {
        var o := j - |pre|;
        assert t[o] == s[j] && t[o + 1] == s[j + 1];
        assert t[o..o + 2] == ParagraphBreak;
        assert OccursAt(t, ParagraphBreak, o);
      }
    }
  }

  // ---------------------------------------------------------------------------
  // Relative time
  // ---------------------------------------------------------------------------

  /** Integer division truncating toward zero, as Go's `int(x)` conversion of
      a fractional duration does. */
  function TruncDiv(a: int, b: int): (q: int)
    requires b > 0
    ensures a >= 0 ==> q * b <= a < (q + 1) * b
    ensures a < 0 ==> q <= 0
  {
    if a >= 0 then a / b else -((-a) / b)
  }

  /** The unit and count `TimeToAgo` reports for `elapsed` seconds. */
  datatype AgoUnit = Minute | Hour | Day

  function UnitSeconds(u: AgoUnit): nat {
    match u
    case Minute => 60
    case Hour => 3600
    case Day => 86400
  }

  function UnitName(u: AgoUnit): string {
    match u
    case Minute => "minute"
    case Hour => "hour"
    case Day => "day"
  }

  /** Minutes below one hour, hours below one day, days otherwise; the count
      is the number of whole units elapsed. */
  function AgoParts(elapsed: int): (r: (int, AgoUnit))
    ensures r.1 == Minute <==> elapsed < 3600
    ensures r.1 == Hour <==> 3600 <= elapsed < 86400
    ensures r.1 == Day <==> 86400 <= elapsed
    ensures elapsed >= 0 ==>
              r.0 >= 0 && r.0 * UnitSeconds(r.1) <= elapsed < (r.0 + 1) * UnitSeconds(r.1)
  {
    var minutes := TruncDiv(elapsed, 60);
    if minutes < 60 then (minutes, Minute)
    else
      var hours := TruncDiv(elapsed, 3600);
      if hours < 24 then (hours, Hour)
      else (hours / 24, Day)
  }

  /** "1 <unit>" for a count of exactly 1, "<n> <unit>s" otherwise. */
  function Plural(n: int, unit: string): (r: string)
    ensures r == IntToString(n) + " " + unit + (if n == 1 then "" else "s")
  {
    if n == 1 then "1 " + unit else IntToString(n) + " " + unit + "s"
  }

  /** `TimeToAgo` for a timestamp `elapsed` seconds in the past: the count
      and unit of `AgoParts`, singular exactly when the count is 1. */
  function TimeToAgo(elapsed: int): (r: string)
    ensures var (n, u) := AgoParts(elapsed);
            r == IntToString(n) + " " + UnitName(u) + (if n == 1 then "" else "s")
  {
    var minutes := TruncDiv(elapsed, 60);
    if minutes < 60 then Plural(minutes, "minute")
    else
      var hours := TruncDiv(elapsed, 3600);
      if hours < 24 then Plural(hours, "hour")
      else Plural(hours / 24, "day")
  }

  /** Seconds from `ts` to `now`, as `time.Since` measures it. */
  function Elapsed(now: Timestamp, ts: Timestamp): int
    requires 1 <= now.date.month <= 12 && 1 <= ts.date.month <= 12
  {
    Seconds(now) - Seconds(ts)
  }

  // ---------------------------------------------------------------------------
  // Period labels
  // ---------------------------------------------------------------------------

  /** The quarter before the one containing month `m` of year `y`, as
      (quarter 1..4, year). */
  function PreviousQuarter(y: int, m: int): (r: (int, int))
    requires 1 <= m <= 12
    ensures 1 <= r.0 <= 4
    ensures r.1 * 4 + (r.0 - 1) == y * 4 + (m - 1) / 3 - 1
  {
    var currQ := (m - 1) / 3 + 1;
    if currQ == 1 then (4, y - 1) else (currQ - 1, y)
  }

  /** `QuarterLabel`: "Q<q> <year>" of the previous quarter. */
  function QuarterLabel(today: Date): (s: string)
    requires 1 <= today.month <= 12
    ensures var (q, y) := PreviousQuarter(today.year, today.month);
            s == "Q" + NatToString(q) + " " + IntToString(y)
  {
    var (q, y) := PreviousQuarter(today.year, today.month);
    "Q" + NatToString(q) + " " + IntToString(y)
  }

  /** From January it names Q4 of the year before. */
  lemma QuarterLabelJanuary(y: int, d: int)
    ensures QuarterLabel(Date(y, 1, d)) == "Q4 " + IntToString(y - 1)
  {
  }

  /** The previous month's (year, month). */
  function PrevMonth(y: int, m: int): (r: (int, int))
    requires 1 <= m <= 12
    ensures 1 <= r.1 <= 12
    ensures r.0 * 12 + (r.1 - 1) == y * 12 + (m - 1) - 1
  {
    if m == 1 then (y - 1, 12) else (y, m - 1)
  }

  /** `AddDate(0, -1, 0)`: the same day one month earlier, normalised; a day
      past the end of the earlier month overflows back into `d`'s month. */
  function MonthBack(d: Date): (r: Date)
    requires ValidDate(d)
    ensures ValidDate(r)
    ensures var (py, pm) := PrevMonth(d.year, d.month);
            DayNumber(r) == DayNumber(Date(py, pm, 1)) + d.day - 1
    ensures d.day <= 28 ==> MonthIndex(r) == MonthIndex(d) - 1 && r.day == d.day
  {
    var (py, pm) := PrevMonth(d.year, d.month);
    var dim := DaysInMonth(py, pm);
    if d.day <= dim then Date(py, pm, d.day)
    else
      MonthStart(d.year, d.month);
      Date(d.year, d.month, d.day - dim)
  }

  /** The first of a month follows the first of the previous month by that
      month's length. */
  lemma MonthStart(y: int, m: int)
    requires 1 <= m <= 12
    ensures var (py, pm) := PrevMonth(y, m);
            DayNumber(Date(y, m, 1)) == DayNumber(Date(py, pm, 1)) + DaysInMonth(py, pm)
  {
    if m == 1 {
      YearStart(y - 1);
    }
  }

  /** `MonthLabel`: "<Month> <year>" of `MonthBack(today)`. On days 1-28 it
      names the previous month; on the 29th-31st it can name the current one. */
  function MonthLabel(today: Date): (s: string)
    requires ValidDate(today)
    ensures today.day <= 28 ==>
              var (py, pm) := PrevMonth(today.year, today.month);
              s == MonthName(pm) + " " + IntToString(py)
  {
    var r := MonthBack(today);
    MonthName(r.month) + " " + IntToString(r.year)
  }

  // ---------------------------------------------------------------------------
  // Scheduling rules
  // ---------------------------------------------------------------------------

  /** `IsMonday`. */
  predicate IsMonday(today: Date)
    requires 1 <= today.month <= 12
  {
    Weekday(today) == Monday
  }

  /** `IsFirstWeekdayOfMonth`: today is the first day of its month that is
      not a Saturday or Sunday. */
  function IsFirstWeekdayOfMonth(today: Date): (b: bool)
    requires 1 <= today.month <= 12
    ensures b <==> 1 <= today.day && !IsWeekend(today)
                   && forall k :: 1 <= k < today.day ==> IsWeekend(Date(today.year, today.month, k))
  {
    var f := FirstWeekdayDay(today.year, today.month);
    if today.day < 1 then false
    else if today.day < f then false
    else if today.day > f then
      assert !IsWeekend(Date(today.year, today.month, f));
      false
    else true
  }

  /** `IsSecondWeekdayOfQuarter`: today is in January, April, July or
      October and is the second non-weekend day of its month. */
  function IsSecondWeekdayOfQuarter(today: Date): (b: bool)
    requires 1 <= today.month <= 12
    ensures b ==> today.month in {1, 4, 7, 10}
    ensures today.month in {1, 4, 7, 10} ==>
              (b <==> today.day > FirstWeekdayDay(today.year, today.month) && !IsWeekend(today)
                      && forall k :: FirstWeekdayDay(today.year, today.month) < k < today.day ==>
                                       IsWeekend(Date(today.year, today.month, k)))
  {
    var s := SecondWeekdayDay(today.year, today.month);
    if !(today.month in {1, 4, 7, 10}) then false
    else if today.day <= FirstWeekdayDay(today.year, today.month) then false
    else if today.day < s then false
    else if today.day > s then
      assert !IsWeekend(Date(today.year, today.month, s));
      false
    else true
  }

  // ---------------------------------------------------------------------------
  // Stats lines
  // ---------------------------------------------------------------------------

  /** The glyphs in front of the three stats as utils/misc.go holds them:
      there the thumbs-up, waving-hand and speech-balloon emoji are stored
      as their UTF-8 bytes read as Windows-1252 (the thumbs-up losing its
      undefined last byte), so these characters are what the lines show. */
  const ThumbGlyph: string := "\U{00F0}\U{0178}\U{2018}"
  const WaveGlyph: string := "\U{00F0}\U{0178}\U{2018}\U{2039}"
  const SpeechGlyph: string := "\U{00F0}\U{0178}\U{2019}\U{00AC}"

  /** The score, responses and comments with their deltas, `sep` between
      the three. */
  function StatsFields(score: int, scoreDelta: string, nResponses: int, nResponsesDelta: string,
                       nComments: int, nCommentsDelta: string, sep: string): string {
    ThumbGlyph + "   " + IntToString(score) + "% (" + scoreDelta + "%)" + sep
    + WaveGlyph + "   " + IntToString(nResponses) + " (" + nResponsesDelta + "%)" + sep
    + SpeechGlyph + "   " + IntToString(nComments) + " (" + nCommentsDelta + "%)"
  }

  /** `FormatDigestStats`: the prompt in italics, two blank lines, then the
      stats on one line. */
  function FormatDigestStats(prompt: string, score: int, scoreDelta: string, nResponses: int,
                             nResponsesDelta: string, nComments: int, nCommentsDelta: string): string {
    "_" + prompt + "_\n\n\n" + StatsFields(score, scoreDelta, nResponses, nResponsesDelta, nComments, nCommentsDelta, "    ")
  }

  /** `FormatModalStats`: like the digest line, but one stat per paragraph,
      preceded by the category in bold when `printCategory` is set. */
  function FormatModalStats(category: string, prompt: string, score: int, scoreDelta: string, nResponses: int,
                            nResponsesDelta: string, nComments: int, nCommentsDelta: string,
                            printCategory: bool): string {
    (if printCategory then "*" + category + "*\n\n\n" else "")
    + "_" + prompt + "_\n\n\n" + StatsFields(score, scoreDelta, nResponses, nResponsesDelta, nComments, nCommentsDelta, "\n\n")
  }
}

=== FILE: modal_interactions.dfy ===
/** The modal handlers: opening or pushing the comments, top-issues and
    stats modals, and the answers to a submitted modal: the contact-support
    form, which sends an email, and the delete-prompt confirmation, which
    deletes a prompt with its feedback. Email delivery, the deletion and the
    bot-token lookup are oracles; the follow-up views the submissions
    update to are named, not rendered. */
module ModalInteractions {
  import opened Wrappers
  import opened Seqs
  import opened Payload
  import opened Calendar
  import opened Blocks
  import opened Models
  import opened Misc
  import opened ModalTemplates
  import opened Interactions

  // ---------------------------------------------------------------------------
  // Opening and pushing modals
  // ---------------------------------------------------------------------------

  /** A modal on its way to Slack: pushed on top of an open modal when the
      action came from one, opened fresh otherwise. */
  datatype Shown = Shown(modal: Modal, pushed: bool)

  const LatestCommentsTitle: string := "Latest Comments  \U{1F4AC}"

  /** `handleComments`: the latest comments or the query's error. */
  function LatestComments(nComments: int, results: Result<seq<ExploreCommentsResult>, string>, now: Instant,
                          inModal: bool): (r: Result<Shown, string>)
    ensures results.Err? <==> r.Err?
    ensures r.Err? ==> r.error == results.error
    ensures r.Ok? ==> r.value.pushed == inModal && r.value.modal.title == LatestCommentsTitle
    ensures r.Ok? && |results.value| > 0 ==> |r.value.modal.blocks| >= 2
    ensures r.Ok? && |results.value| > 0 ==>
              var items := r.value.modal.blocks[2..];
              Pick(items, SectionTextOf) == MapSeq(results.value, CommentText)
  {
    match results
    case Err(e) => Err(e)
    case Ok(rs) =>
      var m := ExploreCommentsModal(LatestCommentsTitle, nComments, rs, now);
      assert |rs| > 0 ==> Pick(m.blocks[2..], SectionTextOf) == MapSeq(rs, CommentText) by {
        if |rs| > 0 {
          CommentsListed(LatestCommentsTitle, nComments, rs, now);
        }
      }
      Ok(Shown(m, inModal))
  }

  /** `handleTopIssues`: one item per report, or the query's error. */
  function TopIssues(issues: Result<seq<IssueReport>, string>, inModal: bool): (r: Result<Shown, string>)
    ensures issues.Err? <==> r.Err?
    ensures r.Err? ==> r.error == issues.error
    ensures r.Ok? ==> r.value.pushed == inModal && r.value.modal.title == TopIssuesTitle
    ensures r.Ok? && |issues.value| > 0 ==> |r.value.modal.blocks| >= 2
    ensures r.Ok? && |issues.value| > 0 ==>
              Pick(r.value.modal.blocks[2..], HeaderOf) == MapSeq(issues.value, IssueOrigin)
  {
    match issues
    case Err(e) => Err(e)
    case Ok(reports) =>
      var m := TopIssuesModal(reports);
      assert |reports| > 0 ==> Pick(m.blocks[2..], HeaderOf) == MapSeq(reports, IssueOrigin) by {
        if |reports| > 0 {
          IssuesListed(reports);
        }
      }
      Ok(Shown(m, inModal))
  }

  /** `handleStats` with the push-or-open choice. */
  function PeriodStats(period: StatsPeriod, groups: Result<seq<FeedbackGroup>, string>,
                       fetch: FeedbackGroup -> Result<Option<FeedbackStats>, string>, inModal: bool)
    : (r: Result<Shown, string>)
    ensures groups.Err? <==> r.Err?
    ensures r.Ok? ==> r.value.pushed == inModal && r.value.modal.title == StatsTitle(period)
    ensures r.Err? ==> r.error == groups.error
    ensures r.Ok? && |groups.value| == 0 ==> r.value.modal.blocks == Placeholder("No stats to display")
  {
    match PeriodStatsModal(period, groups, fetch)
    case Err(e) => Err(e)
    case Ok(m) => Ok(Shown(m, inModal))
  }

  // ---------------------------------------------------------------------------
  // Submitted values
  // ---------------------------------------------------------------------------

  /** `action["value"].(string)`. */
  function ValueOf(action: Json): Option<string> {
    StringMember(action, "value")
  }

  /** The loop of `extractModalSubmissionData` over the state entries: each
      entry with a string value stores it under its action id. */
  function CollectValues(entries: seq<(string, Json)>): map<string, string>
    decreases |entries|
  {
    if |entries| == 0 then map[]
    else
      var m := CollectValues(entries[..|entries| - 1]);
      var e := entries[|entries| - 1];
      if ValueOf(e.1).Some? then m[e.0 := ValueOf(e.1).value] else m
  }

  /** `extractModalSubmissionData`. */
  function SubmissionData(payload: Json): map<string, string> {
    CollectValues(ViewStateEntries(payload))
  }

  /** An action id has a value exactly when some entry of it carried a
      string value, and the value is the last one carried. */
  lemma {:induction false} CollectValuesIsLastValue(entries: seq<(string, Json)>, id: string)
    ensures id in CollectValues(entries) <==> LastValue(entries, id, ValueOf).Some?
    ensures id in CollectValues(entries) ==> CollectValues(entries)[id] == LastValue(entries, id, ValueOf).value
    decreases |entries|
  {
    if |entries| > 0 {
      var init := entries[..|entries| - 1];
      CollectValuesIsLastValue(init, id);
      var e := entries[|entries| - 1];
      if !(e.0 == id && ValueOf(e.1).Some?) {
        assert LastValue(entries, id, ValueOf) == LastValue(init, id, ValueOf);
      }
    }
  }

  /** The submitted values, read the same way from the view's state. */
  lemma SubmissionDataIsLastValue(payload: Json, id: string)
    ensures id in SubmissionData(payload) <==> LastValue(ViewStateEntries(payload), id, ValueOf).Some?
    ensures id in SubmissionData(payload) ==>
              SubmissionData(payload)[id] == LastValue(ViewStateEntries(payload), id, ValueOf).value
  {
    CollectValuesIsLastValue(ViewStateEntries(payload), id);
  }

  /** When no action id repeats, the order in which the Go map of the view
      state is visited does not change the submitted values. */
  lemma SubmittedValuesOrderFree(e1: seq<(string, Json)>, e2: seq<(string, Json)>)
    requires DistinctIds(e1) && DistinctIds(e2)
    requires forall x :: x in e1 <==> x in e2
    ensures CollectValues(e1) == CollectValues(e2)
  {
    forall id ensures (id in CollectValues(e1) <==> id in CollectValues(e2))
                      && (id in CollectValues(e1) ==> CollectValues(e1)[id] == CollectValues(e2)[id])
    {
      CollectValuesIsLastValue(e1, id);
      CollectValuesIsLastValue(e2, id);
      LastValueOrderFree(e1, e2, id, ValueOf);
    }
  }

  /** Without a view there is nothing to collect. */
  lemma NoViewNoData(payload: Json)
    requires ObjectMember(payload, "view").None?
    ensures SubmissionData(payload) == map[]
  {
    assert ViewStateEntries(payload) == [];
  }

  /** `fields[key]`: "" for a key that was not submitted. */
  function Field(data: map<string, string>, key: string): (r: string)
    ensures key !in data ==> r == ""
  {
    if key in data then data[key] else ""
  }

  // ---------------------------------------------------------------------------
  // Submissions
  // ---------------------------------------------------------------------------

  /** The views a submission updates the modal to. The support and delete
      templates are fixed texts; only the error view names the address to
      write to. */
  datatype Screen =
    | ReportError(smtpFrom: string)
    | ReportSent
    | SupportSent
    | DeleteError
    | DeleteNoYes
    | DeleteSuccess

  /** What the submission endpoint answers. */
  datatype Response =
    | Rejected(reply: Reply)
    | ClearModal            // 200 {"response_action": "clear"}
    | UpdateModal(screen: Screen)   // 200 {"response_action": "update", "view": …}

  /** The email the support form sends: an issue report or a support
      request, built from the workspace and the message. */
  datatype SupportEmail = SupportEmail(isIssue: bool, workspace: string, message: string, to: string)

  /** Sends an email from the configured sender; the error when it fails. */
  type EmailSender = SupportEmail -> Option<string>

  /** Deletes a prompt and its feedback; the error when it fails. */
  type PromptDeleter = string -> Option<string>

  /** The outcome of a submission: the answer, the email attempted and the
      prompt whose deletion was attempted. */
  datatype Submission = Submission(response: Response, email: Option<SupportEmail>, deleted: Option<string>)

  /** The email `handleContactSupportSubmission` composes. */
  function SupportEmailOf(payload: Json): (e: SupportEmail)
    ensures e.isIssue <==> Field(SubmissionData(payload), "issue-text") != ""
  {
    var fields := SubmissionData(payload);
    SupportEmail(Field(fields, "issue-text") != "", Field(fields, "workspace"), Field(fields, "message-text"),
                 Field(fields, "email-address"))
  }

  /** `handleContactSupportSubmission`: the email is always attempted; a
      failure shows the error view with the sender address, a success the
      view matching the kind of email. */
  function ContactSupport(payload: Json, smtpFrom: string, send: EmailSender): (r: Submission)
    ensures r.email == Some(SupportEmailOf(payload)) && r.deleted.None?
    ensures r.response.UpdateModal?
    ensures r.response.screen == ReportError(smtpFrom) <==> send(SupportEmailOf(payload)).Some?
    ensures send(SupportEmailOf(payload)).None? ==>
              (r.response.screen == ReportSent <==> Field(SubmissionData(payload), "issue-text") != "")
    ensures send(SupportEmailOf(payload)).None? ==>
              (r.response.screen == SupportSent <==> Field(SubmissionData(payload), "issue-text") == "")
  {
    var email := SupportEmailOf(payload);
    var screen := if send(email).Some? then ReportError(smtpFrom)
                  else if email.isIssue then ReportSent else SupportSent;
    Submission(UpdateModal(screen), Some(email), None)
  }

  /** `view["private_metadata"].(string)`: the id of the prompt to delete,
      when present and non-empty. */
  function PromptIdOf(payload: Json): (r: Option<string>)
    ensures r.Some? ==> r.value != ""
    ensures r.None? <==> StringMember(ObjectOrEmpty(payload, "view"), "private_metadata") in {None, Some("")}
    ensures r.Some? ==> StringMember(ObjectOrEmpty(payload, "view"), "private_metadata") == r
  {
    match StringMember(ObjectOrEmpty(payload, "view"), "private_metadata")
    case Some(id) => if id == "" then None else Some(id)
    case None => None
  }

  /** The word the confirmation field must hold. */
  const ConfirmWord: string := "YES"

  /** `handleDeletePromptSubmission`: context, then prompt id, then the
      confirmation word, then the deletion itself. */
  function DeletePrompt(payload: Json, botToken: string -> Result<string, string>, delete: PromptDeleter)
    : (r: Submission)
    ensures r.email.None? && r.response.UpdateModal?
    ensures r.deleted.Some? ==> Some(r.deleted.value) == PromptIdOf(payload)
  {
    if ExtractInteractionContext(payload, botToken).Err? then Submission(UpdateModal(DeleteError), None, None)
    else if PromptIdOf(payload).None? then Submission(UpdateModal(DeleteError), None, None)
    else if Field(SubmissionData(payload), "delete-confirm") != ConfirmWord then Submission(UpdateModal(DeleteNoYes), None, None)
    else
      var id := PromptIdOf(payload).value;
      Submission(UpdateModal(if delete(id).Some? then DeleteError else DeleteSuccess), None, Some(id))
  }

  /** All the checks of the delete confirmation pass. */
  predicate DeleteConfirmed(payload: Json, botToken: string -> Result<string, string>) {
    && ExtractInteractionContext(payload, botToken).Ok?
    && PromptIdOf(payload).Some?
    && Field(SubmissionData(payload), "delete-confirm") == ConfirmWord
  }

  /** A prompt is deleted only after a valid context, a prompt id and the
      exact word "YES"; the success view shows exactly when the deletion
      went through, the "type YES" view exactly when only the word was
      wrong, and the error view in every other case. */
  lemma DeleteDecision(payload: Json, botToken: string -> Result<string, string>, delete: PromptDeleter)
    ensures var r := DeletePrompt(payload, botToken, delete);
            && (r.deleted.Some? <==> DeleteConfirmed(payload, botToken))
            && (r.response.screen == DeleteSuccess <==> DeleteConfirmed(payload, botToken) && delete(PromptIdOf(payload).value).None?)
            && (r.response.screen == DeleteNoYes <==>
                  ExtractInteractionContext(payload, botToken).Ok? && PromptIdOf(payload).Some?
                  && Field(SubmissionData(payload), "delete-confirm") != ConfirmWord)
            && (r.response.screen == DeleteError <==>
                  (ExtractInteractionContext(payload, botToken).Err? || PromptIdOf(payload).None?)
                  || (DeleteConfirmed(payload, botToken) && delete(PromptIdOf(payload).value).Some?))
  {
  }

  /** A confirmation other than exactly "YES" (a lower-case "yes", a padded
      " YES") never deletes. */
  lemma OnlyExactWordDeletes(payload: Json, botToken: string -> Result<string, string>, delete: PromptDeleter)
    requires Field(SubmissionData(payload), "delete-confirm") != "YES"
    ensures DeletePrompt(payload, botToken, delete).deleted.None?
  {
  }

  const MissingView: Reply := Reply(400, "error", "missing view in payload")

  /** `HandleModalSubmission`: a payload without a view object is rejected;
      the view's callback id (missing reads as "") picks the form. */
  function HandleModalSubmission(payload: Json, smtpFrom: string, send: EmailSender,
                                 botToken: string -> Result<string, string>, delete: PromptDeleter)
    : (r: Submission)
  {
    match ObjectMember(payload, "view")
    case None => Submission(Rejected(MissingView), None, None)
    case Some(view) =>
      var callbackId := StringMember(view, "callback_id").GetOr("");
      if callbackId == "contact-support" then ContactSupport(payload, smtpFrom, send)
      else if callbackId == "delete-prompt" then DeletePrompt(payload, botToken, delete)
      else Submission(ClearModal, None, None)
  }

  /** The callback id of a submitted view, "" when missing or ill-typed. */
  function CallbackId(payload: Json): string {
    StringMember(ObjectOrEmpty(payload, "view"), "callback_id").GetOr("")
  }

  /** Rejection exactly without a view; with one, an email is attempted
      exactly for the support form and a deletion only for the delete form,
      and any other form (the report modal has no callback id) is cleared
      without effects. */
  lemma SubmissionDispatch(payload: Json, smtpFrom: string, send: EmailSender,
                           botToken: string -> Result<string, string>, delete: PromptDeleter)
    ensures var r := HandleModalSubmission(payload, smtpFrom, send, botToken, delete);
            var hasView := ObjectMember(payload, "view").Some?;
            && (r.response.Rejected? <==> !hasView)
            && (r.response.Rejected? ==> r.response.reply.status == 400)
            && (r.email.Some? <==> hasView && CallbackId(payload) == "contact-support")
            && (r.deleted.Some? ==> hasView && CallbackId(payload) == "delete-prompt" && DeleteConfirmed(payload, botToken))
            && (r.response.ClearModal? <==>
                  hasView && CallbackId(payload) != "contact-support" && CallbackId(payload) != "delete-prompt")
  {
    if ObjectMember(payload, "view").Some? {
      assert ObjectOrEmpty(payload, "view") == ObjectMember(payload, "view").value;
      if CallbackId(payload) == "delete-prompt" {
        DeleteDecision(payload, botToken, delete);
      }
    }
  }
}

=== FILE: modal_templates.dfy ===
/** The modals opened from the Explore views: latest comments, top issues,
    stats, and the test-data listing. Each shows three placeholder blocks
    when there is nothing to list; lists of items put dividers between
    neighbours only. Relative times are measured against the parameter
    `now`, which stands for the clock. */
module ModalTemplates {
  import opened Wrappers
  import opened Seqs
  import opened Text
  import opened Calendar
  import opened Blocks
  import opened Models
  import opened Misc
  import opened Csv
  import opened Sorting
  import opened DigestTemplates

  const CloseLabel: string := "Close"

  predicate IsDivider(b: Block) {
    b.Divider?
  }

  /** The text of a markdown section: what a reader takes for an item's
      body. Spacers are plain sections and are not read. */
  function SectionTextOf(b: Block): Option<string> {
    if b.Section? && b.body.Markdown? then Some(b.body.text) else None
  }

  lemma {:induction false} NoDividerIn(bs: seq<Block>)
    requires forall i :: 0 <= i < |bs| ==> !bs[i].Divider?
    ensures CountIf(bs, IsDivider) == 0
    decreases |bs|
  {
    if |bs| > 0 {
      assert forall i :: 0 <= i < |bs[1..]| ==> bs[1..][i] == bs[i + 1];
      NoDividerIn(bs[1..]);
    }
  }

  lemma DividerReadsNothing()
    ensures CountIf([Divider], IsDivider) == 1
    ensures Pick([Divider], HeaderOf) == [] && Pick([Divider], SectionTextOf) == []
  {
    assert [Divider][1..] == [];
    PickSingle(Divider, HeaderOf);
    PickSingle(Divider, SectionTextOf);
  }

  // ---------------------------------------------------------------------------
  // Latest comments
  // ---------------------------------------------------------------------------

  function CommentText(r: ExploreCommentsResult): string {
    "*" + r.origin + " / " + r.category + "*\n\n_" + r.prompt + "_\n\n> " + r.comment
  }

  /** One comment: its text, how long ago it was given, a spacer. */
  function CommentItem(r: ExploreCommentsResult, now: Instant): (bs: seq<Block>)
    ensures |bs| == 3
  {
    [Section(Markdown(CommentText(r))), Context([Plain(TimeToAgo(Elapsed(now, r.timestamp)) + " ago")]), Spacer]
  }

  function CommentsNote(nComments: int): string {
    "_Kindly note: Only the " + IntToString(nComments) + " most recent comments are shown._"
  }

  /** `ExploreCommentsModal`; `nComments` is the configured number of
      comments a query returns. */
  function ExploreCommentsModal(title: string, nComments: int, results: seq<ExploreCommentsResult>, now: Instant): (m: Modal)
    ensures m.title == title && m.close == CloseLabel
    ensures |results| == 0 ==> m.blocks == Placeholder("No comments to display")
    ensures |results| > 0 ==> |m.blocks| >= 2 && m.blocks[..2] == [Context([Markdown(CommentsNote(nComments))]), Spacer]
  {
    var blocks :=
      if |results| == 0 then Placeholder("No comments to display")
      else [Context([Markdown(CommentsNote(nComments))]), Spacer]
           + Separated(results, (r: ExploreCommentsResult) => CommentItem(r, now), [Divider]);
    Modal(title, CloseLabel, blocks)
  }

  /** A markdown section, a context line and a spacer read as the section. */
  lemma TextContextSpacer(t: string, c: Block)
    requires c.Context?
    ensures CountIf([Section(Markdown(t)), c, Spacer], IsDivider) == 0
    ensures Pick([Section(Markdown(t)), c, Spacer], SectionTextOf) == [t]
  {
    NoDividerIn([Section(Markdown(t)), c, Spacer]);
    PickThree(Section(Markdown(t)), c, Spacer, SectionTextOf);
  }

  lemma CommentItemRead(r: ExploreCommentsResult, now: Instant)
    ensures CountIf(CommentItem(r, now), IsDivider) == 0
    ensures Pick(CommentItem(r, now), SectionTextOf) == [CommentText(r)]
  {
    TextContextSpacer(CommentText(r), Context([Plain(TimeToAgo(Elapsed(now, r.timestamp)) + " ago")]));
  }

  /** The comment list: three blocks per comment and a divider between each
      two; reading the sections gives every comment in order. */
  lemma CommentsListed(title: string, nComments: int, results: seq<ExploreCommentsResult>, now: Instant)
    requires |results| > 0
    ensures var items := ExploreCommentsModal(title, nComments, results, now).blocks[2..];
            |items| == 4 * |results| - 1
            && CountIf(items, IsDivider) == |results| - 1
            && Pick(items, SectionTextOf) == MapSeq(results, CommentText)
  {
    var item := (r: ExploreCommentsResult) => CommentItem(r, now);
    var items := Separated(results, item, [Divider]);
    assert ExploreCommentsModal(title, nComments, results, now).blocks[2..] == items;
    forall r ensures CountIf(item(r), IsDivider) == 0 && Pick(item(r), SectionTextOf) == [CommentText(r)] {
      CommentItemRead(r, now);
    }
    DividerReadsNothing();
    SeparatedLength(results, item, [Divider], 3);
    SeparatedCount(results, item, [Divider], IsDivider, 0, 1);
    SeparatedPick(results, item, [Divider], SectionTextOf, CommentText);
  }

  // ---------------------------------------------------------------------------
  // Top issues
  // ---------------------------------------------------------------------------

  const TopIssuesTitle: string := "Top Issues \U{2757}\U{FE0F}"
  const IssuesNote: string := "_Please note: The issues are based on feedback gathered during the last 30 days._"

  /** One origin's report: its origin as header, the numbered issues. */
  function IssueItem(issue: IssueReport): (bs: seq<Block>)
    ensures |bs| == 4
  {
    [Header(issue.origin), Spacer, Section(Markdown(FormatIssues(issue.report))), Spacer]
  }

  /** `TopIssuesModal`. */
  function TopIssuesModal(issues: seq<IssueReport>): (m: Modal)
    ensures m.title == TopIssuesTitle && m.close == CloseLabel
    ensures |issues| == 0 ==> m.blocks == Placeholder("No issues to display")
    ensures |issues| > 0 ==> |m.blocks| >= 2 && m.blocks[..2] == [Context([Markdown(IssuesNote)]), Spacer]
  {
    var blocks :=
      if |issues| == 0 then Placeholder("No issues to display")
      else [Context([Markdown(IssuesNote)]), Spacer] + Separated(issues, IssueItem, [Divider]);
    Modal(TopIssuesTitle, CloseLabel, blocks)
  }

  function IssueOrigin(issue: IssueReport): string {
    issue.origin
  }

  function IssueText(issue: IssueReport): string {
    FormatIssues(issue.report)
  }

  /** A header and a markdown section, each followed by a spacer. */
  lemma HeaderAndText(h: string, t: string)
    ensures CountIf([Header(h), Spacer, Section(Markdown(t)), Spacer], IsDivider) == 0
    ensures Pick([Header(h), Spacer, Section(Markdown(t)), Spacer], HeaderOf) == [h]
    ensures Pick([Header(h), Spacer, Section(Markdown(t)), Spacer], SectionTextOf) == [t]
  {
    NoDividerIn([Header(h), Spacer, Section(Markdown(t)), Spacer]);
    PickFour(Header(h), Spacer, Section(Markdown(t)), Spacer, HeaderOf);
    PickFour(Header(h), Spacer, Section(Markdown(t)), Spacer, SectionTextOf);
  }

  lemma IssueItemRead(issue: IssueReport)
    ensures CountIf(IssueItem(issue), IsDivider) == 0
    ensures Pick(IssueItem(issue), HeaderOf) == [issue.origin]
    ensures Pick(IssueItem(issue), SectionTextOf) == [FormatIssues(issue.report)]
  {
    HeaderAndText(issue.origin, FormatIssues(issue.report));
  }

  /** The issues list: four blocks per origin and a divider between each
      two; the headers name the origins, in order, and each origin's
      section holds its numbered report. */
  lemma IssuesListed(issues: seq<IssueReport>)
    requires |issues| > 0
    ensures var items := TopIssuesModal(issues).blocks[2..];
            |items| == 5 * |issues| - 1
            && CountIf(items, IsDivider) == |issues| - 1
            && Pick(items, HeaderOf) == MapSeq(issues, IssueOrigin)
            && Pick(items, SectionTextOf) == MapSeq(issues, IssueText)
  {
    var items := Separated(issues, IssueItem, [Divider]);
    assert TopIssuesModal(issues).blocks[2..] == items;
    forall i ensures CountIf(IssueItem(i), IsDivider) == 0 && Pick(IssueItem(i), HeaderOf) == [IssueOrigin(i)]
                     && Pick(IssueItem(i), SectionTextOf) == [IssueText(i)] {
      IssueItemRead(i);
    }
    DividerReadsNothing();
    SeparatedLength(issues, IssueItem, [Divider], 4);
    SeparatedCount(issues, IssueItem, [Divider], IsDivider, 0, 1);
    SeparatedPick(issues, IssueItem, [Divider], HeaderOf, IssueOrigin);
    SeparatedPick(issues, IssueItem, [Divider], SectionTextOf, IssueText);
  }

  // ---------------------------------------------------------------------------
  // Stats
  // ---------------------------------------------------------------------------

  function StatOrigin(s: StatsData): string {
    s.origin
  }

  function StatKey(s: StatsData): seq<string> {
    [s.origin, s.category]
  }

  /** A stat's section, with or without its category line. */
  function StatText(s: StatsData, showCategory: bool): string {
    FormatModalStats(s.category, s.prompt, s.score, s.scoreDelta, s.nResponses, s.nResponsesDelta,
                     s.nComments, s.nCommentsDelta, showCategory)
  }

  /** The category the loop compares against: reset to "" by a new origin. */
  function CategoryBefore(s: StatsData, lastOrigin: string, lastCategory: string): string {
    if s.origin != lastOrigin then "" else lastCategory
  }

  /** The blocks of one stat: header, spacer and divider for a new origin,
      then its section and a spacer. */
  function StatsEntry(s: StatsData, lastOrigin: string, lastCategory: string): (bs: seq<Block>)
    ensures |bs| == 2 + (if s.origin != lastOrigin then 3 else 0)
  {
    (if s.origin != lastOrigin then [Header(s.origin), Spacer, Divider] else [])
    + [Section(Markdown(StatText(s, s.category != CategoryBefore(s, lastOrigin, lastCategory)))), Spacer]
  }

  /** The loop of `StatsModal`; after each stat the trackers hold its origin
      and category. */
  function StatsEntries(stats: seq<StatsData>, lastOrigin: string, lastCategory: string): seq<Block>
    decreases |stats|
  {
    if |stats| == 0 then []
    else StatsEntry(stats[0], lastOrigin, lastCategory) + StatsEntries(stats[1..], stats[0].origin, stats[0].category)
  }

  /** `StatsModal`. */
  function StatsModal(title: string, stats: seq<StatsData>): (m: Modal)
    ensures m.title == title && m.close == CloseLabel
    ensures |stats| == 0 ==> m.blocks == Placeholder("No stats to display")
  {
    Modal(title, CloseLabel, if |stats| == 0 then Placeholder("No stats to display") else StatsEntries(stats, "", ""))
  }

  lemma StatsEntriesUnfold(stats: seq<StatsData>, lastOrigin: string, lastCategory: string)
    requires |stats| > 0
    ensures StatsEntries(stats, lastOrigin, lastCategory)
            == StatsEntry(stats[0], lastOrigin, lastCategory) + StatsEntries(stats[1..], stats[0].origin, stats[0].category)
  {
  }

  lemma StatsEntryRead(s: StatsData, lastOrigin: string, lastCategory: string)
    ensures Pick(StatsEntry(s, lastOrigin, lastCategory), HeaderOf) == (if s.origin != lastOrigin then [s.origin] else [])
    ensures Pick(StatsEntry(s, lastOrigin, lastCategory), SectionTextOf)
            == [StatText(s, s.category != CategoryBefore(s, lastOrigin, lastCategory))]
  {
    var head: seq<Block> := if s.origin != lastOrigin then [Header(s.origin), Spacer, Divider] else [];
    var sec := Section(Markdown(StatText(s, s.category != CategoryBefore(s, lastOrigin, lastCategory))));
    PickAppend(head, [sec, Spacer], HeaderOf);
    PickAppend(head, [sec, Spacer], SectionTextOf);
    PickThree(Header(s.origin), Spacer, Divider, HeaderOf);
    PickThree(Header(s.origin), Spacer, Divider, SectionTextOf);
    PickTwo(sec, Spacer, HeaderOf);
    PickTwo(sec, Spacer, SectionTextOf);
  }

  /** One header per change of origin, the first origin compared with
      `lastOrigin`. */
  lemma {:induction false} StatsHeadersRead(stats: seq<StatsData>, lastOrigin: string, lastCategory: string)
    ensures Pick(StatsEntries(stats, lastOrigin, lastCategory), HeaderOf) == Changes(stats, StatOrigin, lastOrigin)
    decreases |stats|
  {
    if |stats| > 0 {
      var s := stats[0];
      StatsEntriesUnfold(stats, lastOrigin, lastCategory);
      StatsHeadersRead(stats[1..], s.origin, s.category);
      StatsEntryRead(s, lastOrigin, lastCategory);
      PickAppend(StatsEntry(s, lastOrigin, lastCategory), StatsEntries(stats[1..], s.origin, s.category), HeaderOf);
    }
  }

  /** Two blocks per stat and three per origin header. */
  lemma {:induction false} StatsEntriesSize(stats: seq<StatsData>, lastOrigin: string, lastCategory: string)
    ensures |StatsEntries(stats, lastOrigin, lastCategory)| == 2 * |stats| + 3 * |Changes(stats, StatOrigin, lastOrigin)|
    decreases |stats|
  {
    if |stats| > 0 {
      StatsEntriesUnfold(stats, lastOrigin, lastCategory);
      StatsEntriesSize(stats[1..], stats[0].origin, stats[0].category);
    }
  }

  /** The reference rule for printing a category: stat `i` shows it exactly
      when its category differs from the previous stat's within the same
      origin; the first stat of an origin compares with "". */
  function PrevCategory(stats: seq<StatsData>, i: nat, lastOrigin: string, lastCategory: string): string
    requires i < |stats|
  {
    if i == 0 then CategoryBefore(stats[0], lastOrigin, lastCategory)
    else CategoryBefore(stats[i], stats[i - 1].origin, stats[i - 1].category)
  }

  /** The section of stat `i` under the reference rule. */
  function ShownText(stats: seq<StatsData>, i: nat, lastOrigin: string, lastCategory: string): string
    requires i < |stats|
  {
    StatText(stats[i], stats[i].category != PrevCategory(stats, i, lastOrigin, lastCategory))
  }

  function ShownTexts(stats: seq<StatsData>, lastOrigin: string, lastCategory: string): (r: seq<string>)
    ensures |r| == |stats|
  {
    seq(|stats|, i requires 0 <= i < |stats| => ShownText(stats, i, lastOrigin, lastCategory))
  }

  /** Dropping the first stat and starting the trackers at it leaves every
      later stat's section unchanged. */
  lemma ShownTextShift(stats: seq<StatsData>, i: nat, lastOrigin: string, lastCategory: string)
    requires 1 <= i < |stats|
    ensures ShownText(stats, i, lastOrigin, lastCategory) == ShownText(stats[1..], i - 1, stats[0].origin, stats[0].category)
  {
    assert stats[1..][i - 1] == stats[i];
    if i > 1 {
      assert stats[1..][i - 2] == stats[i - 1];
    }
  }

  lemma ShownTextsTail(stats: seq<StatsData>, lastOrigin: string, lastCategory: string)
    requires |stats| > 0
    ensures forall i :: 1 <= i < |stats| ==>
              ShownTexts(stats, lastOrigin, lastCategory)[i] == ShownTexts(stats[1..], stats[0].origin, stats[0].category)[i - 1]
  {
    forall i | 1 <= i < |stats|
      ensures ShownTexts(stats, lastOrigin, lastCategory)[i] == ShownTexts(stats[1..], stats[0].origin, stats[0].category)[i - 1]
    {
      ShownTextShift(stats, i, lastOrigin, lastCategory);
    }
  }

  lemma ShownTextsShift(stats: seq<StatsData>, lastOrigin: string, lastCategory: string)
    requires |stats| > 0
    ensures ShownTexts(stats, lastOrigin, lastCategory)
            == [ShownText(stats, 0, lastOrigin, lastCategory)] + ShownTexts(stats[1..], stats[0].origin, stats[0].category)
  {
    var a := ShownTexts(stats, lastOrigin, lastCategory);
    var b := ShownTexts(stats[1..], stats[0].origin, stats[0].category);
    ShownTextsTail(stats, lastOrigin, lastCategory);
    ConsOf(a, b, ShownText(stats, 0, lastOrigin, lastCategory));
  }

  lemma ConsOf<T>(a: seq<T>, b: seq<T>, x: T)
    requires |a| == |b| + 1 && a[0] == x
    requires forall i :: 1 <= i < |a| ==> a[i] == b[i - 1]
    ensures a == [x] + b
  {
    assert a[1..] == b;
  }

  /** Each stat's section, in order, with the category printed by the
      reference rule. */
  lemma {:induction false} StatsTextsRead(stats: seq<StatsData>, lastOrigin: string, lastCategory: string)
    ensures Pick(StatsEntries(stats, lastOrigin, lastCategory), SectionTextOf) == ShownTexts(stats, lastOrigin, lastCategory)
    decreases |stats|
  {
    if |stats| > 0 {
      var s := stats[0];
      StatsEntriesUnfold(stats, lastOrigin, lastCategory);
      StatsTextsRead(stats[1..], s.origin, s.category);
      StatsEntryRead(s, lastOrigin, lastCategory);
      PickAppend(StatsEntry(s, lastOrigin, lastCategory), StatsEntries(stats[1..], s.origin, s.category), SectionTextOf);
      ShownTextsShift(stats, lastOrigin, lastCategory);
    }
  }

  /** The modal shows, for each stat in order, its section with the category
      printed exactly for the first stat of each category within an origin. */
  lemma StatsModalSections(title: string, stats: seq<StatsData>)
    requires |stats| > 0
    ensures var texts := Pick(StatsModal(title, stats).blocks, SectionTextOf);
            |texts| == |stats|
            && forall i :: 0 <= i < |stats| ==>
                 texts[i] == StatText(stats[i], stats[i].category !=
                                        (if i == 0 || stats[i].origin != stats[i - 1].origin then ""
                                         else stats[i - 1].category))
  {
    StatsTextsRead(stats, "", "");
  }

  /** The modal's headers are the changes of origin; on stats sorted by
      origin and category, each non-empty origin gets exactly one. */
  lemma StatsModalHeaders(title: string, stats: seq<StatsData>)
    requires |stats| > 0
    ensures Pick(StatsModal(title, stats).blocks, HeaderOf) == Changes(stats, StatOrigin, "")
    ensures |StatsModal(title, stats).blocks| == 2 * |stats| + 3 * |Changes(stats, StatOrigin, "")|
    ensures SortedBy(stats, StatKey) ==>
              var hs := Pick(StatsModal(title, stats).blocks, HeaderOf);
              NoDuplicates(hs) && forall o :: o in hs <==> o in MapSeq(stats, StatOrigin) && o != ""
  {
    StatsHeadersRead(stats, "", "");
    StatsEntriesSize(stats, "", "");
    if SortedBy(stats, StatKey) {
      SortedOnFirstField(stats, StatKey, StatOrigin);
      OneHeaderPerValue(stats, StatOrigin);
    }
  }

  // ---------------------------------------------------------------------------
  // Test data
  // ---------------------------------------------------------------------------

  const TestDataTitle: string := "Test Data"
  const TestDataNote: string := "_Kindly note: Only the ten most recent events are shown._"

  /** A nil comment is shown as a single blank, which Slack accepts where
      it rejects an empty text. */
  function CommentShown(comment: Option<string>): (s: string)
    ensures comment.Some? ==> s == comment.value
    ensures comment.None? ==> s == " "
  {
    match comment
    case None => " "
    case Some(c) => c
  }

  function SentLine(d: RawData, now: Instant): string {
    "Sent " + TimeToAgo(Elapsed(now, d.createdAt)) + " ago  (" + FormatMinute(d.createdAt) + " UTC)"
  }

  /** One event: where it came from, what it said, when it was sent. */
  function DataItem(d: RawData, now: Instant): (bs: seq<Block>)
    ensures |bs| == 4
  {
    [Fields([Plain("origin:"), Plain(d.origin), Plain("category:"), Plain(d.category), Plain("prompt:"), Plain(d.prompt)]),
     Fields([Plain("thumb_up:"), Plain(FormatBool(d.thumbUp)), Plain("comment:"), Plain(CommentShown(d.comment)),
             Plain("user_id:"), Plain(d.userId)]),
     Spacer,
     Context([Markdown(SentLine(d, now))])]
  }

  /** `TestDataModal`. */
  function TestDataModal(data: seq<RawData>, now: Instant): (m: Modal)
    ensures m.title == TestDataTitle && m.close == CloseLabel
    ensures |data| == 0 ==> m.blocks == Placeholder("No data to display")
    ensures |data| > 0 ==> |m.blocks| >= 2 && m.blocks[..2] == [Context([Markdown(TestDataNote)]), Spacer]
  {
    var blocks :=
      if |data| == 0 then Placeholder("No data to display")
      else [Context([Markdown(TestDataNote)]), Spacer]
           + Separated(data, (d: RawData) => DataItem(d, now), [Spacer, Divider]);
    Modal(TestDataTitle, CloseLabel, blocks)
  }

  /** What a reader takes from the second field block of an event: the
      thumb, the comment and the user, by their labels. */
  function EventOf(b: Block): Option<(string, string, string)> {
    if b.Fields? && |b.fields| == 6 && b.fields[0] == Plain("thumb_up:") && b.fields[2] == Plain("comment:")
    then Some((b.fields[1].text, b.fields[3].text, b.fields[5].text)) else None
  }

  function EventShown(d: RawData): (string, string, string) {
    (FormatBool(d.thumbUp), CommentShown(d.comment), d.userId)
  }

  /** Two field blocks, a spacer and a context line read as whatever the
      second field block reads as, when the first reads as nothing. */
  lemma FieldsFieldsSpacerContext(a: Block, b: Block, c: Block)
    requires a.Fields? && b.Fields? && c.Context? && EventOf(a).None?
    ensures CountIf([a, b, Spacer, c], IsDivider) == 0
    ensures Pick([a, b, Spacer, c], EventOf) == PickOne(b, EventOf)
  {
    NoDividerIn([a, b, Spacer, c]);
    PickFour(a, b, Spacer, c, EventOf);
  }

  lemma DataItemRead(d: RawData, now: Instant)
    ensures CountIf(DataItem(d, now), IsDivider) == 0
    ensures Pick(DataItem(d, now), EventOf) == [EventShown(d)]
  {
    var bs := DataItem(d, now);
    assert bs[0].fields[0] == Plain("origin:") && bs[0].fields[0] != Plain("thumb_up:");
    FieldsFieldsSpacerContext(bs[0], bs[1], bs[3]);
  }

  /** The event list: four blocks per event, spacer and divider between each
      two; reading the events back gives each one's thumb, comment (" " for
      none) and user, in order. */
  lemma EventsListed(data: seq<RawData>, now: Instant)
    requires |data| > 0
    ensures var items := TestDataModal(data, now).blocks[2..];
            |items| == 6 * |data| - 2
            && CountIf(items, IsDivider) == |data| - 1
            && Pick(items, EventOf) == MapSeq(data, EventShown)
  {
    var item := (d: RawData) => DataItem(d, now);
    var sep := [Spacer, Divider];
    var items := Separated(data, item, sep);
    assert TestDataModal(data, now).blocks[2..] == items;
    forall d ensures CountIf(item(d), IsDivider) == 0 && Pick(item(d), EventOf) == [EventShown(d)] {
      DataItemRead(d, now);
    }
    assert CountIf(sep, IsDivider) == 1 by {
      assert sep[1..] == [Divider] && sep[1..][1..] == [];
    }
    PickTwo(Spacer, Divider, EventOf);
    SeparatedLength(data, item, sep, 4);
    SeparatedCount(data, item, sep, IsDivider, 0, 1);
    SeparatedPick(data, item, sep, EventOf, EventShown);
  }
}

=== FILE: models.dfy ===
/** The records the pipeline passes around (internal/models/models.go).
    Times are `Calendar.Instant` and `Calendar.CivilDate`, nullable strings are `Option`,
    `float64` is `real`, and block lists are `Blocks.Block` values. */
module Models {
  import opened Wrappers
  import opened Calendar
  import opened Blocks

  /** `expiry` is `account_expiry_date`. */
  datatype Account = Account(
    accountId: string,
    expiry: Instant,
    activationCode: string,
    apiKey: string,
    workspace: Option<string>,
    channel: Option<string>,
    feedbackCount: int)

  datatype InteractionContext = InteractionContext(
    triggerId: string, workspace: string, botToken: string, userId: string)

  /** The explore tab's filter state; dates are "YYYY-MM-DD" strings and the
      thumb filter is "Up", "Down" or "". */
  datatype StatsFilterValues = StatsFilterValues(
    origin: string, category: string, prompt: string,
    dateFrom: string, dateTo: string, thumb: string)

  datatype Prompt = Prompt(id: int, workspace: string, origin: string, category: string, prompt: string)

  datatype Feedback = Feedback(
    id: int,
    createdAt: Instant,
    workspace: string,
    prompt: string,
    thumbUp: bool,
    comment: Option<string>,
    origin: string,
    category: string,
    inProduction: bool,
    userId: string)

  /** The JSON body of `POST /feedback`; the two booleans are pointers so a
      missing field can be told apart from `false`. */
  datatype FeedbackRequest = FeedbackRequest(
    prompt: string,
    thumbUp: Option<bool>,
    comment: string,
    origin: string,
    category: string,
    inProduction: Option<bool>,
    userId: string)

  /** `DigestRange` is a string type; its values are SQL interval literals.
      Weekly and Last7d are the same string. */
  type DigestRange = string
  const Daily: DigestRange := "1 day"
  const Weekly: DigestRange := "7 days"
  const Monthly: DigestRange := "1 month"
  const Quarterly: DigestRange := "3 months"
  const Last7d: DigestRange := "7 days"
  const Last30d: DigestRange := "30 days"

  datatype FeedbackGroup = FeedbackGroup(prompt: string, origin: string, category: string)

  datatype WorkspaceChannel = WorkspaceChannel(workspace: string, channel: string)

  datatype SummaryRow = SummaryRow(
    summaryDate: CivilDate, origin: string, category: string, prompt: string,
    nComments: int, summary: string)

  datatype IssueReport = IssueReport(workspace: string, origin: string, report: string)

  datatype FeedbackStats = FeedbackStats(
    thumbsUpPct: real,
    prevThumbsUpPct: real,
    nFeedback: int,
    prevNFeedback: int,
    prevNFeedbackDl: real,
    nComments: int,
    prevCommentsDl: real)

  datatype DigestMessage = DigestMessage(botToken: string, channel: string, blocks: seq<Block>, workspace: string)

  datatype DailyDigestData = DailyDigestData(origin: string, nComments: int, digest: string)

  datatype WeeklyDigestData = WeeklyDigestData(
    origin: string, category: string, prompt: string,
    score: int, scoreDelta: string,
    nResponses: int, nResponsesDelta: string,
    nComments: int, nCommentsDelta: string,
    digest: string)

  datatype MonthlyDigestData = MonthlyDigestData(
    origin: string, category: string,
    score: int, scoreDelta: string,
    nResponses: int, nResponsesDelta: string,
    nComments: int, nCommentsDelta: string,
    digest: string, graphUrl: string)

  datatype QuarterlyDigestData = QuarterlyDigestData(origin: string, digest: string, graphUrl: string)

  /** One point of a monthly chart; `month` is the first day of the month. */
  datatype PlotStats = PlotStats(month: CivilDate, thumbsUpPct: real, nFeedback: int, nComments: int)

  datatype ExploreCommentsResult = ExploreCommentsResult(
    origin: string, category: string, prompt: string, comment: string, timestamp: Instant)

  datatype StatsData = StatsData(
    origin: string, category: string, prompt: string,
    score: int, scoreDelta: string,
    nResponses: int, nResponsesDelta: string,
    nComments: int, nCommentsDelta: string)

  datatype RawData = RawData(
    createdAt: Instant, origin: string, category: string, prompt: string,
    thumbUp: bool, comment: Option<string>, userId: string)

  datatype UserFilterCacheEntry = UserFilterCacheEntry(values: StatsFilterValues, timestamp: Instant)
}

=== FILE: payload.dfy ===
/** Slack interaction payloads as the handlers see them after
    `json.Unmarshal` into `map[string]any`. An object keeps its members in
    the order a Go `range` over the map happens to visit them; the handlers
    read members with comma-ok type assertions, which `StringMember` and
    `ObjectMember` model. */
module Payload {
  import opened Wrappers

  /** A decoded JSON value. Numbers are never inspected by the handlers. */
  datatype Json =
    | JNull
    | JBool(b: bool)
    | JNum(n: int)
    | JStr(s: string)
    | JArr(items: seq<Json>)
    | JObj(members: seq<(string, Json)>)

  /** The value stored under `key` in a member list; when a key repeats the
      later member wins, as it does when Go decodes an object. */
  function Lookup(members: seq<(string, Json)>, key: string): (r: Option<Json>)
    ensures r.Some? ==> (key, r.value) in members
    ensures r.None? <==> forall i :: 0 <= i < |members| ==> members[i].0 != key
    decreases |members|
  {
    if |members| == 0 then None
    else if members[|members| - 1].0 == key then Some(members[|members| - 1].1)
    else Lookup(members[..|members| - 1], key)
  }

  /** `m[key]` on a value that may not be an object: no value then. */
  function Member(j: Json, key: string): Option<Json> {
    if j.JObj? then Lookup(j.members, key) else None
  }

  /** `v, ok := m[key].(string)`. */
  function StringMember(j: Json, key: string): (r: Option<string>)
    ensures r.Some? <==> Member(j, key).Some? && Member(j, key).value.JStr?
    ensures r.Some? ==> Member(j, key) == Some(JStr(r.value))
  {
    match Member(j, key)
    case Some(JStr(s)) => Some(s)
    case _ => None
  }

  /** `v, ok := m[key].(map[string]any)`. */
  function ObjectMember(j: Json, key: string): (r: Option<Json>)
    ensures r.Some? <==> Member(j, key).Some? && Member(j, key).value.JObj?
    ensures r.Some? ==> r.value.JObj? && Member(j, key) == r
  {
    match Member(j, key)
    case Some(JObj(ms)) => Some(JObj(ms))
    case _ => None
  }

  /** `v, _ := m[key].(map[string]any)`: a missing or ill-typed member reads
      as a nil map, which has no members. */
  function ObjectOrEmpty(j: Json, key: string): (r: Json)
    ensures r.JObj?
    ensures ObjectMember(j, key).None? ==> r.members == []
  {
    ObjectMember(j, key).GetOr(JObj([]))
  }

  /** The entries of `view.state.values` visited by the handlers' two nested
      loops, block after block: every member of every block that is an
      object. Blocks that are not objects are skipped. */
  function StateEntries(blocks: seq<(string, Json)>): (r: seq<(string, Json)>)
    decreases |blocks|
  {
    if |blocks| == 0 then []
    else (if blocks[0].1.JObj? then blocks[0].1.members else []) + StateEntries(blocks[1..])
  }

  /** An entry belongs to the state exactly when some object block holds it. */
  lemma {:induction false} StateEntriesMembers(blocks: seq<(string, Json)>, e: (string, Json))
    ensures e in StateEntries(blocks) <==>
              exists i :: 0 <= i < |blocks| && blocks[i].1.JObj? && e in blocks[i].1.members
    decreases |blocks|
  {
    if |blocks| > 0 {
      StateEntriesMembers(blocks[1..], e);
      if e in StateEntries(blocks[1..]) {
        var i :| 0 <= i < |blocks[1..]| && blocks[1..][i].1.JObj? && e in blocks[1..][i].1.members;
        assert blocks[i + 1] == blocks[1..][i];
      }
      if exists i :: 0 <= i < |blocks| && blocks[i].1.JObj? && e in blocks[i].1.members {
        var i :| 0 <= i < |blocks| && blocks[i].1.JObj? && e in blocks[i].1.members;
        if i > 0 {
          assert blocks[1..][i - 1] == blocks[i];
        }
      }
    }
  }

  /** The state entries of a submitted view: `payload.view.state.values`,
      with every missing or ill-typed level read as empty. */
  function ViewStateEntries(payload: Json): seq<(string, Json)> {
    var values := ObjectOrEmpty(ObjectOrEmpty(ObjectOrEmpty(payload, "view"), "state"), "values");
    StateEntries(values.members)
  }

  /** The value `read` finds in the last entry named `id` that has one:
      the value a forward loop that overwrites on each hit ends with. */
  function LastValue(entries: seq<(string, Json)>, id: string, read: Json -> Option<string>): (r: Option<string>)
    ensures r.Some? ==> exists i :: 0 <= i < |entries| && entries[i].0 == id && read(entries[i].1) == r
    ensures r.None? <==> forall i :: 0 <= i < |entries| && entries[i].0 == id ==> read(entries[i].1).None?
    decreases |entries|
  {
    if |entries| == 0 then None
    else
      var last := entries[|entries| - 1];
      if last.0 == id && read(last.1).Some? then read(last.1)
      else
        var r := LastValue(entries[..|entries| - 1], id, read);
        assert forall i :: 0 <= i < |entries| - 1 ==> entries[..|entries| - 1][i] == entries[i];
        r
  }

  /** No action id occurs twice, as in a decoded Go map. */
  predicate DistinctIds(entries: seq<(string, Json)>) {
    forall i, j :: 0 <= i < j < |entries| ==> entries[i].0 != entries[j].0
  }

  /** With distinct ids the last value of `id` is whatever its only entry
      carries. */
  lemma LastValueOfOnly(entries: seq<(string, Json)>, id: string, read: Json -> Option<string>, i: nat)
    requires DistinctIds(entries) && i < |entries| && entries[i].0 == id
    ensures LastValue(entries, id, read) == read(entries[i].1)
  {
    var r := LastValue(entries, id, read);
    if r.Some? {
      var j :| 0 <= j < |entries| && entries[j].0 == id && read(entries[j].1) == r;
      assert i == j;
    }
  }

  /** With distinct ids the order in which the entries are visited does not
      matter: any reordering yields the same value. */
  lemma LastValueOrderFree(e1: seq<(string, Json)>, e2: seq<(string, Json)>, id: string, read: Json -> Option<string>)
    requires DistinctIds(e1) && DistinctIds(e2)
    requires forall x :: x in e1 <==> x in e2
    ensures LastValue(e1, id, read) == LastValue(e2, id, read)
  {
    if i :| 0 <= i < |e1| && e1[i].0 == id {
      assert e1[i] in e2;
      var j :| 0 <= j < |e2| && e2[j] == e1[i];
      LastValueOfOnly(e1, id, read, i);
      LastValueOfOnly(e2, id, read, j);
    } else {
      forall j | 0 <= j < |e2| ensures e2[j].0 != id {
        assert e2[j] in e1;
      }
    }
  }
}

=== FILE: queries.dfy ===
/** What the feedback queries of internal/queries/feedback.go select and
    compute, as functions of a snapshot of the tables. `today` stands for
    the database's CURRENT_DATE (UTC). Row order of an unordered SELECT is
    taken to be table order, and `SELECT DISTINCT` keeps first occurrences. */
module Queries {
  import opened Wrappers
  import opened Text
  import opened Calendar
  import opened Models
  import opened Seqs

  // ---------------------------------------------------------------------------
  // Inserting feedback
  // ---------------------------------------------------------------------------

  /** A whitespace-only comment is stored as NULL, any other comment trimmed. */
  function NormalizeComment(c: Option<string>): (r: Option<string>)
    ensures r.None? <==> c.None? || AllSpace(c.value)
    ensures r.Some? ==> r.value == TrimSpace(c.value) && r.value != ""
  {
    match c
    case None => None
    case Some(s) => if TrimSpace(s) == "" then None else Some(TrimSpace(s))
  }

  /** The row `InsertFeedback` writes: origin, category, prompt and user id
      trimmed, the comment normalised, every other column as given. */
  function NormalizeFeedback(fb: Feedback): (r: Feedback)
    ensures r.origin == TrimSpace(fb.origin) && r.category == TrimSpace(fb.category)
    ensures r.prompt == TrimSpace(fb.prompt) && r.userId == TrimSpace(fb.userId)
    ensures r.comment == NormalizeComment(fb.comment)
    ensures r.id == fb.id && r.createdAt == fb.createdAt && r.workspace == fb.workspace
    ensures r.thumbUp == fb.thumbUp && r.inProduction == fb.inProduction
  {
    fb.(origin := TrimSpace(fb.origin), category := TrimSpace(fb.category),
        prompt := TrimSpace(fb.prompt), userId := TrimSpace(fb.userId),
        comment := NormalizeComment(fb.comment))
  }

  /** A row as `InsertFeedback` leaves it: normalising changes nothing. */
  predicate Normalized(fb: Feedback) {
    NormalizeFeedback(fb) == fb
  }

  lemma NormalizeCommentIdempotent(c: Option<string>)
    ensures NormalizeComment(NormalizeComment(c)) == NormalizeComment(c)
  {
    if c.Some? && TrimSpace(c.value) != "" {
      TrimSpaceIdempotent(c.value);
    }
  }

  /** Normalising is idempotent: a stored row is already normalised. */
  lemma NormalizeIdempotent(fb: Feedback)
    ensures Normalized(NormalizeFeedback(fb))
  {
    var r := NormalizeFeedback(fb);
    TrimSpaceIdempotent(fb.origin);
    TrimSpaceIdempotent(fb.category);
    TrimSpaceIdempotent(fb.prompt);
    TrimSpaceIdempotent(fb.userId);
    NormalizeCommentIdempotent(fb.comment);
  }

  /** The two tables `InsertFeedback` writes: the feedback rows and each
      linked workspace's `feedback_count`. */
  datatype Store = Store(feedback: seq<Feedback>, feedbackCounts: map<string, int>)

  /** `InsertFeedback`: appends the normalised row and adds one to the
      workspace's counter; a workspace no account is linked to has no
      counter to update. The INSERT leaves `id` and `created_at` to the
      database, so the new row carries the serial value `id` and the
      insertion time `now` the database assigns, whatever `fb` held. */
  function InsertFeedback(s: Store, fb: Feedback, id: int, now: Instant): (r: Store)
    ensures |r.feedback| == |s.feedback| + 1 && r.feedback[..|s.feedback|] == s.feedback
    ensures r.feedback[|s.feedback|] == NormalizeFeedback(fb).(id := id, createdAt := now)
    ensures r.feedback[|s.feedback|].id == id && r.feedback[|s.feedback|].createdAt == now
    ensures r.feedbackCounts.Keys == s.feedbackCounts.Keys
    ensures forall w :: w in s.feedbackCounts ==>
              r.feedbackCounts[w] == s.feedbackCounts[w] + (if w == fb.workspace then 1 else 0)
  {
    var counts := if fb.workspace in s.feedbackCounts
                  then s.feedbackCounts[fb.workspace := s.feedbackCounts[fb.workspace] + 1]
                  else s.feedbackCounts;
    Store(s.feedback + [NormalizeFeedback(fb).(id := id, createdAt := now)], counts)
  }

  /** Every stored row stays normalised across inserts. */
  lemma InsertKeepsNormalized(s: Store, fb: Feedback, id: int, now: Instant)
    requires forall i :: 0 <= i < |s.feedback| ==> Normalized(s.feedback[i])
    ensures var r := InsertFeedback(s, fb, id, now);
            forall i :: 0 <= i < |r.feedback| ==> Normalized(r.feedback[i])
  {
    var r := InsertFeedback(s, fb, id, now);
    var row := NormalizeFeedback(fb).(id := id, createdAt := now);
    NormalizeIdempotent(fb);
    assert Normalized(row);
    assert r.feedback == s.feedback + [row];
    AppendAll(s.feedback, row, Normalized);
  }

  lemma AppendAll<T>(rows: seq<T>, x: T, p: T -> bool)
    requires forall i :: 0 <= i < |rows| ==> p(rows[i])
    requires p(x)
    ensures forall i :: 0 <= i < |rows + [x]| ==> p((rows + [x])[i])
  {
  }

  // ---------------------------------------------------------------------------
  // Selections
  // ---------------------------------------------------------------------------

  /** Production feedback of a workspace: every query starts from these rows. */
  predicate Live(fb: Feedback, workspace: string) {
    fb.workspace == workspace && fb.inProduction
  }

  /** The thumb filter: "" keeps everything, "Up" and "Down" select on the
      thumb, and any other value matches nothing. */
  predicate ThumbMatches(thumb: string, up: bool) {
    thumb == "" || (thumb == "Up" && up) || (thumb == "Down" && !up)
  }

  /** `($x = '' OR column = $x)`. */
  predicate FieldMatches(filter: string, value: string) {
    filter == "" || value == filter
  }

  predicate MatchesFilters(fb: Feedback, origin: string, category: string, prompt: string, thumb: string) {
    FieldMatches(origin, fb.origin) && FieldMatches(category, fb.category)
    && FieldMatches(prompt, fb.prompt) && ThumbMatches(thumb, fb.thumbUp)
  }

  /** Empty filters select every row. */
  lemma EmptyFiltersMatchAll(fb: Feedback)
    ensures MatchesFilters(fb, "", "", "", "")
  {
  }

  /** The rows of `rows` that satisfy `p`, in order. */
  function Select(rows: seq<Feedback>, p: Feedback -> bool): (r: seq<Feedback>)
    ensures |r| <= |rows|
    ensures forall x :: x in r <==> x in rows && p(x)
  {
    if |rows| == 0 then []
    else (if p(rows[0]) then [rows[0]] else []) + Select(rows[1..], p)
  }

  /** A time window of a query, compared against `created_at` (or
      `summary_date`) as the SQL does. */
  datatype Window =
    | Days(lo: int, hi: int)      // lo <= day number of the date < hi
    | DaysFrom(lo: int)           // lo <= day number, no upper bound
    | Months(lo: int, hi: int)    // lo <= month index < hi
    | Between(from: Instant, to: Instant)   // from <= instant < to

  predicate InWindow(t: Instant, w: Window) {
    match w
    case Days(lo, hi) => lo <= DayNumber(t.date) < hi
    case DaysFrom(lo) => lo <= DayNumber(t.date)
    case Months(lo, hi) => lo <= MonthIndex(t.date) < hi
    case Between(from, to) => Seconds(from) <= Seconds(t) < Seconds(to)
  }

  /** A date-only window test, for `summary_date`. */
  predicate DateInWindow(d: CivilDate, w: Window) {
    InWindow(Timestamp(d, 0), w)
  }

  // ---------------------------------------------------------------------------
  // Latest record per user
  // ---------------------------------------------------------------------------

  predicate Newer(a: Feedback, b: Feedback) {
    Seconds(a.createdAt) > Seconds(b.createdAt)
  }

  /** The position of user `u` in `acc`, or -1. */
  function UserPos(acc: seq<Feedback>, u: string): (i: int)
    ensures -1 <= i < |acc|
    ensures i >= 0 ==> acc[i].userId == u
    ensures i == -1 <==> forall k :: 0 <= k < |acc| ==> acc[k].userId != u
  {
    if |acc| == 0 then -1
    else if acc[|acc| - 1].userId == u then |acc| - 1
    else UserPos(acc[..|acc| - 1], u)
  }

  /** Folds one row into a one-per-user list: a new user is appended, a
      strictly newer record replaces the user's current one. */
  function Upsert(acc: seq<Feedback>, x: Feedback): seq<Feedback> {
    var i := UserPos(acc, x.userId);
    if i < 0 then acc + [x]
    else if Newer(x, acc[i]) then acc[i := x]
    else acc
  }

  /** `acc` holds a record of `x`'s user that is at least as recent as `x`. */
  predicate HasLatest(acc: seq<Feedback>, x: Feedback) {
    var i := UserPos(acc, x.userId);
    i >= 0 && !Newer(x, acc[i])
  }

  predicate UsersDistinct(acc: seq<Feedback>) {
    forall i, j :: 0 <= i < j < |acc| ==> acc[i].userId != acc[j].userId
  }

  predicate DrawnFrom(acc: seq<Feedback>, rows: seq<Feedback>) {
    forall i :: 0 <= i < |acc| ==> acc[i] in rows
  }

  /** With one record per user, the position of a user's record is the one
      `UserPos` finds. */
  lemma UserPosUnique(acc: seq<Feedback>, k: nat)
    requires UsersDistinct(acc) && k < |acc|
    ensures UserPos(acc, acc[k].userId) == k
  {
  }

  /** `SELECT DISTINCT ON (user_id) ... ORDER BY user_id, created_at DESC`:
      one record per user, the user's latest. Among records with the same
      latest time the earliest in table order is kept. */
  function LatestPerUser(rows: seq<Feedback>): (r: seq<Feedback>)
    ensures DrawnFrom(r, rows)
    ensures UsersDistinct(r)
    ensures forall x :: x in rows ==> HasLatest(r, x)
    ensures |r| <= |rows|
    decreases |rows|
  {
    if |rows| == 0 then []
    else
      var init := rows[..|rows| - 1];
      var x := rows[|rows| - 1];
      var acc := LatestPerUser(init);
      assert init + [x] == rows;
      UpsertDrawnFrom(acc, init, x);
      UpsertDistinct(acc, x);
      UpsertCovers(acc, init, x);
      Upsert(acc, x)
  }

  lemma UpsertDrawnFrom(acc: seq<Feedback>, rows: seq<Feedback>, x: Feedback)
    requires DrawnFrom(acc, rows) && |acc| <= |rows|
    ensures DrawnFrom(Upsert(acc, x), rows + [x]) && |Upsert(acc, x)| <= |rows| + 1
  {
    var r := Upsert(acc, x);
    forall k | 0 <= k < |r| ensures r[k] in rows + [x] {
      if r[k] != x {
        assert k < |acc| && r[k] == acc[k];
      }
    }
  }

  lemma UpsertDistinct(acc: seq<Feedback>, x: Feedback)
    requires UsersDistinct(acc)
    ensures UsersDistinct(Upsert(acc, x))
  {
  }

  lemma UpsertCovers(acc: seq<Feedback>, rows: seq<Feedback>, x: Feedback)
    requires UsersDistinct(acc)
    requires forall y :: y in rows ==> HasLatest(acc, y)
    ensures forall y :: y in rows + [x] ==> HasLatest(Upsert(acc, x), y)
  {
    var i := UserPos(acc, x.userId);
    var r := Upsert(acc, x);
    UpsertDistinct(acc, x);
    forall y | y in rows + [x] ensures HasLatest(r, y) {
      if y == x {
        var k := if i < 0 then |acc| else i;
        assert r[k] == x || (r[k] == acc[i] && !Newer(x, acc[i]));
        UserPosUnique(r, k);
      } else {
        assert y in rows;
        var k := UserPos(acc, y.userId);
        assert k >= 0 && !Newer(y, acc[k]);
        if i >= 0 && k == i && Newer(x, acc[i]) {
          assert r[k] == x;
        } else {
          assert r[k] == acc[k];
        }
        UserPosUnique(r, k);
      }
    }
  }

  /** A record that is not newer than one the user already has changes
      nothing: only the latest record of each user counts. */
  lemma OlderRecordIgnored(rows: seq<Feedback>, x: Feedback, y: Feedback)
    requires y in rows && y.userId == x.userId && !Newer(x, y)
    ensures LatestPerUser(rows + [x]) == LatestPerUser(rows)
  {
    var acc := LatestPerUser(rows);
    var rows' := rows + [x];
    assert rows'[..|rows'| - 1] == rows && rows'[|rows'| - 1] == x;
    assert LatestPerUser(rows') == Upsert(acc, x);
    assert HasLatest(acc, y);
  }

  // ---------------------------------------------------------------------------
  // Period statistics
  // ---------------------------------------------------------------------------

  /** `COUNT(thumb_up)`, the thumbs-up count and `COUNT(comment)` over one
      period's latest records. */
  datatype Tally = Tally(n: nat, up: nat, comments: nat)

  predicate ThumbUpOf(fb: Feedback) {
    fb.thumbUp
  }

  predicate HasComment(fb: Feedback) {
    fb.comment.Some?
  }

  function TallyOf(rows: seq<Feedback>): (t: Tally)
    ensures t.n == |LatestPerUser(rows)|
    ensures t.up <= t.n && t.comments <= t.n
    ensures t.n == 0 <==> rows == []
  {
    var latest := LatestPerUser(rows);
    assert rows != [] ==> rows[0] in rows;
    Tally(|latest|, CountIf(latest, ThumbUpOf), CountIf(latest, HasComment))
  }

  /** Responses, thumbs-up and comments are counted over the latest record
      of each user: an older record of a user already present changes no
      count, whatever comment it carries. */
  lemma OlderRecordNotCounted(rows: seq<Feedback>, x: Feedback, y: Feedback)
    requires y in rows && y.userId == x.userId && !Newer(x, y)
    ensures TallyOf(rows + [x]) == TallyOf(rows)
  {
    OlderRecordIgnored(rows, x, y);
  }

  /** `CASE WHEN whole > 0 THEN 100.0 * part / whole ELSE 0 END`. */
  function Percent(part: nat, whole: nat): (r: real)
    ensures whole == 0 ==> r == 0.0
    ensures whole > 0 ==> r * whole as real == 100.0 * part as real
    ensures part <= whole ==> 0.0 <= r <= 100.0
  {
    if whole > 0 then 100.0 * part as real / whole as real else 0.0
  }

  /** The relative change in percent, 0 when there is nothing to compare to. */
  function Change(current: nat, previous: nat): (r: real)
    ensures previous == 0 ==> r == 0.0
    ensures previous > 0 ==> r * previous as real == 100.0 * (current - previous) as real
    ensures previous > 0 ==> -100.0 <= r
    ensures previous > 0 ==> (r == 0.0 <==> current == previous) && (r > 0.0 <==> current > previous)
  {
    if previous > 0 then
      var q := (current - previous) as real / previous as real;
      assert q * previous as real == (current - previous) as real;
      assert q >= -1.0;
      100.0 * q
    else 0.0
  }

  /** The stats row every per-period query returns. */
  function ComputeStats(current: seq<Feedback>, previous: seq<Feedback>): (s: FeedbackStats)
    ensures s.nFeedback == |LatestPerUser(current)| && s.prevNFeedback == |LatestPerUser(previous)|
    ensures s.thumbsUpPct == Percent(TallyOf(current).up, s.nFeedback)
    ensures s.prevNFeedbackDl == Change(s.nFeedback, s.prevNFeedback)
    ensures s.prevThumbsUpPct == Percent(TallyOf(previous).up, s.prevNFeedback)
    ensures s.nComments == TallyOf(current).comments
    ensures s.prevCommentsDl == Change(TallyOf(current).comments, TallyOf(previous).comments)
    ensures TallyOf(previous).comments == 0 ==> s.prevCommentsDl == 0.0
    ensures 0.0 <= s.thumbsUpPct <= 100.0 && 0.0 <= s.prevThumbsUpPct <= 100.0
    ensures 0 <= s.nComments <= s.nFeedback
    ensures s.prevNFeedback == 0 ==> s.prevNFeedbackDl == 0.0 && s.prevThumbsUpPct == 0.0
  {
    var c := TallyOf(current);
    var p := TallyOf(previous);
    FeedbackStats(Percent(c.up, c.n), Percent(p.up, p.n), c.n, p.n, Change(c.n, p.n),
                  c.comments, Change(c.comments, p.comments))
  }

  /** The rows a stats query looks at: one workspace's production rows of one
      origin and category, of one prompt unless `prompt` is None, in a window,
      that pass the thumb filter. */
  function PeriodRows(table: seq<Feedback>, workspace: string, origin: string, category: string,
                      prompt: Option<string>, w: Window, thumb: string): (r: seq<Feedback>)
    ensures forall x :: x in r <==>
              x in table && Live(x, workspace) && x.origin == origin && x.category == category
              && (prompt.None? || x.prompt == prompt.value) && InWindow(x.createdAt, w)
              && ThumbMatches(thumb, x.thumbUp)
  {
    Select(table, (x: Feedback) => Live(x, workspace) && x.origin == origin && x.category == category
                                   && (prompt.None? || x.prompt == prompt.value)
                                   && InWindow(x.createdAt, w) && ThumbMatches(thumb, x.thumbUp))
  }

  /** `GetWeeklyFeedbackStats`: the 7 days before today against the 7 before those. */
  function WeeklyWindows(today: CivilDate): (Window, Window) {
    var t := DayNumber(today);
    (Days(t - 7, t), Days(t - 14, t - 7))
  }

  /** `GetMonthlyFeedbackStats`: last calendar month against the one before. */
  function MonthlyWindows(today: CivilDate): (Window, Window) {
    var m := MonthIndex(today);
    (Months(m - 1, m), Months(m - 2, m - 1))
  }

  /** `GetLast7DayStats` and `GetLast30DayStats`: from `days` days ago
      onwards, including today, against the `days` days before that, where
      the day `days` ago belongs to both. */
  function TrailingWindows(today: CivilDate, days: int): (Window, Window) {
    var t := DayNumber(today);
    (DaysFrom(t - days), Days(t - 2 * days, t - days + 1))
  }

  function WeeklyFeedbackStats(table: seq<Feedback>, workspace: string, origin: string, category: string,
                               prompt: string, today: CivilDate): FeedbackStats {
    var (cur, prev) := WeeklyWindows(today);
    ComputeStats(PeriodRows(table, workspace, origin, category, Some(prompt), cur, ""),
                 PeriodRows(table, workspace, origin, category, Some(prompt), prev, ""))
  }

  function MonthlyFeedbackStats(table: seq<Feedback>, workspace: string, origin: string, category: string,
                                today: CivilDate): FeedbackStats {
    var (cur, prev) := MonthlyWindows(today);
    ComputeStats(PeriodRows(table, workspace, origin, category, None, cur, ""),
                 PeriodRows(table, workspace, origin, category, None, prev, ""))
  }

  function TrailingStats(table: seq<Feedback>, workspace: string, origin: string, category: string,
                         prompt: string, today: CivilDate, days: int): FeedbackStats {
    var (cur, prev) := TrailingWindows(today, days);
    ComputeStats(PeriodRows(table, workspace, origin, category, Some(prompt), cur, ""),
                 PeriodRows(table, workspace, origin, category, Some(prompt), prev, ""))
  }

  /** `GetFilteredStats`: explicit half-open windows; the thumb filter is
      applied before the per-user reduction. */
  function FilteredStats(table: seq<Feedback>, workspace: string, origin: string, category: string,
                         prompt: string, from: Instant, to: Instant, prevFrom: Instant, prevTo: Instant,
                         thumb: string): FeedbackStats {
    ComputeStats(PeriodRows(table, workspace, origin, category, Some(prompt), Between(from, to), thumb),
                 PeriodRows(table, workspace, origin, category, Some(prompt), Between(prevFrom, prevTo), thumb))
  }

  /** The weekly periods are the two weeks before today, back to back and
      excluding today. */
  lemma WeeklyWindowsAdjacent(today: CivilDate, t: Instant)
    ensures var (cur, prev) := WeeklyWindows(today);
            var d := DayNumber(t.date) - DayNumber(today);
            (InWindow(t, cur) <==> -7 <= d < 0) && (InWindow(t, prev) <==> -14 <= d < -7)
            && !(InWindow(t, cur) && InWindow(t, prev))
  {
  }

  /** The monthly periods are the two calendar months before the current one. */
  lemma MonthlyWindowsAdjacent(today: CivilDate, t: Instant)
    ensures var (cur, prev) := MonthlyWindows(today);
            (InWindow(t, cur) <==> MonthIndex(t.date) == MonthIndex(today) - 1)
            && (InWindow(t, prev) <==> MonthIndex(t.date) == MonthIndex(today) - 2)
  {
  }

  /** As written, a record from exactly `days` days ago counts in both the
      current and the previous period of the trailing stats. */
  lemma TrailingWindowsOverlap(today: CivilDate, days: int, t: Instant)
    requires DayNumber(t.date) == DayNumber(today) - days
    ensures var (cur, prev) := TrailingWindows(today, days);
            days >= 0 ==> InWindow(t, cur) && InWindow(t, prev)
  {
  }

  /** With the "Up" filter every counted record is a thumbs-up, so a
      non-empty period scores 100. */
  lemma UpFilterScoresHundred(table: seq<Feedback>, workspace: string, origin: string, category: string,
                              prompt: string, from: Instant, to: Instant, prevFrom: Instant, prevTo: Instant)
    ensures var s := FilteredStats(table, workspace, origin, category, prompt, from, to, prevFrom, prevTo, "Up");
            s.nFeedback > 0 ==> s.thumbsUpPct == 100.0
  {
    var rows := PeriodRows(table, workspace, origin, category, Some(prompt), Between(from, to), "Up");
    var latest := LatestPerUser(rows);
    forall i | 0 <= i < |latest| ensures ThumbUpOf(latest[i]) {
      assert latest[i] in rows;
    }
    CountIfExtremes(latest, ThumbUpOf);
    PercentOfAll(|latest|);
  }

  lemma PercentOfAll(n: nat)
    ensures n > 0 ==> Percent(n, n) == 100.0
  {
  }

  // ---------------------------------------------------------------------------
  // Intervals and feedback groups
  // ---------------------------------------------------------------------------

  /** A `DigestRange` read as an SQL interval. */
  datatype Interval = DayInterval(days: nat) | MonthInterval(months: nat)

  function IntervalOf(dr: DigestRange): (r: Option<Interval>)
    ensures dr in {Daily, Weekly, Monthly, Quarterly, Last7d, Last30d} <==> r.Some?
  {
    if dr == Daily then Some(DayInterval(1))
    else if dr == Weekly then Some(DayInterval(7))
    else if dr == Last30d then Some(DayInterval(30))
    else if dr == Monthly then Some(MonthInterval(1))
    else if dr == Quarterly then Some(MonthInterval(3))
    else None
  }

  /** The day count of a day interval; month intervals count as 0 days and
      are only reached through the month branches. */
  function IntervalDays(i: Interval): nat {
    match i
    case DayInterval(n) => n
    case MonthInterval(_) => 0
  }

  function IntervalMonths(i: Interval): nat {
    match i
    case DayInterval(_) => 0
    case MonthInterval(n) => n
  }

  const BadInterval: string := "invalid input syntax for type interval"

  /** The columns a digest range groups by: origin for Quarterly, origin and
      category for Monthly, all three otherwise. */
  function GroupKey(fb: Feedback, dr: DigestRange): (g: FeedbackGroup)
    ensures g.origin == fb.origin
    ensures g.category == (if dr == Quarterly then "" else fb.category)
    ensures g.prompt == (if dr == Quarterly || dr == Monthly then "" else fb.prompt)
  {
    if dr == Quarterly then FeedbackGroup("", fb.origin, "")
    else if dr == Monthly then FeedbackGroup("", fb.origin, fb.category)
    else FeedbackGroup(fb.prompt, fb.origin, fb.category)
  }

  /** The distinct group keys of the live rows inside `w`. */
  function GroupsIn(table: seq<Feedback>, workspace: string, w: Window, dr: DigestRange): (r: seq<FeedbackGroup>)
    ensures forall g :: g in r <==>
              exists x :: x in table && Live(x, workspace) && InWindow(x.createdAt, w) && GroupKey(x, dr) == g
    ensures forall i, j :: 0 <= i < j < |r| ==> r[i] != r[j]
  {
    var rows := Select(table, (x: Feedback) => Live(x, workspace) && InWindow(x.createdAt, w));
    var key := (x: Feedback) => GroupKey(x, dr);
    forall g ensures g in MapSeq(rows, key) <==> exists x :: x in rows && key(x) == g {
      MapSeqMembers(rows, key, g);
    }
    Distinct(MapSeq(rows, key))
  }

  /** The window `GetFeedbackGroups` uses for each SQL branch, in the order
      of its `switch`. Weekly and Last7d are the same string, so Weekly takes
      the Last7d branch. */
  function GroupWindow(dr: DigestRange, i: Interval, today: CivilDate): Window {
    var t := DayNumber(today);
    var m := MonthIndex(today);
    if dr == Quarterly || dr == Monthly then Months(m - IntervalMonths(i), m)
    else if dr == Last7d || dr == Last30d then DaysFrom(t - IntervalDays(i))
    else Days(t - IntervalDays(i), t)
  }

  /** `GetFeedbackGroups`, as written. */
  function GetFeedbackGroups(table: seq<Feedback>, workspace: string, dr: DigestRange, today: CivilDate)
    : (r: Result<seq<FeedbackGroup>, string>)
    ensures r.Ok? <==> IntervalOf(dr).Some?
    ensures r.Ok? ==> forall g :: g in r.value <==>
              exists x :: x in table && Live(x, workspace)
                          && InWindow(x.createdAt, GroupWindow(dr, IntervalOf(dr).value, today))
                          && GroupKey(x, dr) == g
  {
    match IntervalOf(dr)
    case None => Err(BadInterval)
    case Some(i) => Ok(GroupsIn(table, workspace, GroupWindow(dr, i, today), dr))
  }

  /** As written, the weekly digest's groups include today's feedback, which
      the weekly stats never count: a single row from today yields a group
      whose weekly stats show no responses. */
  lemma WeeklyGroupsIncludeToday(fb: Feedback, today: CivilDate)
    requires fb.inProduction && fb.createdAt.date == today
    ensures GetFeedbackGroups([fb], fb.workspace, Weekly, today).Ok?
    ensures var g := FeedbackGroup(fb.prompt, fb.origin, fb.category);
            g in GetFeedbackGroups([fb], fb.workspace, Weekly, today).value
            && WeeklyFeedbackStats([fb], fb.workspace, g.origin, g.category, g.prompt, today).nFeedback == 0
  {
    var g := FeedbackGroup(fb.prompt, fb.origin, fb.category);
    assert GroupKey(fb, Weekly) == g;
    assert fb in [fb];
    var (cur, _) := WeeklyWindows(today);
    var rows := PeriodRows([fb], fb.workspace, fb.origin, fb.category, Some(fb.prompt), cur, "");
    assert rows == [];
  }

  /** The weekly digest's groups as intended by the `default` branch: the
      seven days before today. */
  function WeeklyFeedbackGroups(table: seq<Feedback>, workspace: string, today: CivilDate): (r: seq<FeedbackGroup>)
    ensures forall g :: g in r <==>
              exists x :: x in table && Live(x, workspace)
                          && InWindow(x.createdAt, WeeklyWindows(today).0) && GroupKey(x, Weekly) == g
    ensures forall i, j :: 0 <= i < j < |r| ==> r[i] != r[j]
  {
    GroupsIn(table, workspace, WeeklyWindows(today).0, Weekly)
  }

  /** With the intended window every weekly group has responses in the
      period its stats cover. */
  lemma WeeklyGroupsHaveStats(table: seq<Feedback>, workspace: string, today: CivilDate, g: FeedbackGroup)
    requires g in WeeklyFeedbackGroups(table, workspace, today)
    ensures WeeklyFeedbackStats(table, workspace, g.origin, g.category, g.prompt, today).nFeedback > 0
  {
    var x :| x in table && Live(x, workspace) && InWindow(x.createdAt, WeeklyWindows(today).0)
             && GroupKey(x, Weekly) == g;
    var rows := PeriodRows(table, workspace, g.origin, g.category, Some(g.prompt), WeeklyWindows(today).0, "");
    assert x in rows;
  }

  /** `GetFeedbackGroupsWithFilters`: distinct (origin, category, prompt)
      of the rows in [from, to) that pass the filters. */
  function FilteredGroups(table: seq<Feedback>, workspace: string, from: Instant, to: Instant,
                          origin: string, category: string, prompt: string, thumb: string)
    : (r: seq<FeedbackGroup>)
    ensures forall g :: g in r <==>
              exists x :: x in table && Live(x, workspace) && InWindow(x.createdAt, Between(from, to))
                          && MatchesFilters(x, origin, category, prompt, thumb)
                          && g == FeedbackGroup(x.prompt, x.origin, x.category)
    ensures forall i, j :: 0 <= i < j < |r| ==> r[i] != r[j]
  {
    var rows := Select(table, (x: Feedback) => MatchesFilters(x, origin, category, prompt, thumb));
    var r := GroupsIn(rows, workspace, Between(from, to), Last7d);
    assert forall x :: GroupKey(x, Last7d) == FeedbackGroup(x.prompt, x.origin, x.category);
    r
  }

  // ---------------------------------------------------------------------------
  // Summaries
  // ---------------------------------------------------------------------------

  /** A row of the `summaries` table. */
  datatype StoredSummary = StoredSummary(workspace: string, row: SummaryRow)

  /** The window `GetSummariesByWorkspace` applies to `summary_date`. */
  function SummaryWindow(dr: DigestRange, i: Interval, today: CivilDate): Window {
    var t := DayNumber(today);
    var m := MonthIndex(today);
    if dr == Monthly || dr == Quarterly then Months(m - IntervalMonths(i), m)
    else Days(t - IntervalDays(i), t)
  }

  function SelectSummaries(table: seq<StoredSummary>, workspace: string, w: Window): (r: seq<SummaryRow>)
    ensures forall s :: s in r <==> StoredSummary(workspace, s) in table && DateInWindow(s.summaryDate, w)
  {
    if |table| == 0 then []
    else
      var rest := SelectSummaries(table[1..], workspace, w);
      var head := table[0];
      assert forall s :: StoredSummary(workspace, s) in table <==>
                           StoredSummary(workspace, s) == head || StoredSummary(workspace, s) in table[1..];
      if head.workspace == workspace && DateInWindow(head.row.summaryDate, w) then [head.row] + rest else rest
  }

  /** `GetSummariesByWorkspace`. */
  function GetSummariesByWorkspace(table: seq<StoredSummary>, workspace: string, dr: DigestRange,
                                   today: CivilDate): (r: Result<seq<SummaryRow>, string>)
    ensures r.Ok? <==> IntervalOf(dr).Some?
    ensures r.Ok? ==> forall s :: s in r.value <==>
              StoredSummary(workspace, s) in table
              && DateInWindow(s.summaryDate, SummaryWindow(dr, IntervalOf(dr).value, today))
  {
    match IntervalOf(dr)
    case None => Err(BadInterval)
    case Some(i) => Ok(SelectSummaries(table, workspace, SummaryWindow(dr, i, today)))
  }

  /** The daily digest reads exactly yesterday's summaries. */
  lemma DailySummariesAreYesterdays(table: seq<StoredSummary>, workspace: string, today: CivilDate, s: SummaryRow)
    ensures GetSummariesByWorkspace(table, workspace, Daily, today).Ok?
    ensures s in GetSummariesByWorkspace(table, workspace, Daily, today).value <==>
              StoredSummary(workspace, s) in table && DayNumber(s.summaryDate) == DayNumber(today) - 1
  {
  }

  /** The monthly and quarterly digests read whole calendar months: the
      previous one, or the previous three. */
  lemma MonthlySummariesAreLastMonths(table: seq<StoredSummary>, workspace: string, today: CivilDate, s: SummaryRow)
    ensures var r := GetSummariesByWorkspace(table, workspace, Monthly, today);
            r.Ok? && (s in r.value <==> StoredSummary(workspace, s) in table
                                        && MonthIndex(s.summaryDate) == MonthIndex(today) - 1)
    ensures var r := GetSummariesByWorkspace(table, workspace, Quarterly, today);
            r.Ok? && (s in r.value <==> StoredSummary(workspace, s) in table
                                        && MonthIndex(today) - 3 <= MonthIndex(s.summaryDate) < MonthIndex(today))
  {
  }

  // ---------------------------------------------------------------------------
  // Home tab
  // ---------------------------------------------------------------------------

  datatype HomeTabData = HomeTabData(origins: seq<string>, categories: seq<string>, prompts: seq<string>,
                                     feedbackCount: nat, commentCount: nat)

  function Column(rows: seq<Feedback>, f: Feedback -> string): (r: seq<string>)
    ensures forall v :: v in r <==> exists x :: x in rows && f(x) == v
    ensures forall i, j :: 0 <= i < j < |r| ==> r[i] != r[j]
  {
    forall v ensures v in MapSeq(rows, f) <==> exists x :: x in rows && f(x) == v {
      MapSeqMembers(rows, f, v);
    }
    Distinct(MapSeq(rows, f))
  }

  /** The live rows of a workspace inside a window. */
  function LiveIn(table: seq<Feedback>, workspace: string, w: Window): (r: seq<Feedback>)
    ensures forall x :: x in r <==> x in table && Live(x, workspace) && InWindow(x.createdAt, w)
  {
    Select(table, LiveFilter(workspace, w))
  }

  /** The WHERE clause of `LiveIn`. */
  function LiveFilter(workspace: string, w: Window): Feedback -> bool {
    (x: Feedback) => Live(x, workspace) && InWindow(x.createdAt, w)
  }

  /** The WHERE clause of the user's filters on the home tab. */
  function FilterBy(origin: string, category: string, prompt: string, thumb: string): Feedback -> bool {
    (x: Feedback) => MatchesFilters(x, origin, category, prompt, thumb)
  }

  /** `COUNT(*)` over a WHERE clause: selecting keeps as many rows as
      satisfy it. */
  lemma {:induction false} SelectCount(rows: seq<Feedback>, p: Feedback -> bool)
    ensures |Select(rows, p)| == CountIf(rows, p)
    decreases |rows|
  {
    if |rows| > 0 {
      SelectCount(rows[1..], p);
    }
  }

  /** Counting over a selection counts the rows that pass both conditions. */
  lemma {:induction false} CountSelect(rows: seq<Feedback>, p: Feedback -> bool, q: Feedback -> bool,
                                       pq: Feedback -> bool)
    requires forall x :: pq(x) == (p(x) && q(x))
    ensures CountIf(Select(rows, p), q) == CountIf(rows, pq)
    decreases |rows|
  {
    if |rows| > 0 {
      var head := if p(rows[0]) then [rows[0]] else [];
      assert Select(rows, p) == head + Select(rows[1..], p);
      CountIfAppend(head, Select(rows[1..], p), q);
      CountSelect(rows[1..], p, q, pq);
    }
  }

  /** Counting over two selections counts the rows that pass all three
      conditions. */
  lemma {:induction false} CountSelectTwice(rows: seq<Feedback>, p: Feedback -> bool, q: Feedback -> bool,
                                            c: Feedback -> bool, pqc: Feedback -> bool)
    requires forall x :: pqc(x) == (p(x) && q(x) && c(x))
    ensures CountIf(Select(Select(rows, p), q), c) == CountIf(rows, pqc)
  {
    var qc := (x: Feedback) => q(x) && c(x);
    CountSelect(Select(rows, p), q, c, qc);
    CountSelect(rows, p, qc, pqc);
  }

  /** The distinct values of `f` over the rows of `base` that `keep` accepts. */
  function Choices(base: seq<Feedback>, keep: Feedback -> bool, f: Feedback -> string): (r: seq<string>)
    ensures forall v :: v in r <==> exists x :: x in base && keep(x) && f(x) == v
    ensures forall i, j :: 0 <= i < j < |r| ==> r[i] != r[j]
  {
    Column(Select(base, keep), f)
  }

  /** `GetHomeTabData`: each list of choices applies every filter except its
      own; the counts apply all of them (the comment count also needs a
      comment). No per-user reduction here. */
  function GetHomeTabData(table: seq<Feedback>, workspace: string, from: Instant, to: Instant,
                          origin: string, category: string, prompt: string, thumb: string): (h: HomeTabData)
    ensures h.commentCount <= h.feedbackCount <= |table|
  {
    var base := LiveIn(table, workspace, Between(from, to));
    var all := Select(base, FilterBy(origin, category, prompt, thumb));
    var commented := Select(all, HasComment);
    HomeTabData(
      Choices(base, (x: Feedback) => MatchesFilters(x, "", category, prompt, thumb), (x: Feedback) => x.origin),
      Choices(base, (x: Feedback) => MatchesFilters(x, origin, "", prompt, thumb), (x: Feedback) => x.category),
      Choices(base, (x: Feedback) => MatchesFilters(x, origin, category, "", thumb), (x: Feedback) => x.prompt),
      |all|, |commented|)
  }

  /** The counts are exact: `COUNT(*)` of the live rows of the workspace in
      `[from, to)` that pass all four filters, and the same restricted to
      rows with a comment. */
  lemma HomeCounts(table: seq<Feedback>, workspace: string, from: Instant, to: Instant,
                   origin: string, category: string, prompt: string, thumb: string)
    ensures var h := GetHomeTabData(table, workspace, from, to, origin, category, prompt, thumb);
            h.feedbackCount == CountIf(table, (x: Feedback) => Live(x, workspace) && InWindow(x.createdAt, Between(from, to))
                                                          && MatchesFilters(x, origin, category, prompt, thumb))
            && h.commentCount == CountIf(table, (x: Feedback) => Live(x, workspace) && InWindow(x.createdAt, Between(from, to))
                                                             && MatchesFilters(x, origin, category, prompt, thumb)
                                                             && x.comment.Some?)
  {
    var live := LiveFilter(workspace, Between(from, to));
    var filters := FilterBy(origin, category, prompt, thumb);
    var all := Select(Select(table, live), filters);
    SelectCount(Select(table, live), filters);
    CountSelect(table, live, filters, (x: Feedback) => Live(x, workspace) && InWindow(x.createdAt, Between(from, to))
                                                       && MatchesFilters(x, origin, category, prompt, thumb));
    SelectCount(all, HasComment);
    CountSelectTwice(table, live, filters, HasComment,
                     (x: Feedback) => Live(x, workspace) && InWindow(x.createdAt, Between(from, to))
                                      && MatchesFilters(x, origin, category, prompt, thumb)
                                      && x.comment.Some?);
  }

  /** The offered origins are those of live feedback in the window that
      passes every filter but the origin filter. */
  lemma HomeOrigins(table: seq<Feedback>, workspace: string, from: Instant, to: Instant,
                    origin: string, category: string, prompt: string, thumb: string)
    ensures forall o :: o in GetHomeTabData(table, workspace, from, to, origin, category, prompt, thumb).origins <==>
              exists x :: x in table && Live(x, workspace) && InWindow(x.createdAt, Between(from, to))
                          && MatchesFilters(x, "", category, prompt, thumb) && x.origin == o
  {
  }

  /** The offered categories ignore only the category filter. */
  lemma HomeCategories(table: seq<Feedback>, workspace: string, from: Instant, to: Instant,
                       origin: string, category: string, prompt: string, thumb: string)
    ensures forall c :: c in GetHomeTabData(table, workspace, from, to, origin, category, prompt, thumb).categories <==>
              exists x :: x in table && Live(x, workspace) && InWindow(x.createdAt, Between(from, to))
                          && MatchesFilters(x, origin, "", prompt, thumb) && x.category == c
  {
  }

  /** The offered prompts ignore only the prompt filter. */
  lemma HomePrompts(table: seq<Feedback>, workspace: string, from: Instant, to: Instant,
                    origin: string, category: string, prompt: string, thumb: string)
    ensures forall p :: p in GetHomeTabData(table, workspace, from, to, origin, category, prompt, thumb).prompts <==>
              exists x :: x in table && Live(x, workspace) && InWindow(x.createdAt, Between(from, to))
                          && MatchesFilters(x, origin, category, "", thumb) && x.prompt == p
  {
  }

  /** A selection that matches some feedback is among the offered choices,
      so the explore tab keeps it. */
  lemma MatchedSelectionOffered(table: seq<Feedback>, workspace: string, from: Instant, to: Instant,
                                origin: string, category: string, prompt: string, thumb: string, x: Feedback)
    requires x in table && Live(x, workspace) && InWindow(x.createdAt, Between(from, to))
    requires MatchesFilters(x, origin, category, prompt, thumb)
    ensures var h := GetHomeTabData(table, workspace, from, to, origin, category, prompt, thumb);
            (origin != "" ==> origin in h.origins) && (category != "" ==> category in h.categories)
            && (prompt != "" ==> prompt in h.prompts)
  {
    HomeOrigins(table, workspace, from, to, origin, category, prompt, thumb);
    HomeCategories(table, workspace, from, to, origin, category, prompt, thumb);
    HomePrompts(table, workspace, from, to, origin, category, prompt, thumb);
  }

  /** The offered origins do not depend on the selected origin. */
  lemma OriginsIgnoreOriginFilter(table: seq<Feedback>, workspace: string, from: Instant, to: Instant,
                                  o1: string, o2: string, category: string, prompt: string, thumb: string)
    ensures GetHomeTabData(table, workspace, from, to, o1, category, prompt, thumb).origins
            == GetHomeTabData(table, workspace, from, to, o2, category, prompt, thumb).origins
  {
  }

  // ---------------------------------------------------------------------------
  // Plot points
  // ---------------------------------------------------------------------------

  /** The first day of the month with index `idx`. */
  function FirstOfMonth(idx: int): (d: CivilDate)
    ensures MonthIndex(d) == idx && d.day == 1
  {
    Date(idx / 12, idx % 12 + 1, 1)
  }

  /** One plotted month: inside `[lo, hi)`, dated the first of its month,
      backed by at least one record, with a percentage and a comment count
      that fit that record count. */
  predicate PlotPoint(p: PlotStats, lo: int, hi: int) {
    lo <= MonthIndex(p.month) < hi && p.month.day == 1 && p.nFeedback > 0
    && 0.0 <= p.thumbsUpPct <= 100.0 && 0 <= p.nComments <= p.nFeedback
  }

  /** Plotted months inside `[lo, hi)`, strictly in month order. */
  predicate PlotSeries(r: seq<PlotStats>, lo: int, hi: int) {
    && (forall i :: 0 <= i < |r| ==> PlotPoint(r[i], lo, hi))
    && (forall i, j :: 0 <= i < j < |r| ==> MonthIndex(r[i].month) < MonthIndex(r[j].month))
  }

  /** A series stays one over a wider window. */
  lemma PlotSeriesWiden(r: seq<PlotStats>, lo: int, hi: int)
    requires PlotSeries(r, lo + 1, hi)
    ensures PlotSeries(r, lo, hi)
  {
  }

  /** The point of month `lo` goes in front of the series of later months. */
  lemma PlotSeriesCons(p: PlotStats, rest: seq<PlotStats>, lo: int, hi: int)
    requires PlotPoint(p, lo, lo + 1) && lo < hi
    requires PlotSeries(rest, lo + 1, hi)
    ensures PlotSeries([p] + rest, lo, hi)
  {
    forall i, j | 0 <= i < j < |rest| + 1
      ensures MonthIndex(([p] + rest)[i].month) < MonthIndex(([p] + rest)[j].month)
    {
      assert ([p] + rest)[j] == rest[j - 1];
    }
  }

  /** `GetMonthlyDigestPlotStats` (with `category`) and
      `GetQuarterlyDigestPlotStats` (without): one point per month, among the
      six before the current one, that has feedback, in month order; every
      record counts (no per-user reduction). */
  function PlotStatsFor(table: seq<Feedback>, workspace: string, origin: string, category: Option<string>,
                        today: CivilDate): (r: seq<PlotStats>)
    ensures |r| <= 6
    ensures PlotSeries(r, MonthIndex(today) - 6, MonthIndex(today))
  {
    PlotFrom(table, workspace, origin, category, MonthIndex(today) - 6, MonthIndex(today))
  }

  /** The records plotted for month `lo`. */
  function MonthRows(table: seq<Feedback>, workspace: string, origin: string, category: Option<string>,
                     lo: int): seq<Feedback>
  {
    if category.None? then
      Select(table, (x: Feedback) => Live(x, workspace) && x.origin == origin
                                     && InWindow(x.createdAt, Months(lo, lo + 1)))
    else
      PeriodRows(table, workspace, origin, category.value, None, Months(lo, lo + 1), "")
  }

  /** A month's records are the live records of the origin (and category,
      when given) created in that month. */
  lemma MonthRowsMembers(table: seq<Feedback>, workspace: string, origin: string, category: Option<string>,
                         lo: int, x: Feedback)
    ensures x in MonthRows(table, workspace, origin, category, lo) <==>
              x in table && Live(x, workspace) && x.origin == origin
              && (category.None? || x.category == category.value) && InWindow(x.createdAt, Months(lo, lo + 1))
  {
  }

  /** The point for month `lo`, when that month has records. */
  function PlotAt(rows: seq<Feedback>, lo: int): (p: PlotStats)
    requires |rows| > 0
    ensures PlotPoint(p, lo, lo + 1) && p.nFeedback == |rows|
  {
    PlotStats(FirstOfMonth(lo), Percent(CountIf(rows, ThumbUpOf), |rows|), |rows|, CountIf(rows, HasComment))
  }

  function PlotFrom(table: seq<Feedback>, workspace: string, origin: string, category: Option<string>,
                    lo: int, hi: int): (r: seq<PlotStats>)
    ensures |r| <= if lo < hi then hi - lo else 0
    ensures PlotSeries(r, lo, hi)
    decreases hi - lo
  {
    if lo >= hi then []
    else
      var rows := MonthRows(table, workspace, origin, category, lo);
      var rest := PlotFrom(table, workspace, origin, category, lo + 1, hi);
      PlotSeriesWiden(rest, lo, hi);
      if |rows| == 0 then rest
      else
        PlotSeriesCons(PlotAt(rows, lo), rest, lo, hi);
        [PlotAt(rows, lo)] + rest
  }

  /** Month `m` has a point in `r`. */
  ghost predicate Plotted(r: seq<PlotStats>, m: int) {
    exists i :: 0 <= i < |r| && MonthIndex(r[i].month) == m
  }

  lemma PlottedCons(p: PlotStats, rest: seq<PlotStats>, m: int)
    ensures Plotted([p] + rest, m) <==> MonthIndex(p.month) == m || Plotted(rest, m)
  {
    if Plotted(rest, m) {
      var i :| 0 <= i < |rest| && MonthIndex(rest[i].month) == m;
      assert ([p] + rest)[i + 1] == rest[i];
    }
    if Plotted([p] + rest, m) && MonthIndex(p.month) != m {
      var i :| 0 <= i < |[p] + rest| && MonthIndex(([p] + rest)[i].month) == m;
      assert rest[i - 1] == ([p] + rest)[i];
    }
    if MonthIndex(p.month) == m {
      assert ([p] + rest)[0] == p;
    }
  }

  lemma PlottedInside(r: seq<PlotStats>, lo: int, hi: int, m: int)
    requires PlotSeries(r, lo, hi) && Plotted(r, m)
    ensures lo <= m < hi
  {
  }

  lemma PlotFromUnfold(table: seq<Feedback>, workspace: string, origin: string,
                       category: Option<string>, lo: int, hi: int)
    requires lo < hi
    ensures var rows := MonthRows(table, workspace, origin, category, lo);
            PlotFrom(table, workspace, origin, category, lo, hi)
            == (if |rows| == 0 then [] else [PlotAt(rows, lo)]) + PlotFrom(table, workspace, origin, category, lo + 1, hi)
  {
  }

  /** A month of the window is plotted exactly when it has records. */
  lemma {:induction false} PlotFromCovers(table: seq<Feedback>, workspace: string, origin: string,
                                          category: Option<string>, lo: int, hi: int, m: int)
    ensures Plotted(PlotFrom(table, workspace, origin, category, lo, hi), m)
            <==> lo <= m < hi && |MonthRows(table, workspace, origin, category, m)| > 0
    decreases hi - lo
  {
    if lo < hi {
      var rows := MonthRows(table, workspace, origin, category, lo);
      var rest := PlotFrom(table, workspace, origin, category, lo + 1, hi);
      PlotFromCovers(table, workspace, origin, category, lo + 1, hi, m);
      PlotFromUnfold(table, workspace, origin, category, lo, hi);
      if |rows| > 0 {
        PlottedCons(PlotAt(rows, lo), rest, m);
      } else if Plotted(rest, m) {
        PlottedInside(rest, lo + 1, hi, m);
      }
    }
  }

  /** Each point counts exactly the records of its month. */
  lemma {:induction false} PlotFromCounts(table: seq<Feedback>, workspace: string, origin: string,
                                          category: Option<string>, lo: int, hi: int, i: nat)
    requires i < |PlotFrom(table, workspace, origin, category, lo, hi)|
    ensures var p := PlotFrom(table, workspace, origin, category, lo, hi)[i];
            p.nFeedback == |MonthRows(table, workspace, origin, category, MonthIndex(p.month))|
    decreases hi - lo
  {
    var rows := MonthRows(table, workspace, origin, category, lo);
    var rest := PlotFrom(table, workspace, origin, category, lo + 1, hi);
    var p := PlotFrom(table, workspace, origin, category, lo, hi)[i];
    PlotFromAt(table, workspace, origin, category, lo, hi, i);
    if |rows| == 0 {
      PlotFromCounts(table, workspace, origin, category, lo + 1, hi, i);
      SamePointSameCount(p, rest[i], table, workspace, origin, category);
    } else if i > 0 {
      PlotFromCounts(table, workspace, origin, category, lo + 1, hi, i - 1);
      SamePointSameCount(p, rest[i - 1], table, workspace, origin, category);
    } else {
      assert p == PlotAt(rows, lo);
    }
  }

  lemma SamePointSameCount(p: PlotStats, q: PlotStats, table: seq<Feedback>, workspace: string, origin: string,
                           category: Option<string>)
    requires p == q
    requires q.nFeedback == |MonthRows(table, workspace, origin, category, MonthIndex(q.month))|
    ensures p.nFeedback == |MonthRows(table, workspace, origin, category, MonthIndex(p.month))|
  {
  }

  /** Where the `i`-th point of a series comes from: the first month's
      point or a point of the rest. */
  lemma {:induction false} PlotFromAt(table: seq<Feedback>, workspace: string, origin: string,
                                          category: Option<string>, lo: int, hi: int, i: nat)
    requires i < |PlotFrom(table, workspace, origin, category, lo, hi)|
    ensures lo < hi
    ensures var rows := MonthRows(table, workspace, origin, category, lo);
            var rest := PlotFrom(table, workspace, origin, category, lo + 1, hi);
            var p := PlotFrom(table, workspace, origin, category, lo, hi)[i];
            if |rows| == 0 then i < |rest| && p == rest[i]
            else if i == 0 then p == PlotAt(rows, lo)
            else i - 1 < |rest| && p == rest[i - 1]
  {
    assert lo < hi;
    var rows := MonthRows(table, workspace, origin, category, lo);
    var rest := PlotFrom(table, workspace, origin, category, lo + 1, hi);
    var head := if |rows| == 0 then [] else [PlotAt(rows, lo)];
    PlotFromUnfold(table, workspace, origin, category, lo, hi);
    var all := PlotFrom(table, workspace, origin, category, lo, hi);
    assert all == head + rest;
    if |rows| == 0 {
      assert all == rest;
    } else {
      ConsAt(PlotAt(rows, lo), rest, i);
    }
  }

  lemma ConsAt<T>(a: T, b: seq<T>, i: nat)
    requires i < |b| + 1
    ensures ([a] + b)[i] == if i == 0 then a else b[i - 1]
  {
  }
}

=== FILE: rate_limiter.dfy ===
/** The per-client token bucket of internal/utils/rate_limiter.go, as pure
    state transitions. Times are nanosecond instants passed in by the
    caller; the mutex and the background cleanup loop are not modelled. */
module RateLimiter {
  datatype Visitor = Visitor(lastSeen: int, tokens: int)

  datatype Limiter = Limiter(visitors: map<string, Visitor>, rate: int, window: int, cleanupInterval: int)

  /** Every visitor holds between 0 and `rate` tokens. */
  predicate TokensInRange(rl: Limiter) {
    rl.rate >= 0 && forall k :: k in rl.visitors ==> 0 <= rl.visitors[k].tokens <= rl.rate
  }

  /** `NewRateLimiter`: no visitors yet. */
  function NewRateLimiter(rate: int, windowSeconds: int, cleanupSeconds: int): (rl: Limiter)
    ensures rl.visitors == map[]
    ensures rl.window == windowSeconds * 1000000000 && rl.cleanupInterval == cleanupSeconds * 1000000000
    ensures rate >= 0 ==> TokensInRange(rl)
  {
    Limiter(map[], rate, windowSeconds * 1000000000, cleanupSeconds * 1000000000)
  }

  /** `getVisitor`: an unknown client is registered with a full bucket. */
  function GetVisitor(rl: Limiter, key: string, now: int): (r: (Limiter, Visitor))
    ensures key in r.0.visitors && r.0.visitors[key] == r.1
    ensures key in rl.visitors ==> r.0 == rl && r.1 == rl.visitors[key]
    ensures key !in rl.visitors ==> r.1 == Visitor(now, rl.rate)
                                    && r.0 == rl.(visitors := rl.visitors[key := r.1])
  {
    if key in rl.visitors then (rl, rl.visitors[key])
    else
      var v := Visitor(now, rl.rate);
      (rl.(visitors := rl.visitors[key := v]), v)
  }

  /** The tokens a visitor holds at `now`, after a refill if more than one
      window has passed since it was last seen. */
  function Refilled(rl: Limiter, v: Visitor, now: int): int {
    if now - v.lastSeen > rl.window then rl.rate else v.tokens
  }

  /** One request through `Limit`: the request passes if and only if the
      (possibly refilled) bucket is non-empty, and passing takes one token;
      the visitor's last-seen time becomes `now` either way, and no other
      visitor changes. */
  function Limit(rl: Limiter, key: string, now: int): (r: (Limiter, bool))
    ensures key in r.0.visitors && r.0.visitors[key].lastSeen == now
    ensures r.0.rate == rl.rate && r.0.window == rl.window && r.0.cleanupInterval == rl.cleanupInterval
    ensures r.0.visitors.Keys == rl.visitors.Keys + {key}
    ensures forall k :: k in rl.visitors && k != key ==> r.0.visitors[k] == rl.visitors[k]
    ensures var before := if key in rl.visitors then Refilled(rl, rl.visitors[key], now) else rl.rate;
            && (r.1 <==> before > 0)
            && r.0.visitors[key].tokens == (if r.1 then before - 1 else before)
    ensures TokensInRange(rl) ==> TokensInRange(r.0)
  {
    var (rl1, v) := GetVisitor(rl, key, now);
    var tokens := Refilled(rl1, v, now);
    var allowed := tokens > 0;
    var v' := Visitor(now, if allowed then tokens - 1 else tokens);
    (rl1.(visitors := rl1.visitors[key := v']), allowed)
  }

  /** One pass of `cleanupVisitors`: forget exactly the visitors idle for
      longer than the cleanup interval. */
  function Cleanup(rl: Limiter, now: int): (r: Limiter)
    ensures r.rate == rl.rate && r.window == rl.window && r.cleanupInterval == rl.cleanupInterval
    ensures forall k :: k in r.visitors <==> k in rl.visitors && now - rl.visitors[k].lastSeen <= rl.cleanupInterval
    ensures forall k :: k in r.visitors ==> r.visitors[k] == rl.visitors[k]
    ensures TokensInRange(rl) ==> TokensInRange(r)
  {
    rl.(visitors := map k | k in rl.visitors && now - rl.visitors[k].lastSeen <= rl.cleanupInterval
                      :: rl.visitors[k])
  }

  /** Feeds requests from one client at the given instants; returns the final
      state and how many passed. */
  function Requests(rl: Limiter, key: string, times: seq<int>): (r: (Limiter, nat))
    ensures r.1 <= |times|
    ensures r.0.rate == rl.rate && r.0.window == rl.window
    decreases |times|
  {
    if |times| == 0 then (rl, 0)
    else
      var (rl1, ok) := Limit(rl, key, times[0]);
      var (rl2, n) := Requests(rl1, key, times[1..]);
      (rl2, n + if ok then 1 else 0)
  }

  /** Requests never more than a window apart pass at most as many times as
      the client had tokens: without a pause longer than the window there is
      no refill. */
  lemma {:induction false} NoRefillWithinWindow(rl: Limiter, key: string, times: seq<int>)
    requires key in rl.visitors && rl.visitors[key].tokens >= 0
    requires |times| > 0 ==> times[0] - rl.visitors[key].lastSeen <= rl.window
    requires forall i :: 0 < i < |times| ==> times[i] - times[i - 1] <= rl.window
    ensures Requests(rl, key, times).1 <= rl.visitors[key].tokens
    decreases |times|
  {
    if |times| > 0 {
      var (rl1, ok) := Limit(rl, key, times[0]);
      assert rl1.visitors[key].lastSeen == times[0];
      NoRefillWithinWindow(rl1, key, times[1..]);
    }
  }
}

=== FILE: sampling.dfy ===
/** Shuffle-then-truncate sampling of an oversized group. `rand.Shuffle` is
    Go's Fisher-Yates loop; the random source is an oracle `draw`, whose
    value at step `i` is reduced to a swap partner `draw(i) % (i + 1)`. */
module Sampling {
  import opened Seqs

  function Swap<T>(s: seq<T>, i: nat, j: nat): (r: seq<T>)
    requires i < |s| && j < |s|
    ensures |r| == |s| && r[i] == s[j] && r[j] == s[i]
    ensures forall k :: 0 <= k < |s| && k != i && k != j ==> r[k] == s[k]
    ensures multiset(r) == multiset(s)
  {
    s[i := s[j]][j := s[i]]
  }

  /** Steps `i`, `i - 1`, ..., 1 of the shuffle. */
  function ShuffleSteps<T>(s: seq<T>, i: nat, draw: nat -> nat): (r: seq<T>)
    requires i < |s|
    ensures |r| == |s| && multiset(r) == multiset(s)
    decreases i
  {
    if i == 0 then s else ShuffleSteps(Swap(s, i, draw(i) % (i + 1)), i - 1, draw)
  }

  /** `rand.Shuffle(len(s), swap)`: a permutation of `s`. */
  function Shuffle<T>(s: seq<T>, draw: nat -> nat): (r: seq<T>)
    ensures |r| == |s| && multiset(r) == multiset(s)
  {
    if |s| == 0 then s else ShuffleSteps(s, |s| - 1, draw)
  }

  lemma PrefixSubMultiset<T>(s: seq<T>, n: nat)
    requires n <= |s|
    ensures multiset(s[..n]) <= multiset(s)
  {
    assert s == s[..n] + s[n..];
  }

  /** A group longer than `limit` is shuffled and cut to `limit` rows; a
      group that fits is used as it is. */
  function Sample<T>(group: seq<T>, limit: nat, draw: nat -> nat): (r: seq<T>)
    ensures |r| == (if |group| > limit then limit else |group|)
    ensures |group| <= limit ==> r == group
  {
    if |group| > limit then Shuffle(group, draw)[..limit] else group
  }

  /** A sample takes rows of the group, each at most as often as the group
      holds it. */
  lemma SampleFromGroup<T>(group: seq<T>, limit: nat, draw: nat -> nat)
    ensures multiset(Sample(group, limit, draw)) <= multiset(group)
    ensures forall x :: x in Sample(group, limit, draw) ==> x in group
  {
    var r := Sample(group, limit, draw);
    if |group| > limit {
      PrefixSubMultiset(Shuffle(group, draw), limit);
    }
    forall x | x in r ensures x in group {
      assert x in multiset(r);
    }
  }

  lemma TwiceCounted<T>(r: seq<T>, i: nat, j: nat)
    requires i < j < |r| && r[i] == r[j]
    ensures multiset(r)[r[i]] >= 2
  {
    assert r == r[..i] + [r[i]] + r[i + 1..];
    assert r[j] in r[i + 1..];
  }

  /** A sample takes each input row at most once. */
  lemma SampleNoDuplicates<T>(group: seq<T>, limit: nat, draw: nat -> nat)
    requires NoDuplicates(group)
    ensures NoDuplicates(Sample(group, limit, draw))
  {
    var r := Sample(group, limit, draw);
    SampleFromGroup(group, limit, draw);
    forall i, j | 0 <= i < j < |r| ensures r[i] != r[j] {
      if r[i] == r[j] {
        TwiceCounted(r, i, j);
        AtMostOnce(group, r[i]);
        assert false;
      }
    }
  }
}

=== FILE: seqs.dfy ===
/** Generic sequence helpers shared by the query and digest models. */
module Seqs {
  /** `f` applied to every element, in order. */
  function MapSeq<A, B>(s: seq<A>, f: A -> B): (r: seq<B>)
    ensures |r| == |s| && forall i :: 0 <= i < |s| ==> r[i] == f(s[i])
  {
    if |s| == 0 then [] else [f(s[0])] + MapSeq(s[1..], f)
  }

  lemma MapSeqMembers<A, B>(s: seq<A>, f: A -> B, y: B)
    ensures y in MapSeq(s, f) <==> exists x :: x in s && f(x) == y
  {
    var r := MapSeq(s, f);
    if y in r {
      var i :| 0 <= i < |r| && r[i] == y;
      assert s[i] in s;
    }
    if exists x :: x in s && f(x) == y {
      var x :| x in s && f(x) == y;
      var i :| 0 <= i < |s| && s[i] == x;
      assert r[i] == y;
    }
  }

  /** Indexing into the middle part of a concatenation. */
  lemma MiddleAt<T>(a: seq<T>, b: seq<T>, c: seq<T>, k: nat)
    requires k < |b|
    ensures (a + b + c)[|a| + k] == b[k]
  {
  }

  /** `f` and then `g` of every element, in order. */
  function Interleave<A, B>(s: seq<A>, f: A -> B, g: A -> B): (r: seq<B>)
    ensures |r| == 2 * |s|
  {
    if |s| == 0 then [] else [f(s[0]), g(s[0])] + Interleave(s[1..], f, g)
  }

  /** Element `i` occupies places `2 * i` and `2 * i + 1`. */
  lemma {:induction false} InterleaveAt<A, B>(s: seq<A>, f: A -> B, g: A -> B, i: nat)
    requires i < |s|
    ensures Interleave(s, f, g)[2 * i] == f(s[i])
    ensures Interleave(s, f, g)[2 * i + 1] == g(s[i])
    decreases i
  {
    if i > 0 {
      InterleaveAt(s[1..], f, g, i - 1);
      assert s[1..][i - 1] == s[i];
    }
  }

  /** First occurrences, in order. */
  function Distinct<T(==, !new)>(s: seq<T>): (r: seq<T>)
    ensures forall x :: x in r <==> x in s
    ensures forall i, j :: 0 <= i < j < |r| ==> r[i] != r[j]
    ensures |r| <= |s|
  {
    if |s| == 0 then []
    else
      var init := Distinct(s[..|s| - 1]);
      assert s == s[..|s| - 1] + [s[|s| - 1]];
      if s[|s| - 1] in init then init else init + [s[|s| - 1]]
  }
  /** The first `n` elements, or all of them when there are fewer: Go's
      `if len(s) > n { s = s[:n] }`. */
  function Take<T>(s: seq<T>, n: nat): (r: seq<T>)
    ensures |r| == (if |s| > n then n else |s|)
    ensures forall i :: 0 <= i < |r| ==> r[i] == s[i]
    ensures |s| <= n ==> r == s
  {
    if |s| > n then s[..n] else s
  }

  /** No element occurs twice. */
  predicate NoDuplicates<T(==)>(s: seq<T>) {
    forall i, j :: 0 <= i < j < |s| ==> s[i] != s[j]
  }

  lemma {:induction false} AtMostOnce<T>(s: seq<T>, x: T)
    requires NoDuplicates(s)
    ensures multiset(s)[x] <= 1
    decreases |s|
  {
    if |s| > 0 {
      assert s == [s[0]] + s[1..];
      AtMostOnce(s[1..], x);
      if s[0] == x {
        assert x !in s[1..];
      }
    }
  }

  /** Two duplicate-free sequences with the same elements are permutations
      of each other. */
  lemma SameElementsPermutation<T>(a: seq<T>, b: seq<T>)
    requires NoDuplicates(a) && NoDuplicates(b)
    requires forall x :: x in a <==> x in b
    ensures multiset(a) == multiset(b)
  {
    forall x ensures multiset(a)[x] == multiset(b)[x] {
      AtMostOnce(a, x);
      AtMostOnce(b, x);
      assert x in a <==> x in multiset(a);
      assert x in b <==> x in multiset(b);
    }
  }

  /** The number of elements that satisfy `p`. */
  function CountIf<T>(s: seq<T>, p: T -> bool): (n: nat)
    ensures n <= |s|
  {
    if |s| == 0 then 0 else (if p(s[0]) then 1 else 0) + CountIf(s[1..], p)
  }

  /** The count is zero exactly when no element satisfies `p`, and the
      whole length exactly when every element does. */
  lemma {:induction false} CountIfExtremes<T>(s: seq<T>, p: T -> bool)
    ensures CountIf(s, p) == 0 <==> forall i :: 0 <= i < |s| ==> !p(s[i])
    ensures CountIf(s, p) == |s| <==> forall i :: 0 <= i < |s| ==> p(s[i])
    decreases |s|
  {
    if |s| > 0 {
      CountIfExtremes(s[1..], p);
      assert forall i :: 1 <= i < |s| ==> s[i] == s[1..][i - 1];
    }
  }

  lemma {:induction false} CountIfAppend<T>(a: seq<T>, b: seq<T>, p: T -> bool)
    ensures CountIf(a + b, p) == CountIf(a, p) + CountIf(b, p)
    decreases |a|
  {
    if |a| == 0 {
      assert a + b == b;
    } else {
      assert (a + b)[1..] == a[1..] + b;
      CountIfAppend(a[1..], b, p);
    }
  }
}

=== FILE: slack.dfy ===
/** Chunked delivery of a Block Kit message (integrations/slack.go). The
    JSON byte size of a `{"channel", "blocks"}` payload and the HTTP call
    that posts one chunk are oracles passed in by the caller. */
module Slack {
  import opened Wrappers
  import opened Text
  import opened Blocks

  const MaxBlocks: nat := 50
  /** Slack's limit on the marshalled payload of rich-text messages. */
  const MaxChars: nat := 13200

  /** Byte length of `json.Marshal({"channel": channel, "blocks": bs})`. */
  type PayloadSize = (string, seq<Block>) -> nat

  /** Posts one chunk: (bot token, channel, blocks) to success or an error. */
  type PostMessage = (string, string, seq<Block>) -> Outcome<string>

  function Flatten(chunks: seq<seq<Block>>): seq<Block> {
    if |chunks| == 0 then [] else chunks[0] + Flatten(chunks[1..])
  }

  lemma {:induction false} FlattenAppend(a: seq<seq<Block>>, b: seq<seq<Block>>)
    ensures Flatten(a + b) == Flatten(a) + Flatten(b)
    decreases |a|
  {
    if |a| == 0 {
      assert a + b == b;
    } else {
      assert (a + b)[1..] == a[1..] + b;
      FlattenAppend(a[1..], b);
    }
  }

  /** A chunk Slack accepts as one message. */
  predicate Fits(channel: string, bs: seq<Block>, size: PayloadSize) {
    |bs| <= MaxBlocks && size(channel, bs) <= MaxChars
  }

  /** Each chunk is non-empty, and fits unless it is a single block. */
  predicate AcceptableChunks(chunks: seq<seq<Block>>, channel: string, size: PayloadSize) {
    forall i :: 0 <= i < |chunks| ==> |chunks[i]| > 0 && (Fits(channel, chunks[i], size) || |chunks[i]| == 1)
  }

  lemma AcceptableJoin(left: seq<seq<Block>>, right: seq<seq<Block>>, channel: string, size: PayloadSize)
    requires AcceptableChunks(left, channel, size) && AcceptableChunks(right, channel, size)
    ensures AcceptableChunks(left + right, channel, size)
  {
    forall i | 0 <= i < |left + right|
      ensures |(left + right)[i]| > 0 && (Fits(channel, (left + right)[i], size) || |(left + right)[i]| == 1)
    {
      if i >= |left| {
        assert (left + right)[i] == right[i - |left|];
      }
    }
  }

  /** `chunkBlocks`: emit the list if it fits; otherwise, unless it is a
      single block, split it at len/2 and chunk both halves in order. */
  function ChunkBlocks(bs: seq<Block>, channel: string, size: PayloadSize): (chunks: seq<seq<Block>>)
    ensures Flatten(chunks) == bs
    ensures AcceptableChunks(chunks, channel, size)
    ensures chunks == [] <==> bs == []
    ensures Fits(channel, bs, size) && bs != [] ==> chunks == [bs]
    decreases |bs|
  {
    if |bs| == 0 then []
    else if Fits(channel, bs, size) then [bs]
    else if |bs| == 1 then [bs]
    else
      var mid := |bs| / 2;
      var left := ChunkBlocks(bs[..mid], channel, size);
      var right := ChunkBlocks(bs[mid..], channel, size);
      FlattenAppend(left, right);
      AcceptableJoin(left, right, channel, size);
      assert bs == bs[..mid] + bs[mid..];
      left + right
  }

  /** What a send did: the chunks posted, in order, and the final outcome. */
  datatype Delivery = Delivery(posted: seq<seq<Block>>, outcome: Outcome<string>)

  /** Every chunk of `parts` posts successfully. */
  predicate AllPosted(botToken: string, channel: string, parts: seq<seq<Block>>, post: PostMessage) {
    forall k :: 0 <= k < |parts| ==> post(botToken, channel, parts[k]).Pass?
  }

  function PartError(part: nat, parts: nat, e: string): string {
    "failed to send message part " + NatToString(part) + "/" + NatToString(parts) + ": " + e
  }

  /** `SendBlockKitMessage`: posts the chunks in order and stops at the first
      failure, reporting "failed to send message part i/n: <error>" with
      `i` the failing part counted from 1 and `n` the number of chunks. */
  function SendBlockKitMessage(botToken: string, channel: string, bs: seq<Block>,
                               size: PayloadSize, post: PostMessage): (d: Delivery)
    ensures var chunks := ChunkBlocks(bs, channel, size);
            && |d.posted| <= |chunks| && d.posted == chunks[..|d.posted|]
            && (d.outcome.Pass? <==> d.posted == chunks && AllPosted(botToken, channel, chunks, post))
            && (d.outcome.Fail? ==>
                  |d.posted| > 0
                  && post(botToken, channel, d.posted[|d.posted| - 1]).Fail?
                  && d.outcome.error == PartError(|d.posted|, |chunks|, post(botToken, channel, d.posted[|d.posted| - 1]).error))
  {
    var chunks := ChunkBlocks(bs, channel, size);
    var sent := SendParts(botToken, channel, chunks, post);
    match sent.outcome
    case Pass => sent
    case Fail(e) => Delivery(sent.posted, Fail(PartError(|sent.posted|, |chunks|, e)))
  }

  /** The loop over the chunks: posts them in order until one fails, whose
      own error is the outcome. */
  function SendParts(botToken: string, channel: string, parts: seq<seq<Block>>, post: PostMessage): (d: Delivery)
    ensures |d.posted| <= |parts| && d.posted == parts[..|d.posted|]
    ensures d.outcome.Pass? <==> d.posted == parts && AllPosted(botToken, channel, parts, post)
    ensures d.outcome.Fail? ==> |d.posted| > 0 && post(botToken, channel, d.posted[|d.posted| - 1]) == d.outcome
    decreases |parts|
  {
    if |parts| == 0 then Delivery([], Pass)
    else
      match post(botToken, channel, parts[0])
      case Fail(e) => Delivery([parts[0]], Fail(e))
      case Pass =>
        var rest := SendParts(botToken, channel, parts[1..], post);
        SendStep(botToken, channel, parts, rest.posted, post);
        Delivery([parts[0]] + rest.posted, rest.outcome)
  }

  lemma SendStep(botToken: string, channel: string, parts: seq<seq<Block>>, posted: seq<seq<Block>>,
                 post: PostMessage)
    requires |parts| > 0 && post(botToken, channel, parts[0]).Pass?
    requires |posted| <= |parts| - 1 && posted == parts[1..][..|posted|]
    ensures [parts[0]] + posted == parts[..|posted| + 1]
    ensures [parts[0]] + posted == parts <==> posted == parts[1..]
    ensures AllPosted(botToken, channel, parts, post) <==> AllPosted(botToken, channel, parts[1..], post)
    ensures |posted| > 0 ==> ([parts[0]] + posted)[|posted|] == posted[|posted| - 1]
  {
    assert parts == [parts[0]] + parts[1..];
    if AllPosted(botToken, channel, parts[1..], post) {
      forall k | 0 <= k < |parts| ensures post(botToken, channel, parts[k]).Pass? {
        if k > 0 {
          assert parts[k] == parts[1..][k - 1];
        }
      }
    }
  }

  /** Every chunk posted before the last one went through. */
  lemma {:induction false} SendPartsPassedBefore(botToken: string, channel: string, parts: seq<seq<Block>>,
                                                 post: PostMessage)
    ensures forall k :: 0 <= k < |SendParts(botToken, channel, parts, post).posted| - 1 ==>
              post(botToken, channel, SendParts(botToken, channel, parts, post).posted[k]).Pass?
    decreases |parts|
  {
    if |parts| > 0 && post(botToken, channel, parts[0]).Pass? {
      var rest := SendParts(botToken, channel, parts[1..], post);
      SendPartsPassedBefore(botToken, channel, parts[1..], post);
      var posted := [parts[0]] + rest.posted;
      assert SendParts(botToken, channel, parts, post).posted == posted;
      forall k | 0 <= k < |posted| - 1 ensures post(botToken, channel, posted[k]).Pass? {
        if k > 0 {
          assert posted[k] == rest.posted[k - 1];
        } else {
          assert posted[k] == parts[0];
        }
      }
    }
  }

  /** The same, for the whole send. */
  lemma SendPassedBeforeFailure(botToken: string, channel: string, bs: seq<Block>,
                                size: PayloadSize, post: PostMessage)
    ensures var d := SendBlockKitMessage(botToken, channel, bs, size, post);
            forall k :: 0 <= k < |d.posted| - 1 ==> post(botToken, channel, d.posted[k]).Pass?
  {
    SendPartsPassedBefore(botToken, channel, ChunkBlocks(bs, channel, size), post);
  }
}

=== FILE: sorting.dfy ===
/** Ordering of digest entries. Every `sort.Slice` in the pipeline compares
    a tuple of string fields lexicographically (origin, then category, then
    prompt), so a sort key here is a sequence of strings compared field by
    field with Go's string order. */
module Sorting {
  import opened Text

  /** Lexicographic order on keys, field by field. */
  predicate KeyLt(a: seq<string>, b: seq<string>)
    decreases |a|
  {
    |b| > 0 && (|a| == 0 || StrLt(a[0], b[0]) || (a[0] == b[0] && KeyLt(a[1..], b[1..])))
  }

  predicate KeyLe(a: seq<string>, b: seq<string>) {
    a == b || KeyLt(a, b)
  }

  lemma {:induction false} KeyLtIrreflexive(a: seq<string>)
    ensures !KeyLt(a, a)
    decreases |a|
  {
    if |a| > 0 {
      StrLtIrreflexive(a[0]);
      KeyLtIrreflexive(a[1..]);
    }
  }

  lemma {:induction false} KeyLtTransitive(a: seq<string>, b: seq<string>, c: seq<string>)
    requires KeyLt(a, b) && KeyLt(b, c)
    ensures KeyLt(a, c)
    decreases |a|
  {
    if |a| > 0 {
      if StrLt(a[0], b[0]) && StrLt(b[0], c[0]) {
        StrLtTransitive(a[0], b[0], c[0]);
      } else if a[0] == b[0] && b[0] == c[0] {
        KeyLtTransitive(a[1..], b[1..], c[1..]);
      }
    }
  }

  lemma {:induction false} KeyLtTotal(a: seq<string>, b: seq<string>)
    ensures a == b || KeyLt(a, b) || KeyLt(b, a)
    decreases |a|
  {
    if |a| > 0 && |b| > 0 {
      StrLtTotal(a[0], b[0]);
      if a[0] == b[0] {
        KeyLtTotal(a[1..], b[1..]);
        if a[1..] == b[1..] {
          assert a == [a[0]] + a[1..] && b == [b[0]] + b[1..];
        }
      }
    }
  }

  lemma KeyLeTransitive(a: seq<string>, b: seq<string>, c: seq<string>)
    requires KeyLe(a, b) && KeyLe(b, c)
    ensures KeyLe(a, c)
  {
    if KeyLt(a, b) && KeyLt(b, c) {
      KeyLtTransitive(a, b, c);
    }
  }

  lemma KeyLeAntisymmetric(a: seq<string>, b: seq<string>)
    requires KeyLe(a, b) && KeyLe(b, a)
    ensures a == b
  {
    if a != b {
      KeyLtTransitive(a, b, a);
      KeyLtIrreflexive(a);
    }
  }

  /** `s` is in non-decreasing key order. */
  predicate SortedBy<T>(s: seq<T>, key: T -> seq<string>) {
    forall i, j :: 0 <= i < j < |s| ==> KeyLe(key(s[i]), key(s[j]))
  }

  /** Every element of `s` has a key at least `lo`. */
  predicate AllAbove<T>(lo: seq<string>, s: seq<T>, key: T -> seq<string>) {
    forall j :: 0 <= j < |s| ==> KeyLe(lo, key(s[j]))
  }

  /** Putting an element no greater than every key in front keeps the order. */
  lemma ConsSorted<T>(y: T, t: seq<T>, key: T -> seq<string>)
    requires SortedBy(t, key) && AllAbove(key(y), t, key)
    ensures SortedBy([y] + t, key)
  {
    forall i, j | 0 <= i < j < |t| + 1 ensures KeyLe(key(([y] + t)[i]), key(([y] + t)[j])) {
      if i > 0 {
        assert ([y] + t)[i] == t[i - 1];
      }
      assert ([y] + t)[j] == t[j - 1];
    }
  }

  /** The head of a sorted sequence bounds all of it. */
  lemma HeadBelowAll<T>(x: T, s: seq<T>, key: T -> seq<string>)
    requires |s| > 0 && SortedBy(s, key) && KeyLe(key(x), key(s[0]))
    ensures AllAbove(key(x), s, key)
  {
    forall j | 0 <= j < |s| ensures KeyLe(key(x), key(s[j])) {
      if j > 0 {
        KeyLeTransitive(key(x), key(s[0]), key(s[j]));
      }
    }
  }

  /** A bound on `rest` and on `x` bounds any rearrangement of `rest + [x]`. */
  lemma BoundByMultiset<T>(lo: seq<string>, rest: seq<T>, x: T, t: seq<T>, key: T -> seq<string>)
    requires AllAbove(lo, rest, key) && KeyLe(lo, key(x))
    requires multiset(t) == multiset(rest) + multiset{x}
    ensures AllAbove(lo, t, key)
  {
    forall j | 0 <= j < |t| ensures KeyLe(lo, key(t[j])) {
      assert t[j] in multiset(t);
      if t[j] != x {
        assert t[j] in multiset(rest);
        var k :| 0 <= k < |rest| && rest[k] == t[j];
      }
    }
  }

  /** Inserts `x` before the first element whose key is not below it. */
  function Insert<T>(x: T, s: seq<T>, key: T -> seq<string>): (r: seq<T>)
    requires SortedBy(s, key)
    ensures SortedBy(r, key)
    ensures multiset(r) == multiset(s) + multiset{x}
    decreases |s|
  {
    if |s| == 0 then [x]
    else if KeyLe(key(x), key(s[0])) then
      HeadBelowAll(x, s, key);
      ConsSorted(x, s, key);
      [x] + s
    else
      var t := Insert(x, s[1..], key);
      KeyLtTotal(key(x), key(s[0]));
      assert s == [s[0]] + s[1..];
      assert SortedBy([s[0]] + t, key) by {
        if |s| > 1 {
          HeadBelowAll(s[0], s[1..], key);
        }
        BoundByMultiset(key(s[0]), s[1..], x, t, key);
        ConsSorted(s[0], t, key);
      }
      [s[0]] + t
  }

  /** Insertion sort by key. Go's `sort.Slice` is not stable; this sort is,
      which is one of the orders Go may produce. */
  function SortBy<T>(s: seq<T>, key: T -> seq<string>): (r: seq<T>)
    ensures SortedBy(r, key)
    ensures multiset(r) == multiset(s)
    decreases |s|
  {
    if |s| == 0 then []
    else
      assert s == [s[0]] + s[1..];
      Insert(s[0], SortBy(s[1..], key), key)
  }

  /** Distinct elements carry distinct keys. */
  ghost predicate KeysDistinct<T>(s: seq<T>, key: T -> seq<string>) {
    forall i, j :: 0 <= i < |s| && 0 <= j < |s| && key(s[i]) == key(s[j]) ==> s[i] == s[j]
  }

  /** When keys identify elements, a sorted permutation is unique: whatever
      order an unstable sort leaves equal elements in, the result is the same. */
  lemma {:induction false} SortedPermutationUnique<T>(a: seq<T>, b: seq<T>, key: T -> seq<string>)
    requires SortedBy(a, key) && SortedBy(b, key)
    requires multiset(a) == multiset(b)
    requires KeysDistinct(a, key)
    ensures a == b
    decreases |a|
  {
    assert |a| == |multiset(a)| == |b|;
    if |a| > 0 {
      SortedHeadsEqual(a, b, key);
      TailsPermutation(a, b);
      assert KeysDistinct(a[1..], key);
      assert SortedBy(a[1..], key) && SortedBy(b[1..], key);
      SortedPermutationUnique(a[1..], b[1..], key);
      assert a == [a[0]] + a[1..] && b == [b[0]] + b[1..];
    }
  }

  lemma SortedHeadsEqual<T>(a: seq<T>, b: seq<T>, key: T -> seq<string>)
    requires SortedBy(a, key) && SortedBy(b, key)
    requires multiset(a) == multiset(b)
    requires KeysDistinct(a, key)
    requires |a| > 0
    ensures |b| > 0 && a[0] == b[0]
  {
    assert a[0] in multiset(b);
    var i :| 0 <= i < |b| && b[i] == a[0];
    assert b[0] in multiset(a);
    var j :| 0 <= j < |a| && a[j] == b[0];
    assert KeyLe(key(b[0]), key(a[0])) by {
      if i > 0 { assert KeyLe(key(b[0]), key(b[i])); }
    }
    assert KeyLe(key(a[0]), key(b[0])) by {
      if j > 0 { assert KeyLe(key(a[0]), key(a[j])); }
    }
    KeyLeAntisymmetric(key(a[0]), key(b[0]));
    assert key(a[0]) == key(a[j]);
  }

  lemma TailsPermutation<T>(a: seq<T>, b: seq<T>)
    requires multiset(a) == multiset(b) && |a| > 0 && |b| > 0 && a[0] == b[0]
    ensures multiset(a[1..]) == multiset(b[1..])
  {
    assert a == [a[0]] + a[1..] && b == [b[0]] + b[1..];
    assert multiset(a[1..]) == multiset(a) - multiset{a[0]};
    assert multiset(b[1..]) == multiset(b) - multiset{b[0]};
  }
}

=== FILE: text.dfy ===
/** String helpers standing in for Go's `strings`, `strconv` and `fmt`
    verbs that the pipeline relies on. Strings are sequences of Unicode
    scalar values; where Go measures a string in bytes, `Utf8Len` gives that
    byte count explicitly. */
module Text {

  // ---------------------------------------------------------------------------
  // Whitespace and trimming (strings.TrimSpace)
  // ---------------------------------------------------------------------------

  /** The characters Go's `unicode.IsSpace` accepts. */
  predicate IsSpace(c: char) {
    c == ' ' || c == '\t' || c == '\n' || c == '\r' || c == '\U{000B}' || c == '\U{000C}'
    || c == '\U{0085}' || c == '\U{00A0}' || c == '\U{1680}'
    || ('\U{2000}' <= c <= '\U{200A}')
    || c == '\U{2028}' || c == '\U{2029}' || c == '\U{202F}' || c == '\U{205F}' || c == '\U{3000}'
  }

  predicate AllSpace(s: string) {
    forall i :: 0 <= i < |s| ==> IsSpace(s[i])
  }

  /** Positions `lo` .. `hi - 1` of `s` hold whitespace. */
  predicate SpaceBetween(s: string, lo: nat, hi: nat) {
    forall k :: lo <= k < hi && k < |s| ==> IsSpace(s[k])
  }

  /** The first position at or after `i` that is not whitespace (or the
      end): where the leading scan of `strings.TrimSpace` stops. */
  function SkipSpace(s: string, i: nat): (n: nat)
    requires i <= |s|
    ensures i <= n <= |s| && SpaceBetween(s, i, n)
    ensures n < |s| ==> !IsSpace(s[n])
    decreases |s| - i
  {
    if i < |s| && IsSpace(s[i]) then SkipSpace(s, i + 1) else i
  }

  /** The end of `s[lo..j]` once trailing whitespace is dropped: where the
      trailing scan of `strings.TrimSpace` stops. */
  function SkipSpaceBack(s: string, lo: nat, j: nat): (n: nat)
    requires lo <= j <= |s|
    ensures lo <= n <= j && SpaceBetween(s, n, j)
    ensures n > lo ==> !IsSpace(s[n - 1])
    decreases j
  {
    if j > lo && IsSpace(s[j - 1]) then SkipSpaceBack(s, lo, j - 1) else j
  }

  /** `r` sits at offset `i` of `s` with only whitespace around it. */
  predicate TrimmedAt(r: string, s: string, i: nat) {
    i + |r| <= |s| && r == s[i..i + |r|] && SpaceBetween(s, 0, i) && SpaceBetween(s, i + |r|, |s|)
  }

  /** strings.TrimSpace: the unique infix of `s` obtained by removing all
      leading and trailing whitespace. */
  function TrimSpace(s: string): (r: string)
    ensures exists i: nat :: TrimmedAt(r, s, i)
    ensures r == [] || (!IsSpace(r[0]) && !IsSpace(r[|r| - 1]))
    ensures r == [] <==> AllSpace(s)
  {
    var lo := SkipSpace(s, 0);
    var hi := SkipSpaceBack(s, lo, |s|);
    var r := s[lo..hi];
    assert TrimmedAt(r, s, lo);
    assert r != [] ==> r[0] == s[lo] && r[|r| - 1] == s[hi - 1];
    assert r == [] ==> AllSpace(s) by {
      if r == [] {
        assert lo == hi;
      }
    }
    r
  }

  /** Trimming is idempotent. */
  lemma TrimSpaceIdempotent(s: string)
    ensures TrimSpace(TrimSpace(s)) == TrimSpace(s)
  {
    var r := TrimSpace(s);
    if r != [] {
      assert SkipSpace(r, 0) == 0;
      assert SkipSpaceBack(r, 0, |r|) == |r|;
      assert r[0..|r|] == r;
    }
  }

  // ---------------------------------------------------------------------------
  // Byte length (Go's len on a string)
  // ---------------------------------------------------------------------------

  /** Number of bytes UTF-8 uses for one scalar value. */
  function CharUtf8Len(c: char): (n: nat)
    ensures 1 <= n <= 4
    ensures n == 1 <==> (c as int) < 0x80
  {
    if (c as int) < 0x80 then 1
    else if (c as int) < 0x800 then 2
    else if (c as int) < 0x10000 then 3
    else 4
  }

  /** Go's `len(s)`: the UTF-8 byte length of `s`. */
  function Utf8Len(s: string): (n: nat)
    ensures |s| <= n <= 4 * |s|
  {
    if |s| == 0 then 0 else CharUtf8Len(s[0]) + Utf8Len(s[1..])
  }

  /** For ASCII text the byte length is the character count. */
  lemma {:induction false} Utf8LenAscii(s: string)
    requires forall i :: 0 <= i < |s| ==> (s[i] as int) < 0x80
    ensures Utf8Len(s) == |s|
  {
    if |s| > 0 {
      Utf8LenAscii(s[1..]);
    }
  }

  // ---------------------------------------------------------------------------
  // Decimal rendering (fmt "%d") and its inverse
  // ---------------------------------------------------------------------------

  predicate IsDigit(c: char) {
    ('0' as int) <= (c as int) <= ('9' as int)
  }

  function DigitChar(d: nat): (c: char)
    requires d < 10
    ensures IsDigit(c) && (c as int) - ('0' as int) == d
  {
    ('0' as int + d) as char
  }

  function DigitValue(c: char): nat
    requires IsDigit(c)
  {
    (c as int) - ('0' as int)
  }

  /** Value of a string of decimal digits. */
  function DigitsValue(s: string): nat
    requires forall i :: 0 <= i < |s| ==> IsDigit(s[i])
  {
    if |s| == 0 then 0
    else DigitsValue(s[..|s| - 1]) * 10 + DigitValue(s[|s| - 1])
  }

  /** Canonical decimal rendering of a natural number: non-empty, digits only,
      no leading zero, and reading it back gives `n`. */
  function NatToString(n: nat): (r: string)
    ensures |r| > 0
    ensures forall i :: 0 <= i < |r| ==> IsDigit(r[i])
    ensures |r| > 1 ==> r[0] != '0'
    ensures DigitsValue(r) == n
    decreases n
  {
    if n < 10 then [DigitChar(n)]
    else
      var p := NatToString(n / 10);
      var r := p + [DigitChar(n % 10)];
      assert r[..|r| - 1] == p;
      r
  }

  /** fmt "%d" of an int: a minus sign for negative values. */
  function IntToString(i: int): (r: string)
    ensures |r| > 0
    ensures i < 0 <==> r[0] == '-'
    ensures i >= 0 ==> r == NatToString(i)
    ensures i < 0 ==> r == "-" + NatToString(-i)
  {
    if i < 0 then "-" + NatToString(-i) else NatToString(i)
  }

  /** Zero-padded decimal of fixed width, as Go's time layouts "01"/"2006". */
  function PadNat(n: nat, width: nat): (r: string)
    ensures |r| >= width
    ensures |r| >= |NatToString(n)|
  {
    var d := NatToString(n);
    if |d| >= width then d else Zeros(width - |d|) + d
  }

  function Zeros(k: nat): (r: string)
    ensures |r| == k && forall i :: 0 <= i < k ==> r[i] == '0'
  {
    if k == 0 then "" else "0" + Zeros(k - 1)
  }

  // ---------------------------------------------------------------------------
  // Lexicographic order (Go's `<` on strings)
  // ---------------------------------------------------------------------------

  /** Go compares strings bytewise; on valid UTF-8 this coincides with the
      lexicographic order of scalar values used here. */
  predicate StrLt(a: string, b: string)
    decreases |a|
  {
    |b| > 0 && (|a| == 0 || a[0] < b[0] || (a[0] == b[0] && StrLt(a[1..], b[1..])))
  }

  predicate StrLe(a: string, b: string) {
    a == b || StrLt(a, b)
  }

  lemma {:induction false} StrLtIrreflexive(a: string)
    ensures !StrLt(a, a)
    decreases |a|
  {
    if |a| > 0 {
      StrLtIrreflexive(a[1..]);
    }
  }

  lemma {:induction false} StrLtTransitive(a: string, b: string, c: string)
    requires StrLt(a, b) && StrLt(b, c)
    ensures StrLt(a, c)
    decreases |a|
  {
    if |a| > 0 && a[0] == b[0] && b[0] == c[0] {
      StrLtTransitive(a[1..], b[1..], c[1..]);
    }
  }

  lemma {:induction false} StrLtTotal(a: string, b: string)
    ensures a == b || StrLt(a, b) || StrLt(b, a)
    decreases |a|
  {
    if |a| > 0 && |b| > 0 && a[0] == b[0] {
      StrLtTotal(a[1..], b[1..]);
      if a[1..] == b[1..] {
        assert a == [a[0]] + a[1..] && b == [b[0]] + b[1..];
      }
    }
  }

  lemma StrLtAsymmetric(a: string, b: string)
    requires StrLt(a, b)
    ensures !StrLt(b, a)
  {
    if StrLt(b, a) {
      StrLtTransitive(a, b, a);
      StrLtIrreflexive(a);
    }
  }

  // ---------------------------------------------------------------------------
  // Substring search, strings.Split and strings.Join
  // ---------------------------------------------------------------------------

  predicate OccursAt(s: string, sep: string, i: nat) {
    i + |sep| <= |s| && s[i..i + |sep|] == sep
  }

  predicate NoOccurrence(s: string, sep: string) {
    forall i: nat :: i <= |s| ==> !OccursAt(s, sep, i)
  }

  /** First occurrence of `sep` in `s` at or after `from`, or -1. */
  function FindFrom(s: string, sep: string, from: nat): (r: int)
    requires |sep| > 0 && from <= |s|
    ensures r == -1 || (from <= r && OccursAt(s, sep, r))
    ensures forall j: nat :: from <= j && (r == -1 || j < r) ==> !OccursAt(s, sep, j)
    decreases |s| - from
  {
    if from + |sep| > |s| then -1
    else if s[from..from + |sep|] == sep then from
    else FindFrom(s, sep, from + 1)
  }

  /** strings.Split for a non-empty separator. */
  function Split(s: string, sep: string): (r: seq<string>)
    requires |sep| > 0
    ensures |r| >= 1
    ensures forall k :: 0 <= k < |r| ==> NoOccurrence(r[k], sep)
    decreases |s|
  {
    var i := FindFrom(s, sep, 0);
    if i < 0 then
      assert NoOccurrence(s, sep);
      [s]
    else
      var head := s[..i];
      assert NoOccurrence(head, sep) by {
        forall j: nat | j <= |head| ensures !OccursAt(head, sep, j) {
          if OccursAt(head, sep, j) {
            assert s[j..j + |sep|] == head[j..j + |sep|];
            assert OccursAt(s, sep, j);
          }
        }
      }
      [head] + Split(s[i + |sep|..], sep)
  }

  /** strings.Join. */
  function Join(parts: seq<string>, sep: string): string {
    if |parts| == 0 then ""
    else if |parts| == 1 then parts[0]
    else parts[0] + sep + Join(parts[1..], sep)
  }

  /** Splitting and re-joining on the same separator gives the input back. */
  lemma {:induction false} JoinSplit(s: string, sep: string)
    requires |sep| > 0
    ensures Join(Split(s, sep), sep) == s
    decreases |s|
  {
    var i := FindFrom(s, sep, 0);
    if i >= 0 {
      var rest := s[i + |sep|..];
      var tail := Split(rest, sep);
      assert Split(s, sep) == [s[..i]] + tail;
      JoinCons(s[..i], tail, sep);
      JoinSplit(rest, sep);
      assert s == s[..i] + sep + rest by {
        assert s[i..i + |sep|] == sep;
        Split3(s, i, i + |sep|);
      }
    }
  }

  lemma JoinCons(head: string, tail: seq<string>, sep: string)
    requires |tail| >= 1
    ensures Join([head] + tail, sep) == head + sep + Join(tail, sep)
  {
    assert ([head] + tail)[1..] == tail;
  }

  lemma Split3<T>(s: seq<T>, i: nat, j: nat)
    requires i <= j <= |s|
    ensures s == s[..i] + s[i..j] + s[j..]
  {
  }

  /** Joining pieces that cannot produce a separator across a boundary, then
      splitting, gives the pieces back. A piece is safe when `sep` does not
      occur in it followed by all but the last character of `sep`. */
  lemma {:induction false} SplitJoin(parts: seq<string>, sep: string)
    requires |sep| > 0 && |parts| >= 1
    requires forall k :: 0 <= k < |parts| ==> NoOccurrence(parts[k] + sep[..|sep| - 1], sep)
    ensures Split(Join(parts, sep), sep) == parts
    decreases |parts|
  {
    var p := parts[0];
    PartHasNoSeparator(p, sep);
    if |parts| == 1 {
      assert FindFrom(p, sep, 0) == -1;
    } else {
      var rest := Join(parts[1..], sep);
      var s := p + sep + rest;
      assert Join(parts, sep) == s;
      SeparatorAfterPart(p, sep, rest);
      assert s[..|p|] == p;
      assert s[|p| + |sep|..] == rest;
      SplitJoin(parts[1..], sep);
    }
  }

  /** A part that cannot run into the separator holds none. */
  lemma PartHasNoSeparator(p: string, sep: string)
    requires |sep| > 0 && NoOccurrence(p + sep[..|sep| - 1], sep)
    ensures NoOccurrence(p, sep)
  {
    forall j: nat | j <= |p| ensures !OccursAt(p, sep, j) {
      if OccursAt(p, sep, j) {
        assert (p + sep[..|sep| - 1])[j..j + |sep|] == p[j..j + |sep|];
        assert OccursAt(p + sep[..|sep| - 1], sep, j);
      }
    }
  }

  /** In `p + sep + rest` the first separator is the one after `p`. */
  lemma SeparatorAfterPart(p: string, sep: string, rest: string)
    requires |sep| > 0 && NoOccurrence(p + sep[..|sep| - 1], sep)
    ensures FindFrom(p + sep + rest, sep, 0) == |p|
  {
    var s := p + sep + rest;
    assert OccursAt(s, sep, |p|) by {
      assert s[|p|..|p| + |sep|] == sep;
    }
    var q := p + sep[..|sep| - 1];
    assert s[..|q|] == q;
    forall j: nat | j < |p| ensures !OccursAt(s, sep, j) {
      assert !OccursAt(q, sep, j);
      assert s[..|q|][j..j + |sep|] == s[j..j + |sep|];
    }
    FindFromFirst(s, sep, |p|);
  }

  lemma FindFromFirst(s: string, sep: string, i: nat)
    requires |sep| > 0 && OccursAt(s, sep, i)
    requires forall j: nat :: j < i ==> !OccursAt(s, sep, j)
    ensures FindFrom(s, sep, 0) == i
  {
  }
}

=== FILE: wrappers.dfy ===
/** Failure-compatible wrappers used throughout the model: `Option` for Go's
    nil pointers and "comma ok" lookups, `Result` for Go's `(value, error)`
    pairs, and `Outcome` for a bare `error` return. */
module Wrappers {

  datatype Option<+T> = None | Some(value: T) {

    predicate IsFailure() {
      None?
    }

    function PropagateFailure<U>(): Option<U>
      requires None?
    {
      None
    }

    function Extract(): T
      requires Some?
    {
      value
    }

    function GetOr(default: T): T {
      match this
      case Some(v) => v
      case None => default
    }
  }

  datatype Result<+T, +E> = Ok(value: T) | Err(error: E) {

    predicate IsFailure() {
      Err?
    }

    function PropagateFailure<U>(): Result<U, E>
      requires Err?
    {
      Err(error)
    }

    function Extract(): T
      requires Ok?
    {
      value
    }
  }

  datatype Outcome<+E> = Pass | Fail(error: E) {

    predicate IsFailure() {
      Fail?
    }

    function PropagateFailure(): Outcome<E>
      requires Fail?
    {
      this
    }
  }
}
